=== FILE: README.md ===
# test_generator core in Dafny

`test_generator` turns manual UI test cases into Playwright/pytest code with the help of a language model. This project models the deterministic heart of that library:

- **Response partitioner** (`Partition`, `Generator`). One generated code blob is split into page-object code, test code and imports. A syntax-tree splitter is tried first, then a line-scanning state machine, then a section-marker splitter. Up to two files are then produced, named after the first `…Page` class. The generator also validates code and finds the first URL in a test case.
- **Code processing** (`CodeProcessor`). Imports are normalised: the leading import block is deduplicated by module key and grouped into stdlib, third-party and local buckets. Fenced code is extracted from a markdown answer.
- **Repository index** (`Indexer`, `PatternExtractor`, `TemplateAnalyzer`, `RepoModels`, `Storage`). This covers file classification, the import/class/function summary of a parse, include and exclude matching, directory structure, naming-style and code-pattern inference with a top-10 import ranking, template selection by first N lines, the index's filters and the Path/datetime conversion used when saving and loading.
- **Smaller rules**:
  - test-case models and their defaults (`TestModels`), the validator (`Validator`) and the normaliser (`Normalizer`);
  - configuration precedence, defaults and repository-URL assembly (`Config`), and the repository connector with token injection (`Connector`);
  - prompt assembly (`PromptBuilder`);
  - selector generation and stable descending-priority ranking (`Selectors`, `Ranking`);
  - the Ollama provider's retry loop, error classification and fenced-JSON slicing (`OllamaProvider`);
  - the exception hierarchy (`Exceptions`).

Shared vocabulary lives in `Wrappers` (`Option`, `Result`), `Seqs` (filtering, picking, subsequences), `PyStr` (Python's `str` methods: `lower`, `strip`, `split`, `join`, `find`, `replace`, `in`, UTF-8 length), `Tree` (JSON-like values) and `PyAst` (the nodes `ast.walk` yields).

Everything is a pure function over immutable values. The outside world appears as parameters:

- a parse is either a syntax error or the node sequence `ast.walk` yields;
- `compile`, md5 and `fnmatch` are functions passed in;
- the file system is a sequence of entries with contents or read failures;
- the environment is a map;
- DOM elements are attribute records;
- language-model calls are a sequence of outcomes indexed by attempt.

## Model

| member | source | states |
|---|---|---|
| Exceptions.Base | test_generator/utils/exceptions.py:4-79 | Only `TestGeneratorError` has no base inside the library. Every other class's base sits one level closer to the root. |
| Exceptions.EveryErrorIsLibraryError | test_generator/utils/exceptions.py:4-79 | Every exception class of the library is a subclass of `TestGeneratorError`. |
| Exceptions.LLMFamily | test_generator/utils/exceptions.py:28-55 | `except LLMError` catches exactly `LLMError`, `LLMTimeoutError` and `LLMTemporaryError`. |
| Exceptions.IsATransitive | test_generator/utils/exceptions.py:4-79 | The subclass relation of the hierarchy is transitive. |
| Exceptions.NewLLMError | test_generator/utils/exceptions.py:31-41 | An `LLMError` keeps the message, the error type and the retryable flag it was given. |
| Exceptions.NewLLMTimeoutError | test_generator/utils/exceptions.py:44-48 | A timeout error is a proper subclass of `LLMError` with type "timeout", and it is retryable. |
| Exceptions.NewLLMTemporaryError | test_generator/utils/exceptions.py:51-55 | A temporary error is a proper subclass of `LLMError` with type "temporary", and it is retryable. |
| Exceptions.LLMDefaults | test_generator/utils/exceptions.py:31-55 | The default arguments: type "unknown", not retryable, and the two default messages. |
| Validator.Validate | test_generator/parser/validator.py:14-53 | `validate` returns normally exactly when the case is complete. Otherwise the message is the header joined by newlines with one bullet per failure. |
| Validator.StepErrorsEmpty | test_generator/parser/validator.py:40-46 | The step loop reports nothing exactly when every step has an id, a name and a description. |
| Validator.ErrorsEmpty | test_generator/parser/validator.py:24-48 | The failure list is empty exactly when all four case checks and every step check pass. |
| Validator.Errors | test_generator/parser/validator.py:24-46 | At most four case failures and three per step. A missing id is reported first, and a case without steps always reports the missing steps. |
| Validator.StepFailureReported | test_generator/parser/validator.py:40-46 | An empty field of step k is reported under the number i + k, counting from the loop's start i. |
| Validator.StepErrorsOfExact | test_generator/parser/validator.py:41-46 | A step's message about a field appears exactly when that field is empty. |
| Validator.StepErrorsIgnoreExpected | test_generator/parser/validator.py:40-46 | Two step lists that agree on id, name and description get the same failures, because the expected result is never checked. |
| Validator.ValidateIgnoresStepExpected | test_generator/parser/validator.py:14-53 | Changing one step's expected result never changes the verdict. |
| Validator.StepMessageSingleLine | test_generator/parser/validator.py:42-46 | No step message contains a line break. |
| Validator.StepErrorsSingleLine | test_generator/parser/validator.py:40-46 | No message produced by the step loop contains a line break. |
| Validator.ErrorsSingleLine | test_generator/parser/validator.py:24-46 | No failure text contains a line break. |
| Validator.CaseMessagesSingleLine | test_generator/parser/validator.py:27-38 | The four case-level messages are one line each. |
| Validator.MessageLines | test_generator/parser/validator.py:48-51 | Splitting the raised message at newlines gives back the header followed by one bullet per failure, in check order. |
| Normalizer.StripIfPresent | test_generator/parser/normalizer.py:24-28 | An optional text stays absent or present. A present text is stripped. |
| Normalizer.NormalizeStep | test_generator/parser/normalizer.py:31-34 | A step's name, description and expected result become their strips, which are trimmed. The other fields are unchanged. |
| Normalizer.Normalize | test_generator/parser/normalizer.py:13-38 | Only the description, the preconditions and the steps may change. Presence is kept and present texts become their strips. Step k becomes the normalised step k, so the step count is unchanged. |
| Normalizer.NormalizeSteps | test_generator/parser/normalizer.py:31-34 | Step k comes out trimmed, its three texts are the strips of step k's texts, and its other fields are those of step k. |
| Normalizer.NormalizeStepTrimmed | test_generator/parser/normalizer.py:31-34 | A step whose texts are already trimmed is left as it is. |
| Normalizer.NormalizeTrimmed | test_generator/parser/normalizer.py:13-38 | A test case whose texts are already trimmed is returned unchanged. |
| Normalizer.NormalizeIdempotent | test_generator/parser/normalizer.py:13-38 | Normalizing twice is the same as normalizing once. |
| Tree.Lookup | test_generator/core/config.py:90-104 | `d.get(k)` is absent exactly when `k` is not a key. Otherwise it is the value of an entry with that key. |
| Tree.GetOr | test_generator/core/config.py:90-104 | `d.get(k, default)` gives the default for a missing key. For a present key it gives the value of the entry with that key, the same as `d.get(k)`. |
| TestModels.ValidateSteps | test_generator/models.py:87-92 | The steps validator accepts exactly a non-empty list and returns it unchanged. Otherwise it raises the "at least one step" message. |
| TestModels.NewTestCase | test_generator/models.py:45-92 | Constructing a test case succeeds exactly when there is a step. The fields that were given are kept, and the others take their declared defaults. |
| TestModels.NonEmptyStripped | test_generator/models.py:95-97 | The comprehension keeps at most one tag per part, and every tag is non-empty. |
| TestModels.NonEmptyStrippedIsFilter | test_generator/models.py:97 | The loop that keeps non-blank stripped parts is the comprehension: strip every part, then keep the non-empty ones, in order. |
| TestModels.TagsList | test_generator/models.py:95-97 | `tags_list` fails (`AttributeError`) exactly when `tags` is `None`. Otherwise it is, in order, the strips of the comma-separated parts with the blank ones left out. |
| TestModels.StripPartIsTag | test_generator/models.py:97 | Stripping a comma-free part gives nothing or a well-formed tag. |
| TestModels.NonEmptyStrippedShape | test_generator/models.py:97 | Every tag kept from comma-free parts is non-empty, already stripped and free of commas. |
| TestModels.TagsListShape | test_generator/models.py:95-97 | `tags_list` on a present string never fails and yields well-formed tags, no more than there are comma-separated parts. A text is a tag exactly when it is the non-empty strip of some part. |
| TestModels.TagsRoundTrip | test_generator/models.py:95-97 | Well-formed tags joined by commas are read back as the same list, in order. |
| TestModels.ValidateLLMConfig | test_generator/models.py:154-164 | An LLM configuration is accepted exactly when max_tokens, timeout and max_retries are in their declared bounds. Each violated bound is named in the error, and no other. |
| TestModels.DefaultLLMConfigValid | test_generator/models.py:154-164 | The declared defaults pass the bounds. |
| TestModels.TotalTokens | test_generator/models.py:271-273 | The total is 0 when no request reports tokens. It is non-negative when every report is. |
| TestModels.TotalTokensConcat | test_generator/models.py:271-273 | The total over two lists of requests is the sum of their totals. |
| RepoModels.ParseFileType | test_generator/repository/models.py:10-17 | Reading an enum value back succeeds only for one of the five declared values, and gives the member with that value. |
| RepoModels.FileTypeRoundTrip | test_generator/repository/models.py:10-17 | Every file type is read back from its own value, so the five values are distinct. |
| RepoModels.NewIndex | test_generator/repository/models.py:85-112 | A new index has version "1.0", no files, zero counts, the default patterns and templates, and no URL or path. |
| RepoModels.OfType | test_generator/repository/models.py:133 | Every selected file has the requested type. |
| RepoModels.OfTypeMembers | test_generator/repository/models.py:133 | A file is selected exactly when it is in the list and has the type. |
| RepoModels.OfTypeIsSubseq | test_generator/repository/models.py:133 | The selection keeps the files' order: it is a subsequence of the list. |
| RepoModels.OfTypePartition | test_generator/repository/models.py:10-17 | The five selections split the file list: their lengths add up to its length. |
| RepoModels.OfTypeConcat | test_generator/repository/models.py:133 | Selecting from two concatenated lists is concatenating the two selections. |
| RepoModels.GetTestFiles | test_generator/repository/models.py:114-116 | `get_test_files` returns only test files. |
| RepoModels.GetPageObjectFiles | test_generator/repository/models.py:118-120 | `get_page_object_files` returns only page-object files. |
| RepoModels.GetExampleCode | test_generator/repository/models.py:122-134 | With a non-negative limit there are exactly min(limit, files of the type) paths. A negative limit drops that many files from the end, as Python slicing does. Path i is the path of the i-th file of the type. |
| RepoModels.ExampleCodeOfType | test_generator/repository/models.py:122-134 | Every example path belongs to an indexed file of the requested type. |
| Storage.ConvertPaths | test_generator/repository/storage.py:33-42 | `convert_paths` keeps the shape of the tree: lists stay lists of the same length, and dictionaries keep their keys in order. |
| Storage.ConvertList | test_generator/repository/storage.py:38-39 | The list branch converts every item and keeps the length. |
| Storage.ConvertEntry | test_generator/repository/storage.py:36-37 | The dictionary branch keeps every key. |
| Storage.ConvertEntries | test_generator/repository/storage.py:36-37 | The dictionary branch keeps the keys in order. |
| Storage.ConvertPathsIsJson | test_generator/repository/storage.py:33-44 | After the conversion no `Path` and no `datetime` is left anywhere in the tree. |
| Storage.ConvertListIsJson | test_generator/repository/storage.py:38-39 | Converted list items hold no `Path` or `datetime`. |
| Storage.ConvertEntriesIsJson | test_generator/repository/storage.py:36-37 | Converted dictionary values hold no `Path` or `datetime`. |
| Storage.ConvertPathsJsonUnchanged | test_generator/repository/storage.py:33-42 | A tree that is already plain JSON is left unchanged. |
| Storage.ConvertListJsonUnchanged | test_generator/repository/storage.py:38-39 | Plain JSON list items are left unchanged. |
| Storage.ConvertEntriesJsonUnchanged | test_generator/repository/storage.py:36-37 | Plain JSON dictionary entries are left unchanged. |
| Storage.ConvertPathsIdempotent | test_generator/repository/storage.py:33-44 | Converting twice is the same as converting once. |
| Storage.ConvertPathsBack | test_generator/repository/storage.py:71-78 | `convert_paths_back` keeps the shape of the tree: list lengths and dictionary keys are unchanged. |
| Storage.BackList | test_generator/repository/storage.py:76-77 | The list branch keeps the length. |
| Storage.BackEntry | test_generator/repository/storage.py:72-75 | The dictionary branch keeps every key. |
| Storage.BackEntries | test_generator/repository/storage.py:72-75 | The dictionary branch keeps the keys in order. |
| Storage.ConvertBackThenSave | test_generator/repository/storage.py:33-78 | On plain JSON, loading's conversion followed by saving's gives the tree back. |
| Storage.BackListThenSave | test_generator/repository/storage.py:33-78 | The same for list items. |
| Storage.BackEntryThenSave | test_generator/repository/storage.py:33-78 | The same for one dictionary entry. |
| Storage.BackEntriesThenSave | test_generator/repository/storage.py:33-78 | The same for dictionary entries. |
| Storage.SaveThenBack | test_generator/repository/storage.py:33-78 | Saving's conversion followed by loading's gives a tree back exactly when it holds no `datetime` and every `Path` sits directly under a "path" key. |
| Storage.SaveThenBackList | test_generator/repository/storage.py:33-78 | The same for list items. |
| Storage.SaveThenBackEntry | test_generator/repository/storage.py:33-78 | The same for one dictionary entry. |
| Storage.SaveThenBackEntries | test_generator/repository/storage.py:33-78 | The same for dictionary entries. |
| Storage.RootPathComesBackAsString | test_generator/repository/storage.py:33-78 | The structure's `root_path` is a `Path` under a key other than "path", so it comes back as a plain string. |
| Storage.Save | test_generator/repository/storage.py:18-49 | `save` writes the dump of the converted tree at the index path and leaves every other file as it was. |
| Storage.Load | test_generator/repository/storage.py:52-88 | `load` gives `None` for a missing file or unreadable JSON. Otherwise it re-parses the tree after converting it back. |
| Storage.LoadAfterSave | test_generator/repository/storage.py:18-101 | After `save` the index file exists. When the tree holds no `datetime`, every `Path` sits under a "path" key and the JSON parser reads the dump back, `load` re-parses exactly the saved tree. |
| TemplateAnalyzer.FirstLinesPrefix | test_generator/repository/template_analyzer.py:75-76 | The first n lines joined back are a prefix of the content. |
| TemplateAnalyzer.FirstLinesLines | test_generator/repository/template_analyzer.py:75-76 | The template's lines are the content's first n lines, and there are min(n, line count) of them. |
| TemplateAnalyzer.FirstLinesWhole | test_generator/repository/template_analyzer.py:75-76 | Content with no more than n lines is returned whole. |
| TemplateAnalyzer.TemplateOf | test_generator/repository/template_analyzer.py:51-137 | A template exists exactly when there is a file of the type and the first one can be read. It is then a prefix of that file, and its lines are exactly the file's first min(n, line count) lines. |
| TemplateAnalyzer.Snippets | test_generator/repository/template_analyzer.py:157-165 | Never more snippets than files, and one per file when every file is readable. Each snippet is the first 100 lines of a readable file of the list. |
| TemplateAnalyzer.CommonSnippets | test_generator/repository/template_analyzer.py:139-167 | At most two snippets per file type, four in all. The first ones, at most two, come from readable test files and the rest from readable page-object files. Each is the first 100 lines of its file. |
| TemplateAnalyzer.SnippetsOfType | test_generator/repository/template_analyzer.py:139-167 | Each snippet taken from the first two files of a type is the first 100 lines of a readable file of that type. |
| TemplateAnalyzer.CommonSnippetsCount | test_generator/repository/template_analyzer.py:139-167 | With every file readable, there are min(2, test files) + min(2, page-object files) snippets. |
| TemplateAnalyzer.AnalyzeTemplates | test_generator/repository/template_analyzer.py:15-49 | Only the templates change. Each template is the first-lines template of its type: 500 lines for page objects, 300 for tests, 200 for fixtures. It is present exactly when there is a file of its type and the first one is readable. The snippets are the common snippets, at most four. |
| Config.LoadFromFile | test_generator/core/config.py:46-56 | A missing or unreadable file raises `ConfigError`. A loaded document is kept when it is truthy. |
| Config.NewConfig | test_generator/core/config.py:18-44 | A configuration path wins and must load. Without one, a truthy dictionary argument is used as given, and a non-dictionary raises `ConfigError`. With neither, the defaults of `_default_config` apply. |
| Config.PathWins | test_generator/core/config.py:35-38 | With a non-empty path, the dictionary argument has no effect. |
| Config.EmptyDictIsDefault | test_generator/core/config.py:37-41 | An empty dictionary argument is treated like no argument, which gives the default configuration. |
| Config.GetGenerationConfig | test_generator/core/config.py:88-120 | The steps fail in source order. A non-dictionary `llm` section or `ollama` subsection fails with `AttributeError`. Then an integer LLM setting outside the `LLMConfig` bounds fails with `ValidationError`. Only after that, a non-dictionary generation section fails with `AttributeError`. With all three sections dictionaries, the only failure is `ValidationError`. Settings that are read satisfy the `LLMConfig` bounds on every setting that is an integer and hold a member value of `QualityLevel` and `CodeStyle`. |
| Config.LLMValidatedBeforeGeneration | test_generator/core/config.py:96-108 | With `max_retries: 50` and a generation section that is not a dictionary, the result is `ValidationError`, because `LLMConfig` is built before the generation section is read. |
| Config.GenerationBoundsAgree | test_generator/models.py:160-162 | When the three integer settings are integers and the enum settings are valid, the settings are accepted exactly when `LLMConfig`'s bounds hold: 100 to 32000 tokens, a timeout of at least 10, and 0 to 10 retries. |
| Config.RetriesOutOfBoundsRejected | test_generator/models.py:162 | `max_retries: 50` under `llm.ollama` is rejected with `ValidationError`. |
| Config.GenerationDefaults | test_generator/core/config.py:88-120 | Without llm and generation sections, every setting takes its default: model "codellama:13b", provider "ollama", 4000 tokens, 300 s, 3 retries, the local URL, validate and format on, "black", no overwrite, no CDP. |
| Config.ModelOverride | test_generator/core/config.py:94-98 | A model named under `llm.ollama.model` is the model of the generation settings. |
| Config.GetOutputPath | test_generator/core/config.py:164-167 | Without a generation section the output path is "./generated_tests". A path is returned only when the section is a dictionary. |
| Config.DefaultConfigOutputPath | test_generator/core/config.py:58-80 | The default configuration's output path is "./generated_tests". |
| Config.GetLoggingConfig | test_generator/core/config.py:169-171 | The logging section as written, or `{}` when there is none. |
| Config.DefaultLoggingLevel | test_generator/core/config.py:77-79 | The default configuration logs at level "INFO". |
| Config.ResolveToken | test_generator/core/config.py:130-133 | A token that is not of the form `${NAME}` is kept as it is. |
| Config.PlaceholderResolved | test_generator/core/config.py:131-133 | `${NAME}` is replaced by the environment variable NAME, or by nothing when it is unset. |
| Config.RStripEatsProjectName | test_generator/core/config.py:143-146 | As written, project "cfg.git" becomes "h/cf.git" because `rstrip` removes characters, not a suffix. The corrected assembly gives "h/cfg.git". |
| Config.RemoveGitSuffix | test_generator/core/config.py:142-143 | Removes one trailing ".git" and nothing else. |
| Config.RepositoryUrl | test_generator/core/config.py:141-146 | Corrected: the assembled URL ends in ".git". It starts with the GitLab URL, stripped of trailing slashes, followed by "/". |
| Config.RepositoryUrlAsWritten | test_generator/core/config.py:143-146 | As written, the URL is the GitLab URL without trailing slashes, "/", a prefix of the project path, and ".git". That prefix is empty or ends in a character other than '.', 'g', 'i', 't'. |
| Config.RepositoryUrlKeepsProject | test_generator/core/config.py:141-146 | A project with or without ".git" gives the same URL, which ends in the whole project name plus ".git". |
| Config.AsWrittenAgrees | test_generator/core/config.py:143-146 | When the project does not end in one of '.', 'g', 'i', 't', the code as written and the corrected assembly agree. |
| Config.TextField | test_generator/core/config.py:148-161 | A string field is taken as it is, and a null field as absent. |
| Config.UrlOf | test_generator/core/config.py:136-146 | An explicit non-empty URL wins. Otherwise a non-empty GitLab URL and project path are assembled into one. |
| Config.UrlField | test_generator/core/config.py:136-161 | Reading the URL fields fails exactly when `url`, `gitlab_url` or `project_path` is present but not a string. A URL that comes out is the explicit `url` or ends in ".git". |
| Config.UrlFieldAssembled | test_generator/core/config.py:136-146 | A section with `gitlab_url` and `project_path` but no `url` gets the assembled URL. |
| Config.TokenResolved | test_generator/core/config.py:129-133 | A non-empty `auth.token` is resolved against the environment. |
| Config.TokenOf | test_generator/core/config.py:129-133 | Reading `auth.token` fails exactly when it is present but neither null nor a string. An empty token is kept as "", and a non-empty one is resolved against the environment. |
| Config.BuildContext | test_generator/core/config.py:128-162 | The context's token is the resolved `auth.token`, and its URL is the explicit or assembled URL. |
| Config.GetRepositoryContext | test_generator/core/config.py:122-162 | No context exactly when the repository section is missing or falsy. Otherwise the context is built from that section and its auth subsection. |
| Config.TokenReachesContext | test_generator/core/config.py:122-162 | A token written in the repository section reaches the context, resolved. |
| Config.UrlReachesContext | test_generator/core/config.py:122-162 | A GitLab URL and project path in the repository section reach the context as the assembled URL. |
| Config.ContextOfSection | test_generator/core/config.py:122-162 | A non-empty repository section always gives a context, built from that section. |
| Config.DefaultConfigHasNoRepository | test_generator/core/config.py:58-80 | The default configuration has no repository context. |
| Connector.ConnectionError | test_generator/repository/connector.py:55 | Connection failures are `RepositoryConnectionError`s. |
| Connector.SplitOnce | test_generator/repository/connector.py:102 | `split("/", 1)` gives the text before and after the first '/', which joined back with '/' give the input. There is a second part exactly when the input holds a '/'. |
| Connector.InjectWith | test_generator/repository/connector.py:95-112 | Only https URLs get the token. A GitLab URL or context gets `oauth2:TOKEN@`. Otherwise a GitHub URL gets `TOKEN@` and fails without a '/' after the host, with Python's message "list index out of range". Any other URL is left alone. |
| Connector.InjectToken | test_generator/repository/connector.py:95-112 | Corrected: without a token, or for a URL that is not https, the URL is unchanged. Otherwise it is the same routing as InjectWith, applied to what follows the "https://" prefix. |
| Connector.InjectTokenAsWritten | test_generator/repository/connector.py:95-104 | As written, the GitLab rewrite drops every "https://" from the URL, not only the prefix. |
| Connector.ReplaceDropsEmbeddedScheme | test_generator/repository/connector.py:101-104 | On "https://a/https://x" the code as written produces "https://oauth2:T@a/x" and loses the embedded scheme. |
| Connector.InjectTokenKeepsEmbeddedScheme | test_generator/repository/connector.py:101-104 | The corrected rewrite produces "https://oauth2:T@a/https://x" and keeps the path intact. |
| Connector.GitLabRewrite | test_generator/repository/connector.py:98-107 | A context of type "gitlab" selects the oauth2 form, whatever the host. |
| Connector.CloneUrl | test_generator/repository/connector.py:84-93 | A clone URL exists only when an explicit URL is given, or a GitLab URL and project path are. |
| Connector.CloneRepository | test_generator/repository/connector.py:63-137 | A clone gives the temporary directory and needs GitPython. Every failure is a `RepositoryConnectionError`. |
| Connector.Connect | test_generator/repository/connector.py:37-61 | A local path wins, and succeeds exactly when it and its `.git` exist. Without a local path or a URL, connecting fails. On success `local_path` is set, and on failure it is unchanged. |
| Connector.ServerAndProjectAloneFail | test_generator/repository/connector.py:58-61 | A context with only a GitLab URL and project path fails to connect, although a clone URL could be assembled from them. |
| Connector.ConnectByUrl | test_generator/repository/connector.py:58-59 | A successful connection by URL returns the temporary directory and keeps it. The URL cloned is the context's URL with the token injected. |
| Connector.Disconnect | test_generator/repository/connector.py:139-148 | Disconnecting clears `local_path` and changes nothing else. |
| Indexer.FileName | test_generator/repository/indexer.py:260 | `Path.name` is a suffix of the path and holds no '/'. |
| Indexer.ClassificationOrder | test_generator/repository/indexer.py:249-280 | A test name (contains "test_" or "_test.py", or starts with "test") makes a test file. Otherwise the page-object test decides, then the fixture names. A config file always has one of the four config names. |
| Indexer.DetermineFileType | test_generator/repository/indexer.py:249-280 | A test file name always makes a test file. A page object contains "class" and "BasePage". A config file has one of the config file names. |
| Indexer.FileNameOfJoin | test_generator/repository/indexer.py:260 | The name of `dir/name` is `name`. |
| Indexer.TestNameWins | test_generator/repository/indexer.py:264-265 | A lower-case file name starting with "test" is a test file, whatever the content. |
| Indexer.ConftestIsFixture | test_generator/repository/indexer.py:273-274 | `conftest.py` is a fixture file unless the page-object test fires first. |
| Indexer.FixtureByName | test_generator/repository/indexer.py:264-274 | A fixture name that is not a test name, outside the page-object test, is a fixture file. |
| Indexer.PageObjectAlternativeRedundant | test_generator/repository/indexer.py:268-269 | The "page_object" alternative never changes the outcome: the test is "page" in the path together with "class" and "BasePage" in the content. |
| Indexer.ParseAst | test_generator/repository/indexer.py:282-314 | Unparsable content gives three empty lists. |
| Indexer.WalkImports | test_generator/repository/indexer.py:298-305 | The walk appends the imports of every node, in order. |
| Indexer.WalkClasses | test_generator/repository/indexer.py:306-307 | The walk appends the name of every class, in order. |
| Indexer.WalkFunctions | test_generator/repository/indexer.py:308-309 | The walk appends the name of every function, in order. |
| Indexer.ParseAstSummary | test_generator/repository/indexer.py:282-314 | On parsed code the three lists are the imports, class names and function names of the nodes. |
| Indexer.ImportRecording | test_generator/repository/indexer.py:299-305 | `import a.b` records "a.b". `from m import x` records "m.x". A relative import without a module records "x". |
| Indexer.Slashes | test_generator/repository/indexer.py:331-332 | Backslashes become slashes and nothing else changes. |
| Indexer.MatchPattern | test_generator/repository/indexer.py:316-334 | For a path and a pattern without backslashes, matching is exactly `fnmatch` on them. |
| Indexer.MatchPatternSlashes | test_generator/repository/indexer.py:316-334 | Matching is insensitive to backslashes versus slashes, in the path and in the pattern. |
| Indexer.Excluded | test_generator/repository/indexer.py:187-191 | A path is excluded exactly when some exclude pattern matches it. |
| Indexer.RGlobName | test_generator/repository/indexer.py:118 | `rglob(name)` yields only entries with that name. |
| Indexer.RGlobNameMembers | test_generator/repository/indexer.py:118 | `rglob(name)` yields exactly the entries with that name. |
| Indexer.PatternsOr | test_generator/repository/indexer.py:167-174 | Given non-empty patterns are used, and missing or empty ones fall back to the defaults. |
| Indexer.IndexFile | test_generator/repository/indexer.py:203-247 | A file is indexed exactly when it can be read and its modification time can be taken. |
| Indexer.IndexFileFields | test_generator/repository/indexer.py:214-243 | The indexed path is relative, the size is the UTF-8 length, and the hash is the md5 of the content. The type comes from the full path and the content. |
| Indexer.IndexEntriesConcat | test_generator/repository/indexer.py:182-201 | The walk goes entry by entry: a concatenation of candidates is indexed piecewise. |
| Indexer.UnreadableSkipped | test_generator/repository/indexer.py:194-199 | An unreadable file is skipped and the walk carries on. |
| Indexer.SkipEntry | test_generator/repository/indexer.py:194-199 | An unreadable first entry contributes nothing. |
| Indexer.VisitFacts | test_generator/repository/indexer.py:182-197 | One iteration keeps only an eligible entry, under its own path. |
| Indexer.IndexedAreEligible | test_generator/repository/indexer.py:146-201 | Every indexed file comes from a candidate that is a regular file and matches no exclude pattern. |
| Indexer.IndexFiles | test_generator/repository/indexer.py:146-201 | Every indexed file comes from an include match that is a regular file matching no exclude pattern, under the same path. Missing or empty pattern lists fall back to the defaults. |
| Indexer.DuplicatesKept | test_generator/repository/indexer.py:177-197 | A file found by two include patterns is indexed twice: there is no de-duplication. |
| Indexer.HashDependsOnContent | test_generator/repository/indexer.py:216-238 | Files with the same content get the same hash and size, whatever their paths. |
| Indexer.Dirs | test_generator/repository/indexer.py:143 | Only directory entries are kept. |
| Indexer.Paths | test_generator/repository/indexer.py:118-124 | The paths of the entries, one for one. |
| Indexer.FindDirectories | test_generator/repository/indexer.py:129-144 | Every path found is the path of a directory entry of the walk. |
| Indexer.FindDirectoriesExact | test_generator/repository/indexer.py:129-144 | Every directory found bears one of the names and is a directory entry. |
| Indexer.FindDirectoriesComplete | test_generator/repository/indexer.py:129-144 | Every directory entry bearing one of the names is found. |
| Indexer.DirsComplete | test_generator/repository/indexer.py:143 | Every directory entry is kept. |
| Indexer.AnalyzeStructure | test_generator/repository/indexer.py:93-127 | The root is the repository path, and every fixture file is named `conftest.py`. |
| Indexer.StructureByExactName | test_generator/repository/indexer.py:109-115 | Test and page-object directories are exactly the directory entries named "tests", "test", "autotests" or "pages", "page_objects", "page". |
| Indexer.BuildIndex | test_generator/repository/indexer.py:70-80 | The index holds the files and the structure. The total is the number of files, and the two counts are the numbers of test and page-object files. |
| Indexer.CountsBounded | test_generator/repository/indexer.py:75-79 | The test and page-object counts together never exceed the total. |
| Indexer.Index | test_generator/repository/indexer.py:35-91 | A connector path is reused, otherwise it connects. Indexing fails only when connecting fails, and then with a `RepositoryIndexError`. Otherwise the index holds the structure and files found under that path, with consistent counts. |
| PatternExtractor.DetectNamingStyle | test_generator/repository/pattern_extractor.py:165-174 | "snake_case" exactly when the name has '_'. Otherwise "kebab-case" exactly when it has '-'. Otherwise "lowercase" or "mixed" by `islower()`. |
| PatternExtractor.DetectClassNamingStyle | test_generator/repository/pattern_extractor.py:176-183 | An empty name raises. A capitalised name is "PascalCase" without '_' and "Pascal_Case" with it. Any other name is "mixed". |
| PatternExtractor.DetectFunctionNamingStyle | test_generator/repository/pattern_extractor.py:185-192 | "snake_case" exactly when the name has '_'. Otherwise an empty name raises, a capitalised one is "PascalCase", and the rest are "camelCase". |
| PatternExtractor.SnakeCaseFileName | test_generator/repository/pattern_extractor.py:165-168 | Any name with an underscore in it is "snake_case". |
| PatternExtractor.FileStyle | test_generator/repository/pattern_extractor.py:50-53 | The file style is one of the four naming styles. It is "snake_case" exactly when there is no Python file or the first one's name has an underscore. |
| PatternExtractor.ClassStyle | test_generator/repository/pattern_extractor.py:55-61 | Style detection raises exactly when the first class name is empty. Otherwise the style is "PascalCase", "Pascal_Case" or "mixed", and with no classes it stays "PascalCase". |
| PatternExtractor.FunctionStyle | test_generator/repository/pattern_extractor.py:63-69 | Style detection raises exactly when the first function name is empty. Otherwise the style is "snake_case", "PascalCase" or "camelCase", and with no functions it stays "snake_case". |
| PatternExtractor.Suffix | test_generator/repository/pattern_extractor.py:52 | `Path.suffix` is empty or a dotted ending of the file name. |
| PatternExtractor.Mentioning | test_generator/repository/pattern_extractor.py:75 | The kept names contain the word once lower-cased. |
| PatternExtractor.FirstAffix | test_generator/repository/pattern_extractor.py:79-96 | The loop with `break` picks the first candidate some name matches. Earlier candidates match none, and with no match nothing is picked. |
| PatternExtractor.TestPrefix | test_generator/repository/pattern_extractor.py:72-83 | The test prefix is "test_" or "test". It is "test" exactly when no test function starts with "test_" but one starts with "test". |
| PatternExtractor.PageSuffix | test_generator/repository/pattern_extractor.py:85-96 | The page suffix is one of "Page", "PageObject", "PO". The first one some page class ends with wins, and "Page" is the default. |
| PatternExtractor.ExtractNamingPatterns | test_generator/repository/pattern_extractor.py:39-98 | Extraction fails exactly when the first class name or the first function name is empty, because `name[0]` raises. Otherwise the prefix and suffix are the detected ones. |
| PatternExtractor.StylesFromFirstSample | test_generator/repository/pattern_extractor.py:52-70 | The three styles come from the first sample only: files added later never change them. |
| PatternExtractor.CodeFlags | test_generator/repository/pattern_extractor.py:121-133 | The first loop touches only the qautils, base-page and launcher flags. |
| PatternExtractor.AnyImportCons | test_generator/repository/pattern_extractor.py:121-126 | Some import of the files qualifies exactly when one of the first file does or one of the rest does. |
| PatternExtractor.QautilsFlag | test_generator/repository/pattern_extractor.py:112-125 | `uses_qautils` is set exactly when some import contains one of the qautils module names. |
| PatternExtractor.BasePageFlag | test_generator/repository/pattern_extractor.py:127-129 | The base page class is set exactly when some import mentions "BasePage". |
| PatternExtractor.LauncherFlag | test_generator/repository/pattern_extractor.py:131-133 | The browser launcher is set exactly when some import mentions "BrowserLauncher". |
| PatternExtractor.JoinContains | test_generator/repository/pattern_extractor.py:128 | For a word without spaces, searching the space-joined imports is searching each import. |
| PatternExtractor.UsesAllure | test_generator/repository/pattern_extractor.py:135-140 | `uses_allure` is set exactly when some import starts with "allure". |
| PatternExtractor.FirstSeen | test_generator/repository/pattern_extractor.py:143-146 | The keys of the count dictionary are distinct. |
| PatternExtractor.CommonImports | test_generator/repository/pattern_extractor.py:143-150 | There are exactly min(10, distinct imports) common imports. |
| PatternExtractor.CommonImportsShape | test_generator/repository/pattern_extractor.py:148-150 | At most ten common imports, all distinct, each one of the files' imports. |
| PatternExtractor.CommonImportsOrder | test_generator/repository/pattern_extractor.py:149 | The common imports come by non-increasing count. |
| PatternExtractor.CommonImportsTies | test_generator/repository/pattern_extractor.py:149 | Imports with equal counts keep the order in which they were first seen, because the sort is stable. |
| PatternExtractor.CommonImportsComplete | test_generator/repository/pattern_extractor.py:148-150 | An import is left out only when ten were kept, none counting less than it. |
| PatternExtractor.ExtractCodePatterns | test_generator/repository/pattern_extractor.py:100-163 | The decorator list is always empty, and the common imports are the top ten by count. Each flag is set exactly when some import qualifies. |
| PatternExtractor.ExtractPatterns | test_generator/repository/pattern_extractor.py:16-37 | Only the naming and code patterns change, and extraction fails only where naming extraction does. |
| CodeProcessor.ImportKey | test_generator/code_generator/code_processor.py:77 | The de-duplication key is a prefix of the stripped line. It is the whole line when there is no " as " and no " import ". |
| CodeProcessor.Classify | test_generator/code_generator/code_processor.py:74-75 | A line is an import exactly when, stripped, it starts with "import " or "from ". |
| CodeProcessor.Texts | test_generator/code_generator/code_processor.py:111-114 | The texts of the lines, one for one. |
| CodeProcessor.ScanLines | test_generator/code_generator/code_processor.py:73-84 | A kept import never has a key already seen. |
| CodeProcessor.BlockEnd | test_generator/code_generator/code_processor.py:82-83 | The leading block is the lines before the first code line: imports, blanks and comments. |
| CodeProcessor.ScanAfterBlock | test_generator/code_generator/code_processor.py:81-84 | Once the leading block has ended, every line goes to the other lines, imports included. |
| CodeProcessor.ImportsOfMembers | test_generator/code_generator/code_processor.py:75-84 | The import lines and the other lines split the lines by kind. |
| CodeProcessor.KeySetMembers | test_generator/code_generator/code_processor.py:70 | The key set holds exactly the lines' keys. |
| CodeProcessor.DedupLinesFacts | test_generator/code_generator/code_processor.py:76-80 | De-duplication keeps lines of the input whose keys were not seen. The kept keys are distinct, and every new key is kept once. |
| CodeProcessor.BlockSlices | test_generator/code_generator/code_processor.py:73-84 | The block's imports and other lines are those of the lines before the first code line. |
| CodeProcessor.ScanImports | test_generator/code_generator/code_processor.py:73-84 | The imports kept are the block's imports de-duplicated by key. |
| CodeProcessor.ScanOthers | test_generator/code_generator/code_processor.py:73-84 | The other lines are the block's blanks and comments followed by everything from the first code line on. |
| CodeProcessor.ScanReference | test_generator/code_generator/code_processor.py:67-84 | The scan equals the reference split: de-duplicated block imports, and the rest in order. |
| CodeProcessor.ByGroupMembers | test_generator/code_generator/code_processor.py:94-105 | A group holds exactly the lines classified into it. |
| CodeProcessor.ByGroupConcat | test_generator/code_generator/code_processor.py:94-105 | Grouping a concatenation is concatenating the groupings. |
| CodeProcessor.ByGroupUniform | test_generator/code_generator/code_processor.py:94-105 | Lines that are all of one group all land in that group. |
| CodeProcessor.ByGroupLengths | test_generator/code_generator/code_processor.py:94-105 | Every import lands in exactly one of the three groups. |
| CodeProcessor.GroupedIsStableSort | test_generator/code_generator/code_processor.py:86-108 | Regrouping is a stable sort by group: the same lines, standard library first, then third party, then local, each group in input order. |
| CodeProcessor.GroupedOrder | test_generator/code_generator/code_processor.py:108 | Concatenating the three groups orders the lines by group rank. |
| CodeProcessor.GroupedRegroup | test_generator/code_generator/code_processor.py:108 | Regrouping the concatenated groups gives each group back: regrouping is idempotent. |
| CodeProcessor.AssembleLines | test_generator/code_generator/code_processor.py:110-114 | The output is the import lines, one blank line when both parts exist, then the other lines, all joined by newlines. |
| CodeProcessor.NormalizeImports | test_generator/code_generator/code_processor.py:57-116 | The result joins the output lines, and those end with the block's blank and comment lines followed by every line from the end of the leading block on, verbatim and in order. |
| CodeProcessor.NormalizeImportsLines | test_generator/code_generator/code_processor.py:57-116 | `normalize_imports` joins the output lines of the scan. |
| CodeProcessor.TailKeptVerbatim | test_generator/code_generator/code_processor.py:81-84 | The output ends with the block's blank and comment lines followed by every line from the end of the leading block on, later imports included, verbatim and in order. |
| CodeProcessor.NoLineLost | test_generator/code_generator/code_processor.py:73-108 | Every line is kept among the other lines, or it is a block import whose key is among the kept imports. |
| CodeProcessor.GroupedKeys | test_generator/code_generator/code_processor.py:108 | Regrouping keeps the set of keys. |
| CodeProcessor.FirstImportWins | test_generator/code_generator/code_processor.py:76-80 | The kept imports have distinct keys, come from the block, and cover every key of the block's imports. |
| CodeProcessor.NormalizeAddsBlank | test_generator/code_generator/code_processor.py:112-113 | An import followed by code gets one blank line between them. |
| CodeProcessor.NormalizeAddsAnotherBlank | test_generator/code_generator/code_processor.py:112-114 | An existing blank line after the imports is kept and another is added, so the blank lines are not idempotent. |
| CodeProcessor.LineBreakAfter | test_generator/code_generator/code_processor.py:26 | `\s*\n` matches, greedily, exactly when the white-space run holds a newline, and it ends just past the last such newline. |
| CodeProcessor.FenceOpen | test_generator/code_generator/code_processor.py:26 | A block's code starts past its opening fence and line break. |
| CodeProcessor.FenceBlockAt | test_generator/code_generator/code_processor.py:26-27 | A block found at a fence ends at the first closing fence after its code, with no fence inside. |
| CodeProcessor.FenceBlocks | test_generator/code_generator/code_processor.py:26-27 | No extracted block contains a fence. |
| CodeProcessor.BodyEnd | test_generator/code_generator/code_processor.py:39-40 | The marked body ends at "\n===", at the end, or before a final newline, as `$` matches. |
| CodeProcessor.BodyEndIsFirst | test_generator/code_generator/code_processor.py:39-40 | The marked body is the shortest such match. |
| CodeProcessor.TestHeaderEnd | test_generator/code_generator/code_processor.py:40 | A test header ends after where the search starts. |
| CodeProcessor.MarkedCode | test_generator/code_generator/code_processor.py:36-54 | Without section markers the response comes back stripped. |
| CodeProcessor.PlainResponseIsStripped | test_generator/code_generator/code_processor.py:53-54 | A response without fences or markers comes back stripped. |
| CodeProcessor.FenceBlocksAtEnd | test_generator/code_generator/code_processor.py:26-27 | No block starts at the end of the text. |
| CodeProcessor.FenceBlocksFirst | test_generator/code_generator/code_processor.py:26-27 | A fenced block spanning the whole text is the first match. |
| CodeProcessor.ExtractCode | test_generator/code_generator/code_processor.py:15-54 | With fenced blocks, the result starts with the first block's code, stripped. A response without fences or section markers comes back stripped. |
| CodeProcessor.FirstBlockLeads | test_generator/code_generator/code_processor.py:26-34 | A response that opens with a laid-out python block, whatever follows it, is extracted to text starting with that block's code, stripped. |
| CodeProcessor.SingleBlock | test_generator/code_generator/code_processor.py:29-34 | A text that is one fenced block gives that block's code, stripped. |
| CodeProcessor.PythonBlockAt | test_generator/code_generator/code_processor.py:26 | In a python fence, newline, code and fence, the block's code starts after the white space following the opening line and ends at the closing fence, whatever follows. |
| CodeProcessor.FenceRoundTripLaidOut | test_generator/code_generator/code_processor.py:15-34 | Extraction of a laid-out python block gives the code back, stripped. |
| CodeProcessor.FenceRoundTrip | test_generator/code_generator/code_processor.py:15-34 | Wrapping backtick-free code in a python fence and extracting it gives the stripped code. |
| CodeProcessor.NoBacktickNoBlocks | test_generator/code_generator/code_processor.py:26-29 | Text without backticks has no fenced blocks. |
| CodeProcessor.NoTestHeaderAfterPage | test_generator/code_generator/code_processor.py:40 | A page section with no '=' after its marker has no test header. |
| CodeProcessor.NoTestHeader | test_generator/code_generator/code_processor.py:40 | Such a text has no test body. |
| CodeProcessor.BodyEndAtEnd | test_generator/code_generator/code_processor.py:39 | With no '=' after the body's start and no final newline, the body runs to the end. |
| CodeProcessor.PageBodyLaidOut | test_generator/code_generator/code_processor.py:39 | A page marker, a newline and '='-free text give a page body running to the end, after the leading white space. |
| CodeProcessor.PageHeaderBreak | test_generator/code_generator/code_processor.py:39 | The page marker at the start is found, and its line break is consumed. |
| CodeProcessor.PageBodyFirst | test_generator/code_generator/code_processor.py:39 | The page body runs from the header's line break to the body end. |
| CodeProcessor.PageBodyToEnd | test_generator/code_generator/code_processor.py:39 | A body ending at the end of the text is the rest of the text. |
| CodeProcessor.MarkedPageOnly | test_generator/code_generator/code_processor.py:36-51 | Without fenced blocks, a page section alone gives its stripped body. |
| CodeProcessor.PageSectionRoundTripLaidOut | test_generator/code_generator/code_processor.py:36-51 | A laid-out page section gives its code back, stripped. |
| CodeProcessor.PageSectionRoundTrip | test_generator/code_generator/code_processor.py:36-51 | `=== PAGE OBJECT ===` + newline + code gives the stripped code, for code free of '=', backticks and a final newline. |
| Partition.WordRun | test_generator/core/generator.py:580 | `\w*`: the longest prefix of word characters. |
| Partition.DefTestPrefixMatches | test_generator/core/generator.py:589-614 | A line starting literally with "def test_" also matches `^def\s+test_`, so the second test at line 612 never decides anything. |
| Partition.Span | test_generator/core/generator.py:476-478 | A node's line indices run from `lineno - 1` up to `end_lineno`, clipped to the number of lines. |
| Partition.Range | test_generator/core/generator.py:511 | `range(lo, hi)` as a set of indices. |
| Partition.SortedIndices | test_generator/core/generator.py:524-526 | `sorted(set(idx))` is strictly increasing and holds exactly the collected indices that name existing lines. |
| Partition.SelectLines | test_generator/core/generator.py:524-526 | Each section is the source lines at the collected indices, in ascending order of index, each at most once. |
| Partition.AstStepKeepsInv | test_generator/core/generator.py:473-521 | One node keeps import lines out of both class sections, and every index inside the lines. |
| Partition.AstCollectKeepsInv | test_generator/core/generator.py:473-521 | The whole walk keeps the same invariant. |
| Partition.AstImportsDisjoint | test_generator/core/generator.py:473-526 | After the walk, no import line is in the page or test section, and every collected index names a line. |
| Partition.AstCollectKinds | test_generator/core/generator.py:473-521 | Nodes that are not imports leave the import indices alone, and nodes that are neither classes nor functions leave the class sections alone. |
| Partition.SplitAst | test_generator/core/generator.py:464-526 | Without import nodes the tree split has no imports. Without class and function nodes it has no page or test code. |
| Partition.AstClassRouting | test_generator/core/generator.py:482-497 | A class named "Test…" takes its lines not yet imports or page lines into the test section, even when its name holds "Page". Another class with "Page" takes its non-import lines into the page section. Other classes change nothing. |
| Partition.AstTestFunctionRouting | test_generator/core/generator.py:499-521 | A `test_` function is dropped when a non-test Page class header occurs in the 50 lines before it. Otherwise it adds only lines in no section yet. |
| Partition.AstNestedPageInTest | test_generator/core/generator.py:484-497 | A line inside both a Test class and a later-walked Page class lands in both sections: the syntax-tree split can duplicate lines. |
| Partition.LineRoutes | test_generator/core/generator.py:562-640 | One route per line. |
| Partition.Route4 | test_generator/core/generator.py:562-646 | Each section is a subsequence of the input lines, every line goes to the list its route names, and the lists together are as long as the input, so no line lands in two sections. |
| Partition.RoutePartition | test_generator/core/generator.py:562-640 | The lines picked for the four routes are together exactly as many as the input lines. |
| Partition.LineImportRouting | test_generator/core/generator.py:565-568 | A line goes to the imports exactly when, stripped, it starts with "import " or "from ", whatever the state. |
| Partition.LineImportsFiltered | test_generator/core/generator.py:557-646 | The line splitter's imports are exactly the import lines of the code, in order. |
| Partition.SplitByLines | test_generator/core/generator.py:534-646 | The line splitter's imports are the code's import lines, in order, joined by newlines. |
| Partition.LineStepEntry | test_generator/core/generator.py:570-594 | The page or test state is entered only on a line routed to that section. |
| Partition.LineStepHeader | test_generator/core/generator.py:570-594 | Entering the page state takes a `class …Page` header. Entering the test state takes a `class Test` or `def test_` header. |
| Partition.LineStateWitness | test_generator/core/generator.py:557-640 | While in the page or test state, some earlier line was routed to that section. |
| Partition.StateBeforeFirst | test_generator/core/generator.py:557-640 | Before the first line routed to a section, the splitter is not in that section's state. |
| Partition.LineFirstPageIsHeader | test_generator/core/generator.py:579-586 | The first page line is a `class …Page` header. |
| Partition.LineFirstTestIsHeader | test_generator/core/generator.py:570-594 | The first test line is a `class Test` or `def test_` header. |
| Partition.MarkerStepFacts | test_generator/core/generator.py:668-703 | Before any section an import line is kept as an import. A marker line switches to its section and is dropped. Inside a section every other line goes to that section. |
| Partition.LastMarker | test_generator/core/generator.py:676-693 | The most recent marker names a page or test section. |
| Partition.ModeAfterIsMostRecentMarker | test_generator/core/generator.py:665-693 | Once a marker has been seen, the section is the one named by the most recent marker. Before that, no section is open. |
| Partition.ModeTracks | test_generator/core/generator.py:672-693 | One step keeps the section equal to that of the most recent marker. |
| Partition.SectionsBegunLast | test_generator/core/generator.py:672-683 | Sections have begun after a prefix exactly when they had before its last line, or that line is a non-import marker line. |
| Partition.MarkerLinesDropped | test_generator/core/generator.py:676-693 | A marker line reaches no section. The exception is an import line carrying a marker before any section, which is kept as an import. |
| Partition.MarkerRoutingAfterFirst | test_generator/core/generator.py:686-699 | After the first marker, every other line, imports included, goes verbatim to the section of the most recent marker. |
| Partition.MarkerRoutingBeforeFirst | test_generator/core/generator.py:672-703 | Before the first marker, only import lines are kept, as imports, and every other line is dropped. |
| Partition.MarkerJoining | test_generator/core/generator.py:705-709 | The marker splitter's page and test sections carry no surrounding white space. Its imports are not stripped: splitting them on line breaks gives back exactly the routed import lines. |
| Partition.MarkerNoOpening | test_generator/core/generator.py:648-709 | When no line is a non-import marker line, the marker splitter fills neither class section and keeps exactly the import lines, in order. |
| Partition.SplitByMarkers | test_generator/core/generator.py:648-709 | When no line is a non-import marker line, the marker splitter returns no page or test code and the code's import lines joined by newlines. |
| Partition.SplitSimple | test_generator/core/generator.py:534-646 | When no line is a non-import marker line, the imports are the code's import lines. When markers occur only on import lines, there is no page or test code. |
| Partition.SplitCodeTiers | test_generator/core/generator.py:457-549 | After a syntax error the simple splitter decides. Parseable code whose tree split yields a page or test section keeps the tree split, whatever markers it holds. |
| Partition.SplitCode | test_generator/core/generator.py:443-532 | A split with no page and no test code is the simple splitter's split. After a syntax error, code without a non-import marker line gets its import lines as imports. |
| Generator.PageClassNameShape | test_generator/core/generator.py:395-396 | The matched class name is word characters ending in "Page", at least five long, found at some position of the code. |
| Generator.LastPageFrom | test_generator/core/generator.py:395 | Backtracking `\w+Page` takes the last "Page" inside the word. |
| Generator.PageClassAt | test_generator/core/generator.py:395 | A match at a position is a word of at least five characters ending in "Page". |
| Generator.PageClassFrom | test_generator/core/generator.py:395 | `re.search` finds the first position with a match, or reports none anywhere. |
| Generator.PageFileContent | test_generator/core/generator.py:401 | The page file ends with the page code. |
| Generator.TestImports | test_generator/core/generator.py:419-428 | With a matched Page class, the imports end with `from pages.<lower> import <Name>`. Otherwise they are unchanged. |
| Generator.TestFileContent | test_generator/core/generator.py:430 | The test file ends with the test code and carries the page import when a class was matched. |
| Generator.PageFile | test_generator/core/generator.py:392-410 | The page file is typed "page_object", lives at `pages/<lower class>.py`, ends with the page code, and its size is its UTF-8 length. |
| Generator.TestFile | test_generator/core/generator.py:413-439 | The test file is typed "test", lives at `tests/test_<lower id>.py`, ends with the test code, imports the Page class when one was matched, and its size is its UTF-8 length. |
| Generator.FilesFor | test_generator/core/generator.py:391-441 | A page file exactly when there is page code and a test file exactly when there is test code, nothing else. |
| Generator.GenerateFiles | test_generator/core/generator.py:361-441 | No "code" entry gives no files. Otherwise at most two, each with its UTF-8 size. |
| Generator.SyntaxIssues | test_generator/core/generator.py:756-767 | At most one issue per file, each at error level, and none exactly when every file compiles. |
| Generator.ValidateCodeAsWritten | test_generator/core/generator.py:741-784 | As written, the report is valid exactly when every file compiles, and imports and structure are always valid. |
| Generator.SyntaxValidMissesRussianMessage | test_generator/core/generator.py:780 | As written, a file whose path holds no letter x and which fails to compile makes the report invalid yet still `syntax_valid`, because the check looks for the English word "syntax" in a Russian message. |
| Generator.ValidateCode | test_generator/core/generator.py:741-784 | Corrected: `syntax_valid` and `valid` both hold exactly when every file compiles, and the errors are the issues. |
| Generator.SchemeUrlAt | test_generator/core/generator.py:1085-1086 | A URL match at a position is the scheme followed by a non-empty run of non-space characters. |
| Generator.UrlAt | test_generator/core/generator.py:1085-1086 | `https?://\S+` at a position gives an http or https URL without white space. |
| Generator.FirstUrlFrom | test_generator/core/generator.py:1085-1086 | The match is at the first position where the pattern matches, or there is none anywhere. |
| Generator.FirstUrlInSteps | test_generator/core/generator.py:1091-1094 | The steps give no URL exactly when no step description has one. |
| Generator.FirstUrlInStepsIsFirst | test_generator/core/generator.py:1091-1094 | A URL from the steps is the first URL of some step, and no earlier step holds one. |
| Generator.ExtractUrl | test_generator/core/generator.py:1072-1102 | A URL in the description wins. Otherwise the first step holding a URL gives it, and otherwise a non-empty precondition text is searched. None is found exactly when the description, every step and the preconditions hold none. |
| Generator.FirstUrlShape | test_generator/core/generator.py:1085-1086 | The URL found occurs in the text, starts with an http scheme and holds no white space. |
| PromptBuilder.StyleRuleIsOneLine | test_generator/llm/prompt_builder.py:48-51 | The extra rule for a verbose or compact style is a single line. |
| PromptBuilder.BuildSystemPrompt | test_generator/llm/prompt_builder.py:15-53 | The prompt starts with the fixed system text. It is exactly that text for the standard style, and otherwise gains one more rule line framed by line breaks. |
| PromptBuilder.SystemPromptShowsStyle | test_generator/llm/prompt_builder.py:48-53 | Different code styles give different system prompts. |
| PromptBuilder.TemplateBlock | test_generator/llm/prompt_builder.py:101-111 | A template block appears exactly when the template is non-empty, as four lines with the template itself third, between the fences. |
| PromptBuilder.ExtraParts | test_generator/llm/prompt_builder.py:125-137 | The additional context contributes lines exactly when it is non-empty and names API contracts, selectors or code samples. |
| PromptBuilder.BuildContextPrompt | test_generator/llm/prompt_builder.py:55-142 | The context prompt is empty exactly when there is no index and no recognised additional context. With an index it starts with the structure header line. |
| PromptBuilder.SnippetPartShape | test_generator/llm/prompt_builder.py:114-122 | The snippet part is its header followed by one numbered block for each of the first two snippets. |
| PromptBuilder.LaterSnippetsIgnored | test_generator/llm/prompt_builder.py:116 | Snippets after the second never change the prompt. |
| PromptBuilder.SnippetBlockCode | test_generator/llm/prompt_builder.py:117-122 | A snippet block carries the first 80 lines of the snippet, or all of them when it is shorter, and those lines are a prefix of the snippet. |
| PromptBuilder.OrDefault | test_generator/llm/prompt_builder.py:163-169 | An empty or missing field is shown by its placeholder text, any other value as it is. |
| PromptBuilder.StepTexts | test_generator/llm/prompt_builder.py:174-179 | One text per step, in order, each rendered with its position counted from one. |
| PromptBuilder.StepNumbering | test_generator/llm/prompt_builder.py:174-176 | The i-th step text starts with "Шаг", its one-based number and the step id. |
| PromptBuilder.BuildTaskPrompt | test_generator/llm/prompt_builder.py:144-235 | The task prompt is the test-case header, then exactly the step texts and the page-object line, then the fixed rules. |
| PromptBuilder.StepInTaskPrompt | test_generator/llm/prompt_builder.py:174-179 | Step i's text, numbered i + 1, sits in the step section right after the texts of the steps before it. |
| PromptBuilder.TestClassName | test_generator/llm/prompt_builder.py:203 | The suggested test-class name is the case id with every underscore removed and nothing else changed. |
| PromptBuilder.ExtractPageObjects | test_generator/llm/prompt_builder.py:278-297 | The heuristic never finds a page object, so the list is always empty. |
| PromptBuilder.BuildFullPrompt | test_generator/llm/prompt_builder.py:237-276 | The result has exactly the keys system, context and task. A non-empty custom system prompt wins over the built one. Context and task are built from the same inputs with no page objects. |
| Selectors.Make | test_generator/cdp/selector_extractor.py:188-296 | A selector of a kind is worth the base priority plus that kind's fixed offset: +20 id, +15 name, +10 class, +12 aria-label, +8 role, +5 text, +3 combined, -5 XPath. |
| Selectors.ApplicableInMembers | test_generator/cdp/selector_extractor.py:188-296 | A kind is generated exactly when the element has the attribute it needs. |
| Selectors.ApplicableInRanked | test_generator/cdp/selector_extractor.py:188-296 | The applicable kinds keep the order of the list they come from. |
| Selectors.AllKindsRanked | test_generator/cdp/selector_extractor.py:188-296 | The eight kinds are tried once each, in the order id, name, class, aria-label, role, text, combined, XPath. |
| Selectors.SelectorsOfKinds | test_generator/cdp/selector_extractor.py:188-296 | An element yields one selector per applicable kind, at most eight, in that order. |
| Selectors.SelectorsOfOrdered | test_generator/cdp/selector_extractor.py:188-296 | The selectors of one element come in generation order, not in priority order. |
| Selectors.SelectorsOfApply | test_generator/cdp/selector_extractor.py:188-296 | An element has a selector of a kind exactly when that kind applies to it. |
| Selectors.ForElement | test_generator/cdp/selector_extractor.py:162-301 | At most eight selectors, one per applicable kind, in generation order, each worth base plus its kind's offset. |
| Selectors.GenerateSelectors | test_generator/cdp/selector_extractor.py:162-301 | An element whose attributes cannot be read gives no selectors. Every selector is worth base plus its kind's offset. |
| Selectors.ClassSelectors | test_generator/cdp/selector_extractor.py:214-282 | The class selector exists only for a single class and is "." followed by it. The combined selector is the tag followed by the first two classes, joined by dots. |
| Selectors.ForAll | test_generator/cdp/selector_extractor.py:86-156 | Selectors of several elements are all worth the shared base plus their offsets, at most eight per element. |
| Selectors.FindByText | test_generator/cdp/selector_extractor.py:63-98 | Without a page there are none. Otherwise at most eight for the exact match at base 90, then at most 24 for three partial matches at base 70. |
| Selectors.Mentions | test_generator/cdp/selector_extractor.py:124 | A role is searched exactly when some keyword, lower-cased, occurs in the lower-cased description. |
| Selectors.RoleSelectors | test_generator/cdp/selector_extractor.py:126-128 | The first three elements with a role give at most 24 selectors at base 85. |
| Selectors.RolesFrom | test_generator/cdp/selector_extractor.py:123-132 | Role selectors are all at base 85, at most 24 per role. |
| Selectors.RolesFromUnmentioned | test_generator/cdp/selector_extractor.py:123-124 | A description that mentions no keyword gives no role selectors. |
| Selectors.FindByRole | test_generator/cdp/selector_extractor.py:100-132 | Without a page there are none. Otherwise at most 96, all at base 85. |
| Selectors.SearchedRoles | test_generator/cdp/selector_extractor.py:116-124 | A role is searched exactly when the description mentions one of its keywords. |
| Selectors.RolesFromSearched | test_generator/cdp/selector_extractor.py:123-132 | The role selectors are those of each searched role, in table order. |
| Selectors.FindByRoleUnmentioned | test_generator/cdp/selector_extractor.py:112-132 | A description mentioning no role keyword gives no role selectors. |
| Selectors.LetterAMeansLink | test_generator/cdp/selector_extractor.py:118-124 | Any description holding the letter a, in either case, searches for links, because "a" is itself a link keyword. |
| Selectors.AttrRun | test_generator/cdp/selector_extractor.py:152 | `[\w-]+`: the longest run of attribute characters. |
| Selectors.DataAttributes | test_generator/cdp/selector_extractor.py:152 | Every attribute found is "data-" followed by at least one attribute character. |
| Selectors.DataAttributesOccur | test_generator/cdp/selector_extractor.py:152 | Every attribute found occurs in the text searched. |
| Selectors.AttributesFrom | test_generator/cdp/selector_extractor.py:153-156 | At most two elements per attribute, so at most 16 selectors per attribute, all at base 80. |
| Selectors.FindByAttributes | test_generator/cdp/selector_extractor.py:134-160 | Without a page there are none. Otherwise all are at base 80, at most 16 per data attribute of the lower-cased description. |
| Selectors.ExtractSelectors | test_generator/cdp/selector_extractor.py:24-61 | The result is a permutation of the text, role and attribute candidates, sorted by descending priority, and empty without a page. |
| Selectors.ExtractSelectorsStable | test_generator/cdp/selector_extractor.py:56-57 | The sort is stable: selectors of equal priority keep their candidate order. |
| Selectors.BasedRange | test_generator/cdp/selector_extractor.py:195-292 | A selector lies between base minus 5 and base plus 20. |
| Selectors.TextInRange | test_generator/cdp/selector_extractor.py:86-93 | Text selectors are worth between 65 and 110. |
| Selectors.CandidatesInRange | test_generator/cdp/selector_extractor.py:44-54 | Every candidate is worth between 65 and 110. |
| Selectors.ExtractSelectorsPriorities | test_generator/cdp/selector_extractor.py:24-61 | Every extracted selector is worth between 65 and 110. |
| Ranking.SortedCons | test_generator/cdp/selector_extractor.py:57 | An element at least as large as every element of a descending list can go in front of it. |
| Ranking.InsertDescMultiset | test_generator/cdp/selector_extractor.py:57 | Insertion adds exactly the one element. |
| Ranking.InsertDescSorted | test_generator/cdp/selector_extractor.py:57 | Insertion keeps a list in descending order. |
| Ranking.WithKeyConcat | test_generator/cdp/selector_extractor.py:57 | The elements with one key in a concatenation are those of each part, in order. |
| Ranking.WithKeyNone | test_generator/cdp/selector_extractor.py:57 | A list whose keys are all smaller than k has no element with key k. |
| Ranking.InsertDescWithKey | test_generator/cdp/selector_extractor.py:57 | Insertion places the new element after every element with an equal key. |
| Ranking.SortDescPermutation | test_generator/cdp/selector_extractor.py:57 | `sort(reverse=True)` is a permutation of its input. |
| Ranking.SortDescSorted | test_generator/cdp/selector_extractor.py:57 | The sorted list is in descending key order. |
| Ranking.SortDescStable | test_generator/cdp/selector_extractor.py:57 | Elements with equal keys keep their input order, as Python's stable sort promises even with `reverse=True`. |
| OllamaProvider.Init | test_generator/llm/ollama_provider.py:23-65 | `OLLAMA_HOST` is set to the URL exactly when it differs from the default server. The provider keeps its four settings unless creating the client fails, which raises an `LLMError` ending with the cause. |
| OllamaProvider.InitKeepsOtherVariables | test_generator/llm/ollama_provider.py:57-59 | No environment variable other than `OLLAMA_HOST` is touched. |
| OllamaProvider.Messages | test_generator/llm/ollama_provider.py:107-110 | The chat is the user prompt, preceded by a system message exactly when a non-empty system prompt is given. |
| OllamaProvider.FailureOf | test_generator/llm/ollama_provider.py:120-131 | A raised exception is recorded as it is. A reply without message content becomes a plain error whose text ends with the reply. |
| OllamaProvider.Classify | test_generator/llm/ollama_provider.py:142-151 | The final error is always an `LLMError`. It is a timeout error exactly when the last failure was a timeout, and a temporary error exactly when it was a connection error. It is retryable exactly in those two cases, keeps the last failure as its cause, and ends with its text. |
| OllamaProvider.Generate | test_generator/llm/ollama_provider.py:67-151 | An unavailable provider fails before any call. Otherwise at most `max_retries + 1` attempts are made, and the first reply with content is returned. Failure comes only after every attempt failed, classified by the last failure. Between attempts it sleeps 1, 2, 4, … seconds, one sleep fewer than attempts. |
| OllamaProvider.StructuredPrompt | test_generator/llm/ollama_provider.py:171-175 | The structured prompt is the original prompt, a blank line, the instruction, and the schema on its own line at the end. |
| OllamaProvider.PySlice | test_generator/llm/ollama_provider.py:185-189 | Python slicing with an end of -1 (a fence not found) stops before the last character, and an end before the start gives "". |
| OllamaProvider.AfterFence | test_generator/llm/ollama_provider.py:183-189 | Corrected: the body runs from after the opening fence up to the next fence, or to the end when none follows, stripped. |
| OllamaProvider.After | test_generator/llm/ollama_provider.py:183-187 | The position just after the first occurrence of the fence. |
| OllamaProvider.FenceBody | test_generator/llm/ollama_provider.py:181-191 | Corrected: a reply without any fence is parsed as it is. |
| OllamaProvider.FenceBodyAsWritten | test_generator/llm/ollama_provider.py:181-191 | As written, a reply without any fence is parsed as it is. After an unclosed json fence the body stops before the reply's last character. |
| OllamaProvider.JsonFenceIsFence | test_generator/llm/ollama_provider.py:182-186 | A reply with a json fence also holds a plain fence. |
| OllamaProvider.FenceBodyAgreesWhenClosed | test_generator/llm/ollama_provider.py:181-189 | When the opening fence is closed, the code as written and the corrected body agree. |
| OllamaProvider.JsonFenceRoundTrip | test_generator/llm/ollama_provider.py:182-185 | A body without backquotes in a json fence, followed by anything, comes back stripped. |
| OllamaProvider.NoJsonFenceIn | test_generator/llm/ollama_provider.py:182 | A plain-fenced body that neither holds a backquote nor starts with "json" contains no json fence. |
| OllamaProvider.PlainFenceRoundTrip | test_generator/llm/ollama_provider.py:186-189 | Such a body in a plain fence comes back stripped. |
| OllamaProvider.UnclosedJsonFence | test_generator/llm/ollama_provider.py:182-185 | With no closing fence, the code as written loses the body's last character, while the corrected body keeps it. |
| OllamaProvider.UnclosedSearch | test_generator/llm/ollama_provider.py:183-184 | After an unclosed json fence the body starts at position 7 and no closing fence is found. |
| OllamaProvider.UnclosedFenceDropsLastChar | test_generator/llm/ollama_provider.py:182-185 | A reply made of a json fence followed by {} is parsed as "{" as written, and as "{}" once corrected. |
| OllamaProvider.GenerateStructured | test_generator/llm/ollama_provider.py:153-194 | A failed generation propagates unchanged. Otherwise the result is the parse of the fence body, and a parse failure becomes a non-retryable `LLMError` ending with the parser's message. |

## Left out

- Parsing, compiling and hashing: `ast.parse`/`ast.walk`, `compile` (`validate_syntax`), md5 and `fnmatch` are parameters, because their implementations belong to Python's standard library.
- File-system and network effects: `rglob`, `read_text`, `stat`, `mkdir`, git clone and the ollama client are replaced by their results as inputs. `rglob`'s order is taken as the order of the given entries. Cloning over SSH is not distinguished from HTTPS.
- The `ImportError` raised when the `ollama` or `git` library is missing is left out, because it depends on the Python installation.
- Floating point and time: temperature, response and generation times, `total_llm_time_ms`, the timestamp of an index, and the `time.sleep` delays. The delays are returned as a list of seconds instead.
- Logging calls everywhere, because they have no effect on results.
- Built-in exception classes are abstracted to three failure kinds: timeout, connection and anything else. That is all the retry classification distinguishes.
- Browser automation, including navigation in `extract_selectors` and every DOM query. Query results are given as inputs, and a raised query is an absent result.
- Context files: `cdp_client.py`, `element_analyzer.py`, `formatter.py`, `file_manager.py`, `directory_builder.py`, `json_parser.py`, `logger.py`, `llm/base.py`, the example scripts and the re-exporting `__init__.py` files. They are I/O, external tools, abstract interfaces or re-exports.
- Orchestration in the generator: `generate_test`, `generate_tests_batch`, `index_repository`, `_post_process_responses` and `_extract_selectors_with_cdp`. They wire the modelled operations together around I/O and exception wrapping.
- `get_local_path`, `__enter__` and `__exit__` of the connector, because each returns a field or calls `connect`/`disconnect` unchanged.
- `_generate_xpath` of the selector extractor runs JavaScript in the page. Its result is an attribute of the element record.
- Regular-expression classes: `\w` is taken as ASCII letters and digits, `_` and the Cyrillic letters U+0400 to U+045F. `\s` and `str.strip` white space is the ASCII white space, U+001C to U+001F, U+0085, U+00A0, U+2028 and U+2029. Other Unicode letters and spaces are not modelled.
- PyStr.IsSpace, PyStr.IsUpperChar, PyStr.IsLowerChar, PyStr.Lower: Python's Unicode-wide `isspace`, `isupper`, `islower` and `lower` are narrowed to ASCII and U+0400 to U+045F. White space such as U+1680, U+2000 to U+200A, U+202F, U+205F and U+3000 counts as ordinary text, and letters of other scripts neither are cased nor change under `lower`. Every member that strips, splits on white space or lower-cases text inherits this narrowing.
- TestModels.NonEmptyStripped: its own contract bounds the number of tags and forbids empty ones, but does not say which tags come out. That they are, in order, the strips of the non-blank parts is stated by `TestModels.NonEmptyStrippedIsFilter` and reaches `TestModels.TagsList`.
- Config.UrlOf: assembles the URL with the corrected rule `Config.RepositoryUrl`, which removes one ".git" suffix. The code as written uses `rstrip(".git")`, modelled as `Config.RepositoryUrlAsWritten`, so the two differ when the project path ends in '.', 'g', 'i' or 't' once a ".git" suffix is removed ("cfg.git" gives "h/cfg.git" here and "h/cf.git" in the code).
- Config.UrlField: the assembled URL is the corrected `Config.RepositoryUrl`. The code as written uses `rstrip(".git")`, modelled as `Config.RepositoryUrlAsWritten`, so the two differ when the project path ends in '.', 'g', 'i' or 't' once a ".git" suffix is removed ("cfg.git" gives "h/cfg.git" here and "h/cf.git" in the code).
- Config.UrlFieldAssembled: states the corrected `Config.RepositoryUrl` as the URL. The code as written uses `rstrip(".git")`, modelled as `Config.RepositoryUrlAsWritten`, so the two differ when the project path ends in '.', 'g', 'i' or 't' once a ".git" suffix is removed ("cfg.git" gives "h/cfg.git" here and "h/cf.git" in the code).
- Config.BuildContext: the context's URL is the corrected `Config.RepositoryUrl`. The code as written uses `rstrip(".git")`, modelled as `Config.RepositoryUrlAsWritten`, so the two differ when the project path ends in '.', 'g', 'i' or 't' once a ".git" suffix is removed ("cfg.git" gives "h/cfg.git" here and "h/cf.git" in the code).
- Config.GetRepositoryContext: the context carries the corrected `Config.RepositoryUrl`. The code as written uses `rstrip(".git")`, modelled as `Config.RepositoryUrlAsWritten`, so the two differ when the project path ends in '.', 'g', 'i' or 't' once a ".git" suffix is removed ("cfg.git" gives "h/cfg.git" here and "h/cf.git" in the code).
- Config.UrlReachesContext: the URL that reaches the context is the corrected `Config.RepositoryUrl`. The code as written uses `rstrip(".git")`, modelled as `Config.RepositoryUrlAsWritten`, so the two differ when the project path ends in '.', 'g', 'i' or 't' once a ".git" suffix is removed ("cfg.git" gives "h/cfg.git" here and "h/cf.git" in the code).
- Connector.CloneUrl: the clone URL is assembled with the corrected `Config.RepositoryUrl`. The code as written strips with `rstrip(".git")`, as `Config.RepositoryUrlAsWritten` does.
- Connector.CloneRepository: clones the corrected URL. The token goes in with the corrected `Connector.InjectToken`, which removes only the leading "https://"; the code as written removes every "https://" in the URL, modelled as `Connector.InjectTokenAsWritten`. The URL itself is assembled with the corrected `Config.RepositoryUrl`.
- Connector.Connect: connects by the corrected clone URL. The token goes in with the corrected `Connector.InjectToken`, which removes only the leading "https://"; the code as written removes every "https://" in the URL, modelled as `Connector.InjectTokenAsWritten`. The URL itself is assembled with the corrected `Config.RepositoryUrl`.
- Connector.ConnectByUrl: the URL cloned is the corrected one. The token goes in with the corrected `Connector.InjectToken`, which removes only the leading "https://"; the code as written removes every "https://" in the URL, modelled as `Connector.InjectTokenAsWritten`.
- OllamaProvider.GenerateStructured: the reply is cut with the corrected `OllamaProvider.FenceBody`, which reads an unclosed fence to the end. The code as written drops the reply's last character in that case, modelled as `OllamaProvider.FenceBodyAsWritten`. The two agree whenever the fence is closed (`OllamaProvider.FenceBodyAgreesWhenClosed`).
- Config.GetGenerationConfig: pydantic's coercion is not modelled. A value of the wrong type (a string or bool for an integer, a non-string provider, model or detail level) is kept as read and not rejected. The integer bounds are checked only on values that are integers. The float fields `temperature` and `retry_delay`, and their bounds, are not read.
- Storage.LoadAfterSave: the full `load(save(x)) == x` round trip is not claimed, because the loaded tree is re-parsed by the pydantic model, whose coercions are not part of this model. The lemma states the round trip of the tree conversion under the stated conditions only.
- The model follows the code in these points:
  - the syntax-tree splitter runs first, and markers are consulted only inside the line splitter;
  - there is no whole-input fallback when every section comes out empty;
  - structure analysis matches directory names exactly;
  - import deduplication uses the module key, not the exact line;
  - `normalize_imports` is not idempotent.

## Findings

| source | as written | input that shows it | evidently intended | confidence | as-written member | corrected member |
|---|---|---|---|---|---|---|
| test_generator/core/config.py:143 | `project_path.rstrip(".git")` in `Config.RepositoryUrlAsWritten` strips any trailing run of the characters `.`, `g`, `i`, `t`, not the suffix ".git"; the same rule is in test_generator/repository/connector.py:89 | `gitlab_url` "h", `project_path` "cfg.git" gives "h/cf.git" | remove one trailing ".git", giving "h/cfg.git", as `Config.RepositoryUrl` does | not executed | Config.RStripEatsProjectName | Config.RepositoryUrlKeepsProject |
| test_generator/repository/connector.py:102 | in `Connector.InjectTokenAsWritten` the scheme is removed with `replace("https://", "")`, which deletes every occurrence | URL "https://a/https://x" with a GitLab token "T" gives "https://oauth2:T@a/x" | remove only the leading scheme, giving "https://oauth2:T@a/https://x", as `Connector.InjectToken` does | not executed | Connector.ReplaceDropsEmbeddedScheme | Connector.InjectTokenKeepsEmbeddedScheme |
| test_generator/core/generator.py:780 | `syntax_valid` looks for the English word "syntax" in error messages that are written in Russian | one file that does not compile, at a path without the letter x: the report is invalid yet `syntax_valid` is true | `syntax_valid` false whenever a syntax error was reported | not executed | Generator.SyntaxValidMissesRussianMessage | Generator.ValidateCode |
| test_generator/llm/ollama_provider.py:182-189 | with no closing fence, `find` returns -1 and the slice `response[start:-1]` drops the last character | a reply made of a json fence followed by {} is parsed as "{" | read to the end of the reply, parsing "{}", as `OllamaProvider.FenceBody` does | not executed | OllamaProvider.UnclosedFenceDropsLastChar | OllamaProvider.UnclosedJsonFence |

=== FILE: code_processor.dfy ===
/** Post-processing of model output (`CodeProcessor`): the import normaliser
    and the extraction of code from fenced blocks or section markers.
    `validate_syntax` is Python's `compile` and is not modelled here. */
module CodeProcessor {
  import opened Wrappers
  import opened Seqs
  import opened PyStr
  import opened Partition

  // ---------------------------------------------------------------- normalize_imports

  /** The de-duplication key of a stripped import line: the text before the
      first ` as `, then before the first ` import `. */
  function ImportKey(stripped: string): (k: string)
    ensures k <= stripped
    ensures !Contains(stripped, " as ") && !Contains(stripped, " import ") ==> k == stripped
  {
    if Contains(stripped, " as ") || Contains(stripped, " import ") then
      var a := BeforeFirst(stripped, " as ");
      var k := BeforeFirst(a, " import ");
      assert k <= a <= stripped;
      k
    else stripped
  }

  /** The three groups, in output order. */
  datatype Group = Stdlib | ThirdParty | Local

  function GroupOf(stripped: string): Group {
    if StartsWith(stripped, "import os") || StartsWith(stripped, "import sys") then Stdlib
    else if StartsWith(stripped, "import allure") || StartsWith(stripped, "import pytest")
      || StartsWith(stripped, "from dotenv") then ThirdParty
    else if StartsWith(stripped, "from gpn_qa_utils") || StartsWith(stripped, "from playwright") then ThirdParty
    else if StartsWith(stripped, "from src") || StartsWith(stripped, "from pages") then Local
    else ThirdParty
  }

  function Rank(g: Group): nat {
    match g
    case Stdlib => 0
    case ThirdParty => 1
    case Local => 2
  }

  /** How the scan sees a line: an import, a blank or comment line (which
      does not end the leading block), or anything else. */
  datatype Kind = ImportLine | BlankOrComment | CodeLine

  /** A line with what the normaliser reads from it. The scan is stated for
      any text and key types; the normaliser uses strings for both. */
  datatype Line<T, K> = Line(text: T, kind: Kind, key: K, group: Group)

  type SourceLine = Line<string, string>

  function Classify(text: string): (l: SourceLine)
    ensures l.text == text
    ensures l.kind == ImportLine <==> IsImportLine(text)
  {
    var st := Strip(text);
    var kind :=
      if IsImportLine(text) then ImportLine
      else if st == "" || StartsWith(st, "#") then BlankOrComment
      else CodeLine;
    Line(text, kind, ImportKey(st), GroupOf(st))
  }

  function Texts<T, K>(ls: seq<Line<T, K>>): (r: seq<T>)
    ensures |r| == |ls|
    ensures forall i :: 0 <= i < |ls| ==> r[i] == ls[i].text
  {
    Map(ls, (l: Line<T, K>) => l.text)
  }

  /** The two lists the scan builds. */
  datatype Scan<T, K> = Scan(imports: seq<Line<T, K>>, others: seq<Line<T, K>>)

  /** The scan loop: while `inImports`, import lines are kept unless their
      key was seen; any other line goes to `others`, and a code line ends
      the import block for good. */
  function ScanLines<T(==), K(==)>(lines: seq<Line<T, K>>, inImports: bool, seen: set<K>): (r: Scan<T, K>)
    ensures forall i :: 0 <= i < |r.imports| ==> r.imports[i].key !in seen
  {
    if |lines| == 0 then Scan([], [])
    else if inImports && lines[0].kind == ImportLine then
      var k := lines[0].key;
      var rest := ScanLines(lines[1..], true, seen + {k});
      if k in seen then rest else Scan([lines[0]] + rest.imports, rest.others)
    else
      var rest := ScanLines(lines[1..], inImports && lines[0].kind == BlankOrComment, seen);
      Scan(rest.imports, [lines[0]] + rest.others)
  }

  /** Where the leading import block ends: the first code line (or the end
      of the input). */
  function BlockEnd<T(==), K(==)>(lines: seq<Line<T, K>>): (e: nat)
    ensures e <= |lines|
    ensures forall i :: 0 <= i < e ==> lines[i].kind != CodeLine
    ensures e < |lines| ==> lines[e].kind == CodeLine
  {
    if |lines| == 0 then 0
    else if lines[0].kind != CodeLine then 1 + BlockEnd(lines[1..])
    else 0
  }

  /** After the import block has ended, every line goes to `others` as is. */
  lemma {:induction false} ScanAfterBlock<T, K>(lines: seq<Line<T, K>>, seen: set<K>)
    ensures ScanLines(lines, false, seen) == Scan([], lines)
  {
    if |lines| > 0 {
      ScanAfterBlock(lines[1..], seen);
      assert [lines[0]] + lines[1..] == lines;
    }
  }

  /** The import lines of `ls`, in order. */
  function ImportsOf<T(==), K(==)>(ls: seq<Line<T, K>>): (r: seq<Line<T, K>>)
  {
    if |ls| == 0 then []
    else (if ls[0].kind == ImportLine then [ls[0]] else []) + ImportsOf(ls[1..])
  }

  /** The other lines of `ls`, in order. */
  function NonImportsOf<T(==), K(==)>(ls: seq<Line<T, K>>): (r: seq<Line<T, K>>)
  {
    if |ls| == 0 then []
    else (if ls[0].kind != ImportLine then [ls[0]] else []) + NonImportsOf(ls[1..])
  }

  lemma {:induction false} ImportsOfMembers<T, K>(ls: seq<Line<T, K>>)
    ensures forall x :: x in ImportsOf(ls) ==> x in ls && x.kind == ImportLine
    ensures forall x :: x in ls && x.kind == ImportLine ==> x in ImportsOf(ls)
    ensures forall x :: x in NonImportsOf(ls) ==> x in ls && x.kind != ImportLine
    ensures forall x :: x in ls && x.kind != ImportLine ==> x in NonImportsOf(ls)
  {
    if |ls| > 0 {
      ImportsOfMembers(ls[1..]);
      assert ls == [ls[0]] + ls[1..];
    }
  }

  /** The keys of the lines of `ls`. */
  function KeySet<T(==), K(==)>(ls: seq<Line<T, K>>): set<K> {
    if |ls| == 0 then {} else {ls[0].key} + KeySet(ls[1..])
  }

  lemma {:induction false} KeySetMembers<T, K>(ls: seq<Line<T, K>>)
    ensures forall x :: x in ls ==> x.key in KeySet(ls)
    ensures forall k :: k in KeySet(ls) ==> exists x :: x in ls && x.key == k
  {
    if |ls| > 0 {
      KeySetMembers(ls[1..]);
      assert ls == [ls[0]] + ls[1..];
    }
  }

  /** The first line of every key not yet in `seen`, in order: the loop's
      `seen_imports` check. */
  function DedupLines<T(==), K(==)>(ls: seq<Line<T, K>>, seen: set<K>): (r: seq<Line<T, K>>)
  {
    if |ls| == 0 then []
    else if ls[0].key in seen then DedupLines(ls[1..], seen)
    else [ls[0]] + DedupLines(ls[1..], seen + {ls[0].key})
  }

  /** De-duplication keeps lines of the input with unseen keys, no two with
      the same key, and every unseen key of the input. */
  lemma {:induction false} DedupLinesFacts<T, K>(ls: seq<Line<T, K>>, seen: set<K>)
    ensures var r := DedupLines(ls, seen);
      (forall x :: x in r ==> x in ls && x.key !in seen)
      && (forall i, j :: 0 <= i < j < |r| ==> r[i].key != r[j].key)
      && KeySet(r) == KeySet(ls) - seen
  {
    if |ls| > 0 {
      var l := ls[0];
      assert ls == [l] + ls[1..];
      if l.key in seen {
        DedupLinesFacts(ls[1..], seen);
      } else {
        var rest := DedupLines(ls[1..], seen + {l.key});
        DedupLinesFacts(ls[1..], seen + {l.key});
        assert ([l] + rest)[1..] == rest;
        var r := [l] + rest;
        forall i, j | 0 <= i < j < |r| ensures r[i].key != r[j].key {
          if i == 0 {
            assert r[j] == rest[j - 1] && rest[j - 1] in rest;
          } else {
            assert r[i] == rest[i - 1] && r[j] == rest[j - 1];
          }
        }
      }
    }
  }

  /** The import lines of the leading block. */
  function BlockImports<T(==), K(==)>(lines: seq<Line<T, K>>): seq<Line<T, K>> {
    if |lines| == 0 || lines[0].kind == CodeLine then []
    else (if lines[0].kind == ImportLine then [lines[0]] else []) + BlockImports(lines[1..])
  }

  /** The blank and comment lines of the leading block. */
  function BlockOthers<T(==), K(==)>(lines: seq<Line<T, K>>): seq<Line<T, K>> {
    if |lines| == 0 || lines[0].kind == CodeLine then []
    else (if lines[0].kind != ImportLine then [lines[0]] else []) + BlockOthers(lines[1..])
  }

  lemma {:induction false} BlockSlices<T, K>(lines: seq<Line<T, K>>)
    ensures var e := BlockEnd(lines);
      BlockImports(lines) == ImportsOf(lines[..e]) && BlockOthers(lines) == NonImportsOf(lines[..e])
  {
    if |lines| > 0 && lines[0].kind != CodeLine {
      var e := BlockEnd(lines);
      var tail := lines[1..];
      BlockSlices(tail);
      assert lines[..e][0] == lines[0];
      assert lines[..e][1..] == tail[..e - 1];
    }
  }

  lemma {:induction false} ScanImports<T, K>(lines: seq<Line<T, K>>, seen: set<K>)
    ensures ScanLines(lines, true, seen).imports == DedupLines(BlockImports(lines), seen)
  {
    if |lines| > 0 {
      var l := lines[0];
      var tail := lines[1..];
      if l.kind == ImportLine {
        ScanImports(tail, seen + {l.key});
        assert ([l] + BlockImports(tail))[1..] == BlockImports(tail);
        if l.key in seen {
          assert seen + {l.key} == seen;
        }
      } else if l.kind == BlankOrComment {
        ScanImports(tail, seen);
        assert BlockImports(lines) == [] + BlockImports(tail) == BlockImports(tail);
      } else {
        ScanAfterBlock(tail, seen);
      }
    }
  }

  lemma {:induction false} ScanOthers<T, K>(lines: seq<Line<T, K>>, seen: set<K>)
    ensures ScanLines(lines, true, seen).others == BlockOthers(lines) + lines[BlockEnd(lines)..]
  {
    if |lines| > 0 {
      var l := lines[0];
      var tail := lines[1..];
      if l.kind == ImportLine {
        ScanOthers(tail, seen + {l.key});
        var e := BlockEnd(tail);
        assert BlockEnd(lines) == e + 1 && lines[e + 1..] == tail[e..];
        assert BlockOthers(lines) == BlockOthers(tail);
        assert ScanLines(lines, true, seen).others == ScanLines(tail, true, seen + {l.key}).others;
      } else if l.kind == BlankOrComment {
        ScanOthers(tail, seen);
        var e := BlockEnd(tail);
        assert BlockEnd(lines) == e + 1 && lines[e + 1..] == tail[e..];
        assert BlockOthers(lines) == [l] + BlockOthers(tail);
        assert ScanLines(lines, true, seen).others == [l] + ScanLines(tail, true, seen).others;
        assert [l] + (BlockOthers(tail) + tail[e..]) == ([l] + BlockOthers(tail)) + tail[e..];
      } else {
        ScanAfterBlock(tail, seen);
        assert [l] + tail == lines;
      }
    }
  }

  /** The scan, stated without its loop state: the imports are the
      de-duplicated import lines of the leading block; the others are the
      block's blank and comment lines followed by everything after it. */
  lemma ScanReference<T, K>(lines: seq<Line<T, K>>, seen: set<K>)
    ensures var e := BlockEnd(lines);
      ScanLines(lines, true, seen)
      == Scan(DedupLines(ImportsOf(lines[..e]), seen), NonImportsOf(lines[..e]) + lines[e..])
  {
    ScanImports(lines, seen);
    ScanOthers(lines, seen);
    BlockSlices(lines);
  }

  /** The lines of `ls` in group `g`, in order. */
  function ByGroup<T(==), K(==)>(ls: seq<Line<T, K>>, g: Group): (r: seq<Line<T, K>>)
  {
    if |ls| == 0 then []
    else (if ls[0].group == g then [ls[0]] else []) + ByGroup(ls[1..], g)
  }

  lemma {:induction false} ByGroupMembers<T, K>(ls: seq<Line<T, K>>, g: Group)
    ensures forall x :: x in ByGroup(ls, g) ==> x in ls && x.group == g
    ensures forall x :: x in ls && x.group == g ==> x in ByGroup(ls, g)
  {
    if |ls| > 0 {
      ByGroupMembers(ls[1..], g);
      assert ls == [ls[0]] + ls[1..];
    }
  }

  lemma {:induction false} ByGroupConcat<T, K>(a: seq<Line<T, K>>, b: seq<Line<T, K>>, g: Group)
    ensures ByGroup(a + b, g) == ByGroup(a, g) + ByGroup(b, g)
  {
    if |a| == 0 {
      assert a + b == b;
    } else {
      var h := if a[0].group == g then [a[0]] else [];
      var ra, rb := ByGroup(a[1..], g), ByGroup(b, g);
      assert ByGroup(a, g) == h + ra;
      assert (a + b)[0] == a[0];
      assert (a + b)[1..] == a[1..] + b;
      assert ByGroup(a + b, g) == h + ByGroup(a[1..] + b, g);
      ByGroupConcat(a[1..], b, g);
      assert h + (ra + rb) == (h + ra) + rb;
    }
  }

  /** Selecting a group from lines all of one group keeps all or nothing. */
  lemma {:induction false} ByGroupUniform<T, K>(ls: seq<Line<T, K>>, g: Group, h: Group)
    requires forall x :: x in ls ==> x.group == g
    ensures ByGroup(ls, h) == if h == g then ls else []
  {
    if |ls| > 0 {
      assert ls[0] in ls;
      assert forall x :: x in ls[1..] ==> x in ls;
      ByGroupUniform(ls[1..], g, h);
      assert [ls[0]] + ls[1..] == ls;
    }
  }

  lemma {:induction false} ByGroupLengths<T, K>(ls: seq<Line<T, K>>)
    ensures |ByGroup(ls, Stdlib)| + |ByGroup(ls, ThirdParty)| + |ByGroup(ls, Local)| == |ls|
  {
    if |ls| > 0 {
      ByGroupLengths(ls[1..]);
    }
  }

  /** The imports regrouped: standard library, third party, local. */
  function Grouped<T(==), K(==)>(imports: seq<Line<T, K>>): seq<Line<T, K>> {
    ByGroup(imports, Stdlib) + ByGroup(imports, ThirdParty) + ByGroup(imports, Local)
  }

  /** Grouping is a stable sort by group: the same lines, ordered by group,
      and within each group in input order. */
  lemma GroupedIsStableSort<T, K>(imports: seq<Line<T, K>>)
    ensures var g := Grouped(imports);
      |g| == |imports|
      && (forall x :: x in g <==> x in imports)
      && (forall i, j :: 0 <= i < j < |g| ==> Rank(g[i].group) <= Rank(g[j].group))
      && ByGroup(g, Stdlib) == ByGroup(imports, Stdlib)
      && ByGroup(g, ThirdParty) == ByGroup(imports, ThirdParty)
      && ByGroup(g, Local) == ByGroup(imports, Local)
  {
    var s, t, l := ByGroup(imports, Stdlib), ByGroup(imports, ThirdParty), ByGroup(imports, Local);
    ByGroupLengths(imports);
    ByGroupMembers(imports, Stdlib);
    ByGroupMembers(imports, ThirdParty);
    ByGroupMembers(imports, Local);
    GroupedOrder(s, t, l);
    GroupedRegroup(s, t, l, Stdlib);
    GroupedRegroup(s, t, l, ThirdParty);
    GroupedRegroup(s, t, l, Local);
  }

  lemma GroupedOrder<T, K>(s: seq<Line<T, K>>, t: seq<Line<T, K>>, l: seq<Line<T, K>>)
    requires forall x :: x in s ==> x.group == Stdlib
    requires forall x :: x in t ==> x.group == ThirdParty
    requires forall x :: x in l ==> x.group == Local
    ensures var g := s + t + l;
      forall i, j :: 0 <= i < j < |g| ==> Rank(g[i].group) <= Rank(g[j].group)
  {
    var g := s + t + l;
    forall i, j | 0 <= i < j < |g| ensures Rank(g[i].group) <= Rank(g[j].group) {
      if i < |s| {
        assert g[i] == s[i] && s[i] in s;
      } else if i < |s| + |t| {
        assert g[i] == t[i - |s|] && t[i - |s|] in t;
        if j < |s| + |t| {
          assert g[j] == t[j - |s|] && t[j - |s|] in t;
        } else {
          assert g[j] == l[j - |s| - |t|] && l[j - |s| - |t|] in l;
        }
      } else {
        assert g[i] == l[i - |s| - |t|] && l[i - |s| - |t|] in l;
        assert g[j] == l[j - |s| - |t|] && l[j - |s| - |t|] in l;
      }
    }
  }

  lemma GroupedRegroup<T, K>(s: seq<Line<T, K>>, t: seq<Line<T, K>>, l: seq<Line<T, K>>, h: Group)
    requires forall x :: x in s ==> x.group == Stdlib
    requires forall x :: x in t ==> x.group == ThirdParty
    requires forall x :: x in l ==> x.group == Local
    ensures ByGroup(s + t + l, h) == (if h == Stdlib then s else if h == ThirdParty then t else l)
  {
    ByGroupConcat(s + t, l, h);
    ByGroupConcat(s, t, h);
    ByGroupUniform(s, Stdlib, h);
    ByGroupUniform(t, ThirdParty, h);
    ByGroupUniform(l, Local, h);
  }

  /** The final text: imports, a blank line when both parts are present,
      then the other lines. */
  function Assemble(imports: seq<string>, others: seq<string>): string {
    JoinLines(imports) + (if |imports| > 0 && |others| > 0 then "\n\n" else "") + JoinLines(others)
  }

  /** The assembled text is the output lines joined with newlines, so the
      two parts are separated by exactly one blank line when both exist. */
  lemma AssembleLines(imports: seq<string>, others: seq<string>)
    ensures Assemble(imports, others)
      == JoinLines(imports + (if |imports| > 0 && |others| > 0 then [""] else []) + others)
  {
    if |imports| > 0 && |others| > 0 {
      JoinConcat(imports + [""], others, "\n");
      JoinAppend(imports, "", "\n");
    } else if |imports| == 0 {
      assert imports + [] + others == others;
    } else {
      assert imports + [] + others == imports;
    }
  }

  /** The output as lines. */
  function OutputLines(lines: seq<SourceLine>): seq<string> {
    var sc := ScanLines(lines, true, {});
    var all := Texts(Grouped(sc.imports));
    all + (if |all| > 0 && |sc.others| > 0 then [""] else []) + Texts(sc.others)
  }

  function ClassifyAll(code: string): seq<SourceLine> {
    Map(Lines(code), Classify)
  }

  /** `normalize_imports`: the output lines joined by newlines, ending with
      everything from the end of the leading block on, verbatim and in order,
      preceded by the block's blank and comment lines. */
  function NormalizeImports(code: string): (r: string)
    ensures r == JoinLines(OutputLines(ClassifyAll(code)))
    ensures TailKept(ClassifyAll(code))
  {
    var sc := ScanLines(ClassifyAll(code), true, {});
    AssembleLines(Texts(Grouped(sc.imports)), Texts(sc.others));
    TailKeptVerbatim(ClassifyAll(code));
    Assemble(Texts(Grouped(sc.imports)), Texts(sc.others))
  }

  lemma NormalizeImportsLines(code: string)
    ensures NormalizeImports(code) == JoinLines(OutputLines(ClassifyAll(code)))
  {
    var sc := ScanLines(ClassifyAll(code), true, {});
    AssembleLines(Texts(Grouped(sc.imports)), Texts(sc.others));
  }

  /** The output lines end with the block's blank and comment lines
      followed by every line from the end of the block on. */
  predicate TailKept(lines: seq<SourceLine>) {
    var e := BlockEnd(lines);
    var out := OutputLines(lines);
    var rest := Texts(NonImportsOf(lines[..e]) + lines[e..]);
    |rest| <= |out| && out[|out| - |rest|..] == rest
  }

  /** Only the leading block is touched: every line from the end of the
      block on, later imports included, ends the output verbatim and in
      order, and the block's blank and comment lines come just before it. */
  lemma TailKeptVerbatim(lines: seq<SourceLine>)
    ensures TailKept(lines)
  {
    ScanReference(lines, {});
  }

  /** Nothing is lost but duplicate imports: every input line is among the
      other lines, or is an import of the leading block whose key some kept
      import has. */
  lemma NoLineLost<T, K>(lines: seq<Line<T, K>>)
    ensures var sc := ScanLines(lines, true, {});
      forall i :: 0 <= i < |lines| ==>
        lines[i] in sc.others
        || (i < BlockEnd(lines) && lines[i].kind == ImportLine && lines[i].key in KeySet(Grouped(sc.imports)))
  {
    var e := BlockEnd(lines);
    ScanReference(lines, {});
    var imps := ImportsOf(lines[..e]);
    var kept := DedupLines(imps, {});
    ImportsOfMembers(lines[..e]);
    DedupLinesFacts(imps, {});
    KeySetMembers(imps);
    GroupedKeys(kept);
    forall i | 0 <= i < |lines|
      ensures lines[i] in NonImportsOf(lines[..e]) + lines[e..]
        || (i < e && lines[i].kind == ImportLine && lines[i].key in KeySet(kept))
    {
      if i >= e {
        assert lines[i] == lines[e..][i - e];
      } else {
        assert lines[i] == lines[..e][i];
        if lines[i].kind == ImportLine {
          assert lines[i] in ImportsOf(lines[..e]);
        }
      }
    }
  }

  lemma GroupedKeys<T, K>(kept: seq<Line<T, K>>)
    ensures KeySet(Grouped(kept)) == KeySet(kept)
  {
    var g := Grouped(kept);
    GroupedIsStableSort(kept);
    KeySetMembers(kept);
    KeySetMembers(g);
    forall k | k in KeySet(g) ensures k in KeySet(kept) {
      var x :| x in g && x.key == k;
      assert x in kept;
    }
    forall k | k in KeySet(kept) ensures k in KeySet(g) {
      var x :| x in kept && x.key == k;
      assert x in g;
    }
  }

  /** Every kept import is an import line of the leading block, no two kept
      imports share a key, and every key of the block's imports is kept. */
  lemma FirstImportWins<T, K>(lines: seq<Line<T, K>>)
    ensures var kept := ScanLines(lines, true, {}).imports;
      var e := BlockEnd(lines);
      (forall i, j :: 0 <= i < j < |kept| ==> kept[i].key != kept[j].key)
      && (forall x :: x in kept ==> x in lines[..e] && x.kind == ImportLine)
      && KeySet(kept) == KeySet(ImportsOf(lines[..e]))
  {
    var e := BlockEnd(lines);
    ScanReference(lines, {});
    ImportsOfMembers(lines[..e]);
    DedupLinesFacts(ImportsOf(lines[..e]), {});
  }

  /** Normalising is not idempotent: an import followed by code gains a
      blank line ... */
  lemma NormalizeAddsBlank(imp: SourceLine, body: SourceLine)
    requires imp.kind == ImportLine && body.kind == CodeLine
    ensures OutputLines([imp, body]) == [imp.text, "", body.text]
  {
    assert [imp, body][1..] == [body];
    assert [body][1..] == [];
    var none: set<string> := {};
    assert ScanLines([body], true, none + {imp.key}) == Scan([], [body]);
    assert ScanLines([imp, body], true, none) == Scan([imp], [body]);
    SingletonGrouped(imp);
  }

  /** ... and a second run, seeing that blank line, adds another one. */
  lemma NormalizeAddsAnotherBlank(imp: SourceLine, blank: SourceLine, body: SourceLine)
    requires imp.kind == ImportLine && body.kind == CodeLine
    requires blank.text == "" && blank.kind == BlankOrComment
    ensures OutputLines([imp, blank, body]) == [imp.text, "", "", body.text]
  {
    assert [imp, blank, body][1..] == [blank, body];
    assert [blank, body][1..] == [body];
    assert [body][1..] == [];
    var none: set<string> := {};
    assert ScanLines([body], true, none + {imp.key}) == Scan([], [body]);
    assert ScanLines([blank, body], true, none + {imp.key}) == Scan([], [blank, body]);
    assert ScanLines([imp, blank, body], true, none) == Scan([imp], [blank, body]);
    SingletonGrouped(imp);
  }

  lemma SingletonGrouped<T, K>(x: Line<T, K>)
    ensures Grouped([x]) == [x]
  {
    ByGroupUniform([x], x.group, Stdlib);
    ByGroupUniform([x], x.group, ThirdParty);
    ByGroupUniform([x], x.group, Local);
  }

  /** The empty line is classified as blank. */
  lemma BlankLine()
    ensures Classify("").kind == BlankOrComment
  {
    assert Strip("") == "";
    assert !StartsWith("", "import ") && !StartsWith("", "from ");
  }

  // ---------------------------------------------------------------- extract_code_from_markdown

  const Fence := "```"
  const TestHeader := "=== TEST"
  const Rule := "==="
  const PartSeparator := "\n\n"

  /** `\s*\n` at `j`, matched greedily: the position just past the last
      newline of the white-space run at `j`; `None` when the run holds no
      newline. */
  function LineBreakAfter(s: string, j: nat): (r: Option<nat>)
    requires j <= |s|
    ensures r.None? <==> '\n' !in SpaceRun(s[j..])
    ensures r.Some? ==> j < r.value <= |s| && s[r.value - 1] == '\n'
    ensures r.Some? ==> forall k :: j <= k < r.value ==> IsSpace(s[k])
    ensures r.Some? ==> '\n' !in SpaceRun(s[j..])[r.value - j..]
  {
    var run := SpaceRun(s[j..]);
    match LastIndex(run, '\n')
    case None => None
    case Some(n) =>
      assert s[j + n] == run[n];
      assert forall k :: j <= k < j + n + 1 ==> IsSpace(s[k]) by {
        forall k | j <= k < j + n + 1 ensures IsSpace(s[k]) {
          assert s[j..][k - j] == s[k];
        }
      }
      Some(j + n + 1)
  }

  /** Where the code of a block whose fence opens at `i` starts: past the
      fence, an optional `python`, and white space through a newline. */
  function FenceOpen(s: string, i: nat): (r: Option<nat>)
    requires i + 3 <= |s|
    ensures r.Some? ==> i + 3 < r.value <= |s|
  {
    var j := if StartsWith(s[i + 3..], "python") then i + 9 else i + 3;
    LineBreakAfter(s, j)
  }

  /** No occurrence of `sub` starts in `s[b..c]` when none starts at a
      position of `s` from `b` up to `c`. */
  lemma NoOccurrenceInSlice(s: string, sub: string, b: nat, c: nat)
    requires b <= c <= |s| && |sub| > 0
    requires forall k :: b <= k < c ==> !StartsWith(s[k..], sub)
    ensures !Contains(s[b..c], sub)
  {
    var t := s[b..c];
    forall j | 0 <= j <= |t| ensures !StartsWith(t[j..], sub) {
      if j + |sub| <= |t| {
        assert t[j..][..|sub|] == s[b + j..][..|sub|];
      }
    }
  }

  /** A fenced block opening at `i`: where its code starts and where the
      closing fence is, the first one after the code start. */
  function FenceBlockAt(s: string, i: nat): (r: Option<(nat, nat)>)
    requires i + 3 <= |s|
    ensures r.Some? ==> i + 3 < r.value.0 <= r.value.1 && r.value.1 + 3 <= |s|
    ensures r.Some? ==> s[r.value.1..r.value.1 + 3] == Fence && !Contains(s[r.value.0..r.value.1], Fence)
  {
    match FenceOpen(s, i)
    case None => None
    case Some(b) =>
      match FindFrom(s, Fence, b)
      case None => None
      case Some(c) =>
        NoOccurrenceInSlice(s, Fence, b, c);
        Some((b, c))
  }

  /** `re.findall(r"```(?:python)?\s*\n(.*?)```", s, re.DOTALL)` from
      `from`: the code of every fenced block, left to right. */
  function FenceBlocks(s: string, from: nat): (r: seq<string>)
    ensures forall k :: 0 <= k < |r| ==> !Contains(r[k], Fence)
    decreases |s| - from
  {
    match FindFrom(s, Fence, from)
    case None => []
    case Some(i) =>
      assert |Fence| == 3 && i + |Fence| <= |s|;
      match FenceBlockAt(s, i)
      case None => FenceBlocks(s, i + 1)
      case Some((b, c)) =>
        var rest := FenceBlocks(s, c + 3);
        AllConcat([s[b..c]], rest, (x: string) => !Contains(x, Fence));
        [s[b..c]] + rest
  }

  /** `(.*?)(?=\n===|$)` from `b`: the body runs to the first `\n===`, or to
      the end of the text, not counting a final newline. */
  function BodyEnd(s: string, b: nat): (c: nat)
    requires b <= |s|
    ensures b <= c <= |s|
    ensures c == |s| || StartsWith(s[c..], "\n===") || (c == |s| - 1 && s[c] == '\n')
    decreases |s| - b
  {
    if b == |s| || StartsWith(s[b..], "\n===") || (b == |s| - 1 && s[b] == '\n') then b
    else BodyEnd(s, b + 1)
  }

  /** The body ends at the first place where the lookahead succeeds. */
  lemma {:induction false} BodyEndIsFirst(s: string, b: nat, k: nat)
    requires b <= k && b <= |s| && k < BodyEnd(s, b)
    ensures !StartsWith(s[k..], "\n===") && !(k == |s| - 1 && s[k] == '\n')
    decreases |s| - b
  {
    if k > b {
      BodyEndIsFirst(s, b + 1, k);
    }
  }

  /** `re.search(r"=== PAGE OBJECT ===\s*\n(.*?)(?=\n===|$)", s, re.DOTALL)`
      from `from`: the body after the first page header that a line break
      follows. */
  function PageBody(s: string, from: nat): (r: Option<string>)
    decreases |s| - from
  {
    match FindFrom(s, PageMarker, from)
    case None => None
    case Some(i) =>
      match LineBreakAfter(s, i + |PageMarker|)
      case None => PageBody(s, i + 1)
      case Some(b) => Some(s[b..BodyEnd(s, b)])
  }

  /** `.*?===\s*\n` from `from`: past the first `===` that white space
      through a newline follows. */
  function TestHeaderEnd(s: string, from: nat): (r: Option<nat>)
    ensures r.Some? ==> from < r.value <= |s|
    decreases |s| - from
  {
    match FindFrom(s, Rule, from)
    case None => None
    case Some(k) =>
      match LineBreakAfter(s, k + 3)
      case None => TestHeaderEnd(s, k + 1)
      case Some(b) => Some(b)
  }

  /** `re.search(r"=== TEST.*?===\s*\n(.*?)(?=\n===|$)", s, re.DOTALL)`. */
  function TestBody(s: string, from: nat): (r: Option<string>)
    decreases |s| - from
  {
    match FindFrom(s, TestHeader, from)
    case None => None
    case Some(i) =>
      match TestHeaderEnd(s, i + |TestHeader|)
      case None => TestBody(s, i + 1)
      case Some(b) => Some(s[b..BodyEnd(s, b)])
  }

  function StrippedPart(o: Option<string>): seq<string> {
    match o
    case None => []
    case Some(x) => [Strip(x)]
  }

  /** The fallback when no fenced block is found: the marked page and
      test bodies, stripped and joined by a blank line; failing those, the
      whole response stripped. */
  function MarkedCode(response: string): (r: string)
    ensures !Contains(response, PageMarker) && !Contains(response, TestHeader) ==> r == Strip(response)
  {
    if Contains(response, PageMarker) || Contains(response, TestHeader) then
      var parts := StrippedPart(PageBody(response, 0)) + StrippedPart(TestBody(response, 0));
      if |parts| > 0 then Join(parts, PartSeparator) else Strip(response)
    else Strip(response)
  }

  /** `extract_code_from_markdown`: the fenced blocks, stripped and joined
      by a blank line, or else the marker fallback. */
  function ExtractCode(response: string): (r: string)
    ensures |FenceBlocks(response, 0)| > 0 ==> StartsWith(r, Strip(FenceBlocks(response, 0)[0]))
    ensures !Contains(response, Fence) && !Contains(response, PageMarker) && !Contains(response, TestHeader)
      ==> r == Strip(response)
  {
    var blocks := FenceBlocks(response, 0);
    if |blocks| > 0 then
      JoinStartsWithFirst(Map(blocks, Strip), PartSeparator);
      Join(Map(blocks, Strip), PartSeparator)
    else MarkedCode(response)
  }

  /** A response without a fence or a section marker comes back stripped. */
  lemma PlainResponseIsStripped(response: string)
    requires !Contains(response, Fence)
    requires !Contains(response, PageMarker) && !Contains(response, TestHeader)
    ensures ExtractCode(response) == Strip(response)
  {
  }

  lemma FenceBlocksAtEnd(s: string)
    ensures FenceBlocks(s, |s|) == []
  {
  }

  lemma FenceBlocksFirst(s: string, b: nat, c: nat)
    requires 3 <= |s| && FindFrom(s, Fence, 0) == Some(0)
    requires FenceBlockAt(s, 0) == Some((b, c)) && c + 3 == |s|
    ensures FenceBlocks(s, 0) == [s[b..c]] + FenceBlocks(s, |s|)
  {
  }

  /** A response whose only fenced block opens at its start and closes at
      its end gives back that block's code, stripped. */
  lemma SingleBlock(s: string, b: nat, c: nat)
    requires 3 <= |s| && FindFrom(s, Fence, 0) == Some(0)
    requires FenceBlockAt(s, 0) == Some((b, c)) && c + 3 == |s|
    ensures ExtractCode(s) == Strip(s[b..c])
  {
    FenceBlocksAtEnd(s);
    FenceBlocksFirst(s, b, c);
    assert FenceBlocks(s, 0) == [s[b..c]];
    assert Map([s[b..c]], Strip) == [Strip(s[b..c])];
  }

  lemma StripAfterSpace(s: string, k: nat)
    requires k <= |s| && forall i :: 0 <= i < k ==> IsSpace(s[i])
    ensures Strip(s[k..]) == Strip(s)
  {
    assert s == s[..k] + s[k..];
    StripLeadingSpace(s[..k], s[k..]);
  }

  /** Where the code of a laid-out `python` block at the start of `s`
      starts: after the newline, past any further leading white space of the
      code. Whatever follows the closing fence plays no part. */
  lemma PythonBlockAt(s: string, code: string) returns (b: nat)
    requires '`' !in code && |s| >= |code| + 13
    requires s[..3] == Fence && s[3..9] == "python" && s[9] == '\n'
    requires s[10..10 + |code|] == code && s[10 + |code|..13 + |code|] == Fence
    ensures 10 <= b <= 10 + |code| && FindFrom(s, Fence, 0) == Some(0)
    ensures FenceBlockAt(s, 0) == Some((b, 10 + |code|))
    ensures forall k :: 10 <= k < b ==> IsSpace(s[k])
  {
    var n := 10 + |code|;
    assert s[3..][..6] == "python";
    FindFromAt(s, Fence, 0, 0);
    assert s[9..][0] == '\n';
    b := FenceOpen(s, 0).value;
    assert forall k :: 10 <= k < n ==> s[k] == code[k - 10];
    assert s[n] == '`';
    assert s[n..][..3] == Fence;
    FindFromAt(s, Fence, b, n);
  }

  lemma FenceRoundTripLaidOut(s: string, code: string)
    requires '`' !in code && |s| == |code| + 13
    requires s[..3] == Fence && s[3..9] == "python" && s[9] == '\n'
    requires s[10..10 + |code|] == code && s[10 + |code|..] == Fence
    ensures ExtractCode(s) == Strip(code)
  {
    var n := 10 + |code|;
    var b := PythonBlockAt(s, code);
    SingleBlock(s, b, n);
    assert s[b..n] == code[b - 10..];
    forall k | 0 <= k < b - 10 ensures IsSpace(code[k]) {
      assert code[k] == s[10 + k];
    }
    StripAfterSpace(code, b - 10);
  }

  /** A single fenced `python` block holding code without backticks gives
      back that code, stripped. */
  lemma FenceRoundTrip(code: string)
    requires '`' !in code
    ensures ExtractCode("```python\n" + code + Fence) == Strip(code)
  {
    FenceRoundTripLaidOut("```python\n" + code + Fence, code);
  }

  // ---------------------------------------------------------------- the first of several blocks

  /** `sep.join(parts)` starts with the first part. */
  lemma JoinStartsWithFirst(parts: seq<string>, sep: string)
    requires |parts| > 0
    ensures StartsWith(Join(parts, sep), parts[0])
  {
    var j := Join(parts, sep);
    if |parts| > 1 {
      assert j == parts[0] + (sep + Join(parts[1..], sep));
    }
    assert j[..|parts[0]|] == parts[0];
  }

  /** Where the first block lies: a response that opens with a laid-out
      `python` block is extracted to that block's code, stripped, followed by
      whatever the later blocks give. */
  lemma FirstBlockLeads(code: string, rest: string)
    requires '`' !in code
    ensures StartsWith(ExtractCode("```python\n" + code + Fence + rest), Strip(code))
  {
    var s := "```python\n" + code + Fence + rest;
    var n := 10 + |code|;
    assert s[..3] == Fence && s[3..9] == "python" && s[9] == '\n';
    assert s[10..n] == code && s[n..n + 3] == Fence;
    var b := PythonBlockAt(s, code);
    var blocks := FenceBlocks(s, 0);
    assert blocks[0] == s[b..n];
    assert s[b..n] == code[b - 10..];
    forall k | 0 <= k < b - 10 ensures IsSpace(code[k]) {
      assert code[k] == s[10 + k];
    }
    StripAfterSpace(code, b - 10);
    var parts := Map(blocks, Strip);
    assert parts[0] == Strip(code);
    JoinStartsWithFirst(parts, PartSeparator);
  }

  /** Without a backtick there is no fenced block. */
  lemma NoBacktickNoBlocks(s: string)
    requires '`' !in s
    ensures FenceBlocks(s, 0) == []
  {
    forall j | 0 <= j <= |s| ensures !StartsWith(s[j..], Fence) {
      if j + 3 <= |s| {
        assert s[j..][..3][0] == s[j];
      }
    }
  }

  /** Where the page header has `=`: its first and last three places. */
  lemma PageMarkerRules(s: string)
    requires 19 <= |s| && s[..19] == PageMarker
    ensures s[0] == '=' && s[1] == '=' && s[2] == '=' && s[3] == ' ' && s[4] == 'P'
    ensures forall i :: 3 <= i < 16 ==> s[i] != '='
  {
    forall i | 3 <= i < 16 ensures s[i] != '=' {
      assert s[i] == PageMarker[i];
    }
  }

  /** After a page header and its newline, with no `=` in the rest of the
      text, no test header starts anywhere. */
  lemma NoTestHeaderAfterPage(s: string)
    requires 20 <= |s| && s[..19] == PageMarker && s[19] == '\n'
    requires forall k :: 20 <= k < |s| ==> s[k] != '='
    ensures FindFrom(s, TestHeader, 0) == None
  {
    PageMarkerRules(s);
    forall j | 0 <= j <= |s| ensures !StartsWith(s[j..], TestHeader) {
      if j + 8 <= |s| {
        var w := s[j..][..8];
        assert w[0] == s[j] && w[1] == s[j + 1] && w[2] == s[j + 2] && w[3] == s[j + 3] && w[4] == s[j + 4];
      }
    }
  }

  /** Without `=` after position 19 and with the page header ending in a
      newline, no test body is found. */
  lemma NoTestHeader(s: string)
    requires 20 <= |s| && s[..19] == PageMarker && s[19] == '\n'
    requires forall k :: 20 <= k < |s| ==> s[k] != '='
    ensures TestBody(s, 0) == None
  {
    NoTestHeaderAfterPage(s);
  }

  /** With no `=` after `b` and no final newline, a body from `b` runs to
      the end of the text. */
  lemma {:induction false} BodyEndAtEnd(s: string, b: nat)
    requires b <= |s| && forall k :: b < k < |s| ==> s[k] != '='
    requires b == |s| || s[|s| - 1] != '\n'
    ensures BodyEnd(s, b) == |s|
    decreases |s| - b
  {
    if b < |s| {
      if b + 1 < |s| {
        assert s[b..][1] == s[b + 1];
      }
      BodyEndAtEnd(s, b + 1);
    }
  }

  /** The body of a laid-out page section: it starts after the header's
      line break and any leading white space, and runs to the end of the
      text. */
  lemma PageBodyLaidOut(s: string) returns (b: nat)
    requires 20 <= |s| && s[..19] == PageMarker && s[19] == '\n'
    requires forall k :: 20 <= k < |s| ==> s[k] != '='
    requires |s| == 20 || s[|s| - 1] != '\n'
    ensures 20 <= b <= |s| && PageBody(s, 0) == Some(s[b..])
    ensures forall k :: 20 <= k < b ==> IsSpace(s[k])
  {
    b := PageHeaderBreak(s);
    PageBodyFirst(s, b);
    BodyEndAtEnd(s, b);
    PageBodyToEnd(s, b);
  }

  lemma PageHeaderBreak(s: string) returns (b: nat)
    requires 20 <= |s| && s[..19] == PageMarker && s[19] == '\n'
    ensures 20 <= b <= |s| && LineBreakAfter(s, 19) == Some(b) && FindFrom(s, PageMarker, 0) == Some(0)
    ensures forall k :: 20 <= k < b ==> IsSpace(s[k])
  {
    FindFromAt(s, PageMarker, 0, 0);
    assert s[19..][0] == '\n';
    b := LineBreakAfter(s, 19).value;
  }

  lemma PageBodyFirst(s: string, b: nat)
    requires FindFrom(s, PageMarker, 0) == Some(0) && LineBreakAfter(s, 19) == Some(b)
    ensures PageBody(s, 0) == Some(s[b..BodyEnd(s, b)])
  {
    assert |PageMarker| == 19;
  }

  lemma PageBodyToEnd(s: string, b: nat)
    requires b <= |s| && PageBody(s, 0) == Some(s[b..BodyEnd(s, b)]) && BodyEnd(s, b) == |s|
    ensures PageBody(s, 0) == Some(s[b..])
  {
    assert s[b..BodyEnd(s, b)] == s[b..];
  }

  /** With no fenced block, a page body and no test body, the output is
      the page body, stripped. */
  lemma MarkedPageOnly(s: string, body: string)
    requires FenceBlocks(s, 0) == [] && Contains(s, PageMarker)
    requires PageBody(s, 0) == Some(body) && TestBody(s, 0) == None
    ensures ExtractCode(s) == Strip(body)
  {
  }

  /** A response holding only a page section, whose code has no `=`, no
      backtick and no final newline, gives back that code, stripped. */
  lemma PageSectionRoundTripLaidOut(s: string, code: string)
    requires |s| == 20 + |code| && s[..19] == PageMarker && s[19] == '\n' && s[20..] == code
    requires '=' !in code && '`' !in code && (|code| == 0 || code[|code| - 1] != '\n')
    ensures ExtractCode(s) == Strip(code)
  {
    assert forall k :: 20 <= k < |s| ==> s[k] == code[k - 20];
    assert '`' !in s[..19];
    assert s == s[..19] + s[19..];
    NoBacktickNoBlocks(s);
    NoTestHeader(s);
    var b := PageBodyLaidOut(s);
    ContainsPrefixOf(s, PageMarker);
    MarkedPageOnly(s, s[b..]);
    assert s[b..] == code[b - 20..];
    forall k | 0 <= k < b - 20 ensures IsSpace(code[k]) {
      assert code[k] == s[20 + k];
    }
    StripAfterSpace(code, b - 20);
  }

  /** A response holding only a page section gives back its code, stripped. */
  lemma PageSectionRoundTrip(code: string)
    requires '=' !in code && '`' !in code && (|code| == 0 || code[|code| - 1] != '\n')
    ensures ExtractCode(PageMarker + "\n" + code) == Strip(code)
  {
    PageSectionRoundTripLaidOut(PageMarker + "\n" + code, code);
  }
}

=== FILE: config.dfy ===
/** `Config`: where the configuration comes from, and the typed settings
    read out of it. The YAML file is read by the parameter `readFile`; the
    environment is a map from variable name to value. A setting is the raw
    value found, or its default; of pydantic's validation of the settings
    models, the integer bounds and the enum values are modelled, and its
    coercion of values of other types is not. */
module Config {
  import opened Wrappers
  import opened Seqs
  import opened PyStr
  import opened Tree
  import opened Exceptions
  import opened TestModels

  const DefaultOllamaUrl := "http://localhost:11434"

  const DefaultOutputPath := "./generated_tests"

  /** `_default_config()` (the float `temperature` is left out). */
  const DefaultConfig := Dict([
    Entry("llm", Dict([
      Entry("provider", Str("ollama")),
      Entry("ollama", Dict([
        Entry("url", Str(DefaultOllamaUrl)),
        Entry("model", Str("codellama:13b")),
        Entry("max_tokens", Int(4000)),
        Entry("timeout", Int(300))]))])),
    Entry("generation", Dict([
      Entry("output_path", Str(DefaultOutputPath)),
      Entry("overwrite_existing", Bool(false)),
      Entry("format_code", Bool(true)),
      Entry("validate_code", Bool(true))])),
    Entry("logging", Dict([Entry("level", Str("INFO"))]))])

  // ---------------------------------------------------------------- sources

  /** What reading a configuration file gives: no such file, a read or YAML
      error, or the parsed value. */
  datatype FileRead = Missing | Unreadable(reason: string) | Loaded(v: Value)

  /** `_load_from_file`: an empty document counts as `{}`. */
  function LoadFromFile(path: string, read: FileRead): (r: Result<Value, Error>)
    ensures r.Err? ==> r.error.Plain? && r.error.cls == ConfigError
    ensures r.Ok? <==> read.Loaded?
    ensures read.Loaded? && Truthy(read.v) ==> r == Ok(read.v)
  {
    match read
    case Missing => Err(Plain(ConfigError, "Файл конфигурации не найден: " + path))
    case Unreadable(reason) => Err(Plain(ConfigError, "Ошибка загрузки конфигурации: " + reason))
    case Loaded(v) => Ok(if Truthy(v) then v else Dict([]))
  }

  /** `Config(config_path, config_dict)`: a non-empty path wins, then a
      non-empty dictionary, then the default configuration; the result must
      be a dictionary. */
  function NewConfig(configPath: Option<string>, configDict: Option<Value>, readFile: string -> FileRead)
    : (r: Result<seq<Entry>, Error>)
    ensures r.Err? ==> r.error.Plain? && r.error.cls == ConfigError
    ensures Filled(configPath) && r.Ok? ==> readFile(configPath.value).Loaded?
    ensures !Filled(configPath) && configDict.Some? && Truthy(configDict.value) ==>
      (r.Ok? <==> configDict.value.Dict?) && (r.Ok? ==> r.value == configDict.value.entries)
    ensures !Filled(configPath) && (configDict.None? || !Truthy(configDict.value)) ==> r == Ok(DefaultConfig.entries)
  {
    var source :-
      if Filled(configPath) then LoadFromFile(configPath.value, readFile(configPath.value))
      else if configDict.Some? && Truthy(configDict.value) then Ok(configDict.value)
      else Ok(DefaultConfig);
    if source.Dict? then Ok(source.entries) else Err(Plain(ConfigError, "Конфигурация должна быть словарем"))
  }

  /** A given path decides alone: the dictionary argument is ignored. */
  lemma PathWins(path: string, d1: Option<Value>, d2: Option<Value>, readFile: string -> FileRead)
    requires path != ""
    ensures NewConfig(Some(path), d1, readFile) == NewConfig(Some(path), d2, readFile)
  {
  }

  /** An empty dictionary yields the defaults, as no dictionary does. */
  lemma EmptyDictIsDefault(readFile: string -> FileRead)
    ensures NewConfig(None, Some(Dict([])), readFile) == NewConfig(None, None, readFile)
    ensures NewConfig(None, None, readFile) == Ok(DefaultConfig.entries)
  {
  }

  // ---------------------------------------------------------------- generation settings

  datatype LLMSettings = LLMSettings(
    provider: Value, model: Value, maxTokens: Value, timeout: Value, maxRetries: Value, url: Value)

  datatype GenerationSettings = GenerationSettings(
    qualityLevel: Value, codeStyle: Value, includeComments: Value, detailLevel: Value, llm: LLMSettings,
    validateCode: Value, formatCode: Value, formatStyle: Value, overwriteExisting: Value,
    generatePageObjects: Value, generateFixtures: Value, useCdp: Value)

  /** The `llm` part read from the provider and `ollama` sections. */
  function ReadLLM(llm: seq<Entry>, ollama: seq<Entry>): LLMSettings {
    LLMSettings(
      GetOr(llm, "provider", Str("ollama")),
      GetOr(ollama, "model", Str("codellama:13b")),
      GetOr(ollama, "max_tokens", Int(4000)),
      GetOr(ollama, "timeout", Int(300)),
      GetOr(ollama, "max_retries", Int(3)),
      GetOr(ollama, "url", Str(DefaultOllamaUrl)))
  }

  function ReadGeneration(gen: seq<Entry>, llm: LLMSettings): GenerationSettings {
    GenerationSettings(
      GetOr(gen, "quality_level", Str("balanced")),
      GetOr(gen, "code_style", Str("standard")),
      GetOr(gen, "include_comments", Bool(true)),
      GetOr(gen, "detail_level", Str("medium")),
      llm,
      GetOr(gen, "validate_code", Bool(true)),
      GetOr(gen, "format_code", Bool(true)),
      GetOr(gen, "format_style", Str("black")),
      GetOr(gen, "overwrite_existing", Bool(false)),
      GetOr(gen, "generate_page_objects", Bool(true)),
      GetOr(gen, "generate_fixtures", Bool(true)),
      GetOr(gen, "use_cdp", Bool(false)))
  }

  /** The three sections `get_generation_config` reads are dictionaries
      (absent ones count as `{}`); otherwise `.get` raises `AttributeError`. */
  predicate SectionsAreDicts(c: seq<Entry>) {
    GetOr(c, "llm", Dict([])).Dict? && GetOr(c, "generation", Dict([])).Dict?
    && GetOr(GetOr(c, "llm", Dict([])).entries, "ollama", Dict([])).Dict?
  }

  /** The bounds `LLMConfig` declares on its integer fields, checked on the
      settings that are integers. */
  predicate LLMIntsInBounds(s: LLMSettings) {
    && (s.maxTokens.Int? ==> 100 <= s.maxTokens.i <= 32000)
    && (s.timeout.Int? ==> s.timeout.i >= 10)
    && (s.maxRetries.Int? ==> 0 <= s.maxRetries.i <= 10)
  }

  const QualityValues := ["fast", "balanced", "high"]
  const CodeStyleValues := ["standard", "compact", "verbose"]

  /** A value a `str` enum accepts: the value of one of its members. */
  predicate EnumValue(v: Value, values: seq<string>) {
    v.Str? && v.s in values
  }

  /** The settings pydantic accepts: integers within their bounds and
      enum fields holding member values. */
  predicate SettingsValid(s: GenerationSettings) {
    LLMIntsInBounds(s.llm) && EnumValue(s.qualityLevel, QualityValues) && EnumValue(s.codeStyle, CodeStyleValues)
  }

  /** The `llm` section and its `ollama` subsection are dictionaries
      (absent ones count as `{}`). */
  predicate LLMSectionsAreDicts(c: seq<Entry>) {
    GetOr(c, "llm", Dict([])).Dict? && GetOr(GetOr(c, "llm", Dict([])).entries, "ollama", Dict([])).Dict?
  }

  /** The LLM settings read out of the `llm` section and its `ollama` subsection. */
  function LLMOf(c: seq<Entry>): LLMSettings
    requires LLMSectionsAreDicts(c)
  {
    var llm := GetOr(c, "llm", Dict([])).entries;
    ReadLLM(llm, GetOr(llm, "ollama", Dict([])).entries)
  }

  /** `get_generation_config()`: every key falls back to its own default.
      The steps fail in source order: the `llm` and `ollama` lookups
      (`AttributeError` on a non-dictionary), the construction of
      `LLMConfig` (`ValidationError` on an integer out of bounds), the
      lookups in the generation section (`AttributeError`), and the
      construction of `GenerationConfig` (`ValidationError` on an unknown
      enum value). */
  function GetGenerationConfig(c: seq<Entry>): (r: Result<GenerationSettings, string>)
    ensures !LLMSectionsAreDicts(c) ==> r == Err("AttributeError")
    ensures LLMSectionsAreDicts(c) && !LLMIntsInBounds(LLMOf(c)) ==> r == Err("ValidationError")
    ensures LLMSectionsAreDicts(c) && LLMIntsInBounds(LLMOf(c)) && !GetOr(c, "generation", Dict([])).Dict? ==>
      r == Err("AttributeError")
    ensures r.Ok? ==> SectionsAreDicts(c) && SettingsValid(r.value) && r.value.llm == LLMOf(c)
    ensures SectionsAreDicts(c) ==> r.Ok? || r == Err("ValidationError")
  {
    var gen := GetOr(c, "generation", Dict([]));
    var llm := GetOr(c, "llm", Dict([]));
    if !llm.Dict? then Err("AttributeError")
    else
      var ollama := GetOr(llm.entries, "ollama", Dict([]));
      if !ollama.Dict? then Err("AttributeError")
      else
        var settings := ReadLLM(llm.entries, ollama.entries);
        if !LLMIntsInBounds(settings) then Err("ValidationError")
        else if !gen.Dict? then Err("AttributeError")
        else
          var s := ReadGeneration(gen.entries, settings);
          if SettingsValid(s) then Ok(s) else Err("ValidationError")
  }

  /** When the three integer settings are integers and the enum fields hold
      member values, the settings are accepted exactly when the bounds check
      of `LLMConfig` passes on those integers. */
  lemma GenerationBoundsAgree(c: seq<Entry>, llm: seq<Entry>, ollama: seq<Entry>, gen: seq<Entry>, tokens: int, timeout: int, retries: int)
    ensures GetOr(c, "llm", Dict([])) == Dict(llm) && GetOr(llm, "ollama", Dict([])) == Dict(ollama)
      && GetOr(c, "generation", Dict([])) == Dict(gen)
      && EnumValue(GetOr(gen, "quality_level", Str("balanced")), QualityValues)
      && EnumValue(GetOr(gen, "code_style", Str("standard")), CodeStyleValues)
      && GetOr(ollama, "max_tokens", Int(4000)) == Int(tokens)
      && GetOr(ollama, "timeout", Int(300)) == Int(timeout)
      && GetOr(ollama, "max_retries", Int(3)) == Int(retries)
      ==> (GetGenerationConfig(c).Ok?
           <==> ValidateLLMConfig(DefaultLLMConfig.(maxTokens := tokens, timeout := timeout, maxRetries := retries)).Ok?)
  {
    if GetOr(c, "llm", Dict([])) == Dict(llm) && GetOr(llm, "ollama", Dict([])) == Dict(ollama)
      && GetOr(c, "generation", Dict([])) == Dict(gen)
    {
      var s := ReadGeneration(gen, ReadLLM(llm, ollama));
      assert GetGenerationConfig(c) == (if SettingsValid(s) then Ok(s) else Err("ValidationError"));
    }
  }

  /** `max_retries: 50` under `llm.ollama` is rejected, since the field is
      bounded by 10. */
  lemma RetriesOutOfBoundsRejected()
    ensures GetGenerationConfig([Entry("llm", Dict([Entry("ollama", Dict([Entry("max_retries", Int(50))]))]))])
      == Err("ValidationError")
  {
    var ollama := [Entry("max_retries", Int(50))];
    var llm := [Entry("ollama", Dict(ollama))];
    var c := [Entry("llm", Dict(llm))];
    assert Map(c, Key) == ["llm"] && Map(llm, Key) == ["ollama"] && Map(ollama, Key) == ["max_retries"];
    assert GetOr(ollama, "max_retries", Int(3)) == Int(50);
  }

  /** An out-of-bounds `max_retries` is reported before the generation
      section is looked at, even when that section is not a dictionary. */
  lemma LLMValidatedBeforeGeneration()
    ensures GetGenerationConfig([Entry("generation", Int(5)),
      Entry("llm", Dict([Entry("ollama", Dict([Entry("max_retries", Int(50))]))]))])
      == Err("ValidationError")
  {
    var ollama := [Entry("max_retries", Int(50))];
    var llm := [Entry("ollama", Dict(ollama))];
    var c := [Entry("generation", Int(5)), Entry("llm", Dict(llm))];
    assert Map(c, Key) == ["generation", "llm"] && Map(llm, Key) == ["ollama"] && Map(ollama, Key) == ["max_retries"];
    assert GetOr(c, "llm", Dict([])) == Dict(llm);
    assert GetOr(ollama, "max_retries", Int(3)) == Int(50);
  }

  /** Without the two sections every setting is its default, and the
      defaults are those of the settings models themselves. */
  lemma GenerationDefaults(c: seq<Entry>)
    requires "generation" !in Map(c, Key) && "llm" !in Map(c, Key)
    ensures GetGenerationConfig(c).Ok?
    ensures var s := GetGenerationConfig(c).value;
      && s.llm.model == Str(DefaultLLMConfig.model)
      && s.llm.provider == Str(DefaultLLMConfig.provider)
      && s.llm.maxTokens == Int(DefaultLLMConfig.maxTokens)
      && s.llm.timeout == Int(DefaultLLMConfig.timeout)
      && s.llm.maxRetries == Int(DefaultLLMConfig.maxRetries)
      && s.llm.url == Str(DefaultOllamaUrl)
      && s.validateCode == Bool(DefaultGenerationConfig.validateCode)
      && s.formatCode == Bool(DefaultGenerationConfig.formatCode)
      && s.formatStyle == Str(DefaultGenerationConfig.formatStyle.value)
      && s.overwriteExisting == Bool(DefaultGenerationConfig.overwriteExisting)
      && s.useCdp == Bool(DefaultGenerationConfig.useCdp)
  {
    DefaultsAccepted(c);
  }

  lemma DefaultsAccepted(c: seq<Entry>)
    requires "generation" !in Map(c, Key) && "llm" !in Map(c, Key)
    ensures GetGenerationConfig(c) == Ok(ReadGeneration([], ReadLLM([], [])))
  {
    assert Map([], Key) == [];
    assert GetOr(c, "llm", Dict([])) == Dict([]) && GetOr(c, "generation", Dict([])) == Dict([]);
    DefaultsValid();
  }

  lemma DefaultsValid()
    ensures LLMIntsInBounds(ReadLLM([], [])) && SettingsValid(ReadGeneration([], ReadLLM([], [])))
  {
    assert Map([], Key) == [];
    assert "balanced" in QualityValues && "standard" in CodeStyleValues;
  }

  /** A model named in the `ollama` section is the model used. */
  lemma ModelOverride(c: seq<Entry>, llm: seq<Entry>, ollama: seq<Entry>, model: Value)
    ensures Lookup(c, "llm") == Some(Dict(llm)) && Lookup(llm, "ollama") == Some(Dict(ollama))
      && Lookup(ollama, "model") == Some(model) && GetGenerationConfig(c).Ok?
      ==> GetGenerationConfig(c).value.llm.model == model
  {
  }

  // ---------------------------------------------------------------- output path

  /** `get_output_path()`: `./generated_tests` unless the generation
      section names another path. */
  function GetOutputPath(c: seq<Entry>): (r: Result<string, string>)
    ensures "generation" !in Map(c, Key) ==> r == Ok(DefaultOutputPath)
    ensures r.Ok? ==> GetOr(c, "generation", Dict([])).Dict?
  {
    var gen := GetOr(c, "generation", Dict([]));
    if !gen.Dict? then Err("AttributeError")
    else
      assert Map([], Key) == [];
      match GetOr(gen.entries, "output_path", Str(DefaultOutputPath))
      case Str(s) => Ok(s)
      case PathV(p) => Ok(p)
      case _ => Err("TypeError")
  }

  lemma DefaultConfigOutputPath()
    ensures GetOutputPath(DefaultConfig.entries) == Ok(DefaultOutputPath)
  {
    assert DefaultConfig.entries[1].key == "generation";
    assert |"llm"| != |"generation"|;
  }

  /** `get_logging_config()`: the logging section as written, `{}` when
      there is none. */
  function GetLoggingConfig(c: seq<Entry>): (r: Value)
    ensures "logging" !in Map(c, Key) ==> r == Dict([])
    ensures "logging" in Map(c, Key) ==> Lookup(c, "logging") == Some(r)
  {
    GetOr(c, "logging", Dict([]))
  }

  lemma DefaultLoggingLevel()
    ensures Lookup(GetLoggingConfig(DefaultConfig.entries).entries, "level") == Some(Str("INFO"))
  {
    assert DefaultConfig.entries[2].key == "logging";
    assert DefaultConfig.entries[0].key != "logging" && DefaultConfig.entries[1].key != "logging";
  }

  // ---------------------------------------------------------------- repository context

  /** `os.getenv(name)`. */
  function GetEnv(env: map<string, string>, name: string): Option<string> {
    if name in env then Some(env[name]) else None
  }

  predicate IsPlaceholder(token: string) {
    StartsWith(token, "${") && EndsWith(token, "}")
  }

  /** The token of the `auth` section: `${NAME}` stands for the environment
      variable NAME (`None` when unset); any other token is itself. */
  function ResolveToken(token: string, env: map<string, string>): (r: Option<string>)
    ensures !IsPlaceholder(token) ==> r == Some(token)
  {
    if IsPlaceholder(token) then
      assert token[1] == '{' && token[|token| - 1] == '}';
      GetEnv(env, token[2..|token| - 1])
    else Some(token)
  }

  /** Writing `${NAME}` reads the variable NAME. */
  lemma PlaceholderResolved(name: string, env: map<string, string>)
    ensures ResolveToken("${" + name + "}", env) == GetEnv(env, name)
  {
    var t := "${" + name + "}";
    assert t[..2] == "${" && t[|t| - 1..] == "}";
    assert t[2..|t| - 1] == name;
  }

  /** `project_path.rstrip(".git")` as written: it strips any trailing run of
      the characters '.', 'g', 'i', 't', not the suffix ".git". */
  function RepositoryUrlAsWritten(gitlabUrl: string, projectPath: string): (r: string)
    ensures var head := RStripChars(gitlabUrl, {'/'}) + "/";
      && |head| + 4 <= |r| && r[..|head|] == head && r[|r| - 4..] == ".git"
      && var mid := r[|head|..|r| - 4];
      && mid <= projectPath && (|mid| == 0 || mid[|mid| - 1] !in {'.', 'g', 'i', 't'})
  {
    var head := RStripChars(gitlabUrl, {'/'}) + "/";
    var mid := RStripChars(projectPath, {'.', 'g', 'i', 't'});
    var r := head + mid + ".git";
    assert r[..|head|] == head && r[|r| - 4..] == ".git" && r[|head|..|r| - 4] == mid;
    r
  }

  /** `cfg.git` loses its last letter as well as the suffix. */
  lemma RStripEatsProjectName()
    ensures RepositoryUrlAsWritten("h", "cfg.git") == "h/cf.git"
    ensures RepositoryUrl("h", "cfg.git") == "h/cfg.git"
  {
    StripCfgGit();
    StripServerH();
    assert EndsWith("cfg.git", ".git") && "cfg.git"[..3] == "cfg";
  }

  lemma StripCfgGit()
    ensures RStripChars("cfg.git", {'.', 'g', 'i', 't'}) == "cf"
  {
    var s := "cfg.git";
    assert s[1] == 'f' && s[2] == 'g' && s[3] == '.' && s[4] == 'g' && s[5] == 'i' && s[6] == 't';
    RStripCharsIs(s, {'.', 'g', 'i', 't'}, 2);
    assert s[..2] == "cf";
  }

  lemma StripServerH()
    ensures RStripChars("h", {'/'}) == "h"
  {
  }

  /** The project path without one trailing ".git". */
  function RemoveGitSuffix(p: string): (r: string)
    ensures r + ".git" == p || (r == p && !EndsWith(p, ".git"))
  {
    if EndsWith(p, ".git") then
      assert p == p[..|p| - 4] + p[|p| - 4..];
      p[..|p| - 4]
    else p
  }

  /** The URL built from `gitlab_url` and `project_path`: the server without
      trailing slashes, "/", the project without ".git", then ".git". */
  function RepositoryUrl(gitlabUrl: string, projectPath: string): (r: string)
    ensures EndsWith(r, ".git")
    ensures StartsWith(r, RStripChars(gitlabUrl, {'/'}) + "/")
  {
    var r := RStripChars(gitlabUrl, {'/'}) + "/" + RemoveGitSuffix(projectPath) + ".git";
    assert r[|r| - 4..] == ".git";
    assert r[..|RStripChars(gitlabUrl, {'/'}) + "/"|] == RStripChars(gitlabUrl, {'/'}) + "/";
    r
  }

  /** The project path survives: with or without ".git" it gives one URL,
      and that URL ends with the path and ".git". */
  lemma RepositoryUrlKeepsProject(gitlabUrl: string, project: string)
    requires !EndsWith(project, ".git")
    ensures RepositoryUrl(gitlabUrl, project + ".git") == RepositoryUrl(gitlabUrl, project)
    ensures EndsWith(RepositoryUrl(gitlabUrl, project), project + ".git")
  {
    var p := project + ".git";
    assert EndsWith(p, ".git") && p[..|p| - 4] == project;
    var r := RepositoryUrl(gitlabUrl, project);
    assert r == RStripChars(gitlabUrl, {'/'}) + "/" + project + ".git";
    assert r[|r| - |project + ".git"|..] == project + ".git";
  }

  /** The two rules agree on a project path that does not end with one of
      the stripped characters. */
  lemma AsWrittenAgrees(gitlabUrl: string, project: string)
    requires |project| == 0 || project[|project| - 1] !in {'.', 'g', 'i', 't'}
    ensures RepositoryUrlAsWritten(gitlabUrl, project) == RepositoryUrl(gitlabUrl, project)
  {
  }

  /** A string setting: absent or null is `None`; anything but a string is
      rejected by the settings model. */
  function TextField(v: Value): (r: Result<Option<string>, string>)
    ensures v.Str? ==> r == Ok(Some(v.s))
    ensures v.Null? ==> r == Ok(None)
  {
    match v
    case Null => Ok(None)
    case Str(s) => Ok(Some(s))
    case _ => Err("ValidationError")
  }

  /** A list of patterns: absent or null is `None`. */
  function PatternsField(v: Value): Result<Option<seq<string>>, string> {
    match v
    case Null => Ok(None)
    case List(items) =>
      if forall i :: 0 <= i < |items| ==> items[i].Str? then Ok(Some(Map(items, (x: Value) => if x.Str? then x.s else "")))
      else Err("ValidationError")
    case _ => Err("ValidationError")
  }

  /** The token after `${NAME}` substitution; a false-like token is kept
      as it is, a true-like one that is not a string has no `startswith`. */
  function TokenOf(auth: seq<Entry>, env: map<string, string>): (r: Result<Option<string>, string>)
    ensures r.Err? <==> !GetOr(auth, "token", Null).Null? && !GetOr(auth, "token", Null).Str?
    ensures GetOr(auth, "token", Null) == Str("") ==> r == Ok(Some(""))
    ensures GetOr(auth, "token", Null).Str? && GetOr(auth, "token", Null).s != "" ==>
      r == Ok(ResolveToken(GetOr(auth, "token", Null).s, env))
  {
    var token := GetOr(auth, "token", Null);
    if !Truthy(token) then TextField(token)
    else if token.Str? then Ok(ResolveToken(token.s, env))
    else Err("AttributeError")
  }

  /** `Path(d[key]) if d.get(key) else None`. */
  function PathField(d: seq<Entry>, key: string): Result<Option<string>, string> {
    var v := GetOr(d, key, Null);
    if !Truthy(v) then Ok(None)
    else if v.Str? then Ok(Some(v.s))
    else Err("TypeError")
  }

  /** The repository URL: the one given, else the assembled one when the
      server and project are given. */
  function UrlOf(url: Option<string>, gitlab: Option<string>, project: Option<string>): (r: Option<string>)
    ensures url.Some? && url.value != "" ==> r == url
    ensures (url.None? || url.value == "") && gitlab.Some? && gitlab.value != "" && project.Some? && project.value != ""
      ==> r == Some(RepositoryUrl(gitlab.value, project.value))
  {
    if gitlab.Some? && gitlab.value != "" && project.Some? && project.value != "" && (url.None? || url.value == "")
    then Some(RepositoryUrl(gitlab.value, project.value))
    else url
  }

  /** The repository URL of a `repository` section: its `url`, or the one
      assembled from `gitlab_url` and `project_path`. */
  function UrlField(d: seq<Entry>): (r: Result<Option<string>, string>)
    ensures r.Ok? <==>
      TextField(GetOr(d, "url", Null)).Ok? && TextField(GetOr(d, "gitlab_url", Null)).Ok?
      && TextField(GetOr(d, "project_path", Null)).Ok?
    ensures r.Ok? && r.value.Some? ==> GetOr(d, "url", Null) == Str(r.value.value) || EndsWith(r.value.value, ".git")
  {
    var url :- TextField(GetOr(d, "url", Null));
    var gitlab :- TextField(GetOr(d, "gitlab_url", Null));
    var project :- TextField(GetOr(d, "project_path", Null));
    Ok(UrlOf(url, gitlab, project))
  }

  /** Without a `url`, a server and project give the assembled URL. */
  lemma UrlFieldAssembled(d: seq<Entry>, g: string, p: string)
    ensures Lookup(d, "gitlab_url") == Some(Str(g)) && g != ""
      && Lookup(d, "project_path") == Some(Str(p)) && p != ""
      && "url" !in Map(d, Key)
      ==> UrlField(d) == Ok(Some(RepositoryUrl(g, p)))
  {
  }

  /** A non-empty string token is resolved. */
  lemma TokenResolved(auth: seq<Entry>, env: map<string, string>, t: string)
    requires Lookup(auth, "token") == Some(Str(t)) && t != ""
    ensures TokenOf(auth, env) == Ok(ResolveToken(t, env))
  {
  }

  /** The remaining fields of the context. */
  datatype OtherFields = OtherFields(
    repoType: string, authType: Option<string>, sshKey: Option<string>, indexPath: Option<string>,
    autoIndex: bool, includes: Option<seq<string>>, excludes: Option<seq<string>>,
    branch: Option<string>, commit: Option<string>)

  function ReadOtherFields(d: seq<Entry>, auth: seq<Entry>): Result<OtherFields, string> {
    var repoType := GetOr(d, "type", Str("gitlab"));
    var authType := TextField(GetOr(auth, "type", Null));
    var sshKey := PathField(auth, "ssh_key");
    var indexPath := PathField(d, "index_path");
    var autoIndex := GetOr(d, "auto_index", Bool(false));
    var includes := PatternsField(GetOr(d, "include_patterns", Null));
    var excludes := PatternsField(GetOr(d, "exclude_patterns", Null));
    var branch := TextField(GetOr(d, "branch", Null));
    var commit := TextField(GetOr(d, "commit", Null));
    if authType.Err? || sshKey.Err? || indexPath.Err? || includes.Err? || excludes.Err? || branch.Err?
      || commit.Err? || !repoType.Str? || !autoIndex.Bool?
    then Err("ValidationError")
    else Ok(OtherFields(repoType.s, authType.value, sshKey.value, indexPath.value, autoIndex.b,
      includes.value, excludes.value, branch.value, commit.value))
  }

  /** The context built from a non-empty `repository` section `d` and its
      `auth` section; `Err` for a value the settings model rejects. */
  function BuildContext(d: seq<Entry>, auth: seq<Entry>, env: map<string, string>)
    : (r: Result<RepositoryContext, string>)
    ensures r.Ok? ==> TokenOf(auth, env) == Ok(r.value.authToken)
    ensures r.Ok? ==> UrlField(d) == Ok(r.value.repositoryUrl)
  {
    var token :- TokenOf(auth, env);
    var url :- UrlField(d);
    var gitlab := TextField(GetOr(d, "gitlab_url", Null)).value;
    var project := TextField(GetOr(d, "project_path", Null)).value;
    var o :- ReadOtherFields(d, auth);
    Ok(RepositoryContext(url, None, o.repoType, gitlab, project, o.authType, token, o.sshKey,
      o.indexPath, o.autoIndex, o.includes, o.excludes, o.branch, o.commit))
  }

  /** `get_repository_context()`: `None` when the section is missing or
      empty; a section or `auth` entry that is not a dictionary raises
      `AttributeError`. */
  function GetRepositoryContext(c: seq<Entry>, env: map<string, string>)
    : (r: Result<Option<RepositoryContext>, string>)
    ensures r == Ok(None) <==> !Truthy(GetOr(c, "repository", Null))
    ensures r.Ok? && r.value.Some? ==>
      (GetOr(c, "repository", Null).Dict? && GetOr(GetOr(c, "repository", Null).entries, "auth", Dict([])).Dict?
       && Ok(r.value.value) == BuildContext(GetOr(c, "repository", Null).entries,
            GetOr(GetOr(c, "repository", Null).entries, "auth", Dict([])).entries, env))
  {
    var repo := GetOr(c, "repository", Null);
    if !Truthy(repo) then Ok(None)
    else if !repo.Dict? then Err("AttributeError")
    else
      var auth := GetOr(repo.entries, "auth", Dict([]));
      if !auth.Dict? then Err("AttributeError")
      else
        var ctx :- BuildContext(repo.entries, auth.entries, env);
        Ok(Some(ctx))
  }

  /** The resolved token is the one the context carries. */
  lemma TokenReachesContext(c: seq<Entry>, env: map<string, string>, d: seq<Entry>, auth: seq<Entry>, t: string)
    ensures Lookup(c, "repository") == Some(Dict(d)) && |d| > 0
      && Lookup(d, "auth") == Some(Dict(auth)) && Lookup(auth, "token") == Some(Str(t)) && t != ""
      && GetRepositoryContext(c, env).Ok?
      ==> (GetRepositoryContext(c, env).value.Some?
           && GetRepositoryContext(c, env).value.value.authToken == ResolveToken(t, env))
  {
    ContextOfSection(c, env, d);
    if Lookup(auth, "token") == Some(Str(t)) && t != "" {
      TokenResolved(auth, env, t);
    }
  }

  /** Without a `url`, the server and project give the context's URL. */
  lemma UrlReachesContext(c: seq<Entry>, env: map<string, string>, d: seq<Entry>, g: string, p: string)
    ensures Lookup(c, "repository") == Some(Dict(d)) && |d| > 0
      && Lookup(d, "gitlab_url") == Some(Str(g)) && g != ""
      && Lookup(d, "project_path") == Some(Str(p)) && p != ""
      && "url" !in Map(d, Key)
      && GetRepositoryContext(c, env).Ok?
      ==> (GetRepositoryContext(c, env).value.Some?
           && GetRepositoryContext(c, env).value.value.repositoryUrl == Some(RepositoryUrl(g, p)))
  {
    ContextOfSection(c, env, d);
    UrlFieldAssembled(d, g, p);
  }

  /** A non-empty `repository` dictionary yields a context built from it. */
  lemma ContextOfSection(c: seq<Entry>, env: map<string, string>, d: seq<Entry>)
    ensures Lookup(c, "repository") == Some(Dict(d)) && |d| > 0 && GetRepositoryContext(c, env).Ok?
      ==> (GetRepositoryContext(c, env).value.Some?
           && var auth := GetOr(d, "auth", Dict([]));
           auth.Dict? && BuildContext(d, auth.entries, env) == Ok(GetRepositoryContext(c, env).value.value))
  {
    if Lookup(c, "repository") == Some(Dict(d)) {
      assert GetOr(c, "repository", Null) == Dict(d);
    }
  }

  /** The default configuration has no repository section. */
  lemma DefaultConfigHasNoRepository(env: map<string, string>)
    ensures GetRepositoryContext(DefaultConfig.entries, env) == Ok(None)
  {
    var es := DefaultConfig.entries;
    assert |"llm"| != |"repository"| && "generation"[0] != "repository"[0] && |"logging"| != |"repository"|;
    assert Map(es, Key) == ["llm", "generation", "logging"];
  }
}

=== FILE: connector.dfy ===
/** `RepositoryConnector`: a local checkout is used when a path is given,
    otherwise the repository is cloned into a temporary directory, with an
    access token written into the clone URL. The file system checks, the
    availability of GitPython, the temporary directory, the clone and the
    checkout are parameters. */
module Connector {
  import opened Wrappers
  import opened PyStr
  import opened Exceptions
  import opened TestModels
  import Config

  datatype Connector = Connector(context: RepositoryContext, localPath: Option<string>, tempDir: Option<string>)

  /** The outside world as the connector sees it. */
  datatype Environment = Environment(
    pathExists: string -> bool,
    gitAvailable: bool,
    tempPath: string,
    cloneFrom: (string, string) -> Option<string>,
    checkout: string -> Option<string>)

  function ConnectionError(message: string): (e: Error)
    ensures e.cls == RepositoryConnectionError
  {
    Plain(RepositoryConnectionError, message)
  }

  // ---------------------------------------------------------------- token injection

  /** `s.split("/", 1)`: the text before the first "/" and, when there is
      one, the text after it. */
  function SplitOnce(s: string): (r: (string, Option<string>))
    ensures r.1.None? ==> r.0 == s
    ensures r.1.Some? ==> r.0 + "/" + r.1.value == s
    ensures r.1.None? <==> '/' !in s
  {
    ContainsChar(s, '/');
    match Find(s, "/")
    case None => (s, None)
    case Some(i) =>
      assert s[i..][..1] == "/";
      assert s == s[..i] + "/" + s[i + 1..];
      (s[..i], Some(s[i + 1..]))
  }

  predicate HasToken(ctx: RepositoryContext) {
    ctx.authType == Some("token") && Filled(ctx.authToken)
  }

  predicate GitLabLike(url: string, ctx: RepositoryContext) {
    Contains(Lower(url), "gitlab") || ctx.repositoryType == "gitlab"
  }

  /** The token rewrite, given the URL with its scheme removed (`rest`):
      GitLab's `oauth2:TOKEN@` form, GitHub's `TOKEN@` form (which needs a
      "/" after the host), and nothing for other hosts or schemes. */
  function InjectWith(url: string, ctx: RepositoryContext, rest: string): (r: Result<string, string>)
    requires HasToken(ctx)
    ensures !StartsWith(url, "https://") ==> r == Ok(url)
    ensures StartsWith(url, "https://") && GitLabLike(url, ctx) ==>
      r == Ok("https://oauth2:" + ctx.authToken.value + "@" + rest)
    ensures StartsWith(url, "https://") && !GitLabLike(url, ctx) && Contains(Lower(url), "github") ==>
      (r.Ok? <==> '/' in rest) && (r.Ok? ==> r.value == "https://" + ctx.authToken.value + "@" + rest)
    ensures !GitLabLike(url, ctx) && !Contains(Lower(url), "github") ==> r == Ok(url)
    ensures r.Err? ==> r.error == "list index out of range"
  {
    var token := ctx.authToken.value;
    var parts := SplitOnce(rest);
    if GitLabLike(url, ctx) then
      if !StartsWith(url, "https://") then Ok(url)
      else if parts.1.Some? then
        Regroup("https://oauth2:" + token + "@", parts.0, parts.1.value);
        Ok("https://oauth2:" + token + "@" + parts.0 + "/" + parts.1.value)
      else Ok("https://oauth2:" + token + "@" + parts.0)
    else if Contains(Lower(url), "github") && StartsWith(url, "https://") then
      if parts.1.Some? then
        Regroup("https://" + token + "@", parts.0, parts.1.value);
        Ok("https://" + token + "@" + parts.0 + "/" + parts.1.value)
      else Err("list index out of range")
    else Ok(url)
  }

  lemma Regroup(a: string, host: string, path: string)
    ensures a + host + "/" + path == a + (host + "/" + path)
  {
  }

  /** The authenticated clone URL: the credentials go right after
      "https://" and the rest of the URL is kept; `Err` carries the message of
      the `IndexError` a GitHub URL with nothing after the host raises. */
  function InjectToken(url: string, ctx: RepositoryContext): (r: Result<string, string>)
    ensures !HasToken(ctx) ==> r == Ok(url)
    ensures !StartsWith(url, "https://") ==> r == Ok(url)
    ensures HasToken(ctx) && StartsWith(url, "https://") && GitLabLike(url, ctx) ==>
      r == Ok("https://oauth2:" + ctx.authToken.value + "@" + url[8..])
    ensures HasToken(ctx) && StartsWith(url, "https://") && !GitLabLike(url, ctx) && Contains(Lower(url), "github") ==>
      (r.Ok? <==> '/' in url[8..]) && (r.Ok? ==> r.value == "https://" + ctx.authToken.value + "@" + url[8..])
    ensures HasToken(ctx) && !GitLabLike(url, ctx) && !Contains(Lower(url), "github") ==> r == Ok(url)
    ensures r.Err? ==> r.error == "list index out of range"
  {
    if !HasToken(ctx) then Ok(url)
    else InjectWith(url, ctx, if StartsWith(url, "https://") then url[8..] else url)
  }

  /** As written, the scheme is removed with `replace("https://", "")`,
      which also deletes every later "https://" in the URL. */
  function InjectTokenAsWritten(url: string, ctx: RepositoryContext): (r: Result<string, string>)
    ensures !HasToken(ctx) ==> r == Ok(url)
    ensures HasToken(ctx) && StartsWith(url, "https://") && GitLabLike(url, ctx) ==>
      r == Ok("https://oauth2:" + ctx.authToken.value + "@" + ReplaceAll(url, "https://", ""))
  {
    if !HasToken(ctx) then Ok(url) else InjectWith(url, ctx, ReplaceAll(url, "https://", ""))
  }

  /** `"a/https://x".replace("https://", "")` is "a/x". */
  lemma ReplaceInTail()
    ensures ReplaceAll("a/https://x", "https://", "") == "a/x"
  {
    var tail := "a/https://x";
    FindFromAt(tail, "https://", 0, 2);
    assert tail[2 + 8..] == "x";
    assert ReplaceAll("x", "https://", "") == "x";
  }

  /** Removing every "https://" from "https://a/https://x" leaves "a/x". */
  lemma ReplaceRemovesBoth()
    ensures ReplaceAll("https://a/https://x", "https://", "") == "a/x"
  {
    var url := "https://a/https://x";
    assert StartsWith(url[0..], "https://");
    assert Find(url, "https://") == Some(0);
    assert url[8..] == "a/https://x";
    ReplaceInTail();
  }

  /** The GitLab rewrite for a server named by the context's type. */
  lemma GitLabRewrite(url: string, ctx: RepositoryContext, rest: string)
    requires HasToken(ctx) && ctx.repositoryType == "gitlab" && StartsWith(url, "https://")
    ensures InjectWith(url, ctx, rest) == Ok("https://oauth2:" + ctx.authToken.value + "@" + rest)
  {
  }

  /** The credentials "oauth2:T@" put in front of a scheme-less URL. */
  lemma OAuthPrefix(rest: string, expected: string)
    requires (rest == "a/x" && expected == "https://oauth2:T@a/x")
      || (rest == "a/https://x" && expected == "https://oauth2:T@a/https://x")
    ensures "https://oauth2:" + "T" + "@" + rest == expected
  {
  }

  /** "https://a/https://x" is the scheme followed by "a/https://x". */
  lemma EmbeddedSchemeUrl(url: string)
    requires url == "https://a/https://x"
    ensures StartsWith(url, "https://") && url[8..] == "a/https://x"
  {
    assert url[..8] == "https://";
  }

  /** As written, a URL that carries a second "https://" loses it:
      "https://a/https://x" is rewritten to "https://oauth2:T@a/x". */
  lemma ReplaceDropsEmbeddedScheme(ctx: RepositoryContext, url: string)
    requires ctx.authType == Some("token") && ctx.authToken == Some("T") && ctx.repositoryType == "gitlab"
    requires url == "https://a/https://x"
    ensures InjectTokenAsWritten(url, ctx) == Ok("https://oauth2:T@a/x")
  {
    EmbeddedSchemeUrl(url);
    ReplaceRemovesBoth();
    var rest := ReplaceAll(url, "https://", "");
    assert InjectTokenAsWritten(url, ctx) == InjectWith(url, ctx, rest);
    GitLabRewrite(url, ctx, rest);
    OAuthPrefix(rest, "https://oauth2:T@a/x");
  }

  /** With the scheme removed once, the second "https://" is kept. */
  lemma InjectTokenKeepsEmbeddedScheme(ctx: RepositoryContext, url: string)
    requires ctx.authType == Some("token") && ctx.authToken == Some("T") && ctx.repositoryType == "gitlab"
    requires url == "https://a/https://x"
    ensures InjectToken(url, ctx) == Ok("https://oauth2:T@a/https://x")
  {
    EmbeddedSchemeUrl(url);
    var rest := url[8..];
    assert InjectToken(url, ctx) == InjectWith(url, ctx, rest);
    GitLabRewrite(url, ctx, rest);
    OAuthPrefix(rest, "https://oauth2:T@a/https://x");
  }

  // ---------------------------------------------------------------- clone and connect

  /** The URL `_clone_repository` clones: the context's URL, else one
      assembled from the server and project, then the token rewrite. */
  function CloneUrl(ctx: RepositoryContext): (r: Result<string, string>)
    ensures r.Ok? ==> Filled(Config.UrlOf(ctx.repositoryUrl, ctx.gitlabUrl, ctx.projectPath))
  {
    var url := Config.UrlOf(ctx.repositoryUrl, ctx.gitlabUrl, ctx.projectPath);
    if !Filled(url) then Err("URL репозитория не указан (ни repository_url, ни gitlab_url+project_path)")
    else InjectToken(url.value, ctx)
  }

  /** `_clone_repository()`: every failure inside it is re-raised as
      "Не удалось клонировать репозиторий: <error>". */
  function CloneRepository(ctx: RepositoryContext, env: Environment): (r: Result<string, Error>)
    ensures r.Ok? ==> r.value == env.tempPath && env.gitAvailable
    ensures r.Err? ==> r.error.cls == RepositoryConnectionError
  {
    if !env.gitAvailable then Err(ConnectionError("GitPython не установлен. Установите: pip install GitPython"))
    else
      var failed := (e: string) => ConnectionError("Не удалось клонировать репозиторий: " + e);
      match CloneUrl(ctx)
      case Err(e) => Err(failed(e))
      case Ok(url) =>
        match env.cloneFrom(url, env.tempPath)
        case Some(e) => Err(failed(e))
        case None =>
          var target := if Filled(ctx.branch) then ctx.branch else if Filled(ctx.commit) then ctx.commit else None;
          if target.Some? && env.checkout(target.value).Some? then Err(failed(env.checkout(target.value).value))
          else Ok(env.tempPath)
  }

  const NotGitRepository := "Локальный путь не является Git репозиторием: "
  const NothingToConnect := "Не указан ни URL, ни локальный путь к репозиторию"

  /** `connect()`: a given local path wins and must be a Git checkout;
      otherwise a URL is cloned; with neither it fails. */
  function Connect(c: Connector, env: Environment): (r: (Result<string, Error>, Connector))
    ensures r.0.Err? ==> r.0.error.cls == RepositoryConnectionError
    ensures r.0.Ok? ==> r.1.localPath == Some(r.0.value)
    ensures r.0.Err? ==> r.1.localPath == c.localPath
    ensures r.1.context == c.context
    ensures Filled(c.context.repositoryPath) ==>
      (r.0.Ok? <==> env.pathExists(c.context.repositoryPath.value) && env.pathExists(c.context.repositoryPath.value + "/.git"))
    ensures Filled(c.context.repositoryPath) && r.0.Ok? ==> r.0.value == c.context.repositoryPath.value
    ensures !Filled(c.context.repositoryPath) && !Filled(c.context.repositoryUrl) ==> r.0.Err?
  {
    var ctx := c.context;
    // The callers turn an empty path into None before connecting, so an empty path is never passed here.
    if Filled(ctx.repositoryPath) then
      var path := ctx.repositoryPath.value;
      if env.pathExists(path) && env.pathExists(path + "/.git") then (Ok(path), c.(localPath := Some(path)))
      else (Err(ConnectionError(NotGitRepository + path)), c)
    else if Filled(ctx.repositoryUrl) then
      var c' := if env.gitAvailable then c.(tempDir := Some(env.tempPath)) else c;
      match CloneRepository(ctx, env)
      case Ok(p) => (Ok(p), c'.(localPath := Some(p)))
      case Err(e) => (Err(e), c')
    else (Err(ConnectionError(NothingToConnect)), c)
  }

  /** `connect` reaches the clone only with a URL, so the server and project
      fields alone never connect: the assembly inside the clone is unused. */
  lemma ServerAndProjectAloneFail(c: Connector, env: Environment)
    requires !Filled(c.context.repositoryPath) && !Filled(c.context.repositoryUrl)
    requires Filled(c.context.gitlabUrl) && Filled(c.context.projectPath)
    ensures Connect(c, env).0.Err?
    ensures Filled(Config.UrlOf(c.context.repositoryUrl, c.context.gitlabUrl, c.context.projectPath))
  {
  }

  /** With a URL and no path, a successful connection is the clone, and the
      clone URL carries the token rewrite. */
  lemma ConnectByUrl(c: Connector, env: Environment)
    requires !Filled(c.context.repositoryPath) && Filled(c.context.repositoryUrl)
    requires Connect(c, env).0.Ok?
    ensures Connect(c, env).0.value == env.tempPath
    ensures CloneUrl(c.context) == InjectToken(c.context.repositoryUrl.value, c.context)
    ensures Connect(c, env).1.tempDir == Some(env.tempPath)
  {
  }

  /** `disconnect()` always forgets the local path. */
  function Disconnect(c: Connector): (r: Connector)
    ensures r.localPath.None?
    ensures r.context == c.context && r.tempDir == c.tempDir
  {
    c.(localPath := None)
  }
}

=== FILE: exceptions.dfy ===
/** The library's exception hierarchy. Each exception class is a value of
    `ErrorClass`; `Base` is its direct base class and `IsA` is Python's
    `issubclass`. A raised exception carries its class, its message and,
    for the LLM family, the `error_type`/`retryable` fields. */
module Exceptions {
  import opened Wrappers

  datatype ErrorClass =
    | TestGeneratorError
    | ConfigError
    | ValidationError
    | TestCaseParseError
    | LLMError
    | LLMTimeoutError
    | LLMTemporaryError
    | CodeValidationError
    | OutputError
    | RepositoryConnectionError
    | RepositoryIndexError

  /** Distance from the root of the hierarchy. */
  function Depth(c: ErrorClass): nat {
    match c
    case TestGeneratorError => 0
    case LLMTimeoutError => 2
    case LLMTemporaryError => 2
    case _ => 1
  }

  /** The direct base class inside the library (the root has none). */
  function Base(c: ErrorClass): (r: Option<ErrorClass>)
    ensures r.None? <==> c == TestGeneratorError
    ensures r.Some? ==> Depth(r.value) + 1 == Depth(c)
  {
    match c
    case TestGeneratorError => None
    case LLMTimeoutError => Some(LLMError)
    case LLMTemporaryError => Some(LLMError)
    case _ => Some(TestGeneratorError)
  }

  /** `issubclass(c, base)`: `base` is `c` or one of its ancestors. */
  predicate IsA(c: ErrorClass, base: ErrorClass)
    decreases Depth(c)
  {
    c == base || (Base(c).Some? && IsA(Base(c).value, base))
  }

  /** Every library error derives from `TestGeneratorError`. */
  lemma {:induction false} EveryErrorIsLibraryError(c: ErrorClass)
    ensures IsA(c, TestGeneratorError)
    decreases Depth(c)
  {
    if c != TestGeneratorError {
      EveryErrorIsLibraryError(Base(c).value);
    }
  }

  /** An `except LLMError` clause catches exactly the three LLM classes. */
  lemma LLMFamily(c: ErrorClass)
    ensures IsA(c, LLMError) <==> c == LLMError || c == LLMTimeoutError || c == LLMTemporaryError
  {
  }

  /** `issubclass` is transitive. */
  lemma {:induction false} IsATransitive(a: ErrorClass, b: ErrorClass, c: ErrorClass)
    requires IsA(a, b) && IsA(b, c)
    ensures IsA(a, c)
    decreases Depth(a)
  {
    if a != b {
      IsATransitive(Base(a).value, b, c);
    }
  }

  /** A raised exception. `Plain` is every class whose constructor only
      takes a message; `Llm` carries the extra fields of `LLMError`, with
      the original exception reduced to its text. */
  datatype Error =
    | Plain(cls: ErrorClass, message: string)
    | Llm(cls: ErrorClass, message: string, errorType: string, retryable: bool, cause: Option<string>)

  /** Whether a retry loop may try again after this error. */
  predicate IsRetryable(e: Error) {
    e.Llm? && e.retryable
  }

  /** `LLMError(message, error_type="unknown", retryable=False, original_error=None)`. */
  function NewLLMError(message: string, errorType: string := "unknown", retryable: bool := false,
                       cause: Option<string> := None): (e: Error)
    ensures IsA(e.cls, LLMError) && e.message == message
    ensures e.Llm? && e.errorType == errorType && IsRetryable(e) == retryable
  {
    Llm(LLMError, message, errorType, retryable, cause)
  }

  /** `LLMTimeoutError(message="LLM request timeout")`: type "timeout", retryable. */
  function NewLLMTimeoutError(message: string := "LLM request timeout", cause: Option<string> := None): (e: Error)
    ensures IsA(e.cls, LLMError) && e.cls != LLMError && e.message == message
    ensures e.Llm? && e.errorType == "timeout" && IsRetryable(e)
  {
    Llm(LLMTimeoutError, message, "timeout", true, cause)
  }

  /** `LLMTemporaryError(message="Temporary LLM error")`: type "temporary", retryable. */
  function NewLLMTemporaryError(message: string := "Temporary LLM error", cause: Option<string> := None): (e: Error)
    ensures IsA(e.cls, LLMError) && e.cls != LLMError && e.message == message
    ensures e.Llm? && e.errorType == "temporary" && IsRetryable(e)
  {
    Llm(LLMTemporaryError, message, "temporary", true, cause)
  }

  /** The defaults of the LLM constructors when only the message (or
      nothing) is given. */
  lemma LLMDefaults(message: string)
    ensures NewLLMError(message).errorType == "unknown" && !IsRetryable(NewLLMError(message))
    ensures NewLLMTimeoutError().message == "LLM request timeout"
    ensures NewLLMTemporaryError().message == "Temporary LLM error"
  {
  }
}

=== FILE: generator.dfy ===
/** The generator's handling of a partitioned response: file assembly
    (`_generate_files`), the syntax report (`_validate_code`) and the URL
    search over a test case (`_extract_url_from_test_case`). */
module Generator {
  import opened Wrappers
  import opened Seqs
  import opened PyStr
  import opened PyAst
  import opened TestModels
  import opened Partition

  // ---------------------------------------------------------------- the Page class name

  /** `Page` occurs in `w` at position `q`. */
  predicate PageAt(w: string, q: int) {
    0 <= q && q + 4 <= |w| && w[q..q + 4] == "Page"
  }

  /** The greatest `q` with `1 <= q <= p` at which `Page` occurs in `w`. */
  function LastPageFrom(w: string, p: int): (r: Option<nat>)
    requires p <= |w|
    ensures r.Some? ==> 1 <= r.value <= p && PageAt(w, r.value)
    ensures r.Some? ==> forall q :: r.value < q <= p ==> !PageAt(w, q)
    ensures r.None? ==> forall q :: 1 <= q <= p ==> !PageAt(w, q)
    decreases p
  {
    if p < 1 then None
    else if PageAt(w, p) then Some(p)
    else LastPageFrom(w, p - 1)
  }

  /** The group of `class\s+(\w+Page)` matched at the start of `u`: the greedy
      `\w+` backs off to the last `Page` of the word after `class`. */
  function PageClassAt(u: string): (r: Option<string>)
    ensures r.Some? ==> |r.value| >= 5 && EndsWith(r.value, "Page")
    ensures r.Some? ==> forall k :: 0 <= k < |r.value| ==> IsWordChar(r.value[k])
  {
    if !StartsWith(u, "class") then None
    else
      var t := LStrip(u[5..]);
      if |t| == |u| - 5 then None
      else
        var w := WordRun(t);
        match LastPageFrom(w, |w|)
        case None => None
        case Some(p) =>
          assert w[..p + 4][p + 4 - 4..] == w[p..p + 4];
          Some(w[..p + 4])
  }

  /** `re.search(r"class\s+(\w+Page)", code[from:])`: the leftmost match. */
  function PageClassFrom(code: string, from: nat): (r: Option<string>)
    ensures r.Some? ==> exists i :: from <= i <= |code| && PageClassAt(code[i..]) == r
    ensures r.None? ==> forall i :: from <= i <= |code| ==> PageClassAt(code[i..]).None?
    decreases |code| - from
  {
    if from > |code| then None
    else if PageClassAt(code[from..]).Some? then PageClassAt(code[from..])
    else PageClassFrom(code, from + 1)
  }

  function PageClassName(code: string): Option<string> {
    PageClassFrom(code, 0)
  }

  /** A matched class name is a word ending in `Page`, found in the code. */
  lemma PageClassNameShape(code: string)
    ensures var r := PageClassName(code);
      r.Some? ==> (|r.value| >= 5 && EndsWith(r.value, "Page")
        && (forall k :: 0 <= k < |r.value| ==> IsWordChar(r.value[k]))
        && exists i :: 0 <= i <= |code| && PageClassAt(code[i..]) == r)
  {
  }

  // ---------------------------------------------------------------- file assembly

  /** `pages/<class name lowered>.py`, with `Page` when no class matched. */
  function PagePath(pageCode: string): string {
    "pages/" + Lower(PageClassName(pageCode).GetOr("Page")) + ".py"
  }

  function TestPath(caseId: string): string {
    "tests/test_" + Lower(caseId) + ".py"
  }

  /** `from pages.<lowered> import <Name>\n` */
  function PageImport(name: string): string {
    "from pages." + Lower(name) + " import " + name + "\n"
  }

  function PageFileContent(sec: Sections): (c: string)
    ensures EndsWith(c, sec.pageObject)
  {
    if sec.imports != "" then
      var c := sec.imports + "\n\n" + sec.pageObject;
      assert c[|c| - |sec.pageObject|..] == sec.pageObject;
      c
    else sec.pageObject
  }

  /** The class the test file imports: the first `...Page` class of the page
      code, if there is page code. */
  function PageClassOf(sec: Sections): Option<string> {
    if sec.pageObject != "" then PageClassName(sec.pageObject) else None
  }

  /** The test file's import block: the Page class import is added only when
      a class was matched. */
  function TestImports(imports: string, cls: Option<string>): (iwp: string)
    ensures cls.Some? ==> EndsWith(iwp, PageImport(cls.value))
    ensures cls.None? ==> iwp == imports
  {
    if cls.Some? then
      var pi := PageImport(cls.value);
      if imports != "" then
        var iwp := imports + "\n" + pi;
        assert iwp[|iwp| - |pi|..] == pi;
        iwp
      else pi
    else imports
  }

  function TestFileContent(imports: string, test: string, cls: Option<string>): (c: string)
    ensures EndsWith(c, test)
    ensures cls.Some? ==> Contains(c, PageImport(cls.value))
  {
    var iwp := TestImports(imports, cls);
    if iwp != "" then
      var c := iwp + "\n\n" + test;
      assert c[|c| - |test|..] == test;
      assert c == iwp + ("\n\n" + test);
      if cls.Some? then
        ContainsEndOf(iwp, "\n\n" + test, PageImport(cls.value));
        c
      else c
    else test
  }

  /** The page-object file: named after the first `...Page` class, holding
      the imports (when any) and then the page code. */
  function PageFile(sec: Sections): (f: GeneratedFile)
    ensures f.fileType == "page_object" && f.path == PagePath(sec.pageObject)
    ensures EndsWith(f.content, sec.pageObject) && f.sizeBytes == Utf8Length(f.content)
  {
    var c := PageFileContent(sec);
    GeneratedFile(PagePath(sec.pageObject), c, "page_object", Utf8Length(c))
  }

  /** The test file: named after the test case, holding the imports (with
      the Page class import when one was matched) and then the test code. */
  function TestFile(sec: Sections, caseId: string): (f: GeneratedFile)
    ensures f.fileType == "test" && f.path == TestPath(caseId)
    ensures EndsWith(f.content, sec.test) && f.sizeBytes == Utf8Length(f.content)
    ensures PageClassOf(sec).Some? ==> Contains(f.content, PageImport(PageClassOf(sec).value))
  {
    var c := TestFileContent(sec.imports, sec.test, PageClassOf(sec));
    GeneratedFile(TestPath(caseId), c, "test", Utf8Length(c))
  }

  /** The files built from the three sections: a page file exactly when there
      is page code, a test file exactly when there is test code. */
  function FilesFor(sec: Sections, caseId: string): (files: seq<GeneratedFile>)
    ensures |files| == (if sec.pageObject != "" then 1 else 0) + (if sec.test != "" then 1 else 0)
    ensures forall i :: 0 <= i < |files| ==> files[i] == PageFile(sec) || files[i] == TestFile(sec, caseId)
    ensures PageFile(sec) in files <==> sec.pageObject != ""
    ensures TestFile(sec, caseId) in files <==> sec.test != ""
  {
    var pf, tf := PageFile(sec), TestFile(sec, caseId);
    assert |pf.fileType| != |tf.fileType|;
    (if sec.pageObject != "" then [pf] else []) + (if sec.test != "" then [tf] else [])
  }

  /** `_generate_files`: nothing without a `code` entry; otherwise the code
      is partitioned (given the parse of that code) and turned into files. */
  function GenerateFiles(code: Option<string>, parse: ParseResult, caseId: string): (files: seq<GeneratedFile>)
    ensures code.None? ==> files == []
    ensures |files| <= 2
    ensures forall i :: 0 <= i < |files| ==> files[i].sizeBytes == Utf8Length(files[i].content)
  {
    match code
    case None => []
    case Some(c) => FilesFor(SplitCode(c, parse), caseId)
  }

  // ---------------------------------------------------------------- syntax report

  const SyntaxMessagePrefix := "Синтаксическая ошибка в "

  /** The message of a syntax issue, as the generator writes it. */
  function SyntaxMessage(path: string): string {
    SyntaxMessagePrefix + path
  }

  function SyntaxIssues(files: seq<GeneratedFile>, syntaxOk: string -> bool): (r: seq<ValidationIssue>)
    ensures |r| <= |files|
    ensures forall i :: 0 <= i < |r| ==> r[i].level == "error"
    ensures |r| == 0 <==> forall i :: 0 <= i < |files| ==> syntaxOk(files[i].content)
  {
    if |files| == 0 then []
    else
      var rest := SyntaxIssues(files[1..], syntaxOk);
      assert (forall i :: 0 <= i < |files[1..]| ==> syntaxOk(files[1..][i].content))
        <==> (forall i :: 1 <= i < |files| ==> syntaxOk(files[i].content));
      (if syntaxOk(files[0].content) then []
       else [ValidationIssue("error", SyntaxMessage(files[0].path), Some(files[0].path))]) + rest
  }

  predicate IsError(i: ValidationIssue) {
    i.level == "error"
  }

  /** `_validate_code` as written: `syntax_valid` looks for the English word
      "syntax" in messages that are written in Russian. */
  function ValidateCodeAsWritten(files: seq<GeneratedFile>, syntaxOk: string -> bool): (r: ValidationReport)
    ensures r.valid <==> forall i :: 0 <= i < |files| ==> syntaxOk(files[i].content)
    ensures r.importsValid && r.structureValid
  {
    var issues := SyntaxIssues(files, syntaxOk);
    var errors := Filter(issues, IsError);
    FilterAll(issues, IsError);
    ValidationReport(|errors| == 0, issues, errors, [], [],
      |Filter(errors, (i: ValidationIssue) => Contains(Lower(i.message), "syntax"))| == 0,
      true, true)
  }

  /** `_validate_code` with `syntax_valid` meaning what it says: every file
      passed the syntax check. */
  function ValidateCode(files: seq<GeneratedFile>, syntaxOk: string -> bool): (r: ValidationReport)
    ensures r.valid <==> forall i :: 0 <= i < |files| ==> syntaxOk(files[i].content)
    ensures r.syntaxValid <==> forall i :: 0 <= i < |files| ==> syntaxOk(files[i].content)
    ensures r.errors == r.issues && |r.issues| <= |files|
    ensures r.importsValid && r.structureValid
  {
    var issues := SyntaxIssues(files, syntaxOk);
    FilterAll(issues, IsError);
    ValidationReport(|issues| == 0, issues, Filter(issues, IsError), [], [], |issues| == 0, true, true)
  }

  /** A string lacking one of the characters of `sub` does not contain `sub`. */
  lemma MissingCharNotContained(s: string, sub: string, c: char)
    requires c in sub && c !in s
    ensures !Contains(s, sub)
  {
  }

  lemma LowerKeepsAbsentLetter(s: string)
    requires 'x' !in s && 'X' !in s
    ensures 'x' !in Lower(s)
  {
  }

  lemma PrefixHasNoLatinX()
    ensures 'x' !in SyntaxMessagePrefix && 'X' !in SyntaxMessagePrefix
  {
  }

  /** A single file failing the syntax check, whose path has no letter `x`:
      the report is invalid, yet the as-written `syntax_valid` stays true.
      The default page file `pages/page.py` is such a file. */
  lemma SyntaxValidMissesRussianMessage(f: GeneratedFile, syntaxOk: string -> bool)
    requires !syntaxOk(f.content) && 'x' !in f.path && 'X' !in f.path
    ensures !ValidateCodeAsWritten([f], syntaxOk).valid
    ensures ValidateCodeAsWritten([f], syntaxOk).syntaxValid
  {
    var m := SyntaxMessage(f.path);
    var issue := ValidationIssue("error", m, Some(f.path));
    var issues := SyntaxIssues([f], syntaxOk);
    assert issues == [issue] + SyntaxIssues([f][1..], syntaxOk);
    assert issues == [issue];
    PrefixHasNoLatinX();
    assert 'x' !in m && 'X' !in m;
    LowerKeepsAbsentLetter(m);
    MissingCharNotContained(Lower(m), "syntax", 'x');
    FilterAll(issues, IsError);
    var errors := Filter(issues, IsError);
    assert errors == [issue];
    var p := (i: ValidationIssue) => Contains(Lower(i.message), "syntax");
    assert !p(issue);
    assert Filter(errors, p) == [] + Filter(errors[1..], p);
  }

  // ---------------------------------------------------------------- URL search

  /** `scheme` followed by a maximal, non-empty run of non-space characters,
      anchored at the start of `u`. */
  function SchemeUrlAt(u: string, scheme: string): (r: Option<string>)
    requires forall k :: 0 <= k < |scheme| ==> !IsSpace(scheme[k])
    ensures r.Some? ==> r.value <= u && StartsWith(r.value, scheme) && |r.value| > |scheme|
    ensures r.Some? ==> forall k :: 0 <= k < |r.value| ==> !IsSpace(r.value[k])
    ensures r.None? <==> !(StartsWith(u, scheme) && |u| > |scheme| && !IsSpace(u[|scheme|]))
  {
    if StartsWith(u, scheme) && |u| > |scheme| && !IsSpace(u[|scheme|]) then
      var w := NonSpacePrefix(u[|scheme|..]);
      assert u[..|scheme| + |w|] == scheme + w;
      Some(scheme + w)
    else None
  }

  lemma SchemesHaveNoSpace()
    ensures forall k :: 0 <= k < |"https://"| ==> !IsSpace("https://"[k])
    ensures forall k :: 0 <= k < |"http://"| ==> !IsSpace("http://"[k])
  {
  }

  /** The match of `https?://[^\s]+` anchored at the start of `u`: when the
      `s` is present but no non-space character follows `://`, dropping the
      `s` cannot help, since `http` is then followed by `s`. */
  function UrlAt(u: string): (r: Option<string>)
    ensures r.Some? ==> r.value <= u && (StartsWith(r.value, "https://") || StartsWith(r.value, "http://"))
    ensures r.Some? ==> forall k :: 0 <= k < |r.value| ==> !IsSpace(r.value[k])
  {
    SchemesHaveNoSpace();
    var s := SchemeUrlAt(u, "https://");
    if s.Some? then s else SchemeUrlAt(u, "http://")
  }

  /** `re.findall(r"https?://[^\s]+", s)[0]`, searching from `from`. */
  function FirstUrlFrom(s: string, from: nat): (r: Option<string>)
    ensures r.Some? ==> exists i :: (from <= i <= |s| && UrlAt(s[i..]) == r
      && forall j :: from <= j < i ==> UrlAt(s[j..]).None?)
    ensures r.None? ==> forall i :: from <= i <= |s| ==> UrlAt(s[i..]).None?
    decreases |s| - from
  {
    if from > |s| then None
    else if UrlAt(s[from..]).Some? then UrlAt(s[from..])
    else FirstUrlFrom(s, from + 1)
  }

  function FirstUrl(s: string): Option<string> {
    FirstUrlFrom(s, 0)
  }

  /** The loop over the steps: the first step, in order, whose description
      holds a URL supplies it. */
  function FirstUrlInSteps(steps: seq<TestStep>): (r: Option<string>)
    ensures r.None? <==> forall i :: 0 <= i < |steps| ==> FirstUrl(steps[i].description).None?
  {
    if |steps| == 0 then None
    else if FirstUrl(steps[0].description).Some? then FirstUrl(steps[0].description)
    else
      var r := FirstUrlInSteps(steps[1..]);
      assert forall i :: 1 <= i < |steps| ==> steps[i] == steps[1..][i - 1];
      r
  }

  /** Step `i` holds a URL, `r`, and no step before it holds one. */
  predicate FirstUrlAt(steps: seq<TestStep>, i: int, r: Option<string>) {
    0 <= i < |steps| && r == FirstUrl(steps[i].description)
    && forall j :: 0 <= j < i ==> FirstUrl(steps[j].description).None?
  }

  /** The URL the steps give comes from the first step that holds one. */
  lemma {:induction false} FirstUrlInStepsIsFirst(steps: seq<TestStep>)
    ensures FirstUrlInSteps(steps).Some? ==> exists i :: FirstUrlAt(steps, i, FirstUrlInSteps(steps))
  {
    if |steps| > 0 {
      var r := FirstUrlInSteps(steps);
      if FirstUrl(steps[0].description).Some? {
        assert FirstUrlAt(steps, 0, r);
      } else if r.Some? {
        FirstUrlInStepsIsFirst(steps[1..]);
        var i :| FirstUrlAt(steps[1..], i, r);
        forall j | 0 <= j < i + 1 ensures FirstUrl(steps[j].description).None? {
          if j > 0 {
            assert steps[j] == steps[1..][j - 1];
          }
        }
        assert FirstUrlAt(steps, i + 1, r);
      }
    }
  }

  /** `_extract_url_from_test_case`: the description first, then each step's
      description in order, then the preconditions when non-empty. */
  function ExtractUrl(tc: TestCase): (r: Option<string>)
    ensures FirstUrl(tc.description.GetOr("")).Some? ==> r == FirstUrl(tc.description.GetOr(""))
    ensures FirstUrl(tc.description.GetOr("")).None? && FirstUrlInSteps(tc.steps).Some? ==>
      r == FirstUrlInSteps(tc.steps)
    ensures FirstUrl(tc.description.GetOr("")).None? && FirstUrlInSteps(tc.steps).None? ==>
      r == (if tc.preconditions.Some? && tc.preconditions.value != "" then FirstUrl(tc.preconditions.value) else None)
    ensures r.None? <==>
      FirstUrl(tc.description.GetOr("")).None?
      && (forall i :: 0 <= i < |tc.steps| ==> FirstUrl(tc.steps[i].description).None?)
      && (tc.preconditions.None? || tc.preconditions.value == "" || FirstUrl(tc.preconditions.value).None?)
  {
    var d := FirstUrl(tc.description.GetOr(""));
    if d.Some? then d
    else
      var st := FirstUrlInSteps(tc.steps);
      if st.Some? then st
      else if tc.preconditions.Some? && tc.preconditions.value != "" then FirstUrl(tc.preconditions.value)
      else None
  }

  /** Every URL found is a whitespace-free run starting with `http://` or
      `https://` taken from the text searched. */
  lemma FirstUrlShape(s: string)
    ensures var r := FirstUrl(s);
      r.Some? ==> (Contains(s, r.value) && (StartsWith(r.value, "https://") || StartsWith(r.value, "http://"))
        && forall k :: 0 <= k < |r.value| ==> !IsSpace(r.value[k]))
  {
    var r := FirstUrl(s);
    if r.Some? {
      var i :| 0 <= i <= |s| && UrlAt(s[i..]) == r;
      assert StartsWith(s[i..], r.value);
      ContainsAt(s, r.value, i);
    }
  }
}

=== FILE: indexer.dfy ===
/** `RepositoryIndexer`: the walk over a repository that classifies and
    summarises each Python file, the project-layout scan and the summary
    counts. The file system is a sequence of entries in `rglob` order; glob
    and `fnmatch` matching, file reads, modification times, md5 and
    `ast.parse` are parameters (`Oracles`), and a read or `stat` that
    raises is `None`. */
module Indexer {
  import opened Wrappers
  import opened Seqs
  import opened PyStr
  import opened PyAst
  import opened TestModels
  import opened RepoModels
  import Exceptions

  // ---------------------------------------------------------------- file classification

  /** `Path(p).name`: the text after the last "/". */
  function FileName(p: Path): (r: string)
    ensures EndsWith(p, r)
    ensures '/' !in r
  {
    match LastIndex(p, '/')
    case None => p
    case Some(i) => p[i + 1..]
  }

  const ConfigNames := ["pytest.ini", "setup.cfg", "pyproject.toml", "requirements.txt"]

  /** The test-file test on the lower-cased file name. */
  predicate IsTestName(name: string) {
    Contains(name, "test_") || StartsWith(name, "test") || Contains(name, "_test.py")
  }

  /** The page-object test: the lower-cased full path mentions "page" (or
      "page_object") and the content mentions both "class" and "BasePage". */
  predicate IsPageObjectFile(pathLower: string, content: string) {
    (Contains(pathLower, "page") || Contains(pathLower, "page_object"))
    && Contains(content, "class") && Contains(content, "BasePage")
  }

  predicate IsFixtureName(name: string) {
    name == "conftest.py" || Contains(name, "fixture")
  }

  /** `_determine_file_type(file_path, content)`. `fullPath` is the path the
      walk produced, repository root included. */
  function DetermineFileType(fullPath: Path, content: string): (r: FileType)
    ensures IsTestName(Lower(FileName(fullPath))) ==> r == Test
    ensures r == PageObject ==> Contains(content, "class") && Contains(content, "BasePage")
    ensures r == Config ==> Lower(FileName(fullPath)) in ConfigNames
  {
    var name := Lower(FileName(fullPath));
    if IsTestName(name) then Test
    else if IsPageObjectFile(Lower(fullPath), content) then PageObject
    else if IsFixtureName(name) then Fixture
    else if name in ConfigNames then Config
    else OtherFile
  }

  /** The classification order: a test name wins; then the page-object
      test; then the fixture test; `Config` only for the exact names. */
  lemma ClassificationOrder(fullPath: Path, content: string)
    ensures var r := DetermineFileType(fullPath, content);
      var name := Lower(FileName(fullPath));
      && (r == Test <==> IsTestName(name))
      && (r == PageObject <==> !IsTestName(name) && IsPageObjectFile(Lower(fullPath), content))
      && (r == Fixture <==> !IsTestName(name) && !IsPageObjectFile(Lower(fullPath), content) && IsFixtureName(name))
      && (r == Config ==> name in ConfigNames)
  {
  }

  /** The name of a path built as `dir/name`. */
  lemma FileNameOfJoin(dir: Path, name: string)
    requires '/' !in name
    ensures FileName(dir + "/" + name) == name
  {
    var p := dir + "/" + name;
    assert p[|dir|] == '/';
    assert p[|dir| + 1..] == name;
  }

  /** A lower-case name starting with "test" is a test file wherever it
      lives and whatever it holds: `test_fixture.py` is a test, not a
      fixture. */
  lemma TestNameWins(dir: Path, name: string, content: string)
    requires '/' !in name && Lower(name) == name && StartsWith(name, "test")
    ensures DetermineFileType(dir + "/" + name, content) == Test
  {
    FileNameOfJoin(dir, name);
  }

  /** `conftest.py` is a fixture file unless the page-object test fires. */
  lemma ConftestIsFixture(dir: Path, content: string)
    requires !IsPageObjectFile(Lower(dir + "/" + "conftest.py"), content)
    ensures DetermineFileType(dir + "/" + "conftest.py", content) == Fixture
  {
    var p := dir + "/" + "conftest.py";
    FileNameOfJoin(dir, "conftest.py");
    ConftestName();
    FixtureByName(p, content);
  }

  /** A file whose lower-cased name is a fixture name but not a test name,
      and which fails the page-object test, is a fixture file. */
  lemma FixtureByName(fullPath: Path, content: string)
    requires !IsTestName(Lower(FileName(fullPath))) && IsFixtureName(Lower(FileName(fullPath)))
    requires !IsPageObjectFile(Lower(fullPath), content)
    ensures DetermineFileType(fullPath, content) == Fixture
  {
  }

  lemma ConftestName()
    ensures Lower("conftest.py") == "conftest.py" && !IsTestName("conftest.py")
  {
    ConftestLower();
    ConftestNoUnderscore();
  }

  lemma ConftestNoUnderscore()
    ensures !Contains("conftest.py", "test_") && !Contains("conftest.py", "_test.py")
  {
    var n := "conftest.py";
    assert '_' !in n;
    MissingCharNotContained(n, "test_", 4);
    MissingCharNotContained(n, "_test.py", 0);
  }

  lemma ConftestLower()
    ensures Lower("conftest.py") == "conftest.py"
  {
    var n := "conftest.py";
    assert forall i :: 0 <= i < |n| ==> !IsUpperChar(n[i]);
  }

  /** The "page_object" alternative never changes the outcome: a path that
      contains it contains "page". */
  lemma PageObjectAlternativeRedundant(pathLower: string, content: string)
    ensures IsPageObjectFile(pathLower, content) <==>
      Contains(pathLower, "page") && Contains(content, "class") && Contains(content, "BasePage")
  {
    var alternative := "page_object";
    assert alternative[..4] == "page";
    if Contains(pathLower, alternative) {
      ContainsPrefix(pathLower, alternative, 4);
    }
  }

  // ---------------------------------------------------------------- AST summary

  /** The import, class and function names collected from a parse. */
  datatype Summary = Summary(imports: seq<string>, classes: seq<string>, functions: seq<string>)

  const EmptySummary := Summary([], [], [])

  /** The import of a `from` statement: "module.name", or just the name
      when there is no module (`from . import x`). */
  function FromImportName(moduleName: Option<string>, name: string): string {
    if moduleName.Some? && moduleName.value != "" then moduleName.value + "." + name else name
  }

  function FromImportNames(moduleName: Option<string>, names: seq<string>): seq<string> {
    if |names| == 0 then [] else [FromImportName(moduleName, names[0])] + FromImportNames(moduleName, names[1..])
  }

  /** One iteration of the loop over `ast.walk(tree)`. */
  function WalkStep(acc: Summary, n: Node): Summary {
    match n
    case Import(names, _, _) => acc.(imports := acc.imports + names)
    case ImportFrom(m, names, _, _) => acc.(imports := acc.imports + FromImportNames(m, names))
    case ClassDef(name, _, _) => acc.(classes := acc.classes + [name])
    case FunctionDef(name, _, _) => acc.(functions := acc.functions + [name])
    case Other => acc
  }

  /** The loop over the nodes, accumulating into `acc`. */
  function Walk(nodes: seq<Node>, acc: Summary): Summary
    decreases |nodes|
  {
    if |nodes| == 0 then acc else Walk(nodes[1..], WalkStep(acc, nodes[0]))
  }

  /** `_parse_ast(content)`, given the result of parsing the content: a
      syntax error yields three empty lists. */
  function ParseAst(parse: ParseResult): (r: Summary)
    ensures parse.SyntaxError? ==> r == EmptySummary
  {
    match parse
    case SyntaxError => EmptySummary
    case Parsed(nodes) => Walk(nodes, EmptySummary)
  }

  // Reference definitions: each list as a comprehension over the nodes.

  function ImportsOfNode(n: Node): seq<string> {
    match n
    case Import(names, _, _) => names
    case ImportFrom(m, names, _, _) => FromImportNames(m, names)
    case _ => []
  }

  function ImportsOfNodes(nodes: seq<Node>): seq<string> {
    if |nodes| == 0 then [] else ImportsOfNode(nodes[0]) + ImportsOfNodes(nodes[1..])
  }

  function ClassNames(nodes: seq<Node>): seq<string> {
    if |nodes| == 0 then []
    else (if nodes[0].ClassDef? then [nodes[0].name] else []) + ClassNames(nodes[1..])
  }

  function FunctionNames(nodes: seq<Node>): seq<string> {
    if |nodes| == 0 then []
    else (if nodes[0].FunctionDef? then [nodes[0].name] else []) + FunctionNames(nodes[1..])
  }

  /** The loop appends, in walk order, exactly the comprehensions' lists. */
  lemma {:induction false} WalkImports(nodes: seq<Node>, acc: Summary)
    ensures Walk(nodes, acc).imports == acc.imports + ImportsOfNodes(nodes)
  {
    if |nodes| > 0 {
      var acc' := WalkStep(acc, nodes[0]);
      WalkImports(nodes[1..], acc');
      assert acc'.imports == acc.imports + ImportsOfNode(nodes[0]);
      assert acc.imports + ImportsOfNode(nodes[0]) + ImportsOfNodes(nodes[1..])
        == acc.imports + (ImportsOfNode(nodes[0]) + ImportsOfNodes(nodes[1..]));
    }
  }

  lemma {:induction false} WalkClasses(nodes: seq<Node>, acc: Summary)
    ensures Walk(nodes, acc).classes == acc.classes + ClassNames(nodes)
  {
    if |nodes| > 0 {
      var here := if nodes[0].ClassDef? then [nodes[0].name] else [];
      var acc' := WalkStep(acc, nodes[0]);
      WalkClasses(nodes[1..], acc');
      assert acc'.classes == acc.classes + here;
      assert acc.classes + here + ClassNames(nodes[1..]) == acc.classes + (here + ClassNames(nodes[1..]));
    }
  }

  lemma {:induction false} WalkFunctions(nodes: seq<Node>, acc: Summary)
    ensures Walk(nodes, acc).functions == acc.functions + FunctionNames(nodes)
  {
    if |nodes| > 0 {
      var here := if nodes[0].FunctionDef? then [nodes[0].name] else [];
      var acc' := WalkStep(acc, nodes[0]);
      WalkFunctions(nodes[1..], acc');
      assert acc'.functions == acc.functions + here;
      assert acc.functions + here + FunctionNames(nodes[1..]) == acc.functions + (here + FunctionNames(nodes[1..]));
    }
  }

  /** A successful parse records every import, class and function of the
      walk, in walk order. */
  lemma ParseAstSummary(nodes: seq<Node>)
    ensures ParseAst(Parsed(nodes)) == Summary(ImportsOfNodes(nodes), ClassNames(nodes), FunctionNames(nodes))
  {
    WalkImports(nodes, EmptySummary);
    WalkClasses(nodes, EmptySummary);
    WalkFunctions(nodes, EmptySummary);
  }

  /** `import a.b as c` records "a.b"; `from m import x` records "m.x";
      `from . import x` records "x". */
  lemma ImportRecording(dotted: string, m: string, x: string, line: LineNo)
    requires m != ""
    ensures ParseAst(Parsed([Import([dotted], line, line)])).imports == [dotted]
    ensures ParseAst(Parsed([ImportFrom(Some(m), [x], line, line)])).imports == [m + "." + x]
    ensures ParseAst(Parsed([ImportFrom(None, [x], line, line)])).imports == [x]
  {
    ParseAstSummary([Import([dotted], line, line)]);
    ParseAstSummary([ImportFrom(Some(m), [x], line, line)]);
    ParseAstSummary([ImportFrom(None, [x], line, line)]);
    assert FromImportNames(Some(m), [x]) == [m + "." + x] + FromImportNames(Some(m), []);
    assert FromImportNames(None, [x]) == [x] + FromImportNames(None, []);
  }

  // ---------------------------------------------------------------- pattern matching

  /** `path.replace("\\", "/")`. */
  function Slashes(s: string): (r: string)
    ensures |r| == |s|
    ensures forall i :: 0 <= i < |s| ==> r[i] == (if s[i] == '\\' then '/' else s[i])
  {
    if |s| == 0 then "" else [if s[0] == '\\' then '/' else s[0]] + Slashes(s[1..])
  }

  /** `_match_pattern`: `fnmatch` on the forward-slash forms. */
  function MatchPattern(fnmatch: (string, string) -> bool, path: string, pattern: string): (b: bool)
    ensures '\\' !in path && '\\' !in pattern ==> b == fnmatch(path, pattern)
  {
    SlashesNone(path);
    SlashesNone(pattern);
    fnmatch(Slashes(path), Slashes(pattern))
  }

  /** A text without backslashes is its own forward-slash form. */
  lemma SlashesNone(s: string)
    ensures '\\' !in s ==> Slashes(s) == s
  {
    if '\\' !in s {
      assert forall i :: 0 <= i < |s| ==> s[i] != '\\';
    }
  }

  /** Backslashes are normalised: a path matches the same patterns as its
      forward-slash form, and likewise for the pattern. */
  lemma MatchPatternSlashes(fnmatch: (string, string) -> bool, path: string, pattern: string)
    ensures MatchPattern(fnmatch, Slashes(path), pattern) == MatchPattern(fnmatch, path, pattern)
    ensures MatchPattern(fnmatch, path, Slashes(pattern)) == MatchPattern(fnmatch, path, pattern)
  {
    SlashesIdempotent(path);
    SlashesIdempotent(pattern);
  }

  lemma SlashesIdempotent(s: string)
    ensures Slashes(Slashes(s)) == Slashes(s)
  {
    assert forall i :: 0 <= i < |s| ==> Slashes(Slashes(s))[i] == Slashes(s)[i];
  }

  /** `any(_match_pattern(path, p) for p in patterns)`. */
  function Excluded(fnmatch: (string, string) -> bool, path: string, patterns: seq<string>): (b: bool)
    ensures b <==> exists i :: 0 <= i < |patterns| && MatchPattern(fnmatch, path, patterns[i])
  {
    if |patterns| == 0 then false
    else MatchPattern(fnmatch, path, patterns[0]) || Excluded(fnmatch, path, patterns[1..])
  }

  // ---------------------------------------------------------------- the walk

  datatype EntryKind = FileEntry | DirEntry | OtherEntry

  /** A file-system entry, its path relative to the repository root. */
  datatype Entry = Entry(path: Path, kind: EntryKind)

  /** The foreign calls the walk makes. */
  datatype Oracles = Oracles(
    globMatch: (Path, string) -> bool,
    fnmatch: (string, string) -> bool,
    read: Path -> Option<string>,
    mtime: Path -> Option<Timestamp>,
    md5: string -> string,
    parse: string -> ParseResult)

  /** `root.rglob(name)` for a plain file name: the entries whose final
      component is that name. */
  function RGlobName(fs: seq<Entry>, name: string): (r: seq<Entry>)
    ensures forall i :: 0 <= i < |r| ==> FileName(r[i].path) == name
  {
    if |fs| == 0 then []
    else (if FileName(fs[0].path) == name then [fs[0]] else []) + RGlobName(fs[1..], name)
  }

  /** `root.rglob(pattern)` for a wildcard pattern, decided by `globMatch`. */
  function RGlob(fs: seq<Entry>, pattern: string, globMatch: (Path, string) -> bool): seq<Entry> {
    if |fs| == 0 then []
    else (if globMatch(fs[0].path, pattern) then [fs[0]] else []) + RGlob(fs[1..], pattern, globMatch)
  }

  lemma {:induction false} RGlobNameMembers(fs: seq<Entry>, name: string)
    ensures forall e :: e in RGlobName(fs, name) ==> e in fs
    ensures forall e :: e in fs && FileName(e.path) == name ==> e in RGlobName(fs, name)
  {
    if |fs| > 0 {
      RGlobNameMembers(fs[1..], name);
      assert fs == [fs[0]] + fs[1..];
    }
  }

  const DefaultIncludes := ["**/*.py"]

  const DefaultExcludes := ["**/__pycache__/**", "**/.git/**", "**/node_modules/**", "**/venv/**", "**/.venv/**"]

  /** `patterns or default`: `None` and the empty list both take the default. */
  function PatternsOr(patterns: Option<seq<string>>, default: seq<string>): (r: seq<string>)
    ensures patterns.Some? && |patterns.value| > 0 ==> r == patterns.value
    ensures patterns.None? || |patterns.value| == 0 ==> r == default
  {
    if patterns.Some? && |patterns.value| > 0 then patterns.value else default
  }

  /** `all_files`: the matches of every include pattern, one pattern after
      the other, duplicates kept. */
  function Candidates(fs: seq<Entry>, includes: seq<string>, globMatch: (Path, string) -> bool): seq<Entry> {
    if |includes| == 0 then [] else RGlob(fs, includes[0], globMatch) + Candidates(fs, includes[1..], globMatch)
  }

  /** `_index_file`: `None` when reading the file or its modification time
      fails. */
  function IndexFile(root: Path, rel: Path, o: Oracles): (r: Option<IndexedFile>)
    ensures r.Some? <==> o.read(rel).Some? && o.mtime(rel).Some?
  {
    match o.read(rel)
    case None => None
    case Some(content) =>
      match o.mtime(rel)
      case None => None
      case Some(t) =>
        var s := ParseAst(o.parse(content));
        Some(IndexedFile(rel, DetermineFileType(root + "/" + rel, content), o.md5(content),
                         Utf8Length(content), Some(t), s.imports, s.classes, s.functions))
  }

  /** An indexed file records its relative path, the UTF-8 size and md5 of
      its content, and the class of its full path and content. */
  lemma IndexFileFields(root: Path, rel: Path, o: Oracles)
    requires IndexFile(root, rel, o).Some?
    ensures var f := IndexFile(root, rel, o).value;
      var content := o.read(rel).value;
      && f.path == rel
      && f.sizeBytes == Utf8Length(content)
      && f.contentHash == o.md5(content)
      && f.fileType == DetermineFileType(root + "/" + rel, content)
      && f.lastModified == o.mtime(rel)
  {
  }

  /** Whether the walk keeps an entry before trying to index it. */
  predicate Eligible(e: Entry, excludes: seq<string>, o: Oracles) {
    e.kind == FileEntry && !Excluded(o.fnmatch, e.path, excludes)
  }

  /** One iteration of the loop: the entry's indexed file, if any. */
  function Visit(root: Path, e: Entry, excludes: seq<string>, o: Oracles): seq<IndexedFile> {
    if !Eligible(e, excludes, o) then []
    else match IndexFile(root, e.path, o)
      case None => []
      case Some(f) => [f]
  }

  /** The filtering loop of `_index_files` over the candidate entries. */
  function IndexEntries(root: Path, entries: seq<Entry>, excludes: seq<string>, o: Oracles): seq<IndexedFile> {
    FlatMap(entries, Visitor(root, excludes, o))
  }

  function Visitor(root: Path, excludes: seq<string>, o: Oracles): Entry -> seq<IndexedFile> {
    e => Visit(root, e, excludes, o)
  }

  /** `_index_files(repo_path, context)`. */
  function IndexFiles(root: Path, fs: seq<Entry>, ctx: RepositoryContext, o: Oracles): (r: seq<IndexedFile>)
    ensures var excludes := PatternsOr(ctx.excludePatterns, DefaultExcludes);
      forall f :: f in r ==>
        exists e ::
          && e in Candidates(fs, PatternsOr(ctx.includePatterns, DefaultIncludes), o.globMatch)
          && e.kind == FileEntry && !Excluded(o.fnmatch, e.path, excludes) && e.path == f.path
  {
    IndexedAreEligible(root, Candidates(fs, PatternsOr(ctx.includePatterns, DefaultIncludes), o.globMatch),
                       PatternsOr(ctx.excludePatterns, DefaultExcludes), o);
    IndexEntries(root, Candidates(fs, PatternsOr(ctx.includePatterns, DefaultIncludes), o.globMatch),
                 PatternsOr(ctx.excludePatterns, DefaultExcludes), o)
  }

  /** The walk is entry by entry: a prefix of the candidates contributes
      independently of what follows. */
  lemma IndexEntriesConcat(root: Path, a: seq<Entry>, b: seq<Entry>, excludes: seq<string>, o: Oracles)
    ensures IndexEntries(root, a + b, excludes, o) == IndexEntries(root, a, excludes, o) + IndexEntries(root, b, excludes, o)
  {
    FlatMapConcat(a, b, Visitor(root, excludes, o));
  }

  /** A file that cannot be read is skipped and the walk carries on with
      the rest. */
  lemma UnreadableSkipped(root: Path, a: seq<Entry>, e: Entry, b: seq<Entry>, excludes: seq<string>, o: Oracles)
    requires o.read(e.path).None?
    ensures IndexEntries(root, a + [e] + b, excludes, o) == IndexEntries(root, a, excludes, o) + IndexEntries(root, b, excludes, o)
  {
    assert a + [e] + b == a + ([e] + b);
    IndexEntriesConcat(root, a, [e] + b, excludes, o);
    SkipEntry(root, e, b, excludes, o);
  }

  lemma SkipEntry(root: Path, e: Entry, b: seq<Entry>, excludes: seq<string>, o: Oracles)
    requires o.read(e.path).None?
    ensures IndexEntries(root, [e] + b, excludes, o) == IndexEntries(root, b, excludes, o)
  {
    assert ([e] + b)[1..] == b;
    assert Visit(root, e, excludes, o) == [];
  }

  /** What one iteration keeps comes from an eligible entry, under its path. */
  lemma VisitFacts(root: Path, e: Entry, excludes: seq<string>, o: Oracles)
    ensures forall f :: f in Visit(root, e, excludes, o) ==> Eligible(e, excludes, o) && f.path == e.path
  {
    if Eligible(e, excludes, o) && IndexFile(root, e.path, o).Some? {
      IndexFileFields(root, e.path, o);
    }
  }

  /** Every indexed file comes from a candidate that is a regular file and
      matches no exclude pattern. */
  lemma {:induction false} IndexedAreEligible(root: Path, entries: seq<Entry>, excludes: seq<string>, o: Oracles)
    ensures forall f :: f in IndexEntries(root, entries, excludes, o) ==>
      exists e :: e in entries && Eligible(e, excludes, o) && e.path == f.path
  {
    if |entries| > 0 {
      var e := entries[0];
      var here := Visit(root, e, excludes, o);
      var rest := IndexEntries(root, entries[1..], excludes, o);
      IndexedAreEligible(root, entries[1..], excludes, o);
      VisitFacts(root, e, excludes, o);
      forall f: IndexedFile | f in here + rest ensures exists e' :: e' in entries && Eligible(e', excludes, o) && e'.path == f.path {
        if f in here {
          assert e in entries;
        } else {
          var e' :| e' in entries[1..] && Eligible(e', excludes, o) && e'.path == f.path;
          assert e' in entries;
        }
      }
    }
  }

  /** An eligible, readable entry listed by two include patterns is indexed
      twice: the walk does not de-duplicate. */
  lemma DuplicatesKept(root: Path, e: Entry, excludes: seq<string>, o: Oracles)
    requires Eligible(e, excludes, o) && o.read(e.path).Some? && o.mtime(e.path).Some?
    ensures |IndexEntries(root, [e, e], excludes, o)| == 2
    ensures IndexEntries(root, [e, e], excludes, o)[0] == IndexEntries(root, [e, e], excludes, o)[1]
  {
    var f := Visitor(root, excludes, o);
    var v := Visit(root, e, excludes, o);
    assert |v| == 1;
    assert f(e) == v;
    assert [e, e][1..] == [e] && [e][1..] == [];
    assert FlatMap([e], f) == v;
    assert FlatMap([e, e], f) == v + v;
  }

  /** The hash depends on the content only: two files with the same content
      get the same hash, whatever their paths. */
  lemma HashDependsOnContent(root: Path, p: Path, q: Path, o: Oracles)
    requires IndexFile(root, p, o).Some? && IndexFile(root, q, o).Some?
    requires o.read(p) == o.read(q)
    ensures IndexFile(root, p, o).value.contentHash == IndexFile(root, q, o).value.contentHash
    ensures IndexFile(root, p, o).value.sizeBytes == IndexFile(root, q, o).value.sizeBytes
  {
    IndexFileFields(root, p, o);
    IndexFileFields(root, q, o);
  }

  // ---------------------------------------------------------------- structure and counts

  const TestDirNames := ["tests", "test", "autotests"]

  const PageDirNames := ["pages", "page_objects", "page"]

  /** The directories among an `rglob` result. */
  function Dirs(found: seq<Entry>): (r: seq<Path>)
    ensures forall i :: 0 <= i < |r| ==> exists e :: e in found && e.kind == DirEntry && e.path == r[i]
  {
    if |found| == 0 then []
    else (if found[0].kind == DirEntry then [found[0].path] else []) + Dirs(found[1..])
  }

  function Paths(found: seq<Entry>): (r: seq<Path>)
    ensures |r| == |found|
    ensures forall i :: 0 <= i < |r| ==> r[i] == found[i].path
  {
    if |found| == 0 then [] else [found[0].path] + Paths(found[1..])
  }

  /** `p` is the path of a directory entry of the walk. */
  predicate DirIn(fs: seq<Entry>, p: Path) {
    exists e :: e in fs && e.kind == DirEntry && e.path == p
  }

  /** `_find_directories(root, names)`: only directory entries are found. */
  function FindDirectories(fs: seq<Entry>, names: seq<string>): (r: seq<Path>)
    ensures forall i :: 0 <= i < |r| ==> DirIn(fs, r[i])
  {
    if |names| == 0 then []
    else
      var here := Dirs(RGlobName(fs, names[0]));
      var rest := FindDirectories(fs, names[1..]);
      DirsIn(fs, names[0]);
      AppendDirs(fs, here, rest);
      here + rest
  }

  lemma DirsIn(fs: seq<Entry>, name: string)
    ensures forall i :: 0 <= i < |Dirs(RGlobName(fs, name))| ==> DirIn(fs, Dirs(RGlobName(fs, name))[i])
  {
    RGlobNameMembers(fs, name);
  }

  lemma AppendDirs(fs: seq<Entry>, a: seq<Path>, b: seq<Path>)
    requires forall i :: 0 <= i < |a| ==> DirIn(fs, a[i])
    requires forall i :: 0 <= i < |b| ==> DirIn(fs, b[i])
    ensures forall i :: 0 <= i < |a + b| ==> DirIn(fs, (a + b)[i])
  {
    forall i | 0 <= i < |a + b| ensures DirIn(fs, (a + b)[i]) {
      if i < |a| { assert (a + b)[i] == a[i]; } else { assert (a + b)[i] == b[i - |a|]; }
    }
  }

  /** Every directory found is a directory entry whose final component is
      one of the names. */
  lemma {:induction false} FindDirectoriesExact(fs: seq<Entry>, names: seq<string>)
    ensures forall d :: d in FindDirectories(fs, names) ==>
      FileName(d) in names && exists e :: e in fs && e.kind == DirEntry && e.path == d
  {
    if |names| > 0 {
      FindDirectoriesExact(fs, names[1..]);
      var found := RGlobName(fs, names[0]);
      RGlobNameMembers(fs, names[0]);
      forall d | d in Dirs(found) ensures FileName(d) in names && exists e :: e in fs && e.kind == DirEntry && e.path == d {
        var e :| e in found && e.kind == DirEntry && e.path == d;
        var j :| 0 <= j < |found| && found[j] == e;
        assert FileName(found[j].path) == names[0];
      }
    }
  }

  /** Conversely, every directory entry bearing one of the names is found. */
  lemma {:induction false} FindDirectoriesComplete(fs: seq<Entry>, names: seq<string>, e: Entry)
    requires e in fs && e.kind == DirEntry && FileName(e.path) in names
    ensures e.path in FindDirectories(fs, names)
  {
    if FileName(e.path) == names[0] {
      RGlobNameMembers(fs, names[0]);
      DirsComplete(RGlobName(fs, names[0]), e);
    } else {
      FindDirectoriesComplete(fs, names[1..], e);
    }
  }

  lemma {:induction false} DirsComplete(found: seq<Entry>, e: Entry)
    requires e in found && e.kind == DirEntry
    ensures e.path in Dirs(found)
  {
    if found[0] != e {
      DirsComplete(found[1..], e);
    }
  }

  /** The config files: every match of the names, directories included. */
  function ConfigFiles(fs: seq<Entry>, names: seq<string>): seq<Path> {
    if |names| == 0 then [] else Paths(RGlobName(fs, names[0])) + ConfigFiles(fs, names[1..])
  }

  /** `_analyze_structure(repo_path, context)`. */
  function AnalyzeStructure(root: Path, fs: seq<Entry>): (r: ProjectStructure)
    ensures r.rootPath == root
    ensures forall i :: 0 <= i < |r.fixtureFiles| ==> FileName(r.fixtureFiles[i]) == "conftest.py"
  {
    ProjectStructure(root, FindDirectories(fs, TestDirNames), FindDirectories(fs, PageDirNames),
                     Paths(RGlobName(fs, "conftest.py")), ConfigFiles(fs, ConfigNames))
  }

  /** Test and page-object directories are exactly the directory entries
      bearing one of the names. */
  lemma StructureByExactName(root: Path, fs: seq<Entry>, e: Entry)
    ensures forall d :: d in AnalyzeStructure(root, fs).testDirectories ==> FileName(d) in TestDirNames
    ensures forall d :: d in AnalyzeStructure(root, fs).pageObjectDirectories ==> FileName(d) in PageDirNames
    ensures e in fs && e.kind == DirEntry && FileName(e.path) in TestDirNames ==>
      e.path in AnalyzeStructure(root, fs).testDirectories
  {
    FindDirectoriesExact(fs, TestDirNames);
    FindDirectoriesExact(fs, PageDirNames);
    if e in fs && e.kind == DirEntry && FileName(e.path) in TestDirNames {
      FindDirectoriesComplete(fs, TestDirNames, e);
    }
  }

  /** The index assembled by `index`: the counts are those of the file list. */
  function BuildIndex(ctx: RepositoryContext, repoPath: Path, structure: ProjectStructure,
                      files: seq<IndexedFile>, indexedAt: Timestamp): (r: RepositoryIndex)
    ensures r.files == files && r.structure == structure
    ensures r.totalFiles == |files|
    ensures r.testFilesCount == |GetTestFiles(r)| && r.pageObjectFilesCount == |GetPageObjectFiles(r)|
    ensures r.repositoryPath.Some? <==> repoPath != ""
  {
    NewIndex(structure, indexedAt).(
      repositoryUrl := ctx.repositoryUrl,
      repositoryPath := if repoPath != "" then Some(repoPath) else None,
      files := files,
      totalFiles := |files|,
      testFilesCount := |OfType(files, Test)|,
      pageObjectFilesCount := |OfType(files, PageObject)|)
  }

  /** The test and page-object counts never exceed the total. */
  lemma CountsBounded(ctx: RepositoryContext, repoPath: Path, structure: ProjectStructure,
                      files: seq<IndexedFile>, indexedAt: Timestamp)
    ensures var r := BuildIndex(ctx, repoPath, structure, files, indexedAt);
      r.testFilesCount + r.pageObjectFilesCount <= r.totalFiles
  {
    OfTypePartition(files);
  }

  /** `index(context)`: the connector's local path is reused when there is
      one, otherwise the connector connects (its outcome is the parameter
      `connect`); a failure is re-raised as `RepositoryIndexError`. */
  function Index(ctx: RepositoryContext, localPath: Option<Path>, connect: Result<Path, Exceptions.Error>,
                 fs: seq<Entry>, o: Oracles, indexedAt: Timestamp): (r: Result<RepositoryIndex, Exceptions.Error>)
    ensures r.Err? <==> localPath.None? && connect.Err?
    ensures r.Err? ==> r.error == Exceptions.Plain(Exceptions.RepositoryIndexError, "Ошибка индексации: " + connect.error.message)
    ensures r.Ok? ==>
      var root := if localPath.Some? then localPath.value else connect.value;
      && r.value.structure == AnalyzeStructure(root, fs)
      && r.value.files == IndexFiles(root, fs, ctx, o)
      && r.value.repositoryUrl == ctx.repositoryUrl
      && r.value.totalFiles == |r.value.files|
      && r.value.testFilesCount == |GetTestFiles(r.value)|
      && r.value.pageObjectFilesCount == |GetPageObjectFiles(r.value)|
  {
    if localPath.None? && connect.Err? then
      Err(Exceptions.Plain(Exceptions.RepositoryIndexError, "Ошибка индексации: " + connect.error.message))
    else
      var root := if localPath.Some? then localPath.value else connect.value;
      Ok(BuildIndex(ctx, root, AnalyzeStructure(root, fs), IndexFiles(root, fs, ctx, o), indexedAt))
  }
}

=== FILE: normalizer.dfy ===
/** `TestCaseNormalizer.normalize`: trims surrounding white space from the
    free-text fields of a test case and of its steps. The source mutates
    the case in place and returns it; here the updated case is returned. */
module Normalizer {
  import opened Wrappers
  import opened Seqs
  import opened PyStr
  import opened TestModels

  /** `if value: value = value.strip()` on an optional field. */
  function StripIfPresent(o: Option<string>): (r: Option<string>)
    ensures r.None? <==> o.None?
    ensures o.Some? ==> r.value == Strip(o.value) && Trimmed(r.value)
  {
    match o
    case Some(t) => StripIdempotent(t); if t != "" then Some(Strip(t)) else o
    case None => None
  }

  function NormalizeStep(s: TestStep): (r: TestStep)
    ensures StepTrimmed(r)
    ensures r.name == Strip(s.name) && r.description == Strip(s.description)
    ensures r.expectedResult == Strip(s.expectedResult)
    ensures r.(name := s.name, description := s.description, expectedResult := s.expectedResult) == s
  {
    StripIdempotent(s.name);
    StripIdempotent(s.description);
    StripIdempotent(s.expectedResult);
    s.(name := Strip(s.name), description := Strip(s.description), expectedResult := Strip(s.expectedResult))
  }

  /** A text field with no leading or trailing white space. */
  predicate Trimmed(t: string) {
    Strip(t) == t
  }

  predicate StepTrimmed(s: TestStep) {
    Trimmed(s.name) && Trimmed(s.description) && Trimmed(s.expectedResult)
  }

  /** `normalize`: the description, the preconditions and every step's name,
      description and expected result come out trimmed; the case's other
      fields and the number of steps are kept. */
  function Normalize(tc: TestCase): (r: TestCase)
    ensures r.(description := tc.description, preconditions := tc.preconditions, steps := tc.steps) == tc
    ensures r.description.None? <==> tc.description.None?
    ensures r.preconditions.None? <==> tc.preconditions.None?
    ensures r.description.Some? ==> Trimmed(r.description.value)
    ensures r.preconditions.Some? ==> Trimmed(r.preconditions.value)
    ensures r.description == StripIfPresent(tc.description)
    ensures r.preconditions == StripIfPresent(tc.preconditions)
    ensures |r.steps| == |tc.steps|
    ensures forall k :: 0 <= k < |r.steps| ==> r.steps[k] == NormalizeStep(tc.steps[k])
  {
    tc.(description := StripIfPresent(tc.description),
        preconditions := StripIfPresent(tc.preconditions),
        steps := Map(tc.steps, NormalizeStep))
  }

  /** Every step comes out trimmed: its texts are the strips of the
      original step's texts, and its other fields are kept. */
  lemma NormalizeSteps(tc: TestCase)
    ensures forall k :: 0 <= k < |Normalize(tc).steps| ==>
      StepTrimmed(Normalize(tc).steps[k]) &&
      Normalize(tc).steps[k].name == Strip(tc.steps[k].name) &&
      Normalize(tc).steps[k].description == Strip(tc.steps[k].description) &&
      Normalize(tc).steps[k].expectedResult == Strip(tc.steps[k].expectedResult) &&
      Normalize(tc).steps[k].(name := tc.steps[k].name, description := tc.steps[k].description,
                              expectedResult := tc.steps[k].expectedResult) == tc.steps[k]
  {
    var steps := Normalize(tc).steps;
    assert steps == Map(tc.steps, NormalizeStep);
    forall k | 0 <= k < |steps|
      ensures StepTrimmed(steps[k])
      ensures steps[k].name == Strip(tc.steps[k].name)
      ensures steps[k].description == Strip(tc.steps[k].description)
      ensures steps[k].expectedResult == Strip(tc.steps[k].expectedResult)
      ensures steps[k].(name := tc.steps[k].name, description := tc.steps[k].description,
                        expectedResult := tc.steps[k].expectedResult) == tc.steps[k]
    {
      assert steps[k] == NormalizeStep(tc.steps[k]);
    }
  }

  lemma NormalizeStepTrimmed(s: TestStep)
    requires StepTrimmed(s)
    ensures NormalizeStep(s) == s
  {
  }

  /** A case that is already trimmed everywhere is left as it is. */
  lemma NormalizeTrimmed(tc: TestCase)
    requires tc.description.Some? ==> Trimmed(tc.description.value)
    requires tc.preconditions.Some? ==> Trimmed(tc.preconditions.value)
    requires forall k :: 0 <= k < |tc.steps| ==> StepTrimmed(tc.steps[k])
    ensures Normalize(tc) == tc
  {
    var steps := Map(tc.steps, NormalizeStep);
    forall k | 0 <= k < |tc.steps| ensures steps[k] == tc.steps[k] {
      NormalizeStepTrimmed(tc.steps[k]);
    }
    assert steps == tc.steps;
    assert StripIfPresent(tc.description) == tc.description;
    assert StripIfPresent(tc.preconditions) == tc.preconditions;
  }

  /** Normalising twice is the same as normalising once. */
  lemma NormalizeIdempotent(tc: TestCase)
    ensures Normalize(Normalize(tc)) == Normalize(tc)
  {
    NormalizeTrimmed(Normalize(tc));
  }
}

=== FILE: ollama_provider.dfy ===
/** The Ollama LLM provider: client start-up, the retry loop of `generate`
    over the outcomes of the chat calls, the classification of the last
    error, and the slicing of a fenced JSON answer in
    `generate_structured`. The chat client, `json.loads` and `time.sleep`
    are parameters: a call's outcome is given per attempt, a parse is a
    function, and the sleeps are returned as a list of delays. */
module OllamaProvider {
  import opened Wrappers
  import opened PyStr
  import opened Exceptions

  // ---------------------------------------------------------------- start-up

  const DefaultUrl := "http://localhost:11434"
  const DefaultModel := "codellama:13b"
  const DefaultTimeout := 300
  const DefaultMaxRetries := 3
  const OllamaHost := "OLLAMA_HOST"

  datatype Provider = Provider(url: string, model: string, timeout: int, maxRetries: int)

  /** The environment after start-up and the provider, or the error that
      creating the client raised. */
  datatype Started = Started(env: map<string, string>, provider: Result<Provider, Error>)

  /** `__init__` and `_init_client`: a non-default URL is exported as
      `OLLAMA_HOST` before the client is created, so the variable is set
      even when creating the client fails. */
  function Init(url: string, model: string, timeout: int, maxRetries: int,
                env: map<string, string>, clientError: Option<string>): (r: Started)
    ensures url != DefaultUrl ==> r.env == env[OllamaHost := url]
    ensures url == DefaultUrl ==> r.env == env
    ensures r.provider.Ok? <==> clientError.None?
    ensures r.provider.Ok? ==> r.provider.value == Provider(url, model, timeout, maxRetries)
    ensures clientError.Some? ==>
      r.provider.error.cls == LLMError && EndsWith(r.provider.error.message, clientError.value)
  {
    var env' := if url != DefaultUrl then env[OllamaHost := url] else env;
    match clientError
    case Some(e) => Started(env', Err(NewLLMError("Не удалось инициализировать Ollama клиент: " + e)))
    case None => Started(env', Ok(Provider(url, model, timeout, maxRetries)))
  }

  /** Every other environment variable is left as it was. */
  lemma InitKeepsOtherVariables(url: string, model: string, timeout: int, maxRetries: int,
                                env: map<string, string>, clientError: Option<string>, name: string)
    requires name != OllamaHost
    ensures name in Init(url, model, timeout, maxRetries, env, clientError).env <==> name in env
    ensures name in env ==> Init(url, model, timeout, maxRetries, env, clientError).env[name] == env[name]
  {
  }

  /** What `client.list()` did in `is_available`. */
  datatype Listing = Listed | ListedNothing | ListRaised

  /** `is_available`: a client exists and listing the models returned
      something; an exception counts as unavailable. */
  predicate IsAvailable(hasClient: bool, listing: Listing) {
    hasClient && listing == Listed
  }

  // ---------------------------------------------------------------- generate

  datatype Message = Message(role: string, content: string)

  /** The chat messages: the system prompt first when it is non-empty,
      then the user prompt. */
  function Messages(prompt: string, system: Option<string>): (r: seq<Message>)
    ensures |r| == 1 || |r| == 2
    ensures r[|r| - 1] == Message("user", prompt)
    ensures |r| == 2 <==> Filled(system)
    ensures |r| == 2 ==> r[0] == Message("system", system.value)
  {
    (if Filled(system) then [Message("system", system.value)] else []) + [Message("user", prompt)]
  }

  /** The class of an exception raised by a chat call, as far as the final
      classification cares: an instance of the built-in `TimeoutError`, of
      the built-in `ConnectionError`, or anything else. */
  datatype RaisedKind = Timeout | Connection | OtherKind

  /** One chat call: a response with `message.content`, a response
      without it (kept as its text form), or a raised exception. */
  datatype Outcome =
    | Content(text: string)
    | Malformed(repr: string)
    | Raised(kind: RaisedKind, text: string)

  /** What a failed attempt leaves in `last_error`: its kind and `str()`. */
  datatype Failure = Failure(kind: RaisedKind, text: string)

  /** A response without content raises a plain `LLMError`, which the loop
      catches like any other exception. */
  function FailureOf(o: Outcome): (f: Failure)
    requires !o.Content?
    ensures o.Raised? ==> f == Failure(o.kind, o.text)
    ensures o.Malformed? ==> f.kind == OtherKind && EndsWith(f.text, o.repr)
  {
    match o
    case Malformed(repr) => Failure(OtherKind, "Неожиданный формат ответа от Ollama: " + repr)
    case Raised(kind, text) => Failure(kind, text)
  }

  /** `str(last_error)`, which is "None" when no attempt ran. */
  function LastText(last: Option<Failure>): string {
    if last.Some? then last.value.text else "None"
  }

  /** The error raised after the last attempt failed. */
  function Classify(last: Option<Failure>): (e: Error)
    ensures e.Llm? && IsA(e.cls, LLMError)
    ensures e.cls == LLMTimeoutError <==> last.Some? && last.value.kind == Timeout
    ensures e.cls == LLMTemporaryError <==> last.Some? && last.value.kind == Connection
    ensures IsRetryable(e) <==> last.Some? && last.value.kind != OtherKind
    ensures e.cause.Some? <==> last.Some?
    ensures last.Some? ==> e.cause == Some(last.value.text)
    ensures EndsWith(e.message, LastText(last))
  {
    var cause := if last.Some? then Some(last.value.text) else None;
    if last.Some? && last.value.kind == Timeout then
      NewLLMTimeoutError("Таймаут запроса к Ollama: " + LastText(last), cause)
    else if last.Some? && last.value.kind == Connection then
      NewLLMTemporaryError("Ошибка подключения к Ollama: " + LastText(last), cause)
    else
      var e := NewLLMError("Ошибка генерации через Ollama: " + LastText(last), "unknown", false, cause);
      assert !IsRetryable(e);
      assert !(last.Some? && last.value.kind != OtherKind);
      e
  }

  /** The number of attempts `range(max_retries + 1)` allows. */
  function Attempts(maxRetries: int): nat {
    if maxRetries + 1 > 0 then maxRetries + 1 else 0
  }

  /** `2 ** k` */
  function Pow2(k: nat): (r: nat)
    ensures r >= 1
  {
    if k == 0 then 1 else 2 * Pow2(k - 1)
  }

  /** The failure the loop remembers after `attempts` attempts. */
  function LastFailure(calls: nat -> Outcome, attempts: nat): Option<Failure>
    requires attempts == 0 || !calls(attempts - 1).Content?
  {
    if attempts == 0 then None else Some(FailureOf(calls(attempts - 1)))
  }

  /** The outcome of `generate`: the text or the error, how many chat
      calls were made, and the delays slept between them, in seconds. */
  datatype Generation = Generation(result: Result<string, Error>, attempts: nat, sleeps: seq<nat>)

  /** `generate`. `available` is what `is_available()` returned and
      `calls(k)` is the outcome of the chat call in attempt `k`. */
  method Generate(available: bool, maxRetries: int, calls: nat -> Outcome) returns (g: Generation)
    ensures !available ==> g == Generation(Err(NewLLMError("Ollama провайдер недоступен")), 0, [])
    ensures g.attempts <= Attempts(maxRetries)
    ensures forall k :: 0 <= k < g.attempts - 1 ==> !calls(k).Content?
    ensures g.result.Ok? ==> g.attempts >= 1 && calls(g.attempts - 1) == Content(g.result.value)
    ensures available && g.result.Err? ==>
      g.attempts == Attempts(maxRetries)
      && (forall k :: 0 <= k < g.attempts ==> !calls(k).Content?)
      && g.result.error == Classify(LastFailure(calls, g.attempts))
    ensures |g.sleeps| == (if g.attempts == 0 then 0 else g.attempts - 1)
    ensures forall k :: 0 <= k < |g.sleeps| ==> g.sleeps[k] == Pow2(k)
  {
    if !available {
      return Generation(Err(NewLLMError("Ollama провайдер недоступен")), 0, []);
    }
    var total := Attempts(maxRetries);
    var last: Option<Failure> := None;
    var sleeps: seq<nat> := [];
    var attempt: nat := 0;
    while attempt < total
      invariant attempt <= total
      invariant forall k :: 0 <= k < attempt ==> !calls(k).Content?
      invariant last == LastFailure(calls, attempt)
      invariant |sleeps| == (if attempt == total && attempt > 0 then attempt - 1 else attempt)
      invariant forall k :: 0 <= k < |sleeps| ==> sleeps[k] == Pow2(k)
    {
      var outcome := calls(attempt);
      if outcome.Content? {
        return Generation(Ok(outcome.text), attempt + 1, sleeps);
      }
      last := Some(FailureOf(outcome));
      if attempt < maxRetries {
        sleeps := sleeps + [Pow2(attempt)];
      }
      attempt := attempt + 1;
    }
    return Generation(Err(Classify(last)), attempt, sleeps);
  }

  // ---------------------------------------------------------------- generate_structured

  /** The prompt `generate_structured` sends: the prompt, a blank line, the
      instruction, and the schema as `json.dumps` printed it. */
  function StructuredPrompt(prompt: string, schema: string): (r: string)
    ensures StartsWith(r, prompt + "\n\n")
    ensures EndsWith(r, "\n" + schema + "\n")
  {
    prompt + "\n\n" + "Верни ответ в формате JSON согласно следующей схеме:" + "\n" + schema + "\n"
  }

  const JsonFence := "```json"
  const Fence := "```"

  /** Python's `s[a:b]` for a start inside the string and an end that is an
      index or `-1`. */
  function PySlice(s: string, a: nat, b: int): (r: string)
    requires a <= |s| && -1 <= b <= |s|
    ensures b >= a ==> r == s[a..b]
    ensures b == -1 && a < |s| ==> r == s[a..|s| - 1]
    ensures b < a && (b >= 0 || a == |s|) ==> r == ""
  {
    var end := if b < 0 then |s| - 1 else b;
    if a <= end then s[a..end] else ""
  }

  /** The text after an opening fence, up to the closing one, as written:
      a missing closing fence makes `find` return -1, which as a slice end
      drops the last character. */
  function AfterFenceAsWritten(s: string, start: nat): (r: string)
    requires start <= |s|
    ensures FindFrom(s, Fence, start).None? && start < |s| ==> r == Strip(s[start..|s| - 1])
  {
    var end := FindFrom(s, Fence, start);
    Strip(PySlice(s, start, if end.Some? then end.value else -1))
  }

  /** The text after an opening fence, up to the closing one or to the end. */
  function AfterFence(s: string, start: nat): (r: string)
    requires start <= |s|
    ensures FindFrom(s, Fence, start).Some? ==> r == Strip(s[start..FindFrom(s, Fence, start).value])
    ensures FindFrom(s, Fence, start).None? ==> r == Strip(s[start..])
  {
    var end := FindFrom(s, Fence, start);
    Strip(if end.Some? then s[start..end.value] else s[start..])
  }

  /** The start of the text after the first `sub`, when there is one. */
  function After(s: string, sub: string): (r: nat)
    requires Contains(s, sub)
    ensures |sub| <= r <= |s| && StartsWith(s[r - |sub|..], sub)
  {
    Find(s, sub).value + |sub|
  }

  /** The text `generate_structured` hands to `json.loads`, as written. */
  function FenceBodyAsWritten(response: string): (r: string)
    ensures !Contains(response, Fence) ==> r == response
    ensures Contains(response, JsonFence) ==>
      var start := After(response, JsonFence);
      start < |response| && FindFrom(response, Fence, start).None? ==> r == Strip(response[start..|response| - 1])
  {
    if Contains(response, JsonFence) then
      JsonFenceIsFence(response);
      AfterFenceAsWritten(response, After(response, JsonFence))
    else if Contains(response, Fence) then AfterFenceAsWritten(response, After(response, Fence))
    else response
  }

  /** The text handed to `json.loads` with an unclosed fence read to the
      end of the answer. */
  function FenceBody(response: string): (r: string)
    ensures !Contains(response, Fence) ==> r == response
  {
    if Contains(response, JsonFence) then JsonFenceIsFence(response); AfterFence(response, After(response, JsonFence))
    else if Contains(response, Fence) then AfterFence(response, After(response, Fence))
    else response
  }

  /** An opening ```json fence is also a plain fence. */
  lemma JsonFenceIsFence(s: string)
    requires Contains(s, JsonFence)
    ensures Contains(s, Fence)
  {
    ContainsWitness(s, JsonFence);
    var i :| 0 <= i <= |s| && StartsWith(s[i..], JsonFence);
    assert s[i..][..3] == Fence;
    ContainsAt(s, Fence, i);
  }

  /** The two agree whenever the fence is closed. */
  lemma FenceBodyAgreesWhenClosed(response: string)
    requires Contains(response, JsonFence) ==> FindFrom(response, Fence, After(response, JsonFence)).Some?
    requires !Contains(response, JsonFence) && Contains(response, Fence)
      ==> FindFrom(response, Fence, After(response, Fence)).Some?
    ensures FenceBodyAsWritten(response) == FenceBody(response)
  {
  }

  /** A body without backquotes in a ```json fence is read back stripped. */
  lemma JsonFenceRoundTrip(body: string, tail: string)
    requires '`' !in body
    ensures FenceBody(JsonFence + body + Fence + tail) == Strip(body)
  {
    var s := JsonFence + body + Fence + tail;
    assert s[0..][..|JsonFence|] == JsonFence;
    FindFromAt(s, JsonFence, 0, 0);
    var start := |JsonFence|;
    assert After(s, JsonFence) == start;
    var end := start + |body|;
    assert s[end..][..3] == Fence;
    forall k | start <= k < end ensures s[k] != Fence[0] {
      assert s[k] == body[k - start];
    }
    FindFromAt(s, Fence, start, end);
    assert s[start..end] == body;
  }

  /** A body without backquotes that does not start with "json", put
      between two plain fences, holds no ```json fence anywhere. */
  lemma NoJsonFenceIn(body: string, j: nat)
    requires '`' !in body && !StartsWith(body, "json") && j <= |body| + 6
    ensures !StartsWith((Fence + body + Fence)[j..], JsonFence)
  {
    var s := Fence + body + Fence;
    var end := 3 + |body|;
    if j == 0 {
      assert s[0..] == s;
      if |body| >= 4 {
        assert s[..7][3..] == body[..4];
        assert JsonFence[3..] == "json";
      } else {
        assert s[end] == '`';
        DiffersAt(s, JsonFence, end);
      }
    } else if j < 3 {
      if |body| > 0 {
        assert s[j..][3 - j] == body[0];
        DiffersAt(s[j..], JsonFence, 3 - j);
      }
    } else if j < end {
      assert s[j..][0] == body[j - 3];
      DiffersAt(s[j..], JsonFence, 0);
    }
  }

  /** A body without backquotes in a plain fence is read back stripped,
      unless it starts with "json", which makes the fence a ```json one. */
  lemma PlainFenceRoundTrip(body: string)
    requires '`' !in body && !StartsWith(body, "json")
    ensures FenceBody(Fence + body + Fence) == Strip(body)
  {
    var s := Fence + body + Fence;
    var end := 3 + |body|;
    forall j | 0 <= j <= |s| ensures !StartsWith(s[j..], JsonFence) {
      NoJsonFenceIn(body, j);
    }
    assert s[0..][..3] == Fence;
    FindFromAt(s, Fence, 0, 0);
    assert s[end..][..3] == Fence;
    forall k | 3 <= k < end ensures s[k] != Fence[0] {
      assert s[k] == body[k - 3];
    }
    FindFromAt(s, Fence, 3, end);
    assert s[3..end] == body;
  }

  /** An answer cut off before the closing fence of its ```json block:
      as written, the last character of the body is lost. */
  lemma UnclosedJsonFence(body: string)
    requires '`' !in body && |body| > 0
    ensures FenceBodyAsWritten(JsonFence + body) == Strip(body[..|body| - 1])
    ensures FenceBody(JsonFence + body) == Strip(body)
  {
    var s := JsonFence + body;
    UnclosedSearch(body);
    assert s[7..] == body;
    assert s[7..|s| - 1] == body[..|body| - 1];
  }

  /** In a ```json fence that is never closed, the body starts right after
      the fence and no closing fence follows. */
  lemma UnclosedSearch(body: string)
    requires '`' !in body
    ensures Contains(JsonFence + body, JsonFence) && After(JsonFence + body, JsonFence) == 7
    ensures FindFrom(JsonFence + body, Fence, 7).None?
  {
    var s := JsonFence + body;
    assert s[0..][..7] == JsonFence;
    FindFromAt(s, JsonFence, 0, 0);
    forall j | 7 <= j <= |s| ensures !StartsWith(s[j..], Fence) {
      if j < |s| {
        assert s[j..][0] == body[j - 7];
      }
    }
  }

  /** The shortest JSON object, unclosed, comes back without its closing brace. */
  lemma UnclosedFenceDropsLastChar(body: string)
    requires body == "{}"
    ensures FenceBodyAsWritten(JsonFence + body) == "{"
    ensures FenceBody(JsonFence + body) == "{}"
  {
    var head := body[..1];
    assert head == "{";
    StripUnpadded(body);
    StripUnpadded(head);
    UnclosedJsonFence(body);
  }

  /** `generate_structured` after `generate` has answered: the fenced body
      parsed by `json.loads`, whose failure becomes an `LLMError`. */
  function GenerateStructured<J>(reply: Result<string, Error>, parse: string -> Result<J, string>): (r: Result<J, Error>)
    ensures reply.Err? ==> r == Err(reply.error)
    ensures reply.Ok? ==> (r.Ok? <==> parse(FenceBody(reply.value)).Ok?)
    ensures reply.Ok? && r.Ok? ==> r.value == parse(FenceBody(reply.value)).value
    ensures reply.Ok? && r.Err? ==>
      r.error.cls == LLMError && !IsRetryable(r.error)
      && EndsWith(r.error.message, parse(FenceBody(reply.value)).error)
  {
    match reply
    case Err(e) => Err(e)
    case Ok(text) =>
      match parse(FenceBody(text))
      case Ok(v) => Ok(v)
      case Err(msg) => Err(NewLLMError("Не удалось распарсить JSON ответ: " + msg))
  }
}

=== FILE: partition.dfy ===
/** The response partitioner: one generated code blob is split into
    `(page_object_code, test_code, imports)`.

    Three splitters are tried in turn. The syntax-tree splitter collects line
    indices from the parsed nodes. The line splitter is a small state machine
    over the lines, and it hands over to the marker splitter whenever a
    section marker occurs anywhere in the text.

    Both line-based splitters are modelled as one route per line, which a
    step function computes from the state reached after the preceding lines.
    Every section is the input lines picked by their route. */
module Partition {
  import opened Wrappers
  import opened Seqs
  import opened PyStr
  import opened PyAst

  const PageMarker := "=== PAGE OBJECT ==="
  const TestMarker := "=== TEST FUNCTION ==="

  /** What every splitter returns. */
  datatype Sections = Sections(pageObject: string, test: string, imports: string)

  /** Where one input line goes. `Dropped` lines reach no section. */
  datatype Route = ToImports | ToPage | ToTest | Dropped

  datatype Move<S> = Move(route: Route, next: S)

  /** `code.split("\n")` */
  function Lines(code: string): seq<string> {
    Split(code, '\n')
  }

  /** `"\n".join(lines)` */
  function JoinLines(lines: seq<string>): string {
    Join(lines, "\n")
  }

  /** A line whose stripped text starts with `import ` or `from `. */
  predicate IsImportLine(line: string) {
    StartsWith(Strip(line), "import ") || StartsWith(Strip(line), "from ")
  }

  // ---------------------------------------------------------------- regular expressions

  /** `re.match(r"^<kw>\s+<rest>", s)` for a literal `rest` that begins with a
      non-space character: `kw`, a non-empty run of white space, then `rest`. */
  predicate MatchKeyword(s: string, kw: string, rest: string) {
    StartsWith(s, kw) && |LStrip(s[|kw|..])| < |s| - |kw| && StartsWith(LStrip(s[|kw|..]), rest)
  }

  /** `re.match(r"^class\s+Test", s)` */
  predicate MatchClassTest(s: string) {
    MatchKeyword(s, "class", "Test")
  }

  /** `re.match(r"^def\s+test_", s)` */
  predicate MatchDefTest(s: string) {
    MatchKeyword(s, "def", "test_")
  }

  /** The longest prefix of word characters (`\w*`). */
  function WordRun(s: string): (w: string)
    ensures w <= s
    ensures forall k :: 0 <= k < |w| ==> IsWordChar(s[k])
    ensures |w| == |s| || !IsWordChar(s[|w|])
  {
    if |s| == 0 || !IsWordChar(s[0]) then "" else [s[0]] + WordRun(s[1..])
  }

  /** `re.match(r"^class\s+\w+Page", s)`: after `class` and white space, the
      word that follows contains `Page` somewhere after its first character
      (`\w+` needs at least one character and `Page` is itself made of word
      characters, so the match cannot leave the word). */
  predicate MatchClassPage(s: string) {
    StartsWith(s, "class") && |LStrip(s[5..])| < |s| - 5 &&
    var w := WordRun(LStrip(s[5..]));
    |w| >= 1 && Contains(w[1..], "Page")
  }

  /** `def test_` literally at the start implies the `^def\s+test_` pattern. */
  lemma DefTestPrefixMatches(s: string)
    requires StartsWith(s, "def test_")
    ensures MatchDefTest(s)
  {
    assert s[..9] == "def test_";
    assert s[3..][0] == ' ';
    assert s[3..][1..] == s[4..];
    LStripNoop(s[4..]);
    assert LStrip(s[3..]) == s[4..];
    assert s[4..][..5] == s[4..9];
  }

  // ---------------------------------------------------------------- syntax-tree splitter

  /** Line indices collected so far for each section. */
  datatype AstSets = AstSets(imports: set<int>, page: set<int>, test: set<int>)

  /** `range(lineno - 1, min(end_lineno, len(code_lines)))`: a node's lines,
      clipped to the lines that exist. */
  function Span(lineno: LineNo, endLineno: int, n: nat): (r: set<int>)
    ensures forall i :: i in r <==> lineno - 1 <= i < endLineno && i < n
  {
    Range(lineno - 1, Min(endLineno, n))
  }

  /** The integers `lo .. hi - 1`. */
  function Range(lo: int, hi: int): (r: set<int>)
    ensures forall i :: i in r <==> lo <= i < hi
    decreases hi - lo
  {
    if lo >= hi then {} else {lo} + Range(lo + 1, hi)
  }

  /** A stripped line that looks like the header of a non-test Page class. */
  predicate PageHeaderLike(s: string) {
    StartsWith(s, "class ") && Contains(s, "Page") && !StartsWith(s, "class Test")
  }

  /** Some line among the 50 before index `start` is a Page class header. */
  predicate PageClassNear(lines: seq<string>, start: int) {
    exists j :: Max(0, start - 50) <= j < start && j < |lines| && PageHeaderLike(Strip(lines[j]))
  }

  /** The effect of one node of the walk. */
  function AstStep(st: AstSets, node: Node, lines: seq<string>): AstSets {
    var n := |lines|;
    match node
    case Import(_, ln, e) =>
      st.(imports := st.imports + (Span(ln, e, n) - (st.imports + st.page + st.test)))
    case ImportFrom(_, _, ln, e) =>
      st.(imports := st.imports + (Span(ln, e, n) - (st.imports + st.page + st.test)))
    case ClassDef(name, ln, e) =>
      if StartsWith(name, "Test") then st.(test := st.test + (Span(ln, e, n) - (st.imports + st.page)))
      else if Contains(name, "Page") then st.(page := st.page + (Span(ln, e, n) - st.imports))
      else st
    case FunctionDef(name, ln, e) =>
      if StartsWith(name, "test_") && !PageClassNear(lines, ln - 1)
      then st.(test := st.test + (Span(ln, e, n) - (st.imports + st.page + st.test)))
      else st
    case Other => st
  }

  /** The loop over `ast.walk(tree)`. */
  function AstCollect(nodes: seq<Node>, lines: seq<string>, st: AstSets): AstSets
    decreases |nodes|
  {
    if |nodes| == 0 then st else AstCollect(nodes[1..], lines, AstStep(st, nodes[0], lines))
  }

  /** `sorted(set(idx))` restricted to `from .. n - 1`. */
  function SortedIndices(idx: set<int>, from: nat, n: nat): (r: seq<int>)
    ensures forall a, b :: 0 <= a < b < |r| ==> r[a] < r[b]
    ensures forall i :: i in r <==> i in idx && from <= i < n
    decreases n - from
  {
    if from >= n then []
    else
      var rest := SortedIndices(idx, from + 1, n);
      assert forall b :: 0 <= b < |rest| ==> rest[b] in rest && from < rest[b];
      (if from in idx then [from] else []) + rest
  }

  /** The lines at the collected indices, in ascending order of index. */
  function SelectLines(lines: seq<string>, idx: set<int>): (r: seq<string>)
    ensures var ix := SortedIndices(idx, 0, |lines|);
      |r| == |ix| && forall j :: 0 <= j < |r| ==> 0 <= ix[j] < |lines| && r[j] == lines[ix[j]]
  {
    var ix := SortedIndices(idx, 0, |lines|);
    assert forall j :: 0 <= j < |ix| ==> 0 <= ix[j] < |lines| by {
      forall j | 0 <= j < |ix| ensures 0 <= ix[j] < |lines| {
        assert ix[j] in ix;
      }
    }
    seq(|ix|, j requires 0 <= j < |ix| => lines[ix[j]])
  }

  function AstSetsOf(code: string, nodes: seq<Node>): AstSets {
    AstCollect(nodes, Lines(code), AstSets({}, {}, {}))
  }

  /** The syntax-tree splitter's three sections, before its fallback. Only
      import nodes contribute import lines, and only class and function
      nodes contribute class or test lines. */
  function SplitAst(code: string, nodes: seq<Node>): (r: Sections)
    ensures (forall k :: 0 <= k < |nodes| ==> !nodes[k].Import? && !nodes[k].ImportFrom?) ==> r.imports == ""
    ensures (forall k :: 0 <= k < |nodes| ==> !nodes[k].ClassDef? && !nodes[k].FunctionDef?) ==>
      r.pageObject == "" && r.test == ""
  {
    var lines := Lines(code);
    var st := AstSetsOf(code, nodes);
    AstCollectKinds(nodes, lines, AstSets({}, {}, {}));
    SelectNone(lines);
    Sections(JoinLines(SelectLines(lines, st.page)), JoinLines(SelectLines(lines, st.test)),
             JoinLines(SelectLines(lines, st.imports)))
  }

  /** Imports never share a line with a class or test section, and every
      collected index names an existing line. */
  predicate AstInv(st: AstSets, n: nat) {
    st.imports * (st.page + st.test) == {} &&
    forall i :: i in st.imports + st.page + st.test ==> 0 <= i < n
  }

  lemma AstStepKeepsInv(st: AstSets, node: Node, lines: seq<string>)
    requires AstInv(st, |lines|)
    ensures AstInv(AstStep(st, node, lines), |lines|)
  {
    var r := AstStep(st, node, lines);
    forall i | i in st.imports ensures i !in st.page && i !in st.test {
      assert i !in st.imports * (st.page + st.test);
    }
    forall i | i in r.imports ensures i !in r.page && i !in r.test {
      match node
      case Import(_, ln, e) =>
      case ImportFrom(_, _, ln, e) =>
      case ClassDef(name, ln, e) =>
      case FunctionDef(name, ln, e) =>
      case Other =>
    }
    forall i | i in r.imports + r.page + r.test ensures 0 <= i < |lines| {
      match node
      case Import(_, ln, e) => InOldOrSpan(st, r, ln, e, |lines|, i);
      case ImportFrom(_, _, ln, e) => InOldOrSpan(st, r, ln, e, |lines|, i);
      case ClassDef(name, ln, e) => InOldOrSpan(st, r, ln, e, |lines|, i);
      case FunctionDef(name, ln, e) => InOldOrSpan(st, r, ln, e, |lines|, i);
      case Other =>
    }
    assert r.imports * (r.page + r.test) == {};
  }

  /** An index that a step adds comes from the node's span, which lies
      inside the file. */
  lemma InOldOrSpan(st: AstSets, r: AstSets, ln: LineNo, e: int, n: nat, i: int)
    requires forall j :: j in st.imports + st.page + st.test ==> 0 <= j < n
    requires r.imports <= st.imports + Span(ln, e, n)
    requires r.page <= st.page + Span(ln, e, n)
    requires r.test <= st.test + Span(ln, e, n)
    requires i in r.imports + r.page + r.test
    ensures 0 <= i < n
  {
    var s := Span(ln, e, n);
    assert i in st.imports + st.page + st.test || i in s;
  }

  lemma {:induction false} AstCollectKeepsInv(nodes: seq<Node>, lines: seq<string>, st: AstSets)
    requires AstInv(st, |lines|)
    ensures AstInv(AstCollect(nodes, lines, st), |lines|)
    decreases |nodes|
  {
    if |nodes| > 0 {
      AstStepKeepsInv(st, nodes[0], lines);
      AstCollectKeepsInv(nodes[1..], lines, AstStep(st, nodes[0], lines));
    }
  }

  /** Whatever the walk, a line taken as an import is in no class or test
      section, and node ranges never reach past the last line. */
  lemma AstImportsDisjoint(code: string, nodes: seq<Node>)
    ensures var st := AstSetsOf(code, nodes);
      st.imports * st.page == {} && st.imports * st.test == {}
      && forall i :: i in st.imports + st.page + st.test ==> 0 <= i < |Lines(code)|
  {
    AstCollectKeepsInv(nodes, Lines(code), AstSets({}, {}, {}));
  }

  /** Nodes of the other kinds leave a section's indices as they are. */
  lemma {:induction false} AstCollectKinds(nodes: seq<Node>, lines: seq<string>, st: AstSets)
    ensures (forall k :: 0 <= k < |nodes| ==> !nodes[k].Import? && !nodes[k].ImportFrom?) ==>
      AstCollect(nodes, lines, st).imports == st.imports
    ensures (forall k :: 0 <= k < |nodes| ==> !nodes[k].ClassDef? && !nodes[k].FunctionDef?) ==>
      AstCollect(nodes, lines, st).page == st.page && AstCollect(nodes, lines, st).test == st.test
    decreases |nodes|
  {
    if |nodes| > 0 {
      assert forall k :: 0 <= k < |nodes| - 1 ==> nodes[1..][k] == nodes[k + 1];
      AstCollectKinds(nodes[1..], lines, AstStep(st, nodes[0], lines));
    }
  }

  /** No index selects no line. */
  lemma SelectNone(lines: seq<string>)
    ensures SelectLines(lines, {}) == []
  {
    SortedNone(0, |lines|);
  }

  lemma {:induction false} SortedNone(from: nat, n: nat)
    ensures SortedIndices({}, from, n) == []
    decreases n - from
  {
    if from < n {
      SortedNone(from + 1, n);
    }
  }

  /** Class routing: a `Test...` class goes to the test section even when its
      name contains `Page`; another class containing `Page` goes to the page
      section; any other class is ignored. Import lines are never taken. */
  lemma AstClassRouting(st: AstSets, name: string, ln: LineNo, e: int, lines: seq<string>)
    ensures var r := AstStep(st, ClassDef(name, ln, e), lines);
      var span := Span(ln, e, |lines|);
      r.imports == st.imports
      && (StartsWith(name, "Test") ==>
            r.page == st.page
            && forall i :: i in r.test <==> i in st.test || (i in span && i !in st.imports && i !in st.page))
      && (!StartsWith(name, "Test") && Contains(name, "Page") ==>
            r.test == st.test
            && forall i :: i in r.page <==> i in st.page || (i in span && i !in st.imports))
      && (!StartsWith(name, "Test") && !Contains(name, "Page") ==> r == st)
  {
  }

  /** A `test_` function is dropped when a Page class header occurs within the
      50 preceding lines; otherwise it adds exactly its lines that no section
      holds yet. */
  lemma AstTestFunctionRouting(st: AstSets, name: string, ln: LineNo, e: int, lines: seq<string>)
    requires StartsWith(name, "test_")
    ensures var r := AstStep(st, FunctionDef(name, ln, e), lines);
      (PageClassNear(lines, ln - 1) ==> r == st)
      && (!PageClassNear(lines, ln - 1) ==>
            r.imports == st.imports && r.page == st.page
            && r.test == st.test + (Span(ln, e, |lines|) - (st.imports + st.page + st.test)))
  {
  }

  /** The two class sections may share lines: a Page class nested in a Test
      class is walked after it, and its lines go to both sections. */
  lemma AstNestedPageInTest(st: AstSets, lines: seq<string>, t: Node, p: Node, i: int)
    requires t.ClassDef? && StartsWith(t.name, "Test")
    requires p.ClassDef? && !StartsWith(p.name, "Test") && Contains(p.name, "Page")
    requires i in Span(t.lineno, t.endLineno, |lines|) * Span(p.lineno, p.endLineno, |lines|)
    requires i !in st.imports && i !in st.page
    ensures var r := AstStep(AstStep(st, t, lines), p, lines);
      i in r.page && i in r.test
  {
  }

  // ---------------------------------------------------------------- line splitter

  datatype LineState = LineState(inPage: bool, inTest: bool, currentIndent: int, classIndent: int)

  const LineStart := LineState(false, false, 0, 0)

  /** The condition that closes a Page class at a line. */
  predicate ClosesPageClass(st: LineState, s: string, indent: nat) {
    (s == "" && indent <= st.classIndent)
    || (s != "" && indent <= st.classIndent
        && (StartsWith(s, "class ") || StartsWith(s, "def ") || StartsWith(s, "@")))
  }

  /** The condition that closes a test function or class at a line. */
  predicate ClosesTest(st: LineState, s: string, indent: nat) {
    (s == "" && indent <= st.currentIndent)
    || (s != "" && indent <= st.currentIndent && (StartsWith(s, "def ") || StartsWith(s, "class ")))
  }

  /** One iteration of the line loop. */
  function LineStep(st: LineState, line: string): Move<LineState> {
    var s := Strip(line);
    var indent := Indent(line);
    if IsImportLine(line) then Move(ToImports, st)
    else if MatchClassTest(s) then Move(ToTest, LineState(false, true, indent, indent))
    else if MatchClassPage(s) then Move(ToPage, LineState(true, false, indent, indent))
    else if MatchDefTest(s) && !st.inPage && !st.inTest then
      Move(ToTest, st.(inPage := false, inTest := true, currentIndent := indent))
    else if st.inPage then
      if ClosesPageClass(st, s, indent) then
        if MatchDefTest(s) then Move(ToTest, st.(inPage := false, inTest := true))
        else if StartsWith(s, "def test_") then Move(ToTest, st.(inPage := false, inTest := true))
        else Move(Dropped, st.(inPage := false))
      else Move(ToPage, st.(currentIndent := Max(st.currentIndent, indent)))
    else if st.inTest then
      if ClosesTest(st, s, indent) then Move(Dropped, st.(inTest := false))
      else Move(ToTest, st.(currentIndent := Max(st.currentIndent, indent)))
    else Move(Dropped, st)
  }

  function LineStateAfter(prefix: seq<string>): LineState
    decreases |prefix|
  {
    if |prefix| == 0 then LineStart
    else LineStep(LineStateAfter(prefix[..|prefix| - 1]), prefix[|prefix| - 1]).next
  }

  function LineRoutes(lines: seq<string>): (rs: seq<Route>)
    ensures |rs| == |lines|
  {
    seq(|lines|, k requires 0 <= k < |lines| => LineStep(LineStateAfter(lines[..k]), lines[k]).route)
  }

  /** The lines of each section, plus those that reach none. */
  datatype SectionLines = SectionLines(page: seq<string>, test: seq<string>, imports: seq<string>, dropped: seq<string>)

  /** Routed lines: each section is a subsequence of the input, every line
      appears in the list its route names, and the four lists together are no
      longer than the input, so no line lands in two of them. */
  function Route4(lines: seq<string>, routes: seq<Route>): (r: SectionLines)
    requires |routes| == |lines|
    ensures IsSubseq(r.page, lines) && IsSubseq(r.test, lines) && IsSubseq(r.imports, lines)
    ensures |r.page| + |r.test| + |r.imports| + |r.dropped| == |lines|
    ensures forall k :: 0 <= k < |lines| ==>
      (routes[k] == ToPage ==> lines[k] in r.page) && (routes[k] == ToTest ==> lines[k] in r.test)
      && (routes[k] == ToImports ==> lines[k] in r.imports) && (routes[k] == Dropped ==> lines[k] in r.dropped)
  {
    PickIsSubseq(lines, routes, ToPage);
    PickIsSubseq(lines, routes, ToTest);
    PickIsSubseq(lines, routes, ToImports);
    RoutePartition(lines, routes);
    PickMembers(lines, routes, ToPage);
    PickMembers(lines, routes, ToTest);
    PickMembers(lines, routes, ToImports);
    PickMembers(lines, routes, Dropped);
    SectionLines(Pick(lines, routes, ToPage), Pick(lines, routes, ToTest),
                 Pick(lines, routes, ToImports), Pick(lines, routes, Dropped))
  }

  /** Every line is picked for exactly one route: the four lists together are
      as long as the input. */
  lemma {:induction false} RoutePartition<T>(lines: seq<T>, routes: seq<Route>)
    requires |routes| == |lines|
    ensures |Pick(lines, routes, ToPage)| + |Pick(lines, routes, ToTest)|
      + |Pick(lines, routes, ToImports)| + |Pick(lines, routes, Dropped)| == |lines|
  {
    if |lines| > 0 {
      RoutePartition(lines[1..], routes[1..]);
      assert Pick(lines, routes, ToPage) == (if routes[0] == ToPage then [lines[0]] else []) + Pick(lines[1..], routes[1..], ToPage);
      assert Pick(lines, routes, ToTest) == (if routes[0] == ToTest then [lines[0]] else []) + Pick(lines[1..], routes[1..], ToTest);
      assert Pick(lines, routes, ToImports) == (if routes[0] == ToImports then [lines[0]] else []) + Pick(lines[1..], routes[1..], ToImports);
      assert Pick(lines, routes, Dropped) == (if routes[0] == Dropped then [lines[0]] else []) + Pick(lines[1..], routes[1..], Dropped);
    }
  }

  function LineSections(code: string): SectionLines {
    Route4(Lines(code), LineRoutes(Lines(code)))
  }

  /** The line splitter without its marker hand-over. Its imports are
      exactly the import lines of the code, in order. */
  function SplitByLines(code: string): (r: Sections)
    ensures r.imports == JoinLines(Filter(Lines(code), IsImportLine))
  {
    var sl := LineSections(code);
    LineImportsFiltered(code);
    Sections(JoinLines(sl.page), JoinLines(sl.test), JoinLines(sl.imports))
  }

  /** Every line whose stripped form starts with `import ` or `from ` goes to
      the imports, whatever the state, and no other line does. */
  lemma LineImportRouting(lines: seq<string>, k: int)
    requires 0 <= k < |lines|
    ensures LineRoutes(lines)[k] == ToImports <==> IsImportLine(lines[k])
  {
  }

  /** The line splitter's imports are the lines that look like imports. */
  lemma LineImportsFiltered(code: string)
    ensures LineSections(code).imports == Filter(Lines(code), IsImportLine)
  {
    var lines := Lines(code);
    var routes := LineRoutes(lines);
    forall k | 0 <= k < |lines| ensures routes[k] == ToImports <==> IsImportLine(lines[k]) {
      LineImportRouting(lines, k);
    }
    PickFilter(lines, routes, ToImports, IsImportLine);
  }

  /** One step enters a section only on a line routed to that section. */
  lemma LineStepEntry(st: LineState, line: string)
    ensures LineStep(st, line).next.inPage ==> st.inPage || LineStep(st, line).route == ToPage
    ensures LineStep(st, line).next.inTest ==> st.inTest || LineStep(st, line).route == ToTest
  {
  }

  /** Outside a section, a line routed to it is a header. */
  lemma LineStepHeader(st: LineState, line: string)
    ensures !st.inPage && LineStep(st, line).route == ToPage ==> MatchClassPage(Strip(line))
    ensures !st.inTest && LineStep(st, line).route == ToTest ==>
      MatchClassTest(Strip(line)) || MatchDefTest(Strip(line))
  {
    if StartsWith(Strip(line), "def test_") {
      DefTestPrefixMatches(Strip(line));
    }
  }

  /** A state inside a Page class (or a test) was entered at an earlier line
      routed to that section. */
  lemma {:induction false} LineStateWitness(p: seq<string>)
    ensures LineStateAfter(p).inPage ==>
      exists j :: 0 <= j < |p| && LineStep(LineStateAfter(p[..j]), p[j]).route == ToPage
    ensures LineStateAfter(p).inTest ==>
      exists j :: 0 <= j < |p| && LineStep(LineStateAfter(p[..j]), p[j]).route == ToTest
    decreases |p|
  {
    if |p| > 0 {
      var q := p[..|p| - 1];
      var l := p[|p| - 1];
      LineStateWitness(q);
      assert LineStateAfter(p) == LineStep(LineStateAfter(q), l).next;
      LineStepEntry(LineStateAfter(q), l);
      assert p[..|q|] == q;
      assert forall j :: 0 <= j < |q| ==> p[..j] == q[..j] && p[j] == q[j];
    }
  }

  /** Before the first line routed to a section, the state is outside it. */
  lemma StateBeforeFirst(lines: seq<string>, k: int, r: Route)
    requires 0 <= k < |lines| && (r == ToPage || r == ToTest)
    requires forall j :: 0 <= j < k ==> LineRoutes(lines)[j] != r
    ensures r == ToPage ==> !LineStateAfter(lines[..k]).inPage
    ensures r == ToTest ==> !LineStateAfter(lines[..k]).inTest
  {
    var p := lines[..k];
    LineStateWitness(p);
    forall j | 0 <= j < k
      ensures LineStep(LineStateAfter(p[..j]), p[j]).route == LineRoutes(lines)[j]
    {
      assert p[..j] == lines[..j] && p[j] == lines[j];
    }
  }

  /** The first line of the page section is a `class ...Page` header. */
  lemma LineFirstPageIsHeader(lines: seq<string>, k: int)
    requires 0 <= k < |lines| && LineRoutes(lines)[k] == ToPage
    requires forall j :: 0 <= j < k ==> LineRoutes(lines)[j] != ToPage
    ensures MatchClassPage(Strip(lines[k]))
  {
    StateBeforeFirst(lines, k, ToPage);
    LineStepHeader(LineStateAfter(lines[..k]), lines[k]);
  }

  /** The first line of the test section is a `class Test...` or `def test_...` header. */
  lemma LineFirstTestIsHeader(lines: seq<string>, k: int)
    requires 0 <= k < |lines| && LineRoutes(lines)[k] == ToTest
    requires forall j :: 0 <= j < k ==> LineRoutes(lines)[j] != ToTest
    ensures MatchClassTest(Strip(lines[k])) || MatchDefTest(Strip(lines[k]))
  {
    StateBeforeFirst(lines, k, ToTest);
    LineStepHeader(LineStateAfter(lines[..k]), lines[k]);
  }

  // ---------------------------------------------------------------- marker splitter

  /** The section the marker splitter is in. The two flags of the loop are
      never both set, so three modes cover every reachable state. */
  datatype Mode = BeforeMarkers | PageSection | TestSection

  predicate HasPageMarker(line: string) {
    Contains(Strip(line), PageMarker)
  }

  predicate HasTestMarker(line: string) {
    Contains(Strip(line), TestMarker)
  }

  predicate IsMarkerLine(line: string) {
    HasPageMarker(line) || HasTestMarker(line)
  }

  /** One iteration of the marker loop. The last branch keeps imports that
      follow a marker outside any section; it is unreachable, because once a
      marker has been seen a section is always open. */
  function MarkerStep(m: Mode, line: string): Move<Mode> {
    var s := Strip(line);
    if m == BeforeMarkers && IsImportLine(line) then Move(ToImports, m)
    else if HasPageMarker(line) then Move(Dropped, PageSection)
    else if HasTestMarker(line) then Move(Dropped, TestSection)
    else if m == PageSection then Move(ToPage, m)
    else if m == TestSection then Move(ToTest, m)
    else if (!StartsWith(s, "#") || !Contains(s, "===")) && IsImportLine(line) then Move(ToImports, m)
    else Move(Dropped, m)
  }

  function ModeAfter(prefix: seq<string>): Mode
    decreases |prefix|
  {
    if |prefix| == 0 then BeforeMarkers
    else MarkerStep(ModeAfter(prefix[..|prefix| - 1]), prefix[|prefix| - 1]).next
  }

  function MarkerRoutes(lines: seq<string>): (rs: seq<Route>)
    ensures |rs| == |lines|
  {
    seq(|lines|, k requires 0 <= k < |lines| => MarkerStep(ModeAfter(lines[..k]), lines[k]).route)
  }

  function MarkerSections(code: string): SectionLines {
    Route4(Lines(code), MarkerRoutes(Lines(code)))
  }

  /** `_split_code_by_markers`: the page and test sections are stripped, the
      imports are not. */
  function SplitByMarkers(code: string): (r: Sections)
    ensures NoOpeningLine(code) ==> r == Sections("", "", JoinLines(Filter(Lines(code), IsImportLine)))
  {
    var sl := MarkerSections(code);
    MarkerNoOpening(code);
    Sections(Strip(JoinLines(sl.page)), Strip(JoinLines(sl.test)), JoinLines(sl.imports))
  }

  /** What one marker step does, case by case. */
  lemma MarkerStepFacts(m: Mode, line: string)
    ensures var mv := MarkerStep(m, line);
      (m == BeforeMarkers && IsImportLine(line) ==> mv == Move(ToImports, m))
      && (!(m == BeforeMarkers && IsImportLine(line)) && HasPageMarker(line) ==> mv == Move(Dropped, PageSection))
      && ((!(m == BeforeMarkers && IsImportLine(line)) && !HasPageMarker(line) && HasTestMarker(line))
            ==> mv == Move(Dropped, TestSection))
      && (!IsMarkerLine(line) && m == PageSection ==> mv == Move(ToPage, m))
      && (!IsMarkerLine(line) && m == TestSection ==> mv == Move(ToTest, m))
      && (!IsMarkerLine(line) && m == BeforeMarkers && !IsImportLine(line) ==> mv == Move(Dropped, m))
  {
  }

  /** Reference: sections have begun once some marker line that is not itself
      an import line has occurred (an import line carrying a marker before
      that is taken as an import). */
  predicate SectionsBegun(prefix: seq<string>) {
    exists k :: 0 <= k < |prefix| && Opens(prefix[k])
  }

  /** Reference: the kind of the most recent marker line. */
  function LastMarker(prefix: seq<string>): (r: Option<Mode>)
    ensures r.Some? ==> r.value != BeforeMarkers
    decreases |prefix|
  {
    if |prefix| == 0 then None
    else
      var l := prefix[|prefix| - 1];
      if HasPageMarker(l) then Some(PageSection)
      else if HasTestMarker(l) then Some(TestSection)
      else LastMarker(prefix[..|prefix| - 1])
  }

  /** The marker loop's mode is the section named by the most recent marker
      once sections have begun, and "before markers" until then. */
  lemma {:induction false} ModeAfterIsMostRecentMarker(p: seq<string>)
    ensures SectionsBegun(p) ==> LastMarker(p).Some? && ModeAfter(p) == LastMarker(p).value
    ensures !SectionsBegun(p) ==> ModeAfter(p) == BeforeMarkers
    decreases |p|
  {
    if |p| > 0 {
      var q := p[..|p| - 1];
      var l := p[|p| - 1];
      ModeAfterIsMostRecentMarker(q);
      ModeTracks(ModeAfter(q), LastMarker(q), SectionsBegun(q), l);
      SectionsBegunLast(p);
    }
  }

  /** The most recent marker after one more line. */
  function NextLast(last: Option<Mode>, l: string): Option<Mode> {
    if HasPageMarker(l) then Some(PageSection)
    else if HasTestMarker(l) then Some(TestSection)
    else last
  }

  /** One step of the marker loop keeps the mode equal to the most recent
      marker once sections have begun. */
  lemma ModeTracks(m: Mode, last: Option<Mode>, begun: bool, l: string)
    requires begun ==> last.Some? && m == last.value
    requires !begun ==> m == BeforeMarkers
    requires last.Some? ==> last.value != BeforeMarkers
    ensures begun || (IsMarkerLine(l) && !IsImportLine(l)) ==>
      NextLast(last, l).Some? && MarkerStep(m, l).next == NextLast(last, l).value
    ensures !(begun || (IsMarkerLine(l) && !IsImportLine(l))) ==> MarkerStep(m, l).next == BeforeMarkers
  {
    MarkerStepFacts(m, l);
  }

  lemma SectionsBegunLast(p: seq<string>)
    requires |p| > 0
    ensures SectionsBegun(p) <==>
      SectionsBegun(p[..|p| - 1]) || (IsMarkerLine(p[|p| - 1]) && !IsImportLine(p[|p| - 1]))
  {
    SomeLast(p, Opens);
    var q := p[..|p| - 1];
    SomePrefix(p, q, Opens);
  }

  /** A prefix has an element satisfying `f` exactly when one of the
      sequence's first elements does. */
  lemma SomePrefix<T>(p: seq<T>, q: seq<T>, f: T -> bool)
    requires |p| > 0 && q == p[..|p| - 1]
    ensures (exists k :: 0 <= k < |q| && f(q[k])) <==> (exists k :: 0 <= k < |p| - 1 && f(p[k]))
  {
    assert forall k :: 0 <= k < |q| ==> q[k] == p[k];
  }


  /** A line that opens the sections. */
  predicate Opens(line: string) {
    IsMarkerLine(line) && !IsImportLine(line)
  }

  /** Some element of a non-empty sequence satisfies `f` exactly when some
      element before the last one does or the last one does. */
  lemma SomeLast<T>(p: seq<T>, f: T -> bool)
    requires |p| > 0
    ensures (exists k :: 0 <= k < |p| && f(p[k])) <==>
      (exists k :: 0 <= k < |p| - 1 && f(p[k])) || f(p[|p| - 1])
  {
  }



  /** A marker line reaches no section, except an import line that carries a
      marker before sections have begun, which is kept as an import. */
  lemma MarkerLinesDropped(lines: seq<string>, k: int)
    requires 0 <= k < |lines| && IsMarkerLine(lines[k])
    ensures var r := MarkerRoutes(lines)[k];
      r == Dropped || (r == ToImports && IsImportLine(lines[k]) && !SectionsBegun(lines[..k]))
  {
    ModeAfterIsMostRecentMarker(lines[..k]);
    MarkerStepFacts(ModeAfter(lines[..k]), lines[k]);
  }

  /** Once sections have begun, every other line (imports included) goes
      verbatim to the section of the most recent marker. */
  lemma MarkerRoutingAfterFirst(lines: seq<string>, k: int)
    requires 0 <= k < |lines| && !IsMarkerLine(lines[k]) && SectionsBegun(lines[..k])
    ensures LastMarker(lines[..k]).Some?
    ensures MarkerRoutes(lines)[k] == (if LastMarker(lines[..k]) == Some(PageSection) then ToPage else ToTest)
  {
    ModeAfterIsMostRecentMarker(lines[..k]);
    MarkerStepFacts(ModeAfter(lines[..k]), lines[k]);
  }

  /** Before sections begin, only import lines are kept, as imports. */
  lemma MarkerRoutingBeforeFirst(lines: seq<string>, k: int)
    requires 0 <= k < |lines| && !SectionsBegun(lines[..k])
    ensures MarkerRoutes(lines)[k] == ToImports <==> IsImportLine(lines[k])
    ensures MarkerRoutes(lines)[k] == ToImports || MarkerRoutes(lines)[k] == Dropped
  {
    ModeAfterIsMostRecentMarker(lines[..k]);
    MarkerStepFacts(ModeAfter(lines[..k]), lines[k]);
  }

  /** No line of the code opens a section. */
  predicate NoOpeningLine(code: string) {
    forall k :: 0 <= k < |Lines(code)| ==> !Opens(Lines(code)[k])
  }

  /** With no line opening a section, the marker splitter keeps the import
      lines, in order, and fills neither class section. */
  lemma MarkerNoOpening(code: string)
    ensures NoOpeningLine(code) ==>
      MarkerSections(code).page == [] && MarkerSections(code).test == []
      && MarkerSections(code).imports == Filter(Lines(code), IsImportLine)
  {
    var lines := Lines(code);
    var routes := MarkerRoutes(lines);
    if NoOpeningLine(code) {
      forall k | 0 <= k < |lines|
        ensures routes[k] == ToImports <==> IsImportLine(lines[k])
        ensures routes[k] == ToImports || routes[k] == Dropped
      {
        assert forall j :: 0 <= j < k ==> lines[..k][j] == lines[j];
        assert !SectionsBegun(lines[..k]);
        MarkerRoutingBeforeFirst(lines, k);
      }
      PickFilter(lines, routes, ToImports, IsImportLine);
      PickNone(lines, routes, ToPage);
      PickNone(lines, routes, ToTest);
    }
  }

  /** Lines free of line breaks, picked for one route and joined, split back
      into the same lines. */
  lemma PickedLinesRejoin(lines: seq<string>, routes: seq<Route>, t: Route)
    requires |routes| == |lines|
    requires forall i :: 0 <= i < |lines| ==> '\n' !in lines[i]
    ensures var p := Pick(lines, routes, t);
      |p| > 0 ==> Split(JoinLines(p), '\n') == p
  {
    var p := Pick(lines, routes, t);
    PickMembers(lines, routes, t);
    forall i | 0 <= i < |p| ensures '\n' !in p[i] {
      assert p[i] in p;
    }
    if |p| > 0 {
      SplitJoin(p, '\n');
    }
  }

  /** The marker splitter's joining: the page and test sections carry no
      surrounding white space, while the imports are the routed import lines
      joined as they are, so splitting them again gives those lines back. */
  lemma MarkerJoining(code: string)
    ensures var r := SplitByMarkers(code);
      && (|r.pageObject| == 0 || (!IsSpace(r.pageObject[0]) && !IsSpace(r.pageObject[|r.pageObject| - 1])))
      && (|r.test| == 0 || (!IsSpace(r.test[0]) && !IsSpace(r.test[|r.test| - 1])))
    ensures var imports := MarkerSections(code).imports;
      |imports| > 0 ==> Split(SplitByMarkers(code).imports, '\n') == imports
  {
    var lines := Lines(code);
    var routes := MarkerRoutes(lines);
    assert MarkerSections(code).imports == Pick(lines, routes, ToImports);
    PickedLinesRejoin(lines, routes, ToImports);
  }

  // ---------------------------------------------------------------- the splitter tiers

  /** `_split_code_simple`: the marker splitter when either marker occurs
      anywhere in the text, the line splitter otherwise. */
  function SplitSimple(code: string): (r: Sections)
    ensures NoOpeningLine(code) ==> r.imports == JoinLines(Filter(Lines(code), IsImportLine))
    ensures NoOpeningLine(code) && (Contains(code, PageMarker) || Contains(code, TestMarker)) ==>
      r.pageObject == "" && r.test == ""
  {
    if Contains(code, PageMarker) || Contains(code, TestMarker) then SplitByMarkers(code)
    else SplitByLines(code)
  }

  /** `_split_code`: the syntax-tree splitter, falling back to the simple
      splitter on a syntax error or when both class sections come out empty. */
  function SplitCode(code: string, parse: ParseResult): (r: Sections)
    ensures r.pageObject == "" && r.test == "" ==> r == SplitSimple(code)
    ensures parse.SyntaxError? && NoOpeningLine(code) ==> r.imports == JoinLines(Filter(Lines(code), IsImportLine))
  {
    match parse
    case SyntaxError => SplitSimple(code)
    case Parsed(walk) =>
      var r := SplitAst(code, walk);
      if r.pageObject == "" && r.test == "" then SplitSimple(code) else r
  }

  /** The tiers: the syntax tree is consulted first, so markers in parseable
      code (in comments, say) are ignored as long as the tree yields a page or
      test section; markers decide only after a syntax error or an empty
      syntax-tree split. No tier falls back to the whole input. */
  lemma SplitCodeTiers(code: string, parse: ParseResult)
    ensures parse.SyntaxError? ==> SplitCode(code, parse) == SplitSimple(code)
    ensures parse.Parsed? && (SplitAst(code, parse.walk).pageObject != "" || SplitAst(code, parse.walk).test != "")
      ==> SplitCode(code, parse) == SplitAst(code, parse.walk)
    ensures parse.Parsed? && SplitAst(code, parse.walk).pageObject == "" && SplitAst(code, parse.walk).test == ""
      ==> SplitCode(code, parse) == SplitSimple(code)
    ensures Contains(code, PageMarker) || Contains(code, TestMarker) ==>
      SplitCode(code, parse) == SplitByMarkers(code)
      || (parse.Parsed? && SplitCode(code, parse) == SplitAst(code, parse.walk))
  {
  }
}

=== FILE: pattern_extractor.dfy ===
/** `PatternExtractor`: the naming conventions and code habits inferred
    from an index. Every style is decided from one sample name; the code
    flags are "some file matches"; the common imports are the ten most
    frequent, ties in first-seen order. */
module PatternExtractor {
  import opened Wrappers
  import opened Seqs
  import opened PyStr
  import opened Ranking
  import opened RepoModels
  import opened Indexer

  // ---------------------------------------------------------------- style detectors

  /** `_detect_naming_style(name)` for a file name. */
  function DetectNamingStyle(name: string): (r: string)
    ensures r == "snake_case" <==> '_' in name
    ensures r == "kebab-case" <==> '_' !in name && '-' in name
    ensures r == "lowercase" <==> '_' !in name && '-' !in name && IsLowerStr(name)
    ensures r == "mixed" <==> '_' !in name && '-' !in name && !IsLowerStr(name)
  {
    ContainsChar(name, '_');
    ContainsChar(name, '-');
    if Contains(name, "_") then "snake_case"
    else if Contains(name, "-") then "kebab-case"
    else if IsLowerStr(name) then "lowercase"
    else "mixed"
  }

  /** `_detect_class_naming_style(name)`; `None` is the `IndexError` an
      empty name raises. */
  function DetectClassNamingStyle(name: string): (r: Option<string>)
    ensures r.None? <==> name == ""
    ensures r == Some("PascalCase") <==> name != "" && IsUpperChar(name[0]) && '_' !in name
    ensures r == Some("Pascal_Case") <==> name != "" && IsUpperChar(name[0]) && '_' in name
    ensures r == Some("mixed") <==> name != "" && !IsUpperChar(name[0])
  {
    ContainsChar(name, '_');
    if |name| == 0 then None
    else if IsUpperChar(name[0]) && !Contains(name, "_") then Some("PascalCase")
    else if IsUpperChar(name[0]) && Contains(name, "_") then Some("Pascal_Case")
    else Some("mixed")
  }

  /** `_detect_function_naming_style(name)`; an empty name raises
      `IndexError` (`None`). */
  function DetectFunctionNamingStyle(name: string): (r: Option<string>)
    ensures r.None? <==> name == ""
    ensures r == Some("snake_case") <==> '_' in name
    ensures r == Some("PascalCase") <==> name != "" && '_' !in name && IsUpperChar(name[0])
    ensures r == Some("camelCase") <==> name != "" && '_' !in name && !IsUpperChar(name[0])
  {
    ContainsChar(name, '_');
    if Contains(name, "_") then Some("snake_case")
    else if |name| == 0 then None
    else if IsUpperChar(name[0]) then Some("PascalCase")
    else Some("camelCase")
  }

  /** A snake-case file name such as `login_page.py` is detected as such. */
  lemma SnakeCaseFileName(a: string, b: string)
    ensures DetectNamingStyle(a + "_" + b) == "snake_case"
  {
    assert (a + "_" + b)[|a|] == '_';
  }

  // ---------------------------------------------------------------- naming patterns

  /** `Path(p).suffix`: from the last "." of the final component, unless that
      dot starts the name or ends it. */
  function Suffix(p: Path): (r: string)
    ensures r == "" || (r[0] == '.' && EndsWith(FileName(p), r))
  {
    var name := FileName(p);
    match LastIndex(name, '.')
    case None => ""
    case Some(i) => if 0 < i < |name| - 1 then name[i..] else ""
  }

  /** The file's name when its suffix is ".py". */
  function PyFileName(f: IndexedFile): seq<string> {
    if Suffix(f.path) == ".py" then [FileName(f.path)] else []
  }

  /** `[f.path.name for f in files if f.path.suffix == ".py"]`. */
  function PyFileNames(files: seq<IndexedFile>): seq<string> {
    FlatMap(files, PyFileName)
  }

  function AllClasses(files: seq<IndexedFile>): seq<string> {
    FlatMap(files, (f: IndexedFile) => f.classes)
  }

  function AllFunctions(files: seq<IndexedFile>): seq<string> {
    FlatMap(files, (f: IndexedFile) => f.functions)
  }

  function AllImports(files: seq<IndexedFile>): seq<string> {
    FlatMap(files, (f: IndexedFile) => f.imports)
  }

  /** The names containing `word` once lower-cased. */
  function Mentioning(names: seq<string>, word: string): (r: seq<string>)
    ensures forall i :: 0 <= i < |r| ==> Contains(Lower(r[i]), word)
  {
    if |names| == 0 then []
    else (if Contains(Lower(names[0]), word) then [names[0]] else []) + Mentioning(names[1..], word)
  }

  /** The functions of the given files whose lower-cased name contains "test". */
  function TestFunctions(files: seq<IndexedFile>): seq<string> {
    FlatMap(files, (f: IndexedFile) => Mentioning(f.functions, "test"))
  }

  /** The classes of the given files whose lower-cased name contains "page". */
  function PageClasses(files: seq<IndexedFile>): seq<string> {
    FlatMap(files, (f: IndexedFile) => Mentioning(f.classes, "page"))
  }

  predicate SomeStartsWith(names: seq<string>, p: string) {
    exists i :: 0 <= i < |names| && StartsWith(names[i], p)
  }

  predicate SomeEndsWith(names: seq<string>, p: string) {
    exists i :: 0 <= i < |names| && EndsWith(names[i], p)
  }

  /** Some name starts with (`ends` false) or ends with (`ends` true) `c`. */
  predicate Matches(names: seq<string>, c: string, ends: bool) {
    if ends then SomeEndsWith(names, c) else SomeStartsWith(names, c)
  }

  /** The position of the first candidate some name matches: the loop with
      `break` over the candidate list. */
  function FirstAffix(candidates: seq<string>, names: seq<string>, ends: bool): (r: Option<nat>)
    ensures r.Some? ==> r.value < |candidates| && Matches(names, candidates[r.value], ends)
    ensures r.Some? ==> forall m :: 0 <= m < r.value ==> !Matches(names, candidates[m], ends)
    ensures r.None? ==> forall k :: 0 <= k < |candidates| ==> !Matches(names, candidates[k], ends)
  {
    if |candidates| == 0 then None
    else if Matches(names, candidates[0], ends) then Some(0)
    else
      var r := FirstAffix(candidates[1..], names, ends);
      assert forall k :: 1 <= k < |candidates| ==> candidates[k] == candidates[1..][k - 1];
      if r.Some? then Some(r.value + 1) else None
  }

  const TestPrefixes := ["test_", "test", "test_"]

  const PageSuffixes := ["Page", "PageObject", "PO"]

  /** The file naming style: that of the first Python file, else the default. */
  function FileStyle(files: seq<IndexedFile>): (r: string)
    ensures r in ["snake_case", "kebab-case", "lowercase", "mixed"]
    ensures r == "snake_case" <==> |PyFileNames(files)| == 0 || '_' in PyFileNames(files)[0]
  {
    var names := PyFileNames(files);
    if |names| > 0 then DetectNamingStyle(names[0]) else DefaultNamingPattern.fileNaming
  }

  /** The class naming style: that of the first class, else the default;
      `None` when the first class name is empty. */
  function ClassStyle(files: seq<IndexedFile>): (r: Option<string>)
    ensures r.None? <==> |AllClasses(files)| > 0 && AllClasses(files)[0] == ""
    ensures r.Some? ==> r.value in ["PascalCase", "Pascal_Case", "mixed"]
    ensures |AllClasses(files)| == 0 ==> r == Some("PascalCase")
  {
    var classes := AllClasses(files);
    if |classes| > 0 then DetectClassNamingStyle(classes[0]) else Some(DefaultNamingPattern.classNaming)
  }

  /** The function naming style, as for classes. */
  function FunctionStyle(files: seq<IndexedFile>): (r: Option<string>)
    ensures r.None? <==> |AllFunctions(files)| > 0 && AllFunctions(files)[0] == ""
    ensures r.Some? ==> r.value in ["snake_case", "PascalCase", "camelCase"]
    ensures |AllFunctions(files)| == 0 ==> r == Some("snake_case")
  {
    var functions := AllFunctions(files);
    if |functions| > 0 then DetectFunctionNamingStyle(functions[0]) else Some(DefaultNamingPattern.functionNaming)
  }

  /** The test prefix: "test" exactly when some test-file function starts
      with "test" and none with "test_"; otherwise the default "test_". */
  function TestPrefix(files: seq<IndexedFile>): (r: string)
    ensures var tests := TestFunctions(OfType(files, Test));
      && (r == "test_" || r == "test")
      && (r == "test" <==> !SomeStartsWith(tests, "test_") && SomeStartsWith(tests, "test"))
  {
    var tests := TestFunctions(OfType(files, Test));
    match FirstAffix(TestPrefixes, tests, false)
    case Some(k) => TestPrefixes[k]
    case None =>
      assert !Matches(tests, TestPrefixes[1], false);
      DefaultNamingPattern.testPrefix
  }

  /** The page suffix: the first of "Page", "PageObject", "PO" that some
      page-object class ends with, else the default "Page". */
  function PageSuffix(files: seq<IndexedFile>): (r: string)
    ensures var pages := PageClasses(OfType(files, PageObject));
      && r in PageSuffixes
      && (r == "PageObject" <==> !SomeEndsWith(pages, "Page") && SomeEndsWith(pages, "PageObject"))
      && (r == "PO" <==> !SomeEndsWith(pages, "Page") && !SomeEndsWith(pages, "PageObject") && SomeEndsWith(pages, "PO"))
  {
    var pages := PageClasses(OfType(files, PageObject));
    match FirstAffix(PageSuffixes, pages, true)
    case Some(k) =>
      assert |PageSuffixes[0]| == 4 && |PageSuffixes[1]| == 10 && |PageSuffixes[2]| == 2;
      PageSuffixes[k]
    case None =>
      assert !Matches(pages, PageSuffixes[1], true) && !Matches(pages, PageSuffixes[2], true);
      DefaultNamingPattern.pageSuffix
  }

  /** `_extract_naming_patterns(index)`: `Err` for the `IndexError` an empty
      first class or function name raises. */
  function ExtractNamingPatterns(files: seq<IndexedFile>): (r: Result<NamingPattern, string>)
    ensures r.Err? <==>
      (|AllClasses(files)| > 0 && AllClasses(files)[0] == "") || (|AllFunctions(files)| > 0 && AllFunctions(files)[0] == "")
    ensures r.Ok? ==> r.value.testPrefix == TestPrefix(files) && r.value.pageSuffix == PageSuffix(files)
  {
    match (ClassStyle(files), FunctionStyle(files))
    case (Some(c), Some(f)) => Ok(NamingPattern(FileStyle(files), c, f, TestPrefix(files), PageSuffix(files)))
    case _ => Err("IndexError")
  }

  /** One sample each: once the files hold a Python file, a class and a
      function, files added after them change none of the three styles. */
  lemma StylesFromFirstSample(files: seq<IndexedFile>, more: seq<IndexedFile>)
    requires |PyFileNames(files)| > 0 && |AllClasses(files)| > 0 && |AllFunctions(files)| > 0
    ensures FileStyle(files + more) == FileStyle(files)
    ensures ClassStyle(files + more) == ClassStyle(files)
    ensures FunctionStyle(files + more) == FunctionStyle(files)
  {
    FlatMapConcat(files, more, PyFileName);
    FlatMapConcat(files, more, (f: IndexedFile) => f.classes);
    FlatMapConcat(files, more, (f: IndexedFile) => f.functions);
  }

  // ---------------------------------------------------------------- code patterns

  const QautilsImports := ["gpn_qa_utils", "qautils", "gpn_qa_utils.ui", "gpn_qa_utils.ui.pages", "gpn_qa_utils.ui.page_factory"]

  predicate MentionsQautils(imp: string) {
    exists k :: 0 <= k < |QautilsImports| && Contains(imp, QautilsImports[k])
  }

  /** The first loop's work on one file: each flag is set once the file's
      imports mention it, and never unset. */
  function FlagStep(f: IndexedFile, acc: CodePatterns): CodePatterns {
    var imports := Join(f.imports, " ");
    acc.(
      usesQautils := acc.usesQautils || (exists i :: 0 <= i < |f.imports| && MentionsQautils(f.imports[i])),
      basePageClass := if Contains(imports, "BasePage") then Some("BasePage") else acc.basePageClass,
      browserLauncher := if Contains(imports, "BrowserLauncher") then Some("BrowserLauncher") else acc.browserLauncher)
  }

  /** The first loop over the files. */
  function CodeFlags(files: seq<IndexedFile>, acc: CodePatterns): (r: CodePatterns)
    ensures r.usesAllure == acc.usesAllure && r.commonImports == acc.commonImports
    ensures r.commonDecorators == acc.commonDecorators
  {
    if |files| == 0 then acc else CodeFlags(files[1..], FlagStep(files[0], acc))
  }

  /** Some import of some file satisfies `p`. */
  predicate AnyImport(files: seq<IndexedFile>, p: string -> bool) {
    exists j, i :: 0 <= j < |files| && 0 <= i < |files[j].imports| && p(files[j].imports[i])
  }

  lemma AnyImportCons(files: seq<IndexedFile>, p: string -> bool)
    requires |files| > 0
    ensures AnyImport(files, p) <==>
      (exists i :: 0 <= i < |files[0].imports| && p(files[0].imports[i])) || AnyImport(files[1..], p)
  {
    if AnyImport(files, p) {
      var j, i :| 0 <= j < |files| && 0 <= i < |files[j].imports| && p(files[j].imports[i]);
      if j > 0 {
        assert files[1..][j - 1] == files[j];
      }
    }
    if AnyImport(files[1..], p) {
      var j, i :| 0 <= j < |files[1..]| && 0 <= i < |files[1..][j].imports| && p(files[1..][j].imports[i]);
      assert files[j + 1] == files[1..][j];
    }
  }

  /** `uses_qautils` is set exactly when some import names a qautils module. */
  lemma {:induction false} QautilsFlag(files: seq<IndexedFile>, acc: CodePatterns)
    ensures CodeFlags(files, acc).usesQautils <==> acc.usesQautils || AnyImport(files, MentionsQautils)
  {
    if |files| > 0 {
      QautilsFlag(files[1..], FlagStep(files[0], acc));
      AnyImportCons(files, MentionsQautils);
    }
  }

  /** `base_page_class` is set exactly when some import contains "BasePage":
      the word has no space, so finding it in the space-joined imports is
      finding it in one import. */
  lemma {:induction false} BasePageFlag(files: seq<IndexedFile>, acc: CodePatterns)
    ensures CodeFlags(files, acc).basePageClass.Some? <==>
      acc.basePageClass.Some? || AnyImport(files, imp => Contains(imp, "BasePage"))
  {
    if |files| > 0 {
      JoinContains(files[0].imports, "BasePage");
      BasePageFlag(files[1..], FlagStep(files[0], acc));
      AnyImportCons(files, imp => Contains(imp, "BasePage"));
    }
  }

  /** `browser_launcher`, in the same way. */
  lemma {:induction false} LauncherFlag(files: seq<IndexedFile>, acc: CodePatterns)
    ensures CodeFlags(files, acc).browserLauncher.Some? <==>
      acc.browserLauncher.Some? || AnyImport(files, imp => Contains(imp, "BrowserLauncher"))
  {
    if |files| > 0 {
      JoinContains(files[0].imports, "BrowserLauncher");
      LauncherFlag(files[1..], FlagStep(files[0], acc));
      AnyImportCons(files, imp => Contains(imp, "BrowserLauncher"));
    }
  }

  /** A space-free word occurs in the space-joined list exactly when it
      occurs in one of its elements. */
  lemma {:induction false} JoinContains(xs: seq<string>, w: string)
    requires ' ' !in w && |w| > 0
    ensures Contains(Join(xs, " "), w) <==> exists i :: 0 <= i < |xs| && Contains(xs[i], w)
  {
    if |xs| == 0 {
      MissingCharNotContained("", w, 0);
    } else if |xs| > 1 {
      JoinContains(xs[1..], w);
      assert Join(xs, " ") == xs[0] + [' '] + Join(xs[1..], " ");
      ContainsAcrossSeparator(xs[0], ' ', Join(xs[1..], " "), w);
      assert forall i :: 1 <= i < |xs| ==> xs[i] == xs[1..][i - 1];
    }
  }

  /** `any(imp.startswith("allure") for imp in file.imports)` for some file. */
  function UsesAllure(files: seq<IndexedFile>): (b: bool)
    ensures b <==> AnyImport(files, imp => StartsWith(imp, "allure"))
  {
    if |files| == 0 then false
    else
      AnyImportCons(files, imp => StartsWith(imp, "allure"));
      (exists i :: 0 <= i < |files[0].imports| && StartsWith(files[0].imports[i], "allure")) || UsesAllure(files[1..])
  }

  // ---------------------------------------------------------------- common imports

  function Id(x: string): string {
    x
  }

  /** The keys of `import_counts`, in insertion (first-seen) order. */
  function FirstSeen(all: seq<string>): (r: seq<string>)
    ensures Distinct(r)
  {
    DedupByKey(all, Id, {})
  }

  /** `import_counts[imp]`. */
  function ImportCount(all: seq<string>): string -> int {
    x => Count(all, x)
  }

  /** `sorted(import_counts.items(), key=count, reverse=True)[:10]`. */
  function CommonImports(all: seq<string>): (r: seq<string>)
    ensures |r| == Min(10, |FirstSeen(all)|)
  {
    SortDescPermutation(FirstSeen(all), ImportCount(all));
    assert |multiset(SortDesc(FirstSeen(all), ImportCount(all)))| == |multiset(FirstSeen(all))|;
    PyTake(SortDesc(FirstSeen(all), ImportCount(all)), 10)
  }

  lemma {:induction false} DistinctPermutation(s: seq<string>, r: seq<string>)
    requires Distinct(s) && multiset(r) == multiset(s)
    ensures Distinct(r)
  {
    forall i, j | 0 <= i < j < |r| ensures r[i] != r[j] {
      if r[i] == r[j] {
        MultiplicityTwo(r, i, j);
        DistinctMultiplicity(s, r[i]);
        assert false;
      }
    }
  }

  lemma {:induction false} MultiplicityTwo(r: seq<string>, i: nat, j: nat)
    requires i < j < |r| && r[i] == r[j]
    ensures multiset(r)[r[i]] >= 2
  {
    assert r == r[..i] + [r[i]] + r[i + 1..j] + [r[j]] + r[j + 1..];
  }

  lemma {:induction false} DistinctMultiplicity(s: seq<string>, x: string)
    requires Distinct(s)
    ensures multiset(s)[x] <= 1
  {
    if |s| > 0 {
      DistinctMultiplicity(s[1..], x);
      assert s == [s[0]] + s[1..];
      if s[0] == x {
        assert x !in s[1..];
      }
    }
  }

  lemma {:induction false} WithKeyPrefix<T>(a: seq<T>, b: seq<T>, key: T -> int, k: int)
    requires a <= b
    ensures WithKey(a, key, k) <= WithKey(b, key, k)
  {
    if |a| > 0 {
      assert a[1..] <= b[1..];
      WithKeyPrefix(a[1..], b[1..], key, k);
    }
  }

  /** At most ten distinct imports, each one of the files' imports. */
  lemma CommonImportsShape(all: seq<string>)
    ensures |CommonImports(all)| <= 10
    ensures Distinct(CommonImports(all))
    ensures forall x :: x in CommonImports(all) ==> x in all
  {
    var keys := FirstSeen(all);
    var sorted := SortDesc(keys, ImportCount(all));
    SortDescPermutation(keys, ImportCount(all));
    DistinctPermutation(keys, sorted);
    DedupByKeyComplete(all, Id, {});
    forall x | x in CommonImports(all) ensures x in all {
      assert x in multiset(sorted);
    }
  }

  /** The imports come by non-increasing count. */
  lemma CommonImportsOrder(all: seq<string>)
    ensures var r := CommonImports(all);
      forall i, j :: 0 <= i < j < |r| ==> Count(all, r[i]) >= Count(all, r[j])
  {
    SortDescSorted(FirstSeen(all), ImportCount(all));
  }

  /** Imports of equal count keep the order in which they were first seen. */
  lemma CommonImportsTies(all: seq<string>, k: int)
    ensures WithKey(CommonImports(all), ImportCount(all), k) <= WithKey(FirstSeen(all), ImportCount(all), k)
  {
    var keys := FirstSeen(all);
    SortDescStable(keys, ImportCount(all), k);
    WithKeyPrefix(CommonImports(all), SortDesc(keys, ImportCount(all)), ImportCount(all), k);
  }

  /** An import left out means ten were kept, none counting less than it. */
  lemma CommonImportsComplete(all: seq<string>, x: string)
    requires x in all && x !in CommonImports(all)
    ensures |CommonImports(all)| == 10
    ensures forall y :: y in CommonImports(all) ==> Count(all, y) >= Count(all, x)
  {
    var keys := FirstSeen(all);
    var key := ImportCount(all);
    var sorted := SortDesc(keys, key);
    var r := CommonImports(all);
    SortDescPermutation(keys, key);
    SortDescSorted(keys, key);
    assert r == PyTake(sorted, 10) && r <= sorted;
    DedupByKeyComplete(all, Id, {});
    assert Id(x) == x;
    var y :| y in keys && Id(y) == Id(x);
    assert x in multiset(sorted);
    var p :| 0 <= p < |sorted| && sorted[p] == x;
    assert p >= |r|;
    KeptOutrank(all, r, sorted, p);
  }

  /** In a list sorted by count, every entry of a prefix ending before
      position `p` counts at least as much as the entry at `p`. */
  lemma KeptOutrank(all: seq<string>, r: seq<string>, sorted: seq<string>, p: int)
    requires SortedDesc(sorted, ImportCount(all)) && r <= sorted && |r| <= p < |sorted|
    ensures forall z :: z in r ==> Count(all, z) >= Count(all, sorted[p])
  {
    forall z | z in r ensures Count(all, z) >= Count(all, sorted[p]) {
      var q :| 0 <= q < |r| && r[q] == z;
      assert ImportCount(all)(sorted[q]) >= ImportCount(all)(sorted[p]);
    }
  }

  // ---------------------------------------------------------------- extract_patterns

  /** `_extract_code_patterns(index)`; `common_decorators` is always empty. */
  function ExtractCodePatterns(files: seq<IndexedFile>): (r: CodePatterns)
    ensures r.commonDecorators == [] && r.commonImports == CommonImports(AllImports(files))
    ensures r.usesQautils <==> AnyImport(files, MentionsQautils)
    ensures r.basePageClass.Some? <==> AnyImport(files, imp => Contains(imp, "BasePage"))
    ensures r.browserLauncher.Some? <==> AnyImport(files, imp => Contains(imp, "BrowserLauncher"))
    ensures r.usesAllure <==> AnyImport(files, imp => StartsWith(imp, "allure"))
  {
    QautilsFlag(files, DefaultCodePatterns);
    BasePageFlag(files, DefaultCodePatterns);
    LauncherFlag(files, DefaultCodePatterns);
    var flags := CodeFlags(files, DefaultCodePatterns);
    flags.(usesAllure := UsesAllure(files), commonImports := CommonImports(AllImports(files)), commonDecorators := [])
  }

  /** `extract_patterns(index)`: only the naming and code patterns change. */
  function ExtractPatterns(index: RepositoryIndex): (r: Result<RepositoryIndex, string>)
    ensures r.Ok? <==> ExtractNamingPatterns(index.files).Ok?
    ensures r.Ok? ==> r.value.(namingPatterns := index.namingPatterns, codePatterns := index.codePatterns) == index
    ensures r.Ok? ==> r.value.codePatterns.commonDecorators == [] && |r.value.codePatterns.commonImports| <= 10
  {
    var naming :- ExtractNamingPatterns(index.files);
    Ok(index.(namingPatterns := naming, codePatterns := ExtractCodePatterns(index.files)))
  }
}

=== FILE: prompt_builder.dfy ===
/** `PromptBuilder`: the three prompts sent to the model. The system
    prompt states the code requirements, the context prompt summarises the
    repository index and the caller's extra context, and the task prompt
    describes the test case step by step. */
module PromptBuilder {
  import opened Wrappers
  import opened Seqs
  import opened PyStr
  import opened TestModels
  import opened RepoModels
  import TemplateAnalyzer

  /** The fixed prose of the prompts: the system text (the role and
      requirements 1 to 7) and the closing instructions of the task prompt
      before and after the test class name. The builders take it as a
      parameter; `Original` is the wording the library ships. */
  datatype Wording = Wording(system: string, rulesHead: string, rulesTail: string)

  const Original := Wording(
    "Ты эксперт по автоматизации тестирования на Python.\n\nТвоя задача - генерировать качественные автотесты UI с использованием:\n- Playwright для взаимодействия с браузером\n- Паттерна Page Object Model\n- Библиотеки qautils (gpn_qa_utils) для работы с элементами\n- Allure Report для отчетности\n\nТребования к коду:\n1. Используй классы из gpn_qa_utils.ui.page_factory (Button, Input, Link, Text и др.)\n2. Page Object классы должны наследоваться от gpn_qa_utils.ui.pages.base.BasePage\n3. Используй Allure декораторы (@allure.epic, @allure.feature, @allure.story, @allure.title)\n4. Используй allure.step для шагов теста\n5. Следуй корпоративным стандартам кодирования\n6. Добавляй понятные комментарии\n7. Используй осмысленные имена переменных и методов\n",
    "\n\nКРИТИЧЕСКИ ВАЖНО: Строго следуй шаблонам из репозитория проекта!\n\n1. PAGE OBJECT КЛАСС:\n   - ИМПОРТЫ (в таком порядке):\n     * import os\n     * import allure\n     * from dotenv import load_dotenv\n     * from gpn_qa_utils.ui.page_factory.* (Button, Input, Link, Text и т.д.)\n     * from gpn_qa_utils.ui.pages.base import BasePage\n     * from playwright.sync_api import Page\n   - В начале класса: load_dotenv()\n   - super().__init__(page, url=os.getenv(\"AUTOTEST_BASE_URL\")) или super().__init__(page)\n   - Элементы определяй как self.element_name = Component(page, selector=\"...\", allure_name=\"...\")\n   - Методы используй allure.step для действий\n\n2. ТЕСТОВЫЙ КЛАСС:\n   - Тесты должны быть в КЛАССЕ, а не как отдельные функции!\n   - Имя класса: Test* (например, Test",
    ")\n   - ИМПОРТЫ (в таком порядке):\n     * import os\n     * import allure\n     * import pytest\n     * from src.ui.pages.* import PageObjectClass (НЕ из pages.*!)\n   - Класс должен иметь декораторы: @allure.epic(\"...\"), @allure.feature(\"...\")\n   - Каждый тест должен иметь @allure.title(\"...\")\n   - Тесты принимают browser: Page или фикстуры страниц (main_page, login_page и т.д.)\n   - НЕ используй прямые вызовы Playwright (expect, page.locator) - только методы Page Object!\n   - Используй методы Page Object для всех действий и проверок\n\nФормат ответа:\n```python\n# === PAGE OBJECT ===\n[код Page Object класса строго по шаблону]\n\n# === TEST CLASS ===\n[код тестового класса строго по шаблону]\n```\n\nТРЕБОВАНИЯ:\n1. Строго следуй шаблонам из репозитория - они показаны выше\n2. Page Object и тестовый класс должны быть в ОДНОМ ответе, но четко разделены\n3. Используй ТОЛЬКО компоненты из gpn_qa_utils.ui.page_factory\n4. НЕ используй прямые вызовы Playwright в тестах - только методы Page Object\n5. Тесты должны быть в классе, а не как отдельные функции\n6. Используй правильные импорты из src.ui.pages.*\n7. Каждый тест должен иметь @allure.title\n8. Класс тестов должен иметь @allure.epic и @allure.feature\n")

  // ---------------------------------------------------------------- system prompt

  /** The rule line that VERBOSE and COMPACT add as requirement 8. */
  function StyleRule(style: CodeStyle): Option<string> {
    match style
    case Standard => None
    case Verbose => Some("8. Добавляй подробные " + "комментарии и docstrings")
    case Compact => Some("8. Пиши компактный код " + "без избыточных комментариев")
  }

  /** Each added rule is a single line. */
  lemma StyleRuleIsOneLine(style: CodeStyle)
    ensures StyleRule(style).Some? ==> '\n' !in StyleRule(style).value
  {
    match style
    case Standard =>
    case Verbose => VerbosePieces();
    case Compact => CompactPieces();
  }

  lemma VerbosePieces()
    ensures '\n' !in "8. Добавляй подробные " && '\n' !in "комментарии и docstrings"
  {
  }

  lemma CompactPieces()
    ensures '\n' !in "8. Пиши компактный код " && '\n' !in "без избыточных комментариев"
  {
  }

  /** `build_system_prompt`: the fixed requirements, and for VERBOSE and
      COMPACT one more line of text on its own. */
  function BuildSystemPrompt(w: Wording, style: CodeStyle): (r: string)
    ensures StartsWith(r, w.system)
    ensures style == Standard <==> r == w.system
    ensures style != Standard ==> exists line :: '\n' !in line && r == w.system + "\n" + line + "\n"
  {
    match StyleRule(style)
    case None => w.system
    case Some(line) =>
      StyleRuleIsOneLine(style);
      w.system + "\n" + line + "\n"
  }

  /** The three styles give three different system prompts. */
  lemma SystemPromptShowsStyle(w: Wording, a: CodeStyle, b: CodeStyle)
    requires BuildSystemPrompt(w, a) == BuildSystemPrompt(w, b)
    ensures a == b
  {
  }

  // ---------------------------------------------------------------- context prompt

  /** An entry of `additional_context["api_contracts"]`: its name and its
      `"type"` field, when present. */
  datatype ApiContract = ApiContract(name: string, contractType: Option<string>)

  /** An entry of `additional_context["selectors"]`: a page and the number
      of selectors found on it. */
  datatype PageSelectors = PageSelectors(page: string, count: nat)

  /** The keys of `additional_context` the builder reads; any other key is
      ignored. */
  datatype AdditionalContext = AdditionalContext(
    apiContracts: Option<seq<ApiContract>>,
    selectors: Option<seq<PageSelectors>>,
    codeSamples: bool)

  predicate Recognised(extra: Option<AdditionalContext>) {
    extra.Some? && (extra.value.apiContracts.Some? || extra.value.selectors.Some? || extra.value.codeSamples)
  }

  const StructureHeader := "Информация о структуре проекта:"
  const PageObjectHeader := "\n=== ШАБЛОН PAGE OBJECT КЛАССА (СТРОГО СЛЕДУЙ ЭТОМУ ФОРМАТУ) ==="
  const TestHeader := "\n=== ШАБЛОН ТЕСТОВОГО КЛАССА (СТРОГО СЛЕДУЙ ЭТОМУ ФОРМАТУ) ==="
  const SnippetsHeader := "\n=== ДОПОЛНИТЕЛЬНЫЕ ПРИМЕРЫ КОДА ==="
  const MaxSnippets := 2
  const MaxSnippetLines := 80

  /** The layout, naming and code-convention lines of the index. */
  function StructureParts(index: RepositoryIndex): (r: seq<string>)
    ensures |r| > 0 && r[0] == StructureHeader
  {
    var s := index.structure;
    var n := index.namingPatterns;
    var c := index.codePatterns;
    [StructureHeader,
     "- Тестовые директории: " + NatToString(|s.testDirectories|),
     "- Page Object директории: " + NatToString(|s.pageObjectDirectories|),
     "\nПаттерны именования:",
     "- Файлы: " + n.fileNaming,
     "- Классы: " + n.classNaming,
     "- Функции: " + n.functionNaming,
     "- Префикс тестов: " + n.testPrefix,
     "- Суффикс Page Objects: " + n.pageSuffix,
     "\nПаттерны кода:",
     "- Используется qautils: " + BoolToString(c.usesQautils),
     "- Используется Allure: " + BoolToString(c.usesAllure)]
    + (if Filled(c.basePageClass) then ["- Базовый класс Page: " + c.basePageClass.value] else [])
    + (if Filled(c.browserLauncher) then ["- Browser Launcher: " + c.browserLauncher.value] else [])
  }

  /** A template in a fenced block under its heading; nothing for an
      absent or empty template. */
  function TemplateBlock(header: string, template: Option<string>): (r: seq<string>)
    ensures r == [] <==> !Filled(template)
    ensures r != [] ==> |r| == 4 && r[2] == template.value
  {
    if Filled(template) then [header, "```python", template.value, "```"] else []
  }

  /** The lines of one numbered example: at most its first 80 lines, fenced. */
  function SnippetBlock(i: nat, snippet: string): seq<string> {
    ["\nПример " + NatToString(i) + ":", "```python"] + PyTake(Split(snippet, '\n'), MaxSnippetLines) + ["```"]
  }

  /** `enumerate(snippets, start)`: the examples numbered from `start`. */
  function SnippetBlocks(snippets: seq<string>, start: nat): (r: seq<string>)
    decreases |snippets|
  {
    if |snippets| == 0 then [] else SnippetBlock(start, snippets[0]) + SnippetBlocks(snippets[1..], start + 1)
  }

  /** The example section: a heading and the first two snippets. */
  function SnippetPart(snippets: seq<string>): seq<string> {
    if |snippets| == 0 then [] else [SnippetsHeader] + SnippetBlocks(PyTake(snippets, MaxSnippets), 1)
  }

  /** Everything the index contributes. */
  function IndexParts(index: RepositoryIndex): (r: seq<string>)
    ensures |r| > 0 && r[0] == StructureHeader
  {
    var t := index.templates;
    StructureParts(index) + TemplateBlock(PageObjectHeader, t.pageObjectTemplate)
      + TemplateBlock(TestHeader, t.testTemplate) + SnippetPart(t.commonCodeSnippets)
  }

  function ContractLine(c: ApiContract): string {
    "- " + c.name + ": " + c.contractType.GetOr("unknown")
  }

  function SelectorsLine(p: PageSelectors): string {
    "- " + p.page + ": " + NatToString(p.count) + " селекторов"
  }

  /** The lines for the recognised keys of `additional_context`, in the
      order api_contracts, selectors, code_samples. */
  function ExtraParts(extra: Option<AdditionalContext>): (r: seq<string>)
    ensures r == [] <==> !Recognised(extra)
  {
    if extra.None? then []
    else
      var e := extra.value;
      (if e.apiContracts.Some? then ["\nAPI контракты:"] + Map(e.apiContracts.value, ContractLine) else [])
      + (if e.selectors.Some? then ["\nСелекторы элементов:"] + Map(e.selectors.value, SelectorsLine) else [])
      + (if e.codeSamples then ["\nПримеры кода доступны для анализа"] else [])
  }

  /** `build_context_prompt`: the parts joined by newlines, or "" when
      there is nothing to say. */
  function BuildContextPrompt(index: Option<RepositoryIndex>, extra: Option<AdditionalContext>): (r: string)
    ensures r == "" <==> index.None? && !Recognised(extra)
    ensures index.Some? ==> StartsWith(r, StructureHeader + "\n")
  {
    var parts := (if index.Some? then IndexParts(index.value) else []) + ExtraParts(extra);
    if |parts| == 0 then "" else Join(parts, "\n")
  }

  /** The example section is a heading followed by the first snippet's
      block numbered 1 and, when there is one, the second's numbered 2. */
  lemma SnippetPartShape(snippets: seq<string>)
    requires |snippets| > 0
    ensures SnippetPart(snippets) == [SnippetsHeader] + SnippetBlock(1, snippets[0])
      + (if |snippets| > 1 then SnippetBlock(2, snippets[1]) else [])
  {
    var kept := PyTake(snippets, MaxSnippets);
    assert SnippetBlocks(kept, 1) == SnippetBlock(1, kept[0]) + SnippetBlocks(kept[1..], 2);
    if |snippets| > 1 {
      assert kept[1..] == [snippets[1]];
      assert SnippetBlocks(kept[1..], 2) == SnippetBlock(2, snippets[1]) + SnippetBlocks([], 3);
    } else {
      assert kept[1..] == [];
    }
  }

  /** Snippets after the second never reach the prompt. */
  lemma LaterSnippetsIgnored(a: seq<string>, b: seq<string>)
    requires |a| >= MaxSnippets && |b| >= MaxSnippets && a[..MaxSnippets] == b[..MaxSnippets]
    ensures SnippetPart(a) == SnippetPart(b)
  {
    assert a[0] == b[0] && a[1] == b[1];
    SnippetPartShape(a);
    SnippetPartShape(b);
  }

  /** The code lines of an example block are the snippet's first lines, at
      most 80 of them, so joined back they start the snippet. */
  lemma SnippetBlockCode(i: nat, snippet: string)
    ensures var code := SnippetBlock(i, snippet)[2..|SnippetBlock(i, snippet)| - 1];
      && |code| == Min(MaxSnippetLines, |Split(snippet, '\n')|)
      && StartsWith(snippet, Join(code, "\n"))
  {
    var lines := PyTake(Split(snippet, '\n'), MaxSnippetLines);
    var block := SnippetBlock(i, snippet);
    assert block[2..|block| - 1] == lines;
    TemplateAnalyzer.FirstLinesPrefix(snippet, MaxSnippetLines);
  }

  // ---------------------------------------------------------------- task prompt

  /** `value or default` for an optional text. */
  function OrDefault(o: Option<string>, default: string): (r: string)
    ensures Filled(o) ==> r == o.value
    ensures !Filled(o) ==> r == default
  {
    if Filled(o) then o.value else default
  }

  /** How an f-string renders an `Optional[str]`. */
  function Rendered(o: Option<string>): string {
    if o.None? then "None" else o.value
  }

  /** The test case's header lines, up to "Шаги теста:". */
  function TaskHeader(tc: TestCase): string {
    "Сгенерируй автотест на основе следующего тест-кейса:\n\nID: " + tc.id
    + "\nНазвание: " + tc.name
    + "\nОписание: " + OrDefault(tc.description, "Нет описания")
    // `use_enum_values` stores the layer's value, so the f-string prints "E2E".
    + "\nУровень тестирования: " + LayerValue(tc.testLayer)
    + "\nБраузер: " + Rendered(tc.browser)
    + "\n\nEpic: " + OrDefault(tc.epic, "Не указан")
    + "\nFeature: " + OrDefault(tc.feature, "Не указан")
    + "\nStory: " + OrDefault(tc.story, "Не указан")
    + "\n\nШаги теста:\n"
  }

  /** The block for step number `i`. */
  function StepText(i: nat, step: TestStep): string {
    "\nШаг " + NatToString(i) + " (" + step.id + "): " + step.name
    + "\nОписание: " + step.description
    + "\nОжидаемый результат: " + step.expectedResult + "\n"
  }

  /** The step blocks, numbered consecutively from `start` in step order. */
  function StepTexts(steps: seq<TestStep>, start: nat): (r: seq<string>)
    ensures |r| == |steps|
    ensures forall i :: 0 <= i < |steps| ==> r[i] == StepText(start + i, steps[i])
    decreases |steps|
  {
    if |steps| == 0 then [] else [StepText(start, steps[0])] + StepTexts(steps[1..], start + 1)
  }

  function PageObjectsLine(needed: seq<string>): string {
    if |needed| == 0 then "" else "\nНеобходимые Page Objects: " + Join(needed, ", ")
  }

  /** The closing instructions, which name the test class after the case's
      id with its underscores removed. */
  function TaskRules(w: Wording, id: string): string {
    w.rulesHead + ReplaceAll(id, "_", "") + w.rulesTail
  }

  /** `build_task_prompt`. */
  function BuildTaskPrompt(w: Wording, tc: TestCase, needed: seq<string>): (r: string)
    ensures StartsWith(r, TaskHeader(tc)) && EndsWith(r, TaskRules(w, tc.id))
    ensures |r| == |TaskHeader(tc)| + |Join(StepTexts(tc.steps, 1), "")| + |PageObjectsLine(needed)| + |TaskRules(w, tc.id)|
    ensures r[|TaskHeader(tc)|..|r| - |TaskRules(w, tc.id)|] == Join(StepTexts(tc.steps, 1), "") + PageObjectsLine(needed)
  {
    var header, rules := TaskHeader(tc), TaskRules(w, tc.id);
    var steps, pages := Join(StepTexts(tc.steps, 1), ""), PageObjectsLine(needed);
    FramedBy(header, steps, pages, rules);
    header + steps + pages + rules
  }

  /** A concatenation starts with its first part, ends with its last, and
      holds the middle parts in between. */
  lemma FramedBy(a: string, b: string, c: string, d: string)
    ensures StartsWith(a + b + c + d, a) && EndsWith(a + b + c + d, d)
    ensures (a + b + c + d)[|a|..|a + b + c + d| - |d|] == b + c
  {
    var r := a + b + c + d;
    assert r[..|a|] == a;
    assert r[|r| - |d|..] == d;
    assert r[|a|..|r| - |d|] == b + c;
  }

  /** The step section of the task prompt (what `build_task_prompt` puts
      between the header and the page-object line) holds the step blocks in
      step order, numbered from one: block i follows the blocks of the steps
      before it. */
  lemma StepInTaskPrompt(tc: TestCase, i: nat)
    requires i < |tc.steps|
    ensures var texts := StepTexts(tc.steps, 1);
      var section, at := Join(texts, ""), |Join(texts[..i], "")|;
      texts[i] == StepText(i + 1, tc.steps[i]) && at + |texts[i]| <= |section| && section[at..at + |texts[i]|] == texts[i]
  {
    var texts := StepTexts(tc.steps, 1);
    JoinEmptyAt(texts, i);
    var pre, post := Join(texts[..i], ""), Join(texts[i + 1..], "");
    assert Join(texts, "")[|pre|..|pre| + |texts[i]|] == texts[i];
  }

  /** Step `i` of the test case is announced as "Шаг i+1". */
  lemma StepNumbering(tc: TestCase, i: nat)
    requires i < |tc.steps|
    ensures StartsWith(StepTexts(tc.steps, 1)[i], "\nШаг " + NatToString(i + 1) + " (" + tc.steps[i].id + "): ")
  {
    var step := tc.steps[i];
    var prefix := "\nШаг " + NatToString(i + 1) + " (" + step.id + "): ";
    var body := step.name + "\nОписание: " + step.description
      + "\nОжидаемый результат: " + step.expectedResult + "\n";
    assert StepText(i + 1, step) == prefix + body;
    assert StepTexts(tc.steps, 1)[i] == prefix + body;
  }

  /** The class name in the instructions is the id with every "_" deleted
      and every other character kept in order. */
  lemma TestClassName(id: string)
    ensures ReplaceAll(id, "_", "") == Filter(id, (x: char) => x != '_')
    ensures '_' !in ReplaceAll(id, "_", "")
  {
    DeleteCharIsFilter(id, '_');
    FilterMembers(id, (x: char) => x != '_');
  }

  // ---------------------------------------------------------------- full prompt

  /** `_extract_page_objects`: the steps are inspected for a page mention,
      but nothing is ever collected. */
  method ExtractPageObjects(tc: TestCase) returns (pageObjects: seq<string>)
    ensures pageObjects == []
  {
    pageObjects := [];
    for i := 0 to |tc.steps|
      invariant pageObjects == []
    {
      var text := Lower(tc.steps[i].description);
      if Contains(text, "страниц") || Contains(text, "page") {
        // a page is mentioned; the name is not extracted
      }
    }
  }

  /** `build_full_prompt`: a non-empty custom "system" prompt replaces the
      built one, and the result has exactly the keys system, context, task. */
  method BuildFullPrompt(w: Wording, tc: TestCase, index: Option<RepositoryIndex>, extra: Option<AdditionalContext>,
                         custom: map<string, string>, style: CodeStyle) returns (r: map<string, string>)
    ensures r.Keys == {"system", "context", "task"}
    ensures "system" in custom && custom["system"] != "" ==> r["system"] == custom["system"]
    ensures !("system" in custom && custom["system"] != "") ==> r["system"] == BuildSystemPrompt(w, style)
    ensures r["context"] == BuildContextPrompt(index, extra)
    ensures r["task"] == BuildTaskPrompt(w, tc, [])
  {
    var system := if "system" in custom && custom["system"] != "" then custom["system"] else BuildSystemPrompt(w, style);
    var context := BuildContextPrompt(index, extra);
    var needed := ExtractPageObjects(tc);
    var task := BuildTaskPrompt(w, tc, needed);
    r := PromptMap(system, context, task);
  }

  /** The dictionary `{"system": ..., "context": ..., "task": ...}`. */
  function PromptMap(system: string, context: string, task: string): (r: map<string, string>)
    ensures r.Keys == {"system", "context", "task"}
    ensures r["system"] == system && r["context"] == context && r["task"] == task
  {
    assert |"system"| == 6 && |"context"| == 7 && |"task"| == 4;
    map["system" := system, "context" := context, "task" := task]
  }
}

=== FILE: pyast.dfy ===
/** The part of Python's `ast` module the system consults. Parsing itself
    is not modelled: a parse is either a syntax error or the sequence of
    nodes `ast.walk` yields, in walk order, each with the fields the
    system reads. */
module PyAst {
  import opened Wrappers

  /** Line numbers reported by the parser start at 1. */
  type LineNo = n: int | n >= 1 witness 1

  datatype Node =
    | Import(names: seq<string>, lineno: LineNo, endLineno: int)
    | ImportFrom(moduleName: Option<string>, names: seq<string>, lineno: LineNo, endLineno: int)
    | ClassDef(name: string, lineno: LineNo, endLineno: int)
    | FunctionDef(name: string, lineno: LineNo, endLineno: int)
    | Other

  /** `ast.parse(text)` followed by `ast.walk`: a `SyntaxError`, or the nodes. */
  datatype ParseResult = SyntaxError | Parsed(walk: seq<Node>)
}

=== FILE: pystr.dfy ===
/** The Python `str` operations the system relies on, with their Python
    semantics: `strip`, `startswith`, `in`, `find`, `split`, `join`,
    `lower`, `rstrip(chars)`, `replace`, `str.split()` and UTF-8 length.
    Case mapping and character classes cover ASCII and the basic Cyrillic
    block, the two scripts the system's inputs are written in. */
module PyStr {
  import opened Wrappers
  import opened Seqs

  // ---------------------------------------------------------------- characters

  /** `c.isspace()` on the ASCII range (including the separators 0x1c-0x1f)
      plus the no-break and line-separator spaces. */
  predicate IsSpace(c: char) {
    c == ' ' || c == '\t' || c == '\n' || c == '\r' || c == '\U{B}' || c == '\U{C}'
    || ('\U{1C}' <= c <= '\U{1F}') || c == '\U{85}' || c == '\U{A0}' || c == '\U{2028}' || c == '\U{2029}'
  }

  predicate IsUpperChar(c: char) {
    ('A' <= c <= 'Z') || ('Ѐ' <= c <= 'Я')
  }

  predicate IsLowerChar(c: char) {
    ('a' <= c <= 'z') || ('а' <= c <= 'џ')
  }

  predicate IsDigit(c: char) {
    '0' <= c <= '9'
  }

  /** A character matched by the regular-expression class `\w`. */
  predicate IsWordChar(c: char) {
    IsUpperChar(c) || IsLowerChar(c) || IsDigit(c) || c == '_'
  }

  function LowerChar(c: char): (d: char)
    ensures IsUpperChar(c) ==> IsLowerChar(d)
    ensures !IsUpperChar(c) ==> d == c
  {
    if 'A' <= c <= 'Z' then (c as int + 32) as char
    else if 'А' <= c <= 'Я' then (c as int + 0x20) as char
    else if 'Ѐ' <= c <= 'Џ' then (c as int + 0x50) as char
    else c
  }

  /** `s.lower()` */
  function Lower(s: string): (r: string)
    ensures |r| == |s|
    ensures forall i :: 0 <= i < |s| ==> r[i] == LowerChar(s[i])
  {
    if |s| == 0 then "" else [LowerChar(s[0])] + Lower(s[1..])
  }

  /** `s.islower()`: at least one cased character and no upper-case one. */
  predicate IsLowerStr(s: string) {
    (exists i :: 0 <= i < |s| && IsLowerChar(s[i])) && (forall i :: 0 <= i < |s| ==> !IsUpperChar(s[i]))
  }

  // ---------------------------------------------------------------- searching

  /** Python truthiness of an `Optional[str]`: present and not "". */
  predicate Filled(o: Option<string>) {
    o.Some? && o.value != ""
  }

  predicate StartsWith(s: string, p: string) {
    |p| <= |s| && s[..|p|] == p
  }

  predicate EndsWith(s: string, p: string) {
    |p| <= |s| && s[|s| - |p|..] == p
  }

  /** `s.find(sub, start)`, with `None` for Python's `-1`. */
  function FindFrom(s: string, sub: string, start: nat): (r: Option<nat>)
    ensures r.Some? ==> start <= r.value <= |s| && StartsWith(s[r.value..], sub)
    ensures r.Some? ==> forall j :: start <= j < r.value ==> !StartsWith(s[j..], sub)
    ensures r.None? ==> forall j :: start <= j <= |s| ==> !StartsWith(s[j..], sub)
    decreases |s| - start
  {
    if start > |s| then None
    else if StartsWith(s[start..], sub) then Some(start)
    else FindFrom(s, sub, start + 1)
  }

  function Find(s: string, sub: string): Option<nat> {
    FindFrom(s, sub, 0)
  }

  /** `sub in s` */
  predicate Contains(s: string, sub: string) {
    Find(s, sub).Some?
  }

  /** The search finds `i` when `sub` starts there and no character before
      it, from `start` on, is the first character of `sub`. */
  lemma FindFromAt(s: string, sub: string, start: nat, i: nat)
    requires start <= i <= |s| && |sub| > 0 && StartsWith(s[i..], sub)
    requires forall k :: start <= k < i ==> s[k] != sub[0]
    ensures FindFrom(s, sub, start) == Some(i)
  {
    forall j | start <= j < i ensures !StartsWith(s[j..], sub) {
      if j + |sub| <= |s| {
        assert s[j..][..|sub|][0] == s[j];
      }
    }
  }

  lemma ContainsAt(s: string, sub: string, i: nat)
    requires i <= |s| && StartsWith(s[i..], sub)
    ensures Contains(s, sub)
  {
  }

  lemma ContainsWitness(s: string, sub: string)
    requires Contains(s, sub)
    ensures exists i :: 0 <= i <= |s| && StartsWith(s[i..], sub)
  {
  }

  /** A text that contains `sub` contains each of its prefixes. */
  lemma ContainsPrefix(s: string, sub: string, k: nat)
    requires k <= |sub| && Contains(s, sub)
    ensures Contains(s, sub[..k])
  {
    ContainsWitness(s, sub);
    var i :| 0 <= i <= |s| && StartsWith(s[i..], sub);
    assert s[i..][..k] == sub[..k];
    ContainsAt(s, sub[..k], i);
  }

  lemma ContainsMiddle(a: string, b: string, c: string)
    ensures Contains(a + b + c, b)
  {
    assert (a + b + c)[|a|..][..|b|] == b;
    ContainsAt(a + b + c, b, |a|);
  }

  /** A substring of `s` is a substring of any string containing `s`. */
  lemma ContainsInfix(a: string, s: string, c: string, sub: string)
    requires Contains(s, sub)
    ensures Contains(a + s + c, sub)
  {
    ContainsWitness(s, sub);
    var i :| 0 <= i <= |s| && StartsWith(s[i..], sub);
    assert (a + s + c)[|a| + i..][..|sub|] == s[i..][..|sub|];
    ContainsAt(a + s + c, sub, |a| + i);
  }

  /** A string lacking one of the characters of `sub` does not contain it. */
  lemma MissingCharNotContained(s: string, sub: string, k: nat)
    requires k < |sub| && sub[k] !in s
    ensures !Contains(s, sub)
  {
    forall j | 0 <= j <= |s| ensures !StartsWith(s[j..], sub) {
      if j + |sub| <= |s| {
        assert s[j..][..|sub|][k] == s[j + k];
      }
    }
  }

  /** A one-character substring is a member. */
  lemma ContainsChar(s: string, c: char)
    ensures Contains(s, [c]) <==> c in s
  {
    if c in s {
      var i :| 0 <= i < |s| && s[i] == c;
      assert s[i..][..1] == [c];
      ContainsAt(s, [c], i);
    }
    if Contains(s, [c]) {
      ContainsWitness(s, [c]);
      var i :| 0 <= i <= |s| && StartsWith(s[i..], [c]);
      assert s[i..][..1][0] == s[i];
    }
  }

  /** An occurrence of `w` in `a + sep + b`, where `w` has no character of
      `sep`, lies inside `a` or inside `b`; and conversely. */
  lemma ContainsAcrossSeparator(a: string, sep: char, b: string, w: string)
    requires sep !in w && |w| > 0
    ensures Contains(a + [sep] + b, w) <==> Contains(a, w) || Contains(b, w)
  {
    var s := a + [sep] + b;
    if Contains(s, w) {
      ContainsWitness(s, w);
      var j :| 0 <= j <= |s| && StartsWith(s[j..], w);
      OccurrenceSide(a, sep, b, w, j);
    }
    if Contains(a, w) {
      ContainsExtended(a, [sep], w);
      ContainsExtended(a + [sep], b, w);
    }
    if Contains(b, w) {
      ContainsPrepended(a + [sep], b, w);
    }
  }

  /** A string containing `sub` still contains it once prefixed. */
  lemma ContainsPrepended(a: string, b: string, sub: string)
    requires Contains(b, sub)
    ensures Contains(a + b, sub)
  {
    ContainsWitness(b, sub);
    var i :| 0 <= i <= |b| && StartsWith(b[i..], sub);
    assert (a + b)[|a| + i..] == b[i..];
    ContainsAt(a + b, sub, |a| + i);
  }

  /** A string containing `sub` still contains it once extended. */
  lemma ContainsExtended(a: string, b: string, sub: string)
    requires Contains(a, sub)
    ensures Contains(a + b, sub)
  {
    ContainsWitness(a, sub);
    var i :| 0 <= i <= |a| && StartsWith(a[i..], sub);
    assert (a + b)[i..][..|sub|] == a[i..][..|sub|];
    ContainsAt(a + b, sub, i);
  }

  lemma OccurrenceSide(a: string, sep: char, b: string, w: string, j: nat)
    requires sep !in w && |w| > 0
    requires j <= |a + [sep] + b| && StartsWith((a + [sep] + b)[j..], w)
    ensures Contains(a, w) || Contains(b, w)
  {
    var s := a + [sep] + b;
    if j + |w| <= |a| {
      assert a[j..][..|w|] == s[j..][..|w|];
      ContainsAt(a, w, j);
    } else if j > |a| {
      assert b[j - |a| - 1..][..|w|] == s[j..][..|w|];
      ContainsAt(b, w, j - |a| - 1);
    } else {
      StartsWithAt(s[j..], w, |a| - j);
      assert false;
    }
  }

  lemma StartsWithAt(s: string, p: string, k: nat)
    requires StartsWith(s, p) && k < |p|
    ensures s[k] == p[k]
  {
    assert s[..|p|][k] == s[k];
  }

  /** A text that differs from `p` at a position of `p` does not start with it. */
  lemma DiffersAt(t: string, p: string, k: nat)
    requires k < |p| && (k < |t| ==> t[k] != p[k])
    ensures !StartsWith(t, p)
  {
    if |p| <= |t| {
      assert t[..|p|][k] == t[k];
    }
  }

  lemma ContainsPrefixOf(s: string, sub: string)
    requires StartsWith(s, sub)
    ensures Contains(s, sub)
  {
    assert s[0..] == s;
    ContainsAt(s, sub, 0);
  }

  /** A string ending with `sub` still contains it once extended. */
  lemma ContainsEndOf(a: string, b: string, sub: string)
    requires EndsWith(a, sub)
    ensures Contains(a + b, sub)
  {
    assert (a + b)[|a| - |sub|..][..|sub|] == a[|a| - |sub|..];
    ContainsAt(a + b, sub, |a| - |sub|);
  }

  /** The part of `s` before the first `sep`: `s.split(sep)[0]`. */
  function BeforeFirst(s: string, sep: string): (r: string)
    requires |sep| > 0
    ensures r <= s
    ensures !Contains(s, sep) ==> r == s
  {
    match Find(s, sep)
    case None => s
    case Some(i) => s[..i]
  }

  // ---------------------------------------------------------------- stripping

  /** `s.lstrip()` */
  function LStrip(s: string): (r: string)
    ensures |r| <= |s| && r == s[|s| - |r|..]
    ensures |r| == 0 || !IsSpace(r[0])
  {
    if |s| > 0 && IsSpace(s[0]) then LStrip(s[1..]) else s
  }

  /** `s.rstrip()` */
  function RStrip(s: string): (r: string)
    ensures r <= s
    ensures |r| == 0 || !IsSpace(r[|r| - 1])
  {
    if |s| > 0 && IsSpace(s[|s| - 1]) then RStrip(s[..|s| - 1]) else s
  }

  /** `lstrip` removes white space only. */
  lemma {:induction false} LStripRemovesSpace(s: string)
    ensures forall i :: 0 <= i < |s| - |LStrip(s)| ==> IsSpace(s[i])
  {
    if |s| > 0 && IsSpace(s[0]) {
      LStripRemovesSpace(s[1..]);
    }
  }

  /** `rstrip` removes white space only. */
  lemma {:induction false} RStripRemovesSpace(s: string)
    ensures forall i :: |RStrip(s)| <= i < |s| ==> IsSpace(s[i])
  {
    if |s| > 0 && IsSpace(s[|s| - 1]) {
      RStripRemovesSpace(s[..|s| - 1]);
    }
  }

  /** `s.strip()` */
  function Strip(s: string): (r: string)
    ensures |r| == 0 || (!IsSpace(r[0]) && !IsSpace(r[|r| - 1]))
    ensures |r| <= |s|
  {
    RStrip(LStrip(s))
  }

  /** Number of leading white-space characters: `len(line) - len(line.lstrip())`. */
  function Indent(line: string): (n: nat)
    ensures n <= |line|
  {
    |line| - |LStrip(line)|
  }

  lemma {:induction false} LStripNoop(s: string)
    requires |s| == 0 || !IsSpace(s[0])
    ensures LStrip(s) == s
  {
  }

  lemma {:induction false} RStripNoop(s: string)
    requires |s| == 0 || !IsSpace(s[|s| - 1])
    ensures RStrip(s) == s
  {
  }

  /** Stripping is idempotent. */
  lemma StripIdempotent(s: string)
    ensures Strip(Strip(s)) == Strip(s)
  {
    var t := Strip(s);
    LStripNoop(t);
    RStripNoop(t);
  }

  /** A character missing from a string is missing from its strip. */
  lemma StripOmits(s: string, c: char)
    requires c !in s
    ensures c !in Strip(s)
  {
    var l := LStrip(s);
    var r := RStrip(l);
    assert Strip(s) == r;
    assert l == s[|s| - |l|..];
    assert r == l[..|r|];
    forall i | 0 <= i < |r| ensures r[i] != c {
      assert r[i] == l[i] == s[|s| - |l| + i];
    }
  }

  /** A string with no white space at either end is its own strip. */
  lemma StripUnpadded(s: string)
    requires |s| == 0 || (!IsSpace(s[0]) && !IsSpace(s[|s| - 1]))
    ensures Strip(s) == s
  {
    LStripNoop(s);
    RStripNoop(s);
  }

  /** Leading white space never survives a strip. */
  lemma {:induction false} StripLeadingSpace(w: string, s: string)
    requires forall i :: 0 <= i < |w| ==> IsSpace(w[i])
    ensures Strip(w + s) == Strip(s)
    decreases |w|
  {
    if |w| > 0 {
      assert (w + s)[1..] == w[1..] + s;
      StripLeadingSpace(w[1..], s);
    } else {
      assert w + s == s;
    }
  }

  // ---------------------------------------------------------------- splitting and joining

  /** `s.split(c)` for a one-character separator: never empty, pieces free of `c`. */
  function Split(s: string, c: char): (r: seq<string>)
    ensures |r| >= 1
    ensures forall i :: 0 <= i < |r| ==> c !in r[i]
    decreases |s|
  {
    match Find(s, [c])
    case None =>
      assert forall j :: 0 <= j < |s| ==> s[j] != c by {
        forall j | 0 <= j < |s| ensures s[j] != c {
          assert !StartsWith(s[j..], [c]);
        }
      }
      [s]
    case Some(i) =>
      assert i < |s| && s[i] == c;
      assert forall j :: 0 <= j < i ==> s[j] != c by {
        forall j | 0 <= j < i ensures s[j] != c {
          assert !StartsWith(s[j..], [c]);
        }
      }
      [s[..i]] + Split(s[i + 1..], c)
  }

  /** The first occurrence of a character is where `find` stops. */
  lemma FindChar(s: string, c: char)
    ensures c !in s ==> Find(s, [c]).None?
    ensures forall i :: 0 <= i < |s| && s[i] == c && c !in s[..i] ==> Find(s, [c]) == Some(i)
  {
    if c !in s {
      forall j | 0 <= j <= |s| ensures !StartsWith(s[j..], [c]) {
        if j < |s| { assert s[j..][..1] == [s[j]]; }
      }
    }
    forall i | 0 <= i < |s| && s[i] == c && c !in s[..i] ensures Find(s, [c]) == Some(i) {
      assert s[i..][..1] == [c];
      forall j | 0 <= j < i ensures !StartsWith(s[j..], [c]) {
        assert s[j..][..1] == [s[j]];
        assert s[j] == s[..i][j];
      }
    }
  }

  lemma SplitNoSeparator(s: string, c: char)
    requires c !in s
    ensures Split(s, c) == [s]
  {
    FindChar(s, c);
  }

  lemma SplitAtFirst(s: string, c: char, i: nat)
    requires i < |s| && s[i] == c && c !in s[..i]
    ensures Split(s, c) == [s[..i]] + Split(s[i + 1..], c)
  {
    FindChar(s, c);
  }

  /** `sep.join(parts)` */
  function Join(parts: seq<string>, sep: string): string {
    if |parts| == 0 then ""
    else if |parts| == 1 then parts[0]
    else parts[0] + sep + Join(parts[1..], sep)
  }

  /** Joining the pieces of a split with the same separator restores the string. */
  lemma {:induction false} JoinSplit(s: string, c: char)
    ensures Join(Split(s, c), [c]) == s
    decreases |s|
  {
    match Find(s, [c])
    case None =>
    case Some(i) =>
      JoinSplit(s[i + 1..], c);
      assert s == s[..i] + [c] + s[i + 1..];
  }

  lemma {:induction false} JoinAppend(parts: seq<string>, x: string, sep: string)
    requires |parts| > 0
    ensures Join(parts + [x], sep) == Join(parts, sep) + sep + x
  {
    if |parts| == 1 {
      assert parts + [x] == [parts[0], x];
    } else {
      assert (parts + [x])[1..] == parts[1..] + [x];
      JoinAppend(parts[1..], x, sep);
    }
  }

  /** Joining a concatenation puts one separator between the two joins. */
  lemma {:induction false} JoinConcat(a: seq<string>, b: seq<string>, sep: string)
    requires |a| > 0 && |b| > 0
    ensures Join(a + b, sep) == Join(a, sep) + sep + Join(b, sep)
  {
    if |a| == 1 {
      assert (a + b)[1..] == b;
    } else {
      assert (a + b)[1..] == a[1..] + b;
      JoinConcat(a[1..], b, sep);
    }
  }

  /** `"".join` of a non-empty list is its head followed by the join of the rest. */
  lemma JoinEmptyCons(xs: seq<string>)
    requires |xs| > 0
    ensures Join(xs, "") == xs[0] + Join(xs[1..], "")
  {
  }

  /** In `"".join(xs)` the i-th part follows the join of the parts before it. */
  lemma {:induction false} JoinEmptyAt(xs: seq<string>, i: nat)
    requires i < |xs|
    ensures Join(xs, "") == Join(xs[..i], "") + xs[i] + Join(xs[i + 1..], "")
  {
    JoinEmptyCons(xs);
    if i > 0 {
      JoinEmptyAt(xs[1..], i - 1);
      assert xs[1..][..i - 1] == xs[1..i] && xs[1..][i - 1] == xs[i] && xs[1..][i..] == xs[i + 1..];
      JoinEmptyCons(xs[..i]);
      assert xs[..i][0] == xs[0] && xs[..i][1..] == xs[1..i];
    }
  }

  /** Splitting a join on a separator none of the parts contains gives the
      parts back. */
  lemma {:induction false} SplitJoin(parts: seq<string>, c: char)
    requires |parts| > 0
    requires forall i :: 0 <= i < |parts| ==> c !in parts[i]
    ensures Split(Join(parts, [c]), c) == parts
  {
    if |parts| == 1 {
      SplitNoSeparator(parts[0], c);
    } else {
      var s := Join(parts, [c]);
      var rest := Join(parts[1..], [c]);
      assert s == parts[0] + [c] + rest;
      assert s[..|parts[0]|] == parts[0];
      assert s[|parts[0]| + 1..] == rest;
      SplitAtFirst(s, c, |parts[0]|);
      SplitJoin(parts[1..], c);
      assert parts == [parts[0]] + parts[1..];
    }
  }

  /** The longest prefix of `s` made of white space. */
  function SpaceRun(s: string): (w: string)
    ensures w <= s
    ensures forall k :: 0 <= k < |w| ==> IsSpace(s[k])
    ensures |w| == |s| || !IsSpace(s[|w|])
  {
    if |s| == 0 || !IsSpace(s[0]) then "" else [s[0]] + SpaceRun(s[1..])
  }

  /** The position of the last `c` in `s`. */
  function LastIndex(s: string, c: char): (r: Option<nat>)
    ensures r.Some? ==> r.value < |s| && s[r.value] == c && c !in s[r.value + 1..]
    ensures r.None? <==> c !in s
  {
    if |s| == 0 then None
    else if s[|s| - 1] == c then Some(|s| - 1)
    else
      var r := LastIndex(s[..|s| - 1], c);
      assert s == s[..|s| - 1] + [s[|s| - 1]];
      if r.Some? then
        assert s[r.value + 1..] == s[..|s| - 1][r.value + 1..] + [s[|s| - 1]];
        r
      else r
  }

  /** A non-empty run of characters none of which is white space. */
  predicate IsToken(w: string) {
    |w| > 0 && forall k :: 0 <= k < |w| ==> !IsSpace(w[k])
  }

  /** `s.split()` with no argument: maximal runs of non-white-space. */
  function SplitWhitespace(s: string): (r: seq<string>)
    ensures forall i :: 0 <= i < |r| ==> IsToken(r[i])
    decreases |s|
  {
    if |s| == 0 then []
    else if IsSpace(s[0]) then SplitWhitespace(s[1..])
    else
      var w := NonSpacePrefix(s);
      assert IsToken(w);
      [w] + SplitWhitespace(s[|w|..])
  }

  /** The longest prefix free of white space. */
  function NonSpacePrefix(s: string): (w: string)
    ensures w <= s
    ensures forall k :: 0 <= k < |w| ==> !IsSpace(s[k])
    ensures |w| == |s| || IsSpace(s[|w|])
    ensures |s| > 0 && !IsSpace(s[0]) ==> |w| > 0
  {
    if |s| == 0 || IsSpace(s[0]) then "" else [s[0]] + NonSpacePrefix(s[1..])
  }

  /** `s.rstrip(chars)`: removes trailing characters belonging to the set
      `chars` (a character set, not a suffix). */
  function RStripChars(s: string, chars: set<char>): (r: string)
    ensures r <= s
    ensures forall i :: |r| <= i < |s| ==> s[i] in chars
    ensures |r| == 0 || r[|r| - 1] !in chars
  {
    if |s| > 0 && s[|s| - 1] in chars then RStripChars(s[..|s| - 1], chars) else s
  }

  /** `rstrip` stops at the last character outside the set. */
  lemma {:induction false} RStripCharsIs(s: string, chars: set<char>, m: nat)
    requires 0 < m <= |s| && s[m - 1] !in chars
    requires forall i :: m <= i < |s| ==> s[i] in chars
    ensures RStripChars(s, chars) == s[..m]
    decreases |s|
  {
    if m < |s| {
      var t := s[..|s| - 1];
      assert t[m - 1] == s[m - 1];
      assert forall i :: m <= i < |t| ==> t[i] in chars by {
        forall i | m <= i < |t| ensures t[i] in chars {
          assert t[i] == s[i];
        }
      }
      RStripCharsIs(t, chars, m);
      assert t[..m] == s[..m];
    }
  }

  /** `s.replace(pat, rep)`: every non-overlapping occurrence, left to right. */
  function ReplaceAll(s: string, pat: string, rep: string): (r: string)
    requires |pat| > 0
    ensures !Contains(s, pat) ==> r == s
    decreases |s|
  {
    match Find(s, pat)
    case None => s
    case Some(i) => s[..i] + rep + ReplaceAll(s[i + |pat|..], pat, rep)
  }

  /** Deleting every occurrence of one character is filtering it out. */
  lemma {:induction false} DeleteCharIsFilter(s: string, c: char)
    ensures ReplaceAll(s, [c], "") == Filter(s, (x: char) => x != c)
    decreases |s|
  {
    match Find(s, [c])
    case None => DeleteAbsentChar(s, c);
    case Some(i) =>
      DeleteCharIsFilter(s[i + 1..], c);
      DeleteFirstChar(s, c, i);
  }

  lemma DeleteAbsentChar(s: string, c: char)
    requires Find(s, [c]).None?
    ensures ReplaceAll(s, [c], "") == Filter(s, (x: char) => x != c)
  {
    var keep := (x: char) => x != c;
    forall k | 0 <= k < |s| ensures keep(s[k]) {
      assert s[k..][..1] == [s[k]];
    }
    FilterAll(s, keep);
  }

  lemma DeleteFirstChar(s: string, c: char, i: nat)
    requires Find(s, [c]) == Some(i)
    requires ReplaceAll(s[i + 1..], [c], "") == Filter(s[i + 1..], (x: char) => x != c)
    ensures ReplaceAll(s, [c], "") == Filter(s, (x: char) => x != c)
  {
    FirstChar(s, c, i);
    DeleteAt(s, c, i);
    FilterSkipAt(s, i, (x: char) => x != c);
  }

  /** The first occurrence of a one-character pattern. */
  lemma FirstChar(s: string, c: char, i: nat)
    requires Find(s, [c]) == Some(i)
    ensures i < |s| && s[i] == c
    ensures forall k :: 0 <= k < i ==> s[k] != c
  {
    forall k | 0 <= k < i ensures s[k] != c {
      assert s[k..][..1] == [s[k]];
    }
    assert s[i..][..1] == [c];
  }

  lemma DeleteAt(s: string, c: char, i: nat)
    requires Find(s, [c]) == Some(i) && i < |s|
    ensures ReplaceAll(s, [c], "") == s[..i] + ReplaceAll(s[i + 1..], [c], "")
  {
  }

  // ---------------------------------------------------------------- formatting

  function DigitChar(d: nat): char
    requires d < 10
  {
    "0123456789"[d]
  }

  /** `str(n)` for a natural number. */
  function NatToString(n: nat): (r: string)
    ensures |r| > 0
    ensures forall i :: 0 <= i < |r| ==> IsDigit(r[i])
  {
    if n < 10 then [DigitChar(n)] else NatToString(n / 10) + [DigitChar(n % 10)]
  }

  /** `str(b)` for a boolean. */
  function BoolToString(b: bool): string {
    if b then "True" else "False"
  }

  // ---------------------------------------------------------------- encoding

  function Utf8CharLength(c: char): (n: nat)
    ensures 1 <= n <= 4
  {
    if c as int < 0x80 then 1
    else if c as int < 0x800 then 2
    else if c as int < 0x10000 then 3
    else 4
  }

  /** `len(s.encode("utf-8"))` */
  function Utf8Length(s: string): (n: nat)
    ensures |s| <= n <= 4 * |s|
  {
    if |s| == 0 then 0 else Utf8CharLength(s[0]) + Utf8Length(s[1..])
  }

  /** The encoded length of a concatenation is the sum of the lengths. */
  lemma {:induction false} Utf8LengthConcat(a: string, b: string)
    ensures Utf8Length(a + b) == Utf8Length(a) + Utf8Length(b)
  {
    if |a| == 0 {
      assert a + b == b;
    } else {
      assert (a + b)[1..] == a[1..] + b;
      Utf8LengthConcat(a[1..], b);
    }
  }

  /** A string encodes to one byte per character exactly when it is ASCII. */
  lemma {:induction false} Utf8LengthAscii(s: string)
    ensures Utf8Length(s) == |s| <==> forall i :: 0 <= i < |s| ==> s[i] as int < 0x80
  {
    if |s| > 0 {
      Utf8LengthAscii(s[1..]);
      assert forall i :: 1 <= i < |s| ==> s[1..][i - 1] == s[i];
    }
  }
}

=== FILE: ranking.dfy ===
/** Python's `sorted(xs, key=key, reverse=True)`: a stable sort by
    descending key. It is an insertion sort here, characterised by three
    facts: the result is a permutation of the input, keys never increase
    along it, and the elements sharing one key keep their input order. */
module Ranking {

  predicate SortedDesc<T>(s: seq<T>, key: T -> int) {
    forall i, j :: 0 <= i < j < |s| ==> key(s[i]) >= key(s[j])
  }

  /** The elements whose key is `k`, in order. */
  function WithKey<T>(s: seq<T>, key: T -> int, k: int): seq<T> {
    if |s| == 0 then [] else (if key(s[0]) == k then [s[0]] else []) + WithKey(s[1..], key, k)
  }

  /** Inserts `x` after every element whose key is at least its own. */
  function InsertDesc<T>(x: T, s: seq<T>, key: T -> int): seq<T> {
    if |s| == 0 then [x]
    else if key(s[0]) >= key(x) then [s[0]] + InsertDesc(x, s[1..], key)
    else [x] + s
  }

  /** Inserts the elements one after the other, in input order. */
  function SortDesc<T>(xs: seq<T>, key: T -> int): seq<T>
    decreases |xs|
  {
    if |xs| == 0 then [] else InsertDesc(xs[|xs| - 1], SortDesc(xs[..|xs| - 1], key), key)
  }

  lemma SortedCons<T>(a: T, t: seq<T>, key: T -> int)
    requires SortedDesc(t, key)
    requires forall y :: y in t ==> key(a) >= key(y)
    ensures SortedDesc([a] + t, key)
  {
    var s := [a] + t;
    forall i, j | 0 <= i < j < |s| ensures key(s[i]) >= key(s[j]) {
      if i == 0 {
        assert s[j] == t[j - 1];
        assert s[j] in t;
      } else {
        assert s[i] == t[i - 1] && s[j] == t[j - 1];
      }
    }
  }

  lemma {:induction false} InsertDescMultiset<T>(x: T, s: seq<T>, key: T -> int)
    ensures multiset(InsertDesc(x, s, key)) == multiset(s) + multiset{x}
  {
    if |s| > 0 && key(s[0]) >= key(x) {
      InsertDescMultiset(x, s[1..], key);
      assert s == [s[0]] + s[1..];
    }
  }

  lemma {:induction false} InsertDescSorted<T>(x: T, s: seq<T>, key: T -> int)
    requires SortedDesc(s, key)
    ensures SortedDesc(InsertDesc(x, s, key), key)
  {
    if |s| > 0 {
      if key(s[0]) >= key(x) {
        var t := InsertDesc(x, s[1..], key);
        InsertDescSorted(x, s[1..], key);
        InsertDescMultiset(x, s[1..], key);
        forall y | y in t ensures key(s[0]) >= key(y) {
          assert y in multiset(t);
          if y != x {
            assert y in multiset(s[1..]);
            var j :| 0 <= j < |s[1..]| && s[1..][j] == y;
            assert s[j + 1] == y;
          }
        }
        SortedCons(s[0], t, key);
      } else {
        forall y | y in s ensures key(x) >= key(y) {
          var j :| 0 <= j < |s| && s[j] == y;
          assert j == 0 || key(s[0]) >= key(s[j]);
        }
        SortedCons(x, s, key);
      }
    }
  }

  lemma {:induction false} WithKeyConcat<T>(a: seq<T>, b: seq<T>, key: T -> int, k: int)
    ensures WithKey(a + b, key, k) == WithKey(a, key, k) + WithKey(b, key, k)
  {
    if |a| == 0 {
      assert a + b == b;
    } else {
      var ab := a + b;
      assert ab[0] == a[0];
      assert ab[1..] == a[1..] + b;
      WithKeyConcat(a[1..], b, key, k);
      var h := if key(a[0]) == k then [a[0]] else [];
      assert WithKey(ab, key, k) == h + WithKey(a[1..] + b, key, k);
      assert WithKey(a, key, k) == h + WithKey(a[1..], key, k);
    }
  }

  lemma {:induction false} WithKeyNone<T>(s: seq<T>, key: T -> int, k: int)
    requires forall i :: 0 <= i < |s| ==> key(s[i]) < k
    ensures WithKey(s, key, k) == []
  {
    if |s| > 0 {
      WithKeyNone(s[1..], key, k);
    }
  }

  /** Inserting `x` appends it to its key class and leaves the other
      classes alone. */
  lemma {:induction false} InsertDescWithKey<T>(x: T, s: seq<T>, key: T -> int, k: int)
    requires SortedDesc(s, key)
    ensures WithKey(InsertDesc(x, s, key), key, k) == WithKey(s, key, k) + (if key(x) == k then [x] else [])
  {
    var tail := if key(x) == k then [x] else [];
    if |s| == 0 {
    } else if key(s[0]) >= key(x) {
      assert SortedDesc(s[1..], key);
      InsertDescWithKey(x, s[1..], key, k);
      var head := if key(s[0]) == k then [s[0]] else [];
      assert InsertDesc(x, s, key) == [s[0]] + InsertDesc(x, s[1..], key);
      assert WithKey(InsertDesc(x, s, key), key, k) == head + (WithKey(s[1..], key, k) + tail);
    } else {
      // Every element of `s` has a key below `key(x)`.
      assert forall i :: 0 <= i < |s| ==> key(s[i]) < key(x);
      if key(x) == k {
        WithKeyNone(s, key, k);
      }
      assert InsertDesc(x, s, key) == [x] + s;
      assert WithKey([x] + s, key, k) == tail + WithKey(s, key, k) by {
        assert ([x] + s)[1..] == s;
      }
    }
  }

  /** The sort is a permutation of its input. */
  lemma {:induction false} SortDescPermutation<T>(xs: seq<T>, key: T -> int)
    ensures multiset(SortDesc(xs, key)) == multiset(xs)
    decreases |xs|
  {
    if |xs| > 0 {
      var init := xs[..|xs| - 1];
      SortDescPermutation(init, key);
      InsertDescMultiset(xs[|xs| - 1], SortDesc(init, key), key);
      assert xs == init + [xs[|xs| - 1]];
    }
  }

  /** Keys never increase along the result. */
  lemma {:induction false} SortDescSorted<T>(xs: seq<T>, key: T -> int)
    ensures SortedDesc(SortDesc(xs, key), key)
    decreases |xs|
  {
    if |xs| > 0 {
      var init := xs[..|xs| - 1];
      SortDescSorted(init, key);
      InsertDescSorted(xs[|xs| - 1], SortDesc(init, key), key);
    }
  }

  /** Stability: the elements of each key come out in input order. */
  lemma {:induction false} SortDescStable<T>(xs: seq<T>, key: T -> int, k: int)
    ensures WithKey(SortDesc(xs, key), key, k) == WithKey(xs, key, k)
    decreases |xs|
  {
    if |xs| > 0 {
      var init := xs[..|xs| - 1];
      var x := xs[|xs| - 1];
      SortDescStable(init, key, k);
      SortDescSorted(init, key);
      InsertDescWithKey(x, SortDesc(init, key), key, k);
      assert xs == init + [x];
      WithKeyConcat(init, [x], key, k);
      assert WithKey([x], key, k) == (if key(x) == k then [x] else []) + WithKey([x][1..], key, k);
    }
  }
}

=== FILE: repo_models.dfy ===
/** The repository index: indexed files with their kind and summary, the
    project layout, the naming and code conventions inferred from the files,
    the templates, and the summary counts. Paths are their string form and
    timestamps are abstract integers. */
module RepoModels {
  import opened Wrappers
  import opened Seqs

  datatype FileType = Test | PageObject | Fixture | Config | OtherFile

  /** The enum's string value, as written in the saved index. */
  function FileTypeValue(t: FileType): string {
    match t
    case Test => "test"
    case PageObject => "page_object"
    case Fixture => "fixture"
    case Config => "config"
    case OtherFile => "other"
  }

  /** `FileType(value)`: only the five declared values are accepted. */
  function ParseFileType(v: string): (r: Option<FileType>)
    ensures r.Some? ==> FileTypeValue(r.value) == v
  {
    if v == "test" then Some(Test)
    else if v == "page_object" then Some(PageObject)
    else if v == "fixture" then Some(Fixture)
    else if v == "config" then Some(Config)
    else if v == "other" then Some(OtherFile)
    else None
  }

  /** Every file type is read back from its value, so the values are distinct. */
  lemma FileTypeRoundTrip(t: FileType)
    ensures ParseFileType(FileTypeValue(t)) == Some(t)
  {
  }

  type Path = string

  type Timestamp = int

  datatype IndexedFile = IndexedFile(
    path: Path,
    fileType: FileType,
    contentHash: string,
    sizeBytes: int,
    lastModified: Option<Timestamp>,
    imports: seq<string>,
    classes: seq<string>,
    functions: seq<string>)

  datatype ProjectStructure = ProjectStructure(
    rootPath: Path,
    testDirectories: seq<Path>,
    pageObjectDirectories: seq<Path>,
    fixtureFiles: seq<Path>,
    configFiles: seq<Path>)

  datatype NamingPattern = NamingPattern(
    fileNaming: string,
    classNaming: string,
    functionNaming: string,
    testPrefix: string,
    pageSuffix: string)

  const DefaultNamingPattern := NamingPattern("snake_case", "PascalCase", "snake_case", "test_", "Page")

  datatype CodePatterns = CodePatterns(
    usesQautils: bool,
    usesAllure: bool,
    basePageClass: Option<string>,
    browserLauncher: Option<string>,
    commonImports: seq<string>,
    commonDecorators: seq<string>)

  const DefaultCodePatterns := CodePatterns(false, false, None, None, [], [])

  datatype TemplateInfo = TemplateInfo(
    pageObjectTemplate: Option<string>,
    testTemplate: Option<string>,
    fixtureTemplate: Option<string>,
    commonCodeSnippets: seq<string>)

  const DefaultTemplateInfo := TemplateInfo(None, None, None, [])

  datatype RepositoryIndex = RepositoryIndex(
    repositoryUrl: Option<string>,
    repositoryPath: Option<Path>,
    indexedAt: Timestamp,
    version: string,
    structure: ProjectStructure,
    files: seq<IndexedFile>,
    namingPatterns: NamingPattern,
    codePatterns: CodePatterns,
    templates: TemplateInfo,
    totalFiles: int,
    testFilesCount: int,
    pageObjectFilesCount: int)

  /** `RepositoryIndex(structure=...)` with every other field defaulted; the
      creation time is a parameter. */
  function NewIndex(structure: ProjectStructure, indexedAt: Timestamp): (r: RepositoryIndex)
    ensures r.version == "1.0" && r.files == []
    ensures r.totalFiles == 0 && r.testFilesCount == 0 && r.pageObjectFilesCount == 0
    ensures r.namingPatterns == DefaultNamingPattern && r.codePatterns == DefaultCodePatterns
    ensures r.templates == DefaultTemplateInfo && r.repositoryUrl == None && r.repositoryPath == None
  {
    RepositoryIndex(None, None, indexedAt, "1.0", structure, [], DefaultNamingPattern,
                    DefaultCodePatterns, DefaultTemplateInfo, 0, 0, 0)
  }

  /** `[f for f in files if f.file_type == t]`. */
  function OfType(files: seq<IndexedFile>, t: FileType): (r: seq<IndexedFile>)
    ensures forall i :: 0 <= i < |r| ==> r[i].fileType == t
  {
    if |files| == 0 then []
    else (if files[0].fileType == t then [files[0]] else []) + OfType(files[1..], t)
  }

  /** A file is selected exactly when it is in the list and has the type. */
  lemma {:induction false} OfTypeMembers(files: seq<IndexedFile>, t: FileType)
    ensures forall f :: f in OfType(files, t) ==> f in files && f.fileType == t
    ensures forall f :: f in files && f.fileType == t ==> f in OfType(files, t)
  {
    if |files| > 0 {
      OfTypeMembers(files[1..], t);
      assert files == [files[0]] + files[1..];
    }
  }

  /** The selection keeps the files' order. */
  lemma {:induction false} OfTypeIsSubseq(files: seq<IndexedFile>, t: FileType)
    ensures IsSubseq(OfType(files, t), files)
  {
    if |files| > 0 {
      OfTypeIsSubseq(files[1..], t);
      var rest := OfType(files[1..], t);
      if files[0].fileType == t {
        var r := [files[0]] + rest;
        assert r[0] == files[0] && r[1..] == rest;
      } else {
        assert OfType(files, t) == rest;
        if |rest| > 0 {
          assert rest[0] != files[0];
        }
      }
    }
  }

  /** The five selections partition the file list. */
  lemma {:induction false} OfTypePartition(files: seq<IndexedFile>)
    ensures |OfType(files, Test)| + |OfType(files, PageObject)| + |OfType(files, Fixture)|
      + |OfType(files, Config)| + |OfType(files, OtherFile)| == |files|
  {
    if |files| > 0 {
      OfTypePartition(files[1..]);
    }
  }

  lemma {:induction false} OfTypeConcat(a: seq<IndexedFile>, b: seq<IndexedFile>, t: FileType)
    ensures OfType(a + b, t) == OfType(a, t) + OfType(b, t)
  {
    if |a| == 0 {
      assert a + b == b;
    } else {
      var ab := a + b;
      assert ab[0] == a[0];
      assert ab[1..] == a[1..] + b;
      OfTypeConcat(a[1..], b, t);
      var h := if a[0].fileType == t then [a[0]] else [];
      assert OfType(ab, t) == h + OfType(a[1..] + b, t);
      assert OfType(a, t) == h + OfType(a[1..], t);
    }
  }

  /** `get_test_files`. */
  function GetTestFiles(index: RepositoryIndex): (r: seq<IndexedFile>)
    ensures forall i :: 0 <= i < |r| ==> r[i].fileType == Test
  {
    OfType(index.files, Test)
  }

  /** `get_page_object_files`. */
  function GetPageObjectFiles(index: RepositoryIndex): (r: seq<IndexedFile>)
    ensures forall i :: 0 <= i < |r| ==> r[i].fileType == PageObject
  {
    OfType(index.files, PageObject)
  }

  function PathOf(f: IndexedFile): string {
    f.path
  }

  /** `get_example_code(file_type, limit=3)`: the paths of the first `limit`
      files of the type, in order (Python slicing, so a negative `limit`
      drops files from the end). */
  function GetExampleCode(index: RepositoryIndex, t: FileType, limit: int := 3): (r: seq<string>)
    ensures limit >= 0 ==> |r| == Min(limit, |OfType(index.files, t)|)
    ensures limit < 0 ==> |r| == Max(0, |OfType(index.files, t)| + limit)
    ensures forall i :: 0 <= i < |r| ==> r[i] == OfType(index.files, t)[i].path
  {
    Map(PyTake(OfType(index.files, t), limit), PathOf)
  }

  /** Every example path belongs to an indexed file of the requested type. */
  lemma ExampleCodeOfType(index: RepositoryIndex, t: FileType, limit: int)
    ensures forall p :: p in GetExampleCode(index, t, limit) ==>
      exists f :: f in index.files && f.fileType == t && f.path == p
  {
    OfTypeMembers(index.files, t);
    var r := GetExampleCode(index, t, limit);
    forall p | p in r ensures exists f :: f in index.files && f.fileType == t && f.path == p {
      var i :| 0 <= i < |r| && r[i] == p;
      var f := OfType(index.files, t)[i];
      assert f in OfType(index.files, t);
    }
  }
}

=== FILE: selectors.dfy ===
/** `SelectorExtractor`: candidate selectors for the elements a description
    points at, each with a priority, best first. The browser is reduced to
    what the extractor asks of it: the page's element queries (which may
    fail) and, for each element found, the attribute values read from it
    (or a failure to read them). */
module Selectors {
  import opened Wrappers
  import opened Seqs
  import opened PyStr
  import Ranking

  // ---------------------------------------------------------------- selectors of one element

  /** What a selector addresses. Its `type` and `strategy` strings, its
      description and its priority offset follow from it. */
  datatype Kind = ById | ByName | ByClass | ByAriaLabel | ByRole | ByText | Combined | ByXPath

  function TypeName(k: Kind): string {
    match k
    case ById => "id"
    case ByName => "name"
    case ByClass => "class"
    case ByAriaLabel => "aria-label"
    case ByRole => "role"
    case ByText => "text"
    case Combined => "combined"
    case ByXPath => "xpath"
  }

  function Strategy(k: Kind): string {
    match k
    case ById => "by_id"
    case ByName => "by_name"
    case ByClass => "by_class"
    case ByAriaLabel => "by_aria_label"
    case ByRole => "by_role"
    case ByText => "by_text"
    case Combined => "by_css"
    case ByXPath => "by_xpath"
  }

  /** The priority relative to the finder's base priority. */
  function Offset(k: Kind): int {
    match k
    case ById => 20
    case ByName => 15
    case ByClass => 10
    case ByAriaLabel => 12
    case ByRole => 8
    case ByText => 5
    case Combined => 3
    case ByXPath => -5
  }

  /** The position of the kind in the order the selectors are generated. */
  function Rank(k: Kind): nat {
    match k
    case ById => 0
    case ByName => 1
    case ByClass => 2
    case ByAriaLabel => 3
    case ByRole => 4
    case ByText => 5
    case Combined => 6
    case ByXPath => 7
  }

  function Label(k: Kind): string {
    match k
    case ById => "Селектор по ID: "
    case ByName => "Селектор по name: "
    case ByClass => "Селектор по классу: "
    case ByAriaLabel => "Селектор по aria-label: "
    case ByRole => "Селектор по роли: "
    case ByText => "Селектор по тексту: "
    case Combined => "Комбинированный селектор: "
    case ByXPath => "XPath селектор: "
  }

  /** A generated selector; the dictionary's remaining keys are
      `TypeName(kind)`, `Strategy(kind)` and `Description(s)`. */
  datatype Selector = Selector(selector: string, kind: Kind, priority: int, value: string)

  function Description(s: Selector): string {
    Label(s.kind) + s.value
  }

  function Priority(s: Selector): int {
    s.priority
  }

  /** The attribute values read from an element: `tagName` lower-cased,
      `id`, `className`, the `name` property (absent on elements without
      one), the trimmed text, `aria-label`, `role`, and the XPath the page
      computed for it (absent when none was found or the computation failed). */
  datatype Element = Element(
    tagName: string,
    id: string,
    className: string,
    name: Option<string>,
    textContent: string,
    ariaLabel: string,
    role: string,
    xpath: Option<string>)

  /** An element handle: its attributes could be read, or reading failed. */
  datatype Found = Readable(element: Element) | Unreadable

  const MaxTextLength := 50

  function Classes(e: Element): seq<string> {
    SplitWhitespace(e.className)
  }

  function Make(k: Kind, selector: string, value: string, base: int): (s: Selector)
    ensures s.kind == k && s.priority == base + Offset(k)
  {
    Selector(selector, k, base + Offset(k), value)
  }

  predicate Has(r: seq<Selector>, k: Kind) {
    exists i :: 0 <= i < |r| && r[i].kind == k
  }

  /** Whether the element gets a selector of the kind: a non-empty id,
      name, aria-label or role; exactly one class; a non-empty text
      shorter than 50 characters; a tag and at least one class; an XPath. */
  predicate Applies(e: Element, k: Kind) {
    match k
    case ById => e.id != ""
    case ByName => Filled(e.name)
    case ByClass => |Classes(e)| == 1
    case ByAriaLabel => e.ariaLabel != ""
    case ByRole => e.role != ""
    case ByText => e.textContent != "" && |e.textContent| < MaxTextLength
    case Combined => e.tagName != "" && |Classes(e)| > 0
    case ByXPath => Filled(e.xpath)
  }

  /** The combined selector: the tag and at most its first two classes. */
  function CombinedSelector(e: Element): string {
    e.tagName + "." + Join(PyTake(Classes(e), 2), ".")
  }

  /** The attribute value a selector of the kind is built from. */
  function Value(e: Element, k: Kind): string {
    match k
    case ById => e.id
    case ByName => e.name.GetOr("")
    case ByClass => if |Classes(e)| > 0 then Classes(e)[0] else ""
    case ByAriaLabel => e.ariaLabel
    case ByRole => e.role
    case ByText => e.textContent
    case Combined => CombinedSelector(e)
    case ByXPath => e.xpath.GetOr("")
  }

  /** The selector string of the kind for a value. */
  function SelectorText(k: Kind, v: string): string {
    match k
    case ById => "#" + v
    case ByName => "[name='" + v + "']"
    case ByClass => "." + v
    case ByAriaLabel => "[aria-label='" + v + "']"
    case ByRole => "[role='" + v + "']"
    case ByText => "text=" + v
    case Combined => v
    case ByXPath => v
  }

  /** The selector of the kind for the element. */
  function SelectorOf(e: Element, k: Kind, base: int): Selector {
    Make(k, SelectorText(k, Value(e, k)), Value(e, k), base)
  }

  /** The kinds in generation order. */
  const AllKinds := [ById, ByName, ByClass, ByAriaLabel, ByRole, ByText, Combined, ByXPath]

  predicate RankedKinds(kinds: seq<Kind>) {
    forall i, j :: 0 <= i < j < |kinds| ==> Rank(kinds[i]) < Rank(kinds[j])
  }

  /** The kinds of the list that apply to the element, in list order. */
  function ApplicableIn(e: Element, kinds: seq<Kind>): (r: seq<Kind>)
    ensures |r| <= |kinds|
  {
    if |kinds| == 0 then []
    else (if Applies(e, kinds[0]) then [kinds[0]] else []) + ApplicableIn(e, kinds[1..])
  }

  /** A kind is kept exactly when it is listed and applies. */
  lemma {:induction false} ApplicableInMembers(e: Element, kinds: seq<Kind>, k: Kind)
    ensures k in ApplicableIn(e, kinds) <==> k in kinds && Applies(e, k)
  {
    if |kinds| > 0 {
      ApplicableInMembers(e, kinds[1..], k);
      assert kinds == [kinds[0]] + kinds[1..];
    }
  }

  /** The kept kinds stay in rank order. */
  lemma {:induction false} ApplicableInRanked(e: Element, kinds: seq<Kind>)
    requires RankedKinds(kinds)
    ensures RankedKinds(ApplicableIn(e, kinds))
  {
    if |kinds| > 0 {
      ApplicableInRanked(e, kinds[1..]);
      var rest := ApplicableIn(e, kinds[1..]);
      forall j | 0 <= j < |rest| ensures Rank(kinds[0]) < Rank(rest[j]) {
        ApplicableInMembers(e, kinds[1..], rest[j]);
        var m :| 0 <= m < |kinds[1..]| && kinds[1..][m] == rest[j];
        assert kinds[m + 1] == rest[j];
      }
      var r := ApplicableIn(e, kinds);
      var head := if Applies(e, kinds[0]) then [kinds[0]] else [];
      assert r == head + rest;
      forall i, j | 0 <= i < j < |r| ensures Rank(r[i]) < Rank(r[j]) {
        if i < |head| {
          assert r[i] == kinds[0] && r[j] == rest[j - 1];
        } else {
          assert r[i] == rest[i - |head|] && r[j] == rest[j - |head|];
        }
      }
    }
  }

  /** Generation order lists every kind once, in rank order. */
  lemma AllKindsRanked()
    ensures RankedKinds(AllKinds)
    ensures forall k :: k in AllKinds
  {
    forall k ensures k in AllKinds {
      assert AllKinds[Rank(k)] == k;
    }
  }

  /** The selectors' kinds strictly increase in generation order. */
  predicate Ordered(r: seq<Selector>) {
    forall i, j :: 0 <= i < j < |r| ==> Rank(r[i].kind) < Rank(r[j].kind)
  }

  /** One selector per applicable kind, in generation order. */
  function SelectorsOf(e: Element, base: int): seq<Selector> {
    Map(ApplicableIn(e, AllKinds), (k: Kind) => SelectorOf(e, k, base))
  }

  /** The selectors are those of their kinds, and the kinds are the
      applicable ones in generation order. */
  lemma SelectorsOfKinds(e: Element, base: int)
    ensures |SelectorsOf(e, base)| <= 8
    ensures forall i :: 0 <= i < |SelectorsOf(e, base)| ==>
      SelectorsOf(e, base)[i] == SelectorOf(e, ApplicableIn(e, AllKinds)[i], base)
      && SelectorsOf(e, base)[i].kind == ApplicableIn(e, AllKinds)[i]
    ensures |SelectorsOf(e, base)| == |ApplicableIn(e, AllKinds)|
  {
  }

  lemma SelectorsOfOrdered(e: Element, base: int)
    ensures Ordered(SelectorsOf(e, base))
  {
    AllKindsRanked();
    ApplicableInRanked(e, AllKinds);
    SelectorsOfKinds(e, base);
  }

  lemma SelectorsOfApply(e: Element, base: int)
    ensures forall i :: 0 <= i < |SelectorsOf(e, base)| ==> Applies(e, SelectorsOf(e, base)[i].kind)
    ensures forall k :: Has(SelectorsOf(e, base), k) <==> Applies(e, k)
  {
    var ks := ApplicableIn(e, AllKinds);
    var r := SelectorsOf(e, base);
    SelectorsOfKinds(e, base);
    AllKindsRanked();
    forall i | 0 <= i < |r| ensures Applies(e, r[i].kind) {
      ApplicableInMembers(e, AllKinds, ks[i]);
    }
    forall k | Applies(e, k) ensures Has(r, k) {
      ApplicableInMembers(e, AllKinds, k);
      var i :| 0 <= i < |ks| && ks[i] == k;
      assert r[i].kind == k;
    }
  }

  /** `_generate_selectors_for_element` for a readable element: one
      selector per applicable kind, in generation order, each with its
      offset added to the base priority. */
  function ForElement(e: Element, base: int): (r: seq<Selector>)
    ensures |r| <= 8
    ensures forall i :: 0 <= i < |r| ==> r[i] == SelectorOf(e, r[i].kind, base) && Applies(e, r[i].kind)
    ensures forall i :: 0 <= i < |r| ==> r[i].priority == base + Offset(r[i].kind)
    ensures Ordered(r)
    ensures forall k :: Has(r, k) <==> Applies(e, k)
  {
    SelectorsOfKinds(e, base);
    SelectorsOfOrdered(e, base);
    SelectorsOfApply(e, base);
    SelectorsOf(e, base)
  }

  /** `_generate_selectors_for_element`: nothing when the attributes cannot
      be read. */
  function GenerateSelectors(f: Found, base: int): (r: seq<Selector>)
    ensures f.Unreadable? ==> r == []
    ensures forall i :: 0 <= i < |r| ==> r[i].priority == base + Offset(r[i].kind)
  {
    match f
    case Unreadable => []
    case Readable(e) => ForElement(e, base)
  }

  /** The class selector names the element's only class, and the combined
      one the tag with at most its first two classes. */
  lemma ClassSelectors(e: Element, base: int, i: nat)
    requires i < |ForElement(e, base)|
    ensures ForElement(e, base)[i].kind == ByClass ==>
      |Classes(e)| == 1 && ForElement(e, base)[i].selector == "." + Classes(e)[0]
    ensures ForElement(e, base)[i].kind == Combined ==>
      ForElement(e, base)[i].selector == e.tagName + "." + Join(PyTake(Classes(e), 2), ".")
  {
    var s := ForElement(e, base)[i];
    assert s == SelectorOf(e, s.kind, base);
    if s.kind == ByClass {
      assert Has(ForElement(e, base), ByClass);
    }
  }

  // ---------------------------------------------------------------- finders

  /** The page's element queries: the first match of a selector, or all
      of them; `Err` is an exception raised by the browser. */
  datatype Page = Page(
    queryOne: string -> Result<Option<Found>, string>,
    queryAll: string -> Result<seq<Found>, string>)

  const ExactTextPriority := 90
  const PartialTextPriority := 70
  const RolePriority := 85
  const AttributePriority := 80

  /** Every selector carries its offset on top of `base`. */
  predicate Based(r: seq<Selector>, base: int) {
    forall i :: 0 <= i < |r| ==> r[i].priority == base + Offset(r[i].kind)
  }

  lemma BasedConcat(a: seq<Selector>, b: seq<Selector>, base: int)
    requires Based(a, base) && Based(b, base)
    ensures Based(a + b, base)
  {
    assert forall i :: |a| <= i < |a| + |b| ==> (a + b)[i] == b[i - |a|];
  }

  /** The selectors of the given elements, one after the other. */
  function ForAll(fs: seq<Found>, base: int): (r: seq<Selector>)
    ensures Based(r, base)
    ensures |r| <= 8 * |fs|
  {
    if |fs| == 0 then []
    else
      var head := GenerateSelectors(fs[0], base);
      var rest := ForAll(fs[1..], base);
      BasedConcat(head, rest, base);
      head + rest
  }

  /** `_find_by_text`: the exact-text match at 90, then the first three
      partial-text matches at 70. A failed query ends the search with what
      was found before it. */
  function FindByText(page: Option<Page>, text: string): (r: seq<Selector>)
    ensures page.None? ==> r == []
    ensures exists k :: (0 <= k <= |r| && k <= 8 && |r| - k <= 24
      && Based(r[..k], ExactTextPriority) && Based(r[k..], PartialTextPriority))
  {
    if page.None? then
      assert Based([][..0], ExactTextPriority) && Based([][0..], PartialTextPriority);
      []
    else
      var exact := Strip(text);
      match page.value.queryOne("xpath=//*[text()='" + exact + "']")
      case Err(_) =>
        assert Based([][..0], ExactTextPriority) && Based([][0..], PartialTextPriority);
        []
      case Ok(one) =>
        var first := if one.Some? then GenerateSelectors(one.value, ExactTextPriority) else [];
        var partial := match page.value.queryAll("xpath=//*[contains(text(), '" + exact + "')]")
          case Err(_) => []
          case Ok(all) => ForAll(PyTake(all, 3), PartialTextPriority);
        var r := first + partial;
        assert r[..|first|] == first && r[|first|..] == partial;
        r
  }

  /** A role and the words of a description that ask for it. */
  datatype RoleKeywords = RoleKeywords(role: string, keywords: seq<string>)

  const RoleTable := [
    RoleKeywords("button", ["кнопка", "button", "btn"]),
    RoleKeywords("link", ["ссылка", "link", "a"]),
    RoleKeywords("input", ["поле", "input", "ввод"]),
    RoleKeywords("heading", ["заголовок", "heading", "h1", "h2", "h3"])]

  /** `any(keyword.lower() in description.lower() for keyword in keywords)`. */
  function Mentions(description: string, keywords: seq<string>): (r: bool)
    ensures r <==> exists i :: 0 <= i < |keywords| && Contains(Lower(description), Lower(keywords[i]))
  {
    if |keywords| == 0 then false
    else if Contains(Lower(description), Lower(keywords[0])) then true
    else
      var r := Mentions(description, keywords[1..]);
      assert forall i :: 1 <= i < |keywords| ==> keywords[i] == keywords[1..][i - 1];
      r
  }

  /** The first three elements with the role, at 85; nothing if the query fails. */
  function RoleSelectors(p: Page, role: string): (r: seq<Selector>)
    ensures Based(r, RolePriority) && |r| <= 24
  {
    match p.queryAll("[role=\"" + role + "\"]")
    case Err(_) => []
    case Ok(all) => ForAll(PyTake(all, 3), RolePriority)
  }

  /** The roles of the table the description mentions, in table order. */
  function RolesFrom(p: Page, description: string, table: seq<RoleKeywords>): (r: seq<Selector>)
    ensures Based(r, RolePriority) && |r| <= 24 * |table|
  {
    if |table| == 0 then []
    else
      var head := if Mentions(description, table[0].keywords) then RoleSelectors(p, table[0].role) else [];
      var rest := RolesFrom(p, description, table[1..]);
      BasedConcat(head, rest, RolePriority);
      head + rest
  }

  /** No role is queried unless the description mentions it. */
  lemma {:induction false} RolesFromUnmentioned(p: Page, description: string, table: seq<RoleKeywords>)
    requires forall i :: 0 <= i < |table| ==> !Mentions(description, table[i].keywords)
    ensures RolesFrom(p, description, table) == []
  {
    if |table| > 0 {
      assert table[0] == table[0];
      assert forall i :: 0 <= i < |table[1..]| ==> table[1..][i] == table[i + 1];
      RolesFromUnmentioned(p, description, table[1..]);
    }
  }

  /** `_find_by_role`. */
  function FindByRole(page: Option<Page>, description: string): (r: seq<Selector>)
    ensures page.None? ==> r == []
    ensures Based(r, RolePriority) && |r| <= 96
  {
    if page.None? then [] else RolesFrom(page.value, description, RoleTable)
  }

  /** The roles whose keywords the description mentions, in table order. */
  function SearchedRoles(description: string, table: seq<RoleKeywords>): (r: seq<string>)
    ensures forall role :: role in r <==>
      exists i :: 0 <= i < |table| && table[i].role == role && Mentions(description, table[i].keywords)
  {
    if |table| == 0 then []
    else
      var rest := SearchedRoles(description, table[1..]);
      assert forall i :: 1 <= i < |table| ==> table[i] == table[1..][i - 1];
      (if Mentions(description, table[0].keywords) then [table[0].role] else []) + rest
  }

  /** The role finder queries exactly the mentioned roles, in table order. */
  lemma {:induction false} RolesFromSearched(p: Page, description: string, table: seq<RoleKeywords>)
    ensures RolesFrom(p, description, table)
      == FlatMap(SearchedRoles(description, table), (role: string) => RoleSelectors(p, role))
  {
    if |table| > 0 {
      var f := (role: string) => RoleSelectors(p, role);
      RolesFromSearched(p, description, table[1..]);
      var mentioned := Mentions(description, table[0].keywords);
      var head := if mentioned then RoleSelectors(p, table[0].role) else [];
      var names := if mentioned then [table[0].role] else [];
      var rest := SearchedRoles(description, table[1..]);
      assert RolesFrom(p, description, table) == head + RolesFrom(p, description, table[1..]);
      assert SearchedRoles(description, table) == names + rest;
      FlatMapConcat(names, rest, f);
      assert FlatMap(names, f) == head by {
        if mentioned {
          assert FlatMap(names, f) == f(table[0].role) + FlatMap([], f);
        }
      }
    }
  }

  /** A description that mentions no role yields no role selectors. */
  lemma FindByRoleUnmentioned(page: Option<Page>, description: string)
    requires forall i :: 0 <= i < |RoleTable| ==> !Mentions(description, RoleTable[i].keywords)
    ensures FindByRole(page, description) == []
  {
    if page.Some? {
      RolesFromUnmentioned(page.value, description, RoleTable);
    }
  }

  /** Any description containing a Latin "a" asks for links, since "a" is
      one of the link keywords. */
  lemma LetterAMeansLink(description: string)
    requires 'a' in Lower(description)
    ensures Mentions(description, RoleTable[1].keywords)
  {
    var k := RoleTable[1].keywords;
    assert Lower(k[2]) == "a";
    ContainsChar(Lower(description), 'a');
  }

  // ---------------------------------------------------------------- data attributes

  /** A character of the regular-expression class `[\w-]`. */
  predicate AttrChar(c: char) {
    IsWordChar(c) || c == '-'
  }

  /** A match of `data-[\w-]+`. */
  predicate IsDataAttribute(w: string) {
    |w| > 5 && w[..5] == "data-" && forall k :: 5 <= k < |w| ==> AttrChar(w[k])
  }

  /** The longest prefix of `[\w-]` characters. */
  function AttrRun(s: string): (r: string)
    ensures r <= s
    ensures forall k :: 0 <= k < |r| ==> AttrChar(r[k])
    ensures |r| == |s| || !AttrChar(s[|r|])
  {
    if |s| > 0 && AttrChar(s[0]) then [s[0]] + AttrRun(s[1..]) else ""
  }

  /** `re.findall(r"data-[\w-]+", s)`: left to right, each match as long
      as possible, matches not overlapping. */
  function DataAttributes(s: string): (r: seq<string>)
    ensures forall i :: 0 <= i < |r| ==> IsDataAttribute(r[i])
    decreases |s|
  {
    if |s| == 0 then []
    else if |s| > 5 && s[..5] == "data-" && AttrChar(s[5]) then
      var m := s[..5] + AttrRun(s[5..]);
      assert IsDataAttribute(m);
      [m] + DataAttributes(s[|m|..])
    else DataAttributes(s[1..])
  }

  /** A match in the rest of the text is a match in the text. */
  lemma ContainsInSuffix(s: string, n: nat, sub: string)
    requires n <= |s| && Contains(s[n..], sub)
    ensures Contains(s, sub)
  {
    ContainsInfix(s[..n], s[n..], "", sub);
    assert s[..n] + s[n..] + "" == s;
  }

  lemma ContainsOwnPrefix(s: string, n: nat)
    requires n <= |s|
    ensures Contains(s, s[..n])
  {
    ContainsMiddle("", s[..n], s[n..]);
    assert "" + s[..n] + s[n..] == s;
  }

  /** Every match occurs in the searched text. */
  lemma {:induction false} DataAttributesOccur(s: string)
    ensures forall i :: 0 <= i < |DataAttributes(s)| ==> Contains(s, DataAttributes(s)[i])
    decreases |s|
  {
    if |s| > 0 {
      var r := DataAttributes(s);
      if |s| > 5 && s[..5] == "data-" && AttrChar(s[5]) {
        var m := s[..5] + AttrRun(s[5..]);
        var n := |m|;
        var rest := DataAttributes(s[n..]);
        assert r == [m] + rest;
        DataAttributesOccur(s[n..]);
        assert m == s[..n];
        ContainsOwnPrefix(s, n);
        forall i | 0 <= i < |rest| ensures Contains(s, rest[i]) {
          ContainsInSuffix(s, n, rest[i]);
        }
      } else {
        DataAttributesOccur(s[1..]);
        forall i | 0 <= i < |r| ensures Contains(s, r[i]) {
          ContainsInSuffix(s, 1, r[i]);
        }
      }
    }
  }

  /** For each attribute in turn, the first two elements carrying it, at
      80. A failed query ends the search with what was found before it. */
  function AttributesFrom(p: Page, attrs: seq<string>): (r: seq<Selector>)
    ensures Based(r, AttributePriority) && |r| <= 16 * |attrs|
  {
    if |attrs| == 0 then []
    else match p.queryAll("[" + attrs[0] + "]")
      case Err(_) => []
      case Ok(all) =>
        var head := ForAll(PyTake(all, 2), AttributePriority);
        var rest := AttributesFrom(p, attrs[1..]);
        BasedConcat(head, rest, AttributePriority);
        head + rest
  }

  /** `_find_by_attributes`: the `data-` attributes named in the
      lower-cased description. */
  function FindByAttributes(page: Option<Page>, description: string): (r: seq<Selector>)
    ensures page.None? ==> r == []
    ensures Based(r, AttributePriority) && |r| <= 16 * |DataAttributes(Lower(description))|
  {
    if page.None? then [] else AttributesFrom(page.value, DataAttributes(Lower(description)))
  }

  // ---------------------------------------------------------------- ranking

  /** Everything the three finders return, in finder order. */
  function Candidates(page: Option<Page>, description: string): seq<Selector> {
    FindByText(page, description) + FindByRole(page, description) + FindByAttributes(page, description)
  }

  /** `extract_selectors`: the candidates sorted by descending priority. */
  function ExtractSelectors(page: Option<Page>, description: string): (r: seq<Selector>)
    ensures multiset(r) == multiset(Candidates(page, description))
    ensures Ranking.SortedDesc(r, Priority)
    ensures page.None? ==> r == []
  {
    var c := Candidates(page, description);
    Ranking.SortDescPermutation(c, Priority);
    Ranking.SortDescSorted(c, Priority);
    Ranking.SortDesc(c, Priority)
  }

  /** Selectors of equal priority keep the finders' order. */
  lemma ExtractSelectorsStable(page: Option<Page>, description: string, k: int)
    ensures Ranking.WithKey(ExtractSelectors(page, description), Priority, k)
      == Ranking.WithKey(Candidates(page, description), Priority, k)
  {
    Ranking.SortDescStable(Candidates(page, description), Priority, k);
  }

  /** Every selector a base is given lies within the base's offsets. */
  lemma BasedRange(r: seq<Selector>, base: int, s: Selector)
    requires Based(r, base) && s in r
    ensures base - 5 <= s.priority <= base + 20
  {
  }

  /** Priorities between 65 and 110. */
  predicate InRange(r: seq<Selector>) {
    forall s :: s in r ==> 65 <= s.priority <= 110
  }

  lemma TextInRange(page: Option<Page>, description: string)
    ensures InRange(FindByText(page, description))
  {
    var t := FindByText(page, description);
    var k :| 0 <= k <= |t| && Based(t[..k], ExactTextPriority) && Based(t[k..], PartialTextPriority);
    assert t == t[..k] + t[k..];
    forall s | s in t ensures 65 <= s.priority <= 110 {
      if s in t[..k] {
        BasedRange(t[..k], ExactTextPriority, s);
      } else {
        BasedRange(t[k..], PartialTextPriority, s);
      }
    }
  }

  lemma CandidatesInRange(page: Option<Page>, description: string)
    ensures InRange(Candidates(page, description))
  {
    TextInRange(page, description);
    var ro := FindByRole(page, description);
    var at := FindByAttributes(page, description);
    forall s | s in ro ensures 65 <= s.priority <= 110 {
      BasedRange(ro, RolePriority, s);
    }
    forall s | s in at ensures 65 <= s.priority <= 110 {
      BasedRange(at, AttributePriority, s);
    }
  }

  /** Extracted priorities lie between 65 (an xpath of a partial-text
      match) and 110 (the id of the exact-text match). */
  lemma ExtractSelectorsPriorities(page: Option<Page>, description: string)
    ensures InRange(ExtractSelectors(page, description))
  {
    var c := Candidates(page, description);
    CandidatesInRange(page, description);
    forall s | s in ExtractSelectors(page, description) ensures 65 <= s.priority <= 110 {
      assert s in multiset(c);
    }
  }
}

=== FILE: seqs.dfy ===
/** Sequence helpers standing for Python list idioms: comprehensions with a
    filter, slicing `xs[:k]`, order-preserving de-duplication and counting. */
module Seqs {

  /** `a` is obtained from `b` by deleting elements (order kept). */
  predicate IsSubseq<T(==)>(a: seq<T>, b: seq<T>)
    decreases |b|
  {
    |a| == 0 ||
    (|b| > 0 && (if a[0] == b[0] then IsSubseq(a[1..], b[1..]) else IsSubseq(a, b[1..])))
  }

  lemma {:induction false} SubseqOfCons<T>(a: seq<T>, x: T, b: seq<T>)
    requires IsSubseq(a, b)
    ensures IsSubseq(a, [x] + b)
    decreases |b|, 1
  {
    assert ([x] + b)[1..] == b;
    if |a| > 0 && a[0] == x {
      SubseqTail(a, b);
    }
  }

  /** Matching `a[0]` later than the first possible place is still a match. */
  lemma {:induction false} SubseqTail<T>(a: seq<T>, b: seq<T>)
    requires |a| > 0 && IsSubseq(a, b)
    ensures IsSubseq(a[1..], b)
    decreases |b|, 0
  {
    if a[0] != b[0] {
      SubseqTail(a, b[1..]);
    }
    if |a[1..]| > 0 {
      SubseqOfCons(a[1..], b[0], b[1..]);
      assert [b[0]] + b[1..] == b;
    }
  }

  /** `[x for x in xs if p(x)]`. */
  function Filter<T>(xs: seq<T>, p: T -> bool): (r: seq<T>)
    ensures |r| <= |xs|
    ensures forall i :: 0 <= i < |r| ==> p(r[i])
  {
    if |xs| == 0 then [] else (if p(xs[0]) then [xs[0]] else []) + Filter(xs[1..], p)
  }

  lemma {:induction false} FilterMembers<T>(xs: seq<T>, p: T -> bool)
    ensures forall x :: x in Filter(xs, p) <==> x in xs && p(x)
  {
    if |xs| > 0 {
      FilterMembers(xs[1..], p);
      assert xs == [xs[0]] + xs[1..];
    }
  }

  lemma {:induction false} FilterIsSubseq<T>(xs: seq<T>, p: T -> bool)
    ensures IsSubseq(Filter(xs, p), xs)
  {
    if |xs| > 0 {
      FilterIsSubseq(xs[1..], p);
      var rest := Filter(xs[1..], p);
      if p(xs[0]) {
        assert Filter(xs, p) == [xs[0]] + rest;
        assert ([xs[0]] + rest)[1..] == rest;
      } else {
        assert Filter(xs, p) == rest;
        SubseqOfCons(rest, xs[0], xs[1..]);
        assert [xs[0]] + xs[1..] == xs;
      }
    }
  }

  lemma {:induction false} FilterConcat<T>(a: seq<T>, b: seq<T>, p: T -> bool)
    ensures Filter(a + b, p) == Filter(a, p) + Filter(b, p)
  {
    if |a| > 0 {
      FilterConcat(a[1..], b, p);
      assert (a + b)[1..] == a[1..] + b;
    } else {
      assert a + b == b;
    }
  }

  /** Filtering a list whose elements all pass keeps it whole. */
  lemma {:induction false} FilterAll<T>(xs: seq<T>, p: T -> bool)
    requires forall i :: 0 <= i < |xs| ==> p(xs[i])
    ensures Filter(xs, p) == xs
  {
    if |xs| > 0 {
      FilterAll(xs[1..], p);
    }
  }

  /** Filtering skips a failing element that follows a passing prefix. */
  lemma {:induction false} FilterSkip<T>(pre: seq<T>, x: T, post: seq<T>, p: T -> bool)
    requires forall i :: 0 <= i < |pre| ==> p(pre[i])
    requires !p(x)
    ensures Filter(pre + [x] + post, p) == pre + Filter(post, p)
  {
    var s := pre + [x] + post;
    if |pre| == 0 {
      assert s[0] == x && s[1..] == post;
    } else {
      FilterSkip(pre[1..], x, post, p);
      assert s[0] == pre[0] && s[1..] == pre[1..] + [x] + post;
      assert pre == [pre[0]] + pre[1..];
    }
  }

  /** Filtering skips the first failing element. */
  lemma {:induction false} FilterSkipAt<T>(xs: seq<T>, i: nat, p: T -> bool)
    requires i < |xs| && !p(xs[i]) && forall k :: 0 <= k < i ==> p(xs[k])
    ensures Filter(xs, p) == xs[..i] + Filter(xs[i + 1..], p)
  {
    var pre, post := xs[..i], xs[i + 1..];
    assert forall k :: 0 <= k < |pre| ==> p(pre[k]) by {
      forall k | 0 <= k < |pre| ensures p(pre[k]) {
        assert pre[k] == xs[k];
      }
    }
    assert xs == pre + [xs[i]] + post;
    FilterSkip(pre, xs[i], post, p);
  }

  /** Filtering a list none of whose elements pass leaves nothing. */
  lemma {:induction false} FilterNone<T>(xs: seq<T>, p: T -> bool)
    requires forall i :: 0 <= i < |xs| ==> !p(xs[i])
    ensures Filter(xs, p) == []
  {
    if |xs| > 0 {
      FilterNone(xs[1..], p);
    }
  }

  /** Three filters whose predicates split the elements between them keep,
      together, as many elements as the list has. */
  lemma {:induction false} FilterLengths3<T>(xs: seq<T>, p: T -> bool, q: T -> bool, r: T -> bool)
    requires forall i :: 0 <= i < |xs| ==>
      (if p(xs[i]) then 1 else 0) + (if q(xs[i]) then 1 else 0) + (if r(xs[i]) then 1 else 0) == 1
    ensures |Filter(xs, p)| + |Filter(xs, q)| + |Filter(xs, r)| == |xs|
  {
    if |xs| > 0 {
      FilterLengths3(xs[1..], p, q, r);
    }
  }

  /** The elements of `xs` whose tag (at the same position) is `t`, in order. */
  function Pick<T, R(==)>(xs: seq<T>, tags: seq<R>, t: R): (r: seq<T>)
    requires |tags| == |xs|
    ensures |r| <= |xs|
  {
    if |xs| == 0 then [] else (if tags[0] == t then [xs[0]] else []) + Pick(xs[1..], tags[1..], t)
  }

  /** Picking keeps the order of the input and only its elements. */
  lemma {:induction false} PickIsSubseq<T, R>(xs: seq<T>, tags: seq<R>, t: R)
    requires |tags| == |xs|
    ensures IsSubseq(Pick(xs, tags, t), xs)
  {
    if |xs| > 0 {
      PickIsSubseq(xs[1..], tags[1..], t);
      var rest := Pick(xs[1..], tags[1..], t);
      assert [xs[0]] + xs[1..] == xs;
      if tags[0] == t {
        assert Pick(xs, tags, t) == [xs[0]] + rest;
        assert ([xs[0]] + rest)[1..] == rest;
      } else {
        assert Pick(xs, tags, t) == rest;
        SubseqOfCons(rest, xs[0], xs[1..]);
      }
    }
  }

  /** An element is picked exactly when it sits at a position tagged `t`. */
  lemma {:induction false} PickMembers<T, R>(xs: seq<T>, tags: seq<R>, t: R)
    requires |tags| == |xs|
    ensures forall k :: 0 <= k < |xs| && tags[k] == t ==> xs[k] in Pick(xs, tags, t)
    ensures forall x :: x in Pick(xs, tags, t) ==> exists k :: 0 <= k < |xs| && tags[k] == t && xs[k] == x
  {
    if |xs| > 0 {
      PickMembers(xs[1..], tags[1..], t);
      forall k | 1 <= k < |xs| && tags[k] == t ensures xs[k] in Pick(xs, tags, t) {
        assert xs[1..][k - 1] == xs[k] && tags[1..][k - 1] == tags[k];
      }
      forall x | x in Pick(xs[1..], tags[1..], t)
        ensures exists k :: 0 <= k < |xs| && tags[k] == t && xs[k] == x
      {
        var k :| 0 <= k < |xs[1..]| && tags[1..][k] == t && xs[1..][k] == x;
        assert tags[k + 1] == t && xs[k + 1] == x;
      }
    }
  }

  /** Picking by a tag that marks exactly the elements satisfying `p` is
      filtering by `p`. */
  lemma {:induction false} PickFilter<T, R>(xs: seq<T>, tags: seq<R>, t: R, p: T -> bool)
    requires |tags| == |xs|
    requires forall k :: 0 <= k < |xs| ==> (tags[k] == t <==> p(xs[k]))
    ensures Pick(xs, tags, t) == Filter(xs, p)
  {
    if |xs| > 0 {
      assert forall k :: 0 <= k < |xs| - 1 ==> xs[1..][k] == xs[k + 1] && tags[1..][k] == tags[k + 1];
      PickFilter(xs[1..], tags[1..], t, p);
    }
  }

  /** Nothing is picked by a tag that never occurs. */
  lemma {:induction false} PickNone<T, R>(xs: seq<T>, tags: seq<R>, t: R)
    requires |tags| == |xs|
    requires forall k :: 0 <= k < |xs| ==> tags[k] != t
    ensures Pick(xs, tags, t) == []
  {
    if |xs| > 0 {
      assert forall k :: 0 <= k < |xs| - 1 ==> tags[1..][k] == tags[k + 1];
      PickNone(xs[1..], tags[1..], t);
    }
  }

  /** Python's `xs[:k]` for any integer `k` (a negative `k` drops `-k` elements from the end). */
  function PyTake<T>(xs: seq<T>, k: int): (r: seq<T>)
    ensures r <= xs
    ensures k >= 0 ==> |r| == (if k < |xs| then k else |xs|)
    ensures k < 0 ==> |r| == (if |xs| + k > 0 then |xs| + k else 0)
  {
    if k >= 0 then (if k < |xs| then xs[..k] else xs)
    else if |xs| + k > 0 then xs[..|xs| + k] else []
  }

  /** Number of occurrences of `x` in `xs`. */
  function Count<T(==)>(xs: seq<T>, x: T): (n: nat)
    ensures n <= |xs|
    ensures n > 0 <==> x in xs
  {
    if |xs| == 0 then 0 else (if xs[0] == x then 1 else 0) + Count(xs[1..], x)
  }

  predicate Distinct<T(==)>(xs: seq<T>) {
    forall i, j :: 0 <= i < j < |xs| ==> xs[i] != xs[j]
  }

  /** Keeps the first element of every key not yet in `seen`, in order: the
      loop `if key(x) not in seen: out.append(x); seen.add(key(x))`. */
  function DedupByKey<T, K(==)>(xs: seq<T>, key: T -> K, seen: set<K>): (r: seq<T>)
    ensures |r| <= |xs|
    ensures forall i :: 0 <= i < |r| ==> key(r[i]) !in seen
    ensures forall i, j :: 0 <= i < j < |r| ==> key(r[i]) != key(r[j])
  {
    if |xs| == 0 then []
    else if key(xs[0]) in seen then DedupByKey(xs[1..], key, seen)
    else [xs[0]] + DedupByKey(xs[1..], key, seen + {key(xs[0])})
  }

  /** Every kept element comes from the input, and every key of the input
      that was not already seen is represented in the output. */
  lemma {:induction false} DedupByKeyComplete<T, K>(xs: seq<T>, key: T -> K, seen: set<K>)
    ensures forall x :: x in DedupByKey(xs, key, seen) ==> x in xs
    ensures forall x :: x in xs && key(x) !in seen ==>
      exists y :: y in DedupByKey(xs, key, seen) && key(y) == key(x)
  {
    if |xs| > 0 {
      var seen' := if key(xs[0]) in seen then seen else seen + {key(xs[0])};
      DedupByKeyComplete(xs[1..], key, seen');
      assert xs == [xs[0]] + xs[1..];
    }
  }

  /** De-duplication is a subsequence of its input. */
  lemma {:induction false} DedupByKeyIsSubseq<T, K>(xs: seq<T>, key: T -> K, seen: set<K>)
    ensures IsSubseq(DedupByKey(xs, key, seen), xs)
  {
    if |xs| > 0 {
      var seen' := if key(xs[0]) in seen then seen else seen + {key(xs[0])};
      DedupByKeyIsSubseq(xs[1..], key, seen');
      var rest := DedupByKey(xs[1..], key, seen');
      assert [xs[0]] + xs[1..] == xs;
      if key(xs[0]) in seen {
        SubseqOfCons(rest, xs[0], xs[1..]);
      } else {
        assert ([xs[0]] + rest)[1..] == rest;
      }
    }
  }

  function Min(a: int, b: int): int {
    if a <= b then a else b
  }

  function Max(a: int, b: int): int {
    if a >= b then a else b
  }

  /** `[f(x) for x in xs]` */
  function Map<T, U>(xs: seq<T>, f: T -> U): (r: seq<U>)
    ensures |r| == |xs|
    ensures forall i :: 0 <= i < |xs| ==> r[i] == f(xs[i])
  {
    if |xs| == 0 then [] else [f(xs[0])] + Map(xs[1..], f)
  }

  /** `[y for x in xs for y in f(x)]` */
  function FlatMap<T, U>(xs: seq<T>, f: T -> seq<U>): seq<U> {
    if |xs| == 0 then [] else f(xs[0]) + FlatMap(xs[1..], f)
  }

  /** A property of every element of both parts holds of every element of
      their concatenation. */
  lemma AllConcat<T>(a: seq<T>, b: seq<T>, f: T -> bool)
    requires forall i :: 0 <= i < |a| ==> f(a[i])
    requires forall i :: 0 <= i < |b| ==> f(b[i])
    ensures forall i :: 0 <= i < |a + b| ==> f((a + b)[i])
  {
  }

  lemma {:induction false} FlatMapConcat<T, U>(a: seq<T>, b: seq<T>, f: T -> seq<U>)
    ensures FlatMap(a + b, f) == FlatMap(a, f) + FlatMap(b, f)
  {
    if |a| == 0 {
      assert a + b == b;
    } else {
      var ab := a + b;
      assert ab[0] == a[0];
      assert ab[1..] == a[1..] + b;
      FlatMapConcat(a[1..], b, f);
      assert FlatMap(ab, f) == f(a[0]) + FlatMap(a[1..] + b, f);
      assert FlatMap(a, f) == f(a[0]) + FlatMap(a[1..], f);
    }
  }
}

=== FILE: storage.dfy ===
/** `IndexStorage`: the index is saved as JSON after every `Path` and
    `datetime` in its dictionary form is turned into text, and loaded back
    after every string under a `"path"` key is turned into a `Path` again.
    The dictionary is a JSON-like tree; `json.dumps`, `json.loads`, the
    model's re-parse and `isoformat` are parameters, and the file system is
    a map from path to file text. */
module Storage {
  import opened Wrappers
  import opened Seqs
  import opened RepoModels
  import opened Tree

  /** Plain JSON: no `Path` and no `datetime` anywhere in the tree. */
  predicate IsJson(v: Value)
    decreases v, 1
  {
    match v
    case PathV(_) => false
    case DateTimeV(_) => false
    case List(items) => AllJson(items)
    case Dict(entries) => EntriesJson(entries)
    case _ => true
  }

  predicate AllJson(items: seq<Value>)
    decreases items
  {
    |items| == 0 || (IsJson(items[0]) && AllJson(items[1..]))
  }

  predicate EntriesJson(entries: seq<Entry>)
    decreases entries
  {
    |entries| == 0 || (IsJson(entries[0].value) && EntriesJson(entries[1..]))
  }

  // ---------------------------------------------------------------- save conversion

  /** `convert_paths`: a `Path` becomes its text, a `datetime` its ISO text,
      dictionaries and lists are rebuilt around their converted members. */
  function ConvertPaths(v: Value, iso: Timestamp -> string): (r: Value)
    ensures r.List? <==> v.List?
    ensures r.Dict? <==> v.Dict?
    ensures v.List? ==> |r.items| == |v.items|
    ensures v.Dict? ==> Map(r.entries, Key) == Map(v.entries, Key)
    decreases v, 1
  {
    match v
    case PathV(p) => Str(p)
    case DateTimeV(t) => Str(iso(t))
    case List(items) => List(ConvertList(items, iso))
    case Dict(entries) => Dict(ConvertEntries(entries, iso))
    case _ => v
  }

  function ConvertList(items: seq<Value>, iso: Timestamp -> string): (r: seq<Value>)
    ensures |r| == |items|
    decreases items
  {
    if |items| == 0 then [] else [ConvertPaths(items[0], iso)] + ConvertList(items[1..], iso)
  }

  function ConvertEntry(e: Entry, iso: Timestamp -> string): (r: Entry)
    ensures r.key == e.key
    decreases e, 0
  {
    Entry(e.key, ConvertPaths(e.value, iso))
  }

  function ConvertEntries(entries: seq<Entry>, iso: Timestamp -> string): (r: seq<Entry>)
    ensures Map(r, Key) == Map(entries, Key)
    decreases entries
  {
    if |entries| == 0 then []
    else
      var rest := ConvertEntries(entries[1..], iso);
      assert Map([ConvertEntry(entries[0], iso)] + rest, Key) == [entries[0].key] + Map(rest, Key);
      [ConvertEntry(entries[0], iso)] + rest
  }

  /** After the save conversion no `Path` or `datetime` is left. */
  lemma {:induction false} ConvertPathsIsJson(v: Value, iso: Timestamp -> string)
    ensures IsJson(ConvertPaths(v, iso))
    decreases v, 1
  {
    match v
    case List(items) => ConvertListIsJson(items, iso);
    case Dict(entries) => ConvertEntriesIsJson(entries, iso);
    case _ =>
  }

  lemma {:induction false} ConvertListIsJson(items: seq<Value>, iso: Timestamp -> string)
    ensures AllJson(ConvertList(items, iso))
    decreases items
  {
    if |items| > 0 {
      ConvertPathsIsJson(items[0], iso);
      ConvertListIsJson(items[1..], iso);
      assert ConvertList(items, iso)[1..] == ConvertList(items[1..], iso);
    }
  }

  lemma {:induction false} ConvertEntriesIsJson(entries: seq<Entry>, iso: Timestamp -> string)
    ensures EntriesJson(ConvertEntries(entries, iso))
    decreases entries
  {
    if |entries| > 0 {
      ConvertPathsIsJson(entries[0].value, iso);
      ConvertEntriesIsJson(entries[1..], iso);
      assert ConvertEntries(entries, iso)[1..] == ConvertEntries(entries[1..], iso);
    }
  }

  /** Every other value is left as it is: plain JSON is unchanged, so the
      conversion is idempotent. */
  lemma {:induction false} ConvertPathsJsonUnchanged(v: Value, iso: Timestamp -> string)
    requires IsJson(v)
    ensures ConvertPaths(v, iso) == v
    decreases v, 1
  {
    match v
    case List(items) => ConvertListJsonUnchanged(items, iso);
    case Dict(entries) => ConvertEntriesJsonUnchanged(entries, iso);
    case _ =>
  }

  lemma {:induction false} ConvertListJsonUnchanged(items: seq<Value>, iso: Timestamp -> string)
    requires AllJson(items)
    ensures ConvertList(items, iso) == items
    decreases items
  {
    if |items| > 0 {
      ConvertPathsJsonUnchanged(items[0], iso);
      ConvertListJsonUnchanged(items[1..], iso);
      assert items == [items[0]] + items[1..];
    }
  }

  lemma {:induction false} ConvertEntriesJsonUnchanged(entries: seq<Entry>, iso: Timestamp -> string)
    requires EntriesJson(entries)
    ensures ConvertEntries(entries, iso) == entries
    decreases entries
  {
    if |entries| > 0 {
      ConvertPathsJsonUnchanged(entries[0].value, iso);
      ConvertEntriesJsonUnchanged(entries[1..], iso);
      assert entries == [entries[0]] + entries[1..];
    }
  }

  lemma ConvertPathsIdempotent(v: Value, iso: Timestamp -> string)
    ensures ConvertPaths(ConvertPaths(v, iso), iso) == ConvertPaths(v, iso)
  {
    ConvertPathsIsJson(v, iso);
    ConvertPathsJsonUnchanged(ConvertPaths(v, iso), iso);
  }

  // ---------------------------------------------------------------- load conversion

  /** `convert_paths_back`: in a dictionary a string under the key "path"
      becomes a `Path`; every other value is converted recursively and
      nothing else changes. */
  function ConvertPathsBack(v: Value): (r: Value)
    ensures r.List? <==> v.List?
    ensures r.Dict? <==> v.Dict?
    ensures v.List? ==> |r.items| == |v.items|
    ensures v.Dict? ==> Map(r.entries, Key) == Map(v.entries, Key)
    decreases v, 1
  {
    match v
    case List(items) => List(BackList(items))
    case Dict(entries) => Dict(BackEntries(entries))
    case _ => v
  }

  function BackList(items: seq<Value>): (r: seq<Value>)
    ensures |r| == |items|
    decreases items
  {
    if |items| == 0 then [] else [ConvertPathsBack(items[0])] + BackList(items[1..])
  }

  /** One entry: `obj["path"] = Path(obj["path"])` for a string; the
      comprehension then leaves the `Path` as it is. */
  function BackEntry(e: Entry): (r: Entry)
    ensures r.key == e.key
    decreases e, 0
  {
    if e.key == "path" && e.value.Str? then Entry(e.key, PathV(e.value.s)) else Entry(e.key, ConvertPathsBack(e.value))
  }

  function BackEntries(entries: seq<Entry>): (r: seq<Entry>)
    ensures Map(r, Key) == Map(entries, Key)
    decreases entries
  {
    if |entries| == 0 then []
    else
      var rest := BackEntries(entries[1..]);
      assert Map([BackEntry(entries[0])] + rest, Key) == [entries[0].key] + Map(rest, Key);
      [BackEntry(entries[0])] + rest
  }

  /** Loading then saving: the save conversion undoes the load conversion
      on every plain JSON tree. */
  lemma {:induction false} ConvertBackThenSave(w: Value, iso: Timestamp -> string)
    requires IsJson(w)
    ensures ConvertPaths(ConvertPathsBack(w), iso) == w
    decreases w, 1
  {
    match w
    case List(items) => BackListThenSave(items, iso);
    case Dict(entries) => BackEntriesThenSave(entries, iso);
    case _ =>
  }

  lemma {:induction false} BackListThenSave(items: seq<Value>, iso: Timestamp -> string)
    requires AllJson(items)
    ensures ConvertList(BackList(items), iso) == items
    decreases items
  {
    if |items| > 0 {
      ConvertBackThenSave(items[0], iso);
      BackListThenSave(items[1..], iso);
      assert BackList(items)[1..] == BackList(items[1..]);
      assert items == [items[0]] + items[1..];
    }
  }

  lemma BackEntryThenSave(e: Entry, iso: Timestamp -> string)
    requires IsJson(e.value)
    ensures ConvertEntry(BackEntry(e), iso) == e
    decreases e, 0
  {
    if !(e.key == "path" && e.value.Str?) {
      ConvertBackThenSave(e.value, iso);
    }
  }

  lemma {:induction false} BackEntriesThenSave(entries: seq<Entry>, iso: Timestamp -> string)
    requires EntriesJson(entries)
    ensures ConvertEntries(BackEntries(entries), iso) == entries
    decreases entries
  {
    if |entries| > 0 {
      BackEntryThenSave(entries[0], iso);
      BackEntriesThenSave(entries[1..], iso);
      assert BackEntries(entries)[1..] == BackEntries(entries[1..]);
      assert entries == [entries[0]] + entries[1..];
    }
  }

  /** The trees the two conversions carry through unchanged: no `datetime`,
      every `Path` directly under a "path" key, and no string there. */
  predicate Placed(v: Value)
    decreases v, 1
  {
    match v
    case PathV(_) => false
    case DateTimeV(_) => false
    case List(items) => AllPlaced(items)
    case Dict(entries) => EntriesPlaced(entries)
    case _ => true
  }

  predicate AllPlaced(items: seq<Value>)
    decreases items
  {
    |items| == 0 || (Placed(items[0]) && AllPlaced(items[1..]))
  }

  predicate EntryPlaced(e: Entry)
    decreases e, 0
  {
    if e.key == "path" then e.value.PathV? || (!e.value.Str? && Placed(e.value)) else Placed(e.value)
  }

  predicate EntriesPlaced(entries: seq<Entry>)
    decreases entries
  {
    |entries| == 0 || (EntryPlaced(entries[0]) && EntriesPlaced(entries[1..]))
  }

  /** Saving then loading gives the tree back exactly when its paths sit
      under "path" keys; a `Path` anywhere else comes back as a string. */
  lemma {:induction false} SaveThenBack(v: Value, iso: Timestamp -> string)
    requires Placed(v)
    ensures ConvertPathsBack(ConvertPaths(v, iso)) == v
    decreases v, 1
  {
    match v
    case List(items) => SaveThenBackList(items, iso);
    case Dict(entries) => SaveThenBackEntries(entries, iso);
    case _ =>
  }

  lemma {:induction false} SaveThenBackList(items: seq<Value>, iso: Timestamp -> string)
    requires AllPlaced(items)
    ensures BackList(ConvertList(items, iso)) == items
    decreases items
  {
    if |items| > 0 {
      SaveThenBack(items[0], iso);
      SaveThenBackList(items[1..], iso);
      assert ConvertList(items, iso)[1..] == ConvertList(items[1..], iso);
      assert items == [items[0]] + items[1..];
    }
  }

  lemma SaveThenBackEntry(e: Entry, iso: Timestamp -> string)
    requires EntryPlaced(e)
    ensures BackEntry(ConvertEntry(e, iso)) == e
    decreases e, 0
  {
    if !e.value.PathV? {
      SaveThenBack(e.value, iso);
    }
  }

  lemma {:induction false} SaveThenBackEntries(entries: seq<Entry>, iso: Timestamp -> string)
    requires EntriesPlaced(entries)
    ensures BackEntries(ConvertEntries(entries, iso)) == entries
    decreases entries
  {
    if |entries| > 0 {
      SaveThenBackEntry(entries[0], iso);
      SaveThenBackEntries(entries[1..], iso);
      assert ConvertEntries(entries, iso)[1..] == ConvertEntries(entries[1..], iso);
      assert entries == [entries[0]] + entries[1..];
    }
  }

  /** A `Path` outside a "path" key does not survive: `["root_path": p]`
      comes back holding a string. */
  lemma RootPathComesBackAsString(p: Path, iso: Timestamp -> string)
    ensures ConvertPathsBack(ConvertPaths(Dict([Entry("root_path", PathV(p))]), iso)) == Dict([Entry("root_path", Str(p))])
  {
    var saved := Entry("root_path", Str(p));
    assert |saved.key| != |"path"|;
    assert [Entry("root_path", PathV(p))][1..] == [] && [saved][1..] == [];
    assert ConvertPaths(PathV(p), iso) == Str(p);
    assert ConvertEntry(Entry("root_path", PathV(p)), iso) == saved;
    assert ConvertEntries([Entry("root_path", PathV(p))], iso) == [saved];
    assert BackEntry(saved) == saved;
    assert BackEntries([saved]) == [saved];
  }

  // ---------------------------------------------------------------- save, load, exists

  type FileSystem = map<Path, string>

  /** `exists(index_path)`. */
  predicate Exists(fs: FileSystem, path: Path) {
    path in fs
  }

  /** `save(index, index_path)`: the file is created or overwritten with the
      dump of the converted tree; no other file changes. */
  function Save(fs: FileSystem, path: Path, tree: Value, iso: Timestamp -> string, dump: Value -> string)
    : (r: FileSystem)
    ensures r.Keys == fs.Keys + {path}
    ensures forall q :: q in fs && q != path ==> r[q] == fs[q]
    ensures r[path] == dump(ConvertPaths(tree, iso))
  {
    fs[path := dump(ConvertPaths(tree, iso))]
  }

  /** `load(index_path)`: `None` for a missing file and for any error of the
      JSON parse (`parseJson`) or of the model's re-parse (`parseIndex`). */
  function Load(fs: FileSystem, path: Path, parseJson: string -> Option<Value>,
                parseIndex: Value -> Option<RepositoryIndex>): (r: Option<RepositoryIndex>)
    ensures !Exists(fs, path) ==> r.None?
    ensures Exists(fs, path) && parseJson(fs[path]).None? ==> r.None?
    ensures Exists(fs, path) && parseJson(fs[path]).Some? ==>
      r == parseIndex(ConvertPathsBack(parseJson(fs[path]).value))
  {
    if path !in fs then None
    else match parseJson(fs[path])
      case None => None
      case Some(tree) => parseIndex(ConvertPathsBack(tree))
  }

  /** A saved index exists, and loading it re-parses the saved tree whenever
      the JSON dump reads back as written and the paths sit under "path". */
  lemma LoadAfterSave(fs: FileSystem, path: Path, tree: Value, iso: Timestamp -> string,
                      dump: Value -> string, parseJson: string -> Option<Value>,
                      parseIndex: Value -> Option<RepositoryIndex>)
    requires Placed(tree)
    requires parseJson(dump(ConvertPaths(tree, iso))) == Some(ConvertPaths(tree, iso))
    ensures Exists(Save(fs, path, tree, iso, dump), path)
    ensures Load(Save(fs, path, tree, iso, dump), path, parseJson, parseIndex) == parseIndex(tree)
  {
    SaveThenBack(tree, iso);
  }
}

=== FILE: template_analyzer.dfy ===
/** `TemplateAnalyzer`: the code templates kept in the index are the first
    lines of the first file of each kind, and the common snippets the first
    hundred lines of the first two test and page-object files. Reading a
    file is the oracle `read`; `None` is a read that raised. */
module TemplateAnalyzer {
  import opened Wrappers
  import opened Seqs
  import opened PyStr
  import opened RepoModels

  const PageObjectLines := 500
  const TestLines := 300
  const FixtureLines := 200
  const SnippetLines := 100
  const SnippetFiles := 2

  /** `"\n".join(content.split("\n")[:n])`. */
  function FirstLines(content: string, n: nat): string {
    Join(PyTake(Split(content, '\n'), n), "\n")
  }

  /** The template is a prefix of the file. */
  lemma FirstLinesPrefix(content: string, n: nat)
    ensures StartsWith(content, FirstLines(content, n))
  {
    var parts := Split(content, '\n');
    JoinSplit(content, '\n');
    if 0 < n < |parts| {
      JoinConcat(parts[..n], parts[n..], "\n");
      assert parts[..n] + parts[n..] == parts;
    }
  }

  /** The template's lines are the file's first `n` lines. */
  lemma FirstLinesLines(content: string, n: nat)
    requires n > 0
    ensures Split(FirstLines(content, n), '\n') == PyTake(Split(content, '\n'), n)
    ensures |Split(FirstLines(content, n), '\n')| == Min(n, |Split(content, '\n')|)
  {
    var parts := Split(content, '\n');
    var kept := PyTake(parts, n);
    assert forall i :: 0 <= i < |kept| ==> kept[i] == parts[i];
    SplitJoin(kept, '\n');
  }

  /** A file no longer than the limit is kept whole. */
  lemma FirstLinesWhole(content: string, n: nat)
    requires |Split(content, '\n')| <= n
    ensures FirstLines(content, n) == content
  {
    JoinSplit(content, '\n');
  }

  /** `repo_path / file.path` for the relative paths the index holds. */
  function FullPath(root: Path, f: IndexedFile): Path {
    root + "/" + f.path
  }

  /** The template of a kind: the first `n` lines of the first file of
      that kind; `None` when there is none or reading it raised. */
  function TemplateOf(files: seq<IndexedFile>, t: FileType, root: Path, read: Path -> Option<string>, n: nat)
    : (r: Option<string>)
    requires n > 0
    ensures r.Some? <==> |OfType(files, t)| > 0 && read(FullPath(root, OfType(files, t)[0])).Some?
    ensures r.Some? ==> var content := read(FullPath(root, OfType(files, t)[0])).value;
      && StartsWith(content, r.value)
      && Split(r.value, '\n') == PyTake(Split(content, '\n'), n)
      && |Split(r.value, '\n')| == Min(n, |Split(content, '\n')|)
  {
    var candidates := OfType(files, t);
    if |candidates| == 0 then None
    else match read(FullPath(root, candidates[0]))
      case None => None
      case Some(content) =>
        FirstLinesPrefix(content, n);
        FirstLinesLines(content, n);
        Some(FirstLines(content, n))
  }

  /** The snippets of the given files, skipping the ones that cannot be read. */
  function Snippets(files: seq<IndexedFile>, root: Path, read: Path -> Option<string>): (r: seq<string>)
    ensures |r| <= |files|
    ensures (forall f :: f in files ==> read(FullPath(root, f)).Some?) ==> |r| == |files|
    ensures forall s :: s in r ==>
      exists f :: f in files && read(FullPath(root, f)).Some? && s == FirstLines(read(FullPath(root, f)).value, SnippetLines)
  {
    if |files| == 0 then []
    else
      var rest := Snippets(files[1..], root, read);
      assert forall f :: f in files[1..] ==> f in files;
      match read(FullPath(root, files[0]))
      case None => rest
      case Some(content) => [FirstLines(content, SnippetLines)] + rest
  }

  /** `s` is the snippet taken from some readable file of type `t`. */
  predicate SnippetOfType(s: string, files: seq<IndexedFile>, t: FileType, root: Path, read: Path -> Option<string>) {
    exists f :: f in files && f.fileType == t && read(FullPath(root, f)).Some?
      && s == FirstLines(read(FullPath(root, f)).value, SnippetLines)
  }

  /** `_extract_common_snippets`: up to two test files, then up to two page
      objects. The first `nt` snippets come from test files and the rest
      from page objects, where `nt`, at most two, counts the readable ones
      among the first two test files. */
  function CommonSnippets(files: seq<IndexedFile>, root: Path, read: Path -> Option<string>): (r: seq<string>)
    ensures |r| <= 2 * SnippetFiles
    ensures var nt := |Snippets(PyTake(OfType(files, Test), SnippetFiles), root, read)|;
      && nt <= SnippetFiles && nt <= |r|
      && (forall i :: 0 <= i < nt ==> SnippetOfType(r[i], files, Test, root, read))
      && (forall i :: nt <= i < |r| ==> SnippetOfType(r[i], files, PageObject, root, read))
  {
    var a := Snippets(PyTake(OfType(files, Test), SnippetFiles), root, read);
    var b := Snippets(PyTake(OfType(files, PageObject), SnippetFiles), root, read);
    SnippetsOfType(files, Test, root, read, a);
    SnippetsOfType(files, PageObject, root, read, b);
    AppendSnippets(a, b, files, root, read);
    a + b
  }

  lemma AppendSnippets(a: seq<string>, b: seq<string>, files: seq<IndexedFile>, root: Path, read: Path -> Option<string>)
    requires forall i :: 0 <= i < |a| ==> SnippetOfType(a[i], files, Test, root, read)
    requires forall i :: 0 <= i < |b| ==> SnippetOfType(b[i], files, PageObject, root, read)
    ensures forall i :: 0 <= i < |a| ==> SnippetOfType((a + b)[i], files, Test, root, read)
    ensures forall i :: |a| <= i < |a + b| ==> SnippetOfType((a + b)[i], files, PageObject, root, read)
  {
    forall i | 0 <= i < |a| ensures SnippetOfType((a + b)[i], files, Test, root, read) {
      assert (a + b)[i] == a[i];
    }
    forall i | |a| <= i < |a + b| ensures SnippetOfType((a + b)[i], files, PageObject, root, read) {
      assert (a + b)[i] == b[i - |a|];
    }
  }

  /** Each snippet of the first two files of a type comes from a readable
      file of that type. */
  lemma SnippetsOfType(files: seq<IndexedFile>, t: FileType, root: Path, read: Path -> Option<string>, r: seq<string>)
    requires r == Snippets(PyTake(OfType(files, t), SnippetFiles), root, read)
    ensures forall i :: 0 <= i < |r| ==> SnippetOfType(r[i], files, t, root, read)
  {
    var chosen := PyTake(OfType(files, t), SnippetFiles);
    OfTypeMembers(files, t);
    forall i | 0 <= i < |r| ensures SnippetOfType(r[i], files, t, root, read) {
      assert r[i] in r;
      var f :| f in chosen && read(FullPath(root, f)).Some? && r[i] == FirstLines(read(FullPath(root, f)).value, SnippetLines);
      assert f in OfType(files, t);
    }
  }

  /** With every file readable there are as many snippets as there are
      test files and page objects, two of each at most. */
  lemma CommonSnippetsCount(files: seq<IndexedFile>, root: Path, read: Path -> Option<string>)
    requires forall f :: f in files ==> read(FullPath(root, f)).Some?
    ensures |CommonSnippets(files, root, read)|
      == Min(SnippetFiles, |OfType(files, Test)|) + Min(SnippetFiles, |OfType(files, PageObject)|)
  {
    OfTypeMembers(files, Test);
    OfTypeMembers(files, PageObject);
    var tests := PyTake(OfType(files, Test), SnippetFiles);
    var pages := PyTake(OfType(files, PageObject), SnippetFiles);
    assert forall f :: f in tests ==> f in OfType(files, Test);
    assert forall f :: f in pages ==> f in OfType(files, PageObject);
  }

  /** `analyze_templates(index, repo_path)`: only the templates change. */
  function AnalyzeTemplates(index: RepositoryIndex, root: Path, read: Path -> Option<string>): (r: RepositoryIndex)
    ensures r.(templates := index.templates) == index
    ensures r.templates.pageObjectTemplate.Some? <==>
      |GetPageObjectFiles(index)| > 0 && read(FullPath(root, GetPageObjectFiles(index)[0])).Some?
    ensures r.templates.testTemplate.Some? <==>
      |GetTestFiles(index)| > 0 && read(FullPath(root, GetTestFiles(index)[0])).Some?
    ensures r.templates.fixtureTemplate.Some? <==>
      |OfType(index.files, Fixture)| > 0 && read(FullPath(root, OfType(index.files, Fixture)[0])).Some?
    ensures r.templates.pageObjectTemplate == TemplateOf(index.files, PageObject, root, read, PageObjectLines)
    ensures r.templates.testTemplate == TemplateOf(index.files, Test, root, read, TestLines)
    ensures r.templates.fixtureTemplate == TemplateOf(index.files, Fixture, root, read, FixtureLines)
    ensures r.templates.commonCodeSnippets == CommonSnippets(index.files, root, read)
    ensures |r.templates.commonCodeSnippets| <= 4
  {
    index.(templates := TemplateInfo(
      TemplateOf(index.files, PageObject, root, read, PageObjectLines),
      TemplateOf(index.files, Test, root, read, TestLines),
      TemplateOf(index.files, Fixture, root, read, FixtureLines),
      CommonSnippets(index.files, root, read)))
  }
}

=== FILE: test_models.dfy ===
/** The library's data models: test cases and their steps, LLM and
    generation settings, generated files, validation reports and the
    repository context. Optional fields are `Option`; pydantic's field
    validation is stated as explicit `Result`-returning constructors. */
module TestModels {
  import opened Wrappers
  import opened Seqs
  import opened PyStr

  datatype TestLayer = E2E | Integration | Unit

  /** The enum's value, which is also how a prompt renders the layer. */
  function LayerValue(l: TestLayer): string {
    match l
    case E2E => "E2E"
    case Integration => "INTEGRATION"
    case Unit => "UNIT"
  }

  datatype Severity = Blocker | Critical | Normal | Minor | Trivial

  datatype TestStep = TestStep(
    id: string,
    name: string,
    description: string,
    expectedResult: string,
    status: Option<string>,
    bugLink: Option<string>,
    skipReason: Option<string>,
    attachments: Option<string>)

  datatype TestCase = TestCase(
    id: string,
    name: string,
    description: Option<string>,
    preconditions: Option<string>,
    expectedResult: string,
    epic: Option<string>,
    feature: Option<string>,
    story: Option<string>,
    component: Option<string>,
    testLayer: TestLayer,
    severity: Severity,
    priority: string,
    environment: Option<string>,
    browser: Option<string>,
    tags: Option<string>,
    testType: string,
    owner: Option<string>,
    author: Option<string>,
    reviewer: Option<string>,
    testCaseId: Option<string>,
    issueLinks: Option<string>,
    testCaseLinks: Option<string>,
    steps: seq<TestStep>,
    createdAt: Option<int>,
    updatedAt: Option<int>)

  const EmptyStepsMessage := "Тест-кейс должен содержать хотя бы один шаг"

  /** The `steps` validator: an empty step list is rejected. */
  function ValidateSteps(steps: seq<TestStep>): (r: Result<seq<TestStep>, string>)
    ensures r.Ok? <==> |steps| > 0
    ensures r.Ok? ==> r.value == steps
    ensures r.Err? ==> r.error == EmptyStepsMessage
  {
    if |steps| == 0 then Err(EmptyStepsMessage) else Ok(steps)
  }

  /** Building a test case from its required fields: every optional field
      takes its declared default, and the step list is validated. */
  function NewTestCase(id: string, name: string, expectedResult: string, layer: TestLayer,
                       steps: seq<TestStep>): (r: Result<TestCase, string>)
    ensures r.Ok? <==> |steps| > 0
    ensures r.Ok? ==> r.value.id == id && r.value.name == name && r.value.steps == steps
    ensures r.Ok? ==> (r.value.severity == Normal && r.value.priority == "1"
      && r.value.browser == Some("chromium") && r.value.testType == "automated"
      && r.value.description == Some("") && r.value.tags == Some("") && r.value.testCaseId == None)
  {
    var checked :- ValidateSteps(steps);
    Ok(TestCase(id, name, Some(""), Some(""), expectedResult, Some(""), Some(""), Some(""), Some(""),
                layer, Normal, "1", Some(""), Some("chromium"), Some(""), "automated",
                Some(""), Some(""), Some(""), None, Some(""), Some(""), checked, None, None))
  }

  /** A part that is kept: something is left once it is stripped. */
  predicate NonBlank(t: string) {
    t != ""
  }

  /** Keeps the stripped, non-empty parts of a comma-separated list. */
  function NonEmptyStripped(parts: seq<string>): (r: seq<string>)
    ensures |r| <= |parts|
    ensures forall i :: 0 <= i < |r| ==> |r[i]| > 0
  {
    if |parts| == 0 then []
    else (if Strip(parts[0]) != "" then [Strip(parts[0])] else []) + NonEmptyStripped(parts[1..])
  }

  /** The kept parts are, in order, the strips of the parts with the blank
      ones filtered out: the list comprehension of `tags_list`. */
  lemma {:induction false} NonEmptyStrippedIsFilter(parts: seq<string>)
    ensures NonEmptyStripped(parts) == Filter(Map(parts, Strip), NonBlank)
  {
    if |parts| > 0 {
      NonEmptyStrippedIsFilter(parts[1..]);
      var m := Map(parts, Strip);
      assert m[0] == Strip(parts[0]);
      assert m[1..] == Map(parts[1..], Strip);
    }
  }

  /** `TestCase.tags_list`; a `None` tag field makes `.split` raise. */
  function TagsList(tags: Option<string>): (r: Result<seq<string>, string>)
    ensures r.Err? <==> tags.None?
    ensures r.Ok? ==> r.value == Filter(Map(Split(tags.value, ','), Strip), NonBlank)
  {
    match tags
    case None => Err("AttributeError")
    case Some(t) =>
      NonEmptyStrippedIsFilter(Split(t, ','));
      Ok(NonEmptyStripped(Split(t, ',')))
  }

  /** A well-formed tag: non-empty, already stripped, free of commas. */
  predicate IsTag(t: string) {
    |t| > 0 && Strip(t) == t && ',' !in t
  }

  /** Stripping a comma-free part gives either nothing or a tag. */
  lemma StripPartIsTag(p: string)
    requires ',' !in p
    ensures Strip(p) == "" || IsTag(Strip(p))
  {
    StripIdempotent(p);
    StripOmits(p, ',');
  }

  /** Every tag is non-empty, already stripped and free of commas. */
  lemma {:induction false} NonEmptyStrippedShape(parts: seq<string>)
    requires forall i :: 0 <= i < |parts| ==> ',' !in parts[i]
    ensures forall i :: 0 <= i < |NonEmptyStripped(parts)| ==> IsTag(NonEmptyStripped(parts)[i])
  {
    if |parts| > 0 {
      NonEmptyStrippedShape(parts[1..]);
      var rest := NonEmptyStripped(parts[1..]);
      var s := Strip(parts[0]);
      var head := if s != "" then [s] else [];
      assert NonEmptyStripped(parts) == head + rest;
      StripPartIsTag(parts[0]);
      AllConcat(head, rest, IsTag);
    }
  }

  /** `tags_list` yields well-formed tags, no more than there are
      comma-separated parts; a tag is there exactly when it is the strip of
      a non-blank part. */
  lemma TagsListShape(t: string)
    ensures TagsList(Some(t)).Ok?
    ensures |TagsList(Some(t)).value| <= |Split(t, ',')|
    ensures forall i :: 0 <= i < |TagsList(Some(t)).value| ==> IsTag(TagsList(Some(t)).value[i])
    ensures forall x :: x in TagsList(Some(t)).value ==> x != "" && x in Map(Split(t, ','), Strip)
    ensures forall x :: x in Map(Split(t, ','), Strip) && x != "" ==> x in TagsList(Some(t)).value
  {
    NonEmptyStrippedShape(Split(t, ','));
    FilterMembers(Map(Split(t, ','), Strip), NonBlank);
  }

  /** Well-formed tags joined by commas are read back as the same list. */
  lemma TagsRoundTrip(tags: seq<string>)
    requires forall i :: 0 <= i < |tags| ==> IsTag(tags[i])
    ensures TagsList(Some(Join(tags, ","))) == Ok(tags)
  {
    if |tags| == 0 {
      SplitNoSeparator("", ',');
      assert NonEmptyStripped([""]) == [];
    } else {
      SplitJoin(tags, ',');
      assert Join(tags, ",") == Join(tags, [',']);
      NonEmptyStrippedTags(tags);
    }
  }

  /** Non-blank texts that are already stripped are kept as they are, one
      for one. */
  lemma {:induction false} NonEmptyStrippedTags(tags: seq<string>)
    requires forall i :: 0 <= i < |tags| ==> tags[i] != "" && Strip(tags[i]) == tags[i]
    ensures NonEmptyStripped(tags) == tags
  {
    if |tags| > 0 {
      var rest := tags[1..];
      assert forall i :: 0 <= i < |rest| ==> rest[i] == tags[i + 1];
      NonEmptyStrippedTags(rest);
      KeptHead(tags, tags[0]);
      assert tags == [tags[0]] + rest;
    }
  }

  lemma KeptHead(parts: seq<string>, t: string)
    requires |parts| > 0 && parts[0] == t && t != "" && Strip(t) == t
    ensures NonEmptyStripped(parts) == [t] + NonEmptyStripped(parts[1..])
  {
  }

  // ---------------------------------------------------------------- generation settings

  datatype CodeStyle = Standard | Compact | Verbose

  datatype QualityLevel = Fast | Balanced | High

  datatype LLMConfig = LLMConfig(
    provider: string,
    model: string,
    maxTokens: int,
    timeout: int,
    maxRetries: int,
    url: Option<string>)

  /** The integer bounds declared on the LLM settings. */
  predicate LLMBoundsHold(c: LLMConfig) {
    100 <= c.maxTokens <= 32000 && c.timeout >= 10 && 0 <= c.maxRetries <= 10
  }

  /** Pydantic's check of the integer fields: every violated field is
      reported, in declaration order. */
  function ValidateLLMConfig(c: LLMConfig): (r: Result<LLMConfig, seq<string>>)
    ensures r.Ok? <==> LLMBoundsHold(c)
    ensures r.Ok? ==> r.value == c
    ensures r.Err? ==> (|r.error| > 0 &&
      ("max_tokens" in r.error <==> !(100 <= c.maxTokens <= 32000)) &&
      ("timeout" in r.error <==> c.timeout < 10) &&
      ("max_retries" in r.error <==> !(0 <= c.maxRetries <= 10)))
  {
    var bad := (if 100 <= c.maxTokens <= 32000 then [] else ["max_tokens"])
      + (if c.timeout >= 10 then [] else ["timeout"])
      + (if 0 <= c.maxRetries <= 10 then [] else ["max_retries"]);
    if |bad| == 0 then Ok(c) else Err(bad)
  }

  const DefaultLLMConfig := LLMConfig("ollama", "codellama:13b", 4000, 300, 3, None)

  lemma DefaultLLMConfigValid()
    ensures ValidateLLMConfig(DefaultLLMConfig) == Ok(DefaultLLMConfig)
  {
  }

  datatype GenerationConfig = GenerationConfig(
    qualityLevel: QualityLevel,
    codeStyle: CodeStyle,
    includeComments: bool,
    detailLevel: string,
    llm: LLMConfig,
    validateCode: bool,
    formatCode: bool,
    formatStyle: Option<string>,
    overwriteExisting: bool,
    generatePageObjects: bool,
    generateFixtures: bool,
    useCdp: bool,
    customPrompts: Option<map<string, string>>)

  const DefaultGenerationConfig := GenerationConfig(
    Balanced, Standard, true, "medium", DefaultLLMConfig, true, true, Some("black"),
    false, true, true, false, None)

  // ---------------------------------------------------------------- results

  datatype GeneratedFile = GeneratedFile(path: string, content: string, fileType: string, sizeBytes: int)

  datatype LLMRequest = LLMRequest(prompt: string, model: string, tokensUsed: Option<int>, retryCount: int)

  /** `GenerationResult.total_tokens_used`: a request with no count adds 0. */
  function TotalTokens(reqs: seq<LLMRequest>): (n: int)
    ensures (forall i :: 0 <= i < |reqs| ==> reqs[i].tokensUsed.None?) ==> n == 0
    ensures (forall i :: 0 <= i < |reqs| ==> reqs[i].tokensUsed.GetOr(0) >= 0) ==> n >= 0
  {
    if |reqs| == 0 then 0 else reqs[0].tokensUsed.GetOr(0) + TotalTokens(reqs[1..])
  }

  /** The total over a concatenation is the sum of the totals. */
  lemma {:induction false} TotalTokensConcat(a: seq<LLMRequest>, b: seq<LLMRequest>)
    ensures TotalTokens(a + b) == TotalTokens(a) + TotalTokens(b)
  {
    if |a| == 0 {
      assert a + b == b;
    } else {
      assert (a + b)[1..] == a[1..] + b;
      TotalTokensConcat(a[1..], b);
    }
  }

  datatype ValidationIssue = ValidationIssue(level: string, message: string, file: Option<string>)

  datatype ValidationReport = ValidationReport(
    valid: bool,
    issues: seq<ValidationIssue>,
    errors: seq<ValidationIssue>,
    warnings: seq<ValidationIssue>,
    info: seq<ValidationIssue>,
    syntaxValid: bool,
    importsValid: bool,
    structureValid: bool)

  // ---------------------------------------------------------------- repository context

  datatype RepositoryContext = RepositoryContext(
    repositoryUrl: Option<string>,
    repositoryPath: Option<string>,
    repositoryType: string,
    gitlabUrl: Option<string>,
    projectPath: Option<string>,
    authType: Option<string>,
    authToken: Option<string>,
    sshKeyPath: Option<string>,
    indexPath: Option<string>,
    autoIndex: bool,
    includePatterns: Option<seq<string>>,
    excludePatterns: Option<seq<string>>,
    branch: Option<string>,
    commit: Option<string>)

  const DefaultRepositoryContext := RepositoryContext(
    None, None, "gitlab", None, None, None, None, None, None, false, None, None, None, None)
}

=== FILE: tree.dfy ===
/** The JSON/YAML-like values the library keeps in dictionaries: the
    parsed configuration file and the dictionary form of the index. */
module Tree {
  import opened Wrappers
  import opened Seqs

  datatype Value =
    | Null
    | Bool(b: bool)
    | Int(i: int)
    | Str(s: string)
    | PathV(p: string)
    | DateTimeV(t: int)
    | List(items: seq<Value>)
    | Dict(entries: seq<Entry>)

  /** One key-value pair of a dictionary. */
  datatype Entry = Entry(key: string, value: Value)

  function Key(e: Entry): string {
    e.key
  }

  /** `d.get(k)` on a dictionary's entries (keys are distinct). */
  function Lookup(entries: seq<Entry>, k: string): (r: Option<Value>)
    ensures r.None? <==> k !in Map(entries, Key)
    ensures r.Some? ==> exists i :: 0 <= i < |entries| && entries[i] == Entry(k, r.value)
  {
    if |entries| == 0 then None
    else if entries[0].key == k then Some(entries[0].value)
    else
      var r := Lookup(entries[1..], k);
      assert Map(entries, Key) == [entries[0].key] + Map(entries[1..], Key);
      assert forall i :: 0 <= i < |entries| - 1 ==> entries[1..][i] == entries[i + 1];
      r
  }

  /** `d.get(k, default)`. */
  function GetOr(entries: seq<Entry>, k: string, default: Value): (r: Value)
    ensures k !in Map(entries, Key) ==> r == default
    ensures Lookup(entries, k).Some? ==> r == Lookup(entries, k).value
    ensures k in Map(entries, Key) ==> exists i :: 0 <= i < |entries| && entries[i] == Entry(k, r)
  {
    match Lookup(entries, k)
    case Some(v) => v
    case None => default
  }

  /** Python's truth value of a parsed value. */
  predicate Truthy(v: Value) {
    match v
    case Null => false
    case Bool(b) => b
    case Int(i) => i != 0
    case Str(s) => s != ""
    case List(items) => |items| > 0
    case Dict(entries) => |entries| > 0
    case _ => true
  }
}

=== FILE: validator.dfy ===
/** `TestCaseValidator.validate`: the required-field checks on a test case
    and its steps, and the message of the `ValidationError` it raises. */
module Validator {
  import opened Wrappers
  import opened Seqs
  import opened PyStr
  import opened TestModels

  const Header := "Ошибки валидации тест-кейса:"
  const MissingId := "ID тест-кейса обязателен"
  const MissingName := "Название тест-кейса обязательно"
  const MissingExpected := "Ожидаемый результат обязателен"
  const MissingSteps := "Тест-кейс должен содержать хотя бы один шаг"

  datatype StepField = StepId | StepName | StepDescription

  /** `f"Шаг {i}: ..."` for the step numbered `i` (counting from 1). */
  function StepMessage(i: nat, f: StepField): string {
    "Шаг " + NatToString(i) + ": " + FieldMessage(f)
  }

  function FieldMessage(f: StepField): string {
    match f
    case StepId => "ID шага обязателен"
    case StepName => "Название шага обязательно"
    case StepDescription => "Описание шага обязательно"
  }

  lemma StepMessageSingleLine(i: nat, f: StepField)
    ensures '\n' !in StepMessage(i, f)
  {
    var n := NatToString(i);
    assert forall c :: c in n ==> IsDigit(c);
    assert '\n' !in FieldMessage(f);
    assert '\n' !in "Шаг " && '\n' !in ": ";
  }

  /** The failures of one step, in check order. */
  function StepErrorsOf(s: TestStep, i: nat): seq<string> {
    (if s.id == "" then [StepMessage(i, StepId)] else [])
    + (if s.name == "" then [StepMessage(i, StepName)] else [])
    + (if s.description == "" then [StepMessage(i, StepDescription)] else [])
  }

  /** The failures of `steps`, the first of which is numbered `i`. */
  function StepErrors(steps: seq<TestStep>, i: nat): (r: seq<string>)
    ensures |r| <= 3 * |steps|
  {
    if |steps| == 0 then [] else StepErrorsOf(steps[0], i) + StepErrors(steps[1..], i + 1)
  }

  /** Every failure, in the order the checks run. */
  function Errors(tc: TestCase): (r: seq<string>)
    ensures |r| <= 4 + 3 * |tc.steps|
    ensures tc.id == "" ==> |r| > 0 && r[0] == MissingId
    ensures |tc.steps| == 0 ==> MissingSteps in r
  {
    (if tc.id == "" then [MissingId] else [])
    + (if tc.name == "" then [MissingName] else [])
    + (if tc.expectedResult == "" then [MissingExpected] else [])
    + (if |tc.steps| == 0 then [MissingSteps] else [])
    + StepErrors(tc.steps, 1)
  }

  /** A step that passes: id, name and description all present. */
  predicate StepComplete(s: TestStep) {
    s.id != "" && s.name != "" && s.description != ""
  }

  /** A test case that passes every check. */
  predicate Complete(tc: TestCase) {
    tc.id != "" && tc.name != "" && tc.expectedResult != "" && |tc.steps| > 0
    && forall k :: 0 <= k < |tc.steps| ==> StepComplete(tc.steps[k])
  }

  function Bullet(e: string): string {
    "  - " + e
  }

  /** `validate`: returns normally, or raises `ValidationError` whose message
      is the header line followed by one bulleted line per failure. */
  function Validate(tc: TestCase): (r: Result<(), string>)
    ensures r.Ok? <==> Complete(tc)
    ensures r.Err? ==> r.error == Join([Header] + Map(Errors(tc), Bullet), "\n")
  {
    ErrorsEmpty(tc);
    var errors := Errors(tc);
    if |errors| == 0 then Ok(())
    else
      var bullets := Map(errors, Bullet);
      JoinConcat([Header], bullets, "\n");
      Err(Header + "\n" + Join(bullets, "\n"))
  }

  /** A step list yields no failure exactly when every step is complete. */
  lemma {:induction false} StepErrorsEmpty(steps: seq<TestStep>, i: nat)
    ensures StepErrors(steps, i) == [] <==> forall k :: 0 <= k < |steps| ==> StepComplete(steps[k])
  {
    if |steps| > 0 {
      StepErrorsEmpty(steps[1..], i + 1);
      assert forall k :: 1 <= k < |steps| ==> steps[k] == steps[1..][k - 1];
    }
  }

  lemma ErrorsEmpty(tc: TestCase)
    ensures Errors(tc) == [] <==> Complete(tc)
  {
    StepErrorsEmpty(tc.steps, 1);
  }

  /** A step with a missing field is reported under its own number. */
  lemma {:induction false} StepFailureReported(steps: seq<TestStep>, i: nat, k: nat, f: StepField)
    requires k < |steps|
    requires match f
      case StepId => steps[k].id == ""
      case StepName => steps[k].name == ""
      case StepDescription => steps[k].description == ""
    ensures StepMessage(i + k, f) in StepErrors(steps, i)
  {
    if k == 0 {
      assert StepMessage(i, f) in StepErrorsOf(steps[0], i);
    } else {
      StepFailureReported(steps[1..], i + 1, k - 1, f);
    }
  }

  /** The field a step's message names is the field that is missing: a
      step's failures are reported exactly for its empty fields. */
  lemma StepErrorsOfExact(s: TestStep, i: nat, f: StepField)
    ensures StepMessage(i, f) in StepErrorsOf(s, i) <==>
      match f
      case StepId => s.id == ""
      case StepName => s.name == ""
      case StepDescription => s.description == ""
  {
    var p := "Шаг " + NatToString(i) + ": ";
    assert StepMessage(i, StepId) == p + "ID шага обязателен";
    assert StepMessage(i, StepName) == p + "Название шага обязательно";
    assert StepMessage(i, StepDescription) == p + "Описание шага обязательно";
    assert StepMessage(i, StepId)[|p|] == 'I';
    assert StepMessage(i, StepName)[|p|] == 'Н';
    assert StepMessage(i, StepDescription)[|p|] == 'О';
  }

  /** The step's expected result is never checked: two step lists that agree
      on id, name and description produce the same failures. */
  lemma {:induction false} StepErrorsIgnoreExpected(a: seq<TestStep>, b: seq<TestStep>, i: nat)
    requires |a| == |b|
    requires forall k :: 0 <= k < |a| ==>
      a[k].id == b[k].id && a[k].name == b[k].name && a[k].description == b[k].description
    ensures StepErrors(a, i) == StepErrors(b, i)
  {
    if |a| > 0 {
      StepErrorsIgnoreExpected(a[1..], b[1..], i + 1);
    }
  }

  /** Changing only a step's expected result does not change the verdict. */
  lemma ValidateIgnoresStepExpected(tc: TestCase, k: nat, e: string)
    requires k < |tc.steps|
    ensures Validate(tc.(steps := tc.steps[k := tc.steps[k].(expectedResult := e)])) == Validate(tc)
  {
    var tc' := tc.(steps := tc.steps[k := tc.steps[k].(expectedResult := e)]);
    StepErrorsIgnoreExpected(tc.steps, tc'.steps, 1);
    assert Errors(tc') == Errors(tc);
  }

  /** No failure text contains a line break. */
  lemma {:induction false} StepErrorsSingleLine(steps: seq<TestStep>, i: nat)
    ensures forall e :: e in StepErrors(steps, i) ==> '\n' !in e
  {
    if |steps| > 0 {
      StepErrorsSingleLine(steps[1..], i + 1);
      forall f: StepField ensures '\n' !in StepMessage(i, f) {
        StepMessageSingleLine(i, f);
      }
    }
  }

  /** No failure text contains a line break. */
  lemma ErrorsSingleLine(tc: TestCase)
    ensures forall e :: e in Errors(tc) ==> '\n' !in e
  {
    StepErrorsSingleLine(tc.steps, 1);
    CaseMessagesSingleLine();
    var head := (if tc.id == "" then [MissingId] else [])
      + (if tc.name == "" then [MissingName] else [])
      + (if tc.expectedResult == "" then [MissingExpected] else [])
      + (if |tc.steps| == 0 then [MissingSteps] else []);
    assert Errors(tc) == head + StepErrors(tc.steps, 1);
    assert forall e :: e in head ==> e in [MissingId, MissingName, MissingExpected, MissingSteps];
  }

  lemma CaseMessagesSingleLine()
    ensures forall e :: e in [MissingId, MissingName, MissingExpected, MissingSteps] ==> '\n' !in e
  {
    NamesSingleLine();
    ResultAndStepsSingleLine();
  }

  lemma NamesSingleLine()
    ensures '\n' !in MissingId && '\n' !in MissingName
  {
  }

  lemma ResultAndStepsSingleLine()
    ensures '\n' !in MissingExpected && '\n' !in MissingSteps
  {
  }

  /** The raised message splits into the header and one line per failure,
      in check order. */
  lemma MessageLines(tc: TestCase)
    requires !Complete(tc)
    ensures Split(Validate(tc).error, '\n') == [Header] + Map(Errors(tc), Bullet)
  {
    var errors := Errors(tc);
    ErrorsSingleLine(tc);
    BulletsSingleLine(errors);
    HeaderSingleLine();
    var parts := [Header] + Map(errors, Bullet);
    AllConcat([Header], Map(errors, Bullet), (x: string) => '\n' !in x);
    SplitJoin(parts, '\n');
  }

  lemma HeaderSingleLine()
    ensures '\n' !in Header
  {
  }

  /** Bullets of one-line failures are one line each. */
  lemma BulletsSingleLine(errors: seq<string>)
    requires forall e :: e in errors ==> '\n' !in e
    ensures forall j :: 0 <= j < |Map(errors, Bullet)| ==> '\n' !in Map(errors, Bullet)[j]
  {
    forall j | 0 <= j < |errors| ensures '\n' !in Map(errors, Bullet)[j] {
      var e := errors[j];
      assert e in errors;
      assert Map(errors, Bullet)[j] == "  - " + e;
    }
  }
}

=== FILE: wrappers.dfy ===
/** Failure-carrying values shared by every module of the model.
    `Option` stands for Python's `Optional[...]` (`None` or a value);
    `Result` stands for "returns a value or raises". */
module Wrappers {

  datatype Option<+T> = None | Some(value: T) {

    /** The value, or `default` when absent (Python's `x if x is not None else default`). */
    function GetOr(default: T): T {
      match this
      case Some(v) => v
      case None => default
    }
  }

  datatype Result<+T, +E> = Ok(value: T) | Err(error: E) {

    predicate IsFailure() {
      Err?
    }

    function PropagateFailure<U>(): Result<U, E>
      requires Err?
    {
      Err(error)
    }

    function Extract(): T
      requires Ok?
    {
      value
    }
  }
}
